=== FILE: README.md ===
# cryogrid-data-fetcher in Dafny

A Dafny model of the core logic of `cryogrid-data-fetcher`. This is a Python
package that prepares input data for the CryoGrid permafrost model: a
stratigraphy classification of the land surface, ERA5 forcing requests and
their storage paths, a MATLAB export of the forcing, readers for CryoGrid's
logs and MATLAB output, and snow-melt days from Sentinel-2 scene
classifications.

Each module follows one source file or component:

- `Stratigraphy` (`stratigraphy/make_strat.py`) covers the six-rule class table and the first-match fill. The fill is a loop with an "already classified" invariant, proved equal to a functional reference. The module also models both validators and the legend, and the bin-edge helper.
- `Raster` (`utils/shp_helper.py`) covers polygon masks, the max-merge of integer rasters, and the preconditions of the vectorisers. The rasteriser is a function parameter.
- `Geology` (`stratigraphy/geology.py`) covers the rock-type numbering, the merged geology raster, and the USSR lookup tables.
- `S3Path` covers the S3 path validator (`scripts/utils/s3_helpers.py`).
- `Formatting` covers the missing-key-tolerant format strings and the two-pass nested resolver. It follows `utils/helpers.py`; `scripts/utils/dict_helpers.py` is an identical copy.
- `PyRepr` covers Python's repr() of a string. str() of a list or a dictionary writes each string inside it this way, and such text can end up in a formatted file name.
- `ConfigChecks` covers the required-key checks and `make_bbox_str` of `scripts/config/loader.py`. `scripts/data_config_loader.py` holds the same logic.
- `CdsRequests` covers the ERA5 CDS request builders (`scripts/era5/from_cds.py`).
- `Weatherbench` covers the month batches, S3 paths and URL lists of both `from_weatherbench.py` copies.
- `CryoGridLog` covers the run-log state machine and the grid-cell forward fill.
- `YamlTemplate` covers the schema-to-template line rewriter and the quote helper.
- `WfsBbox` covers the argument checks of `read_wfs`.
- `MatlabExport` covers the MATLAB datenum and the unit conversion and integer packing of the ERA5 forcing.
- `CryoGridMat` covers `read_cryogrid_mat.py`: the day decomposition, the datenum read-back, the centroid index, the run-info labels, the stratigraphy labels and the extent.
- `Series`, `SnowS2msi` and `SnowStac` cover the time-series selection rules of the two snow-melt modules.
- `Wrappers`, `Text`, `Dates`, `Sequences`, `Grids` and `Reals` are shared models of what the code takes from Python, numpy and pandas:
  - `Option`/`Result` for raised exceptions;
  - `str.split`, `strip`, `lower` and `int()` on a string, with `_` between digit groups;
  - the proleptic Gregorian calendar;
  - `unique` and sorted unique values;
  - rectangular grids;
  - truncation toward zero.

A raised exception is an `Err` value naming the check that fails. NaN is
`None`. Strings are `seq<char>`.

## Model

| member | source | states |
|---|---|---|
| Reals.Truncate | cryogrid_data_fetcher/cryogrid/read_cryogrid_mat.py:6 | `int()` on a float truncates toward zero: the result is within one of x, on the side of zero |
| Reals.TruncateInt | cryogrid_data_fetcher/cryogrid/read_cryogrid_mat.py:6 | an integral value is its own truncation |
| Text.Split | cryogrid_data_fetcher/utils/yml_helpers.py:60 | `split` gives at least one part and no part holds the separator |
| Text.JoinSplit | cryogrid_data_fetcher/utils/yml_helpers.py:60-73 | joining the parts of a split with the separator gives the text back |
| Text.SplitJoin | cryogrid_data_fetcher/cryogrid/read_cryogrid_mat.py:91 | splitting parts joined by a separator they do not hold gives the parts back |
| Text.IntToStringRoundTrip | cryogrid_data_fetcher/cryogrid/read_cryogrid_mat.py:91 | `int()` reads back the decimal form of any integer |
| Text.ZeroPadRoundTrip | cryogrid_data_fetcher/era5/from_weatherbench.py:25-30 | a zero-padded number reads back as itself |
| Text.GroupedPair | scripts/era5/from_cds.py:244 | `int()` of two digit runs joined by one underscore is the number of the digits run together |
| Text.GroupedExample | scripts/era5/from_cds.py:244 | `int("2_020")` is 2020 |
| Text.UngroupedExamples | scripts/era5/from_cds.py:244 | `int()` refuses a doubled, leading or trailing underscore |
| Text.Strip | cryogrid_data_fetcher/cryogrid/read_cryogrid_log.py:41 | `strip` never lengthens and leaves no whitespace at either end |
| Text.Lower | cryogrid_data_fetcher/cryogrid/read_cryogrid_log.py:41 | `lower` maps A-Z to a-z and keeps every other character |
| Text.SplitOnce | cryogrid_data_fetcher/era5/from_weatherbench.py:128 | a split at the first separator puts the text back together, and finds none iff there is none |
| Dates.NextDay | cryogrid_data_fetcher/era5/from_weatherbench.py:66 | the day after a valid date is valid |
| Dates.OrdinalMonotone | cryogrid_data_fetcher/era5/from_weatherbench.py:66 | day numbers order dates as the calendar does and tell them apart |
| Dates.DaysFromExactlyCovers | cryogrid_data_fetcher/era5/from_weatherbench.py:66 | a run of n days holds exactly the dates with day numbers from the first on, n of them |
| Dates.DaysBetweenMembers | cryogrid_data_fetcher/era5/from_weatherbench.py:66 | `date_range(t0, t1, freq='1D', inclusive='left')` holds exactly the dates from t0 up to but not including t1 |
| Sequences.SortedUnique | cryogrid_data_fetcher/utils/shp_helper.py:257 | `np.sort(np.unique(..))` is strictly increasing with exactly the elements of its input |
| Sequences.SortedUniqueIsCanonical | cryogrid_data_fetcher/utils/shp_helper.py:257 | two strictly sorted sequences with the same elements are equal, so the sorted unique values are determined by the input |
| Sequences.Unique | cryogrid_data_fetcher/stratigraphy/geology.py:19 | `unique()` has no repeats and exactly the elements of its input |
| Sequences.UniqueFirstAppearance | cryogrid_data_fetcher/stratigraphy/geology.py:19 | `unique()` keeps the order of first appearance |
| Sequences.SortedStrings | cryogrid_data_fetcher/utils/shp_helper.py:173-175 | the group keys of a dissolve: strictly increasing, exactly the values of the column |
| Stratigraphy.MakeRules | cryogrid_data_fetcher/stratigraphy/make_strat.py:150-190 | six rules named excluded, glaciers, bedrock, bare_soil, vegetation, lichen_moss with codes 1..6 in table order, all masks on the land-cover grid; each mask is the land-cover group, the glacier mask, or bare ground split by the slope threshold, which may be any real number |
| Stratigraphy.ValueGroupsDisjoint | cryogrid_data_fetcher/stratigraphy/make_strat.py:150-153 | the four land-cover value groups are pairwise disjoint |
| Stratigraphy.BedrockBareSoilExclusive | cryogrid_data_fetcher/stratigraphy/make_strat.py:171-176 | a bare-ground pixel with a defined slope is in exactly one of bedrock and bare soil; with an undefined (NaN) slope it is in neither |
| Stratigraphy.CheckStratigraphyClasses | cryogrid_data_fetcher/stratigraphy/make_strat.py:244-256 | passes iff every class holds 2-D boolean data shaped like 'excluded', a string description and colour, and an int value > 0; a failure is the first failing assertion of the first class, in table order, that fails |
| Stratigraphy.CheckFromSpec | cryogrid_data_fetcher/stratigraphy/make_strat.py:244-256 | the per-class loop from any position: passes iff every remaining class is well formed, and fails with the error of the first remaining class that is not |
| Stratigraphy.BuiltTablePassesClassCheck | cryogrid_data_fetcher/stratigraphy/make_strat.py:159-194 | the rule table the classifier builds always passes its own class validator |
| Stratigraphy.CheckStratigraphyMasks | cryogrid_data_fetcher/stratigraphy/make_strat.py:282-296 | as written: passes iff the stack is 3-D [class, y, x] boolean, SOME pixel is covered by a number of masks other than one, and SOME pixel is covered at all; each structural error is reported first |
| Stratigraphy.AsWrittenRejectsExactPartition | cryogrid_data_fetcher/stratigraphy/make_strat.py:289-296 | as written, a well-formed stack in which every pixel is covered exactly once is rejected as overlapping |
| Stratigraphy.AsWrittenAcceptsOverlap | cryogrid_data_fetcher/stratigraphy/make_strat.py:289-296 | as written, two masks overlapping on the only pixel pass the check |
| Stratigraphy.CheckStratigraphyMasksIntended | cryogrid_data_fetcher/stratigraphy/make_strat.py:265-269 | as documented: passes iff well formed and an exact partition; overlap is reported before gaps |
| Stratigraphy.FirstMatchSpec | cryogrid_data_fetcher/stratigraphy/make_strat.py:198-204 | the reference first-match: unset iff no rule claims the pixel, otherwise the code of the first claiming rule, and no earlier rule claims it |
| Stratigraphy.FirstMatchExtend | cryogrid_data_fetcher/stratigraphy/make_strat.py:202-204 | one more rule changes only pixels that no earlier rule claimed |
| Stratigraphy.NeverOverwritten | cryogrid_data_fetcher/stratigraphy/make_strat.py:202-204 | a pixel that holds a code after k rules holds the same code after any later rule |
| Stratigraphy.Fill | cryogrid_data_fetcher/stratigraphy/make_strat.py:196-204 | the progressive fill loop yields, at every pixel, the first-match code, and leaves unset exactly the pixels no rule claims |
| Stratigraphy.FillMatchesClassified | cryogrid_data_fetcher/stratigraphy/make_strat.py:196-204 | the functional classified grid agrees with first-match at every pixel |
| Stratigraphy.PartitionGivesUniqueCode | cryogrid_data_fetcher/stratigraphy/make_strat.py:198-204 | when exactly one rule with a positive code covers a pixel, that pixel gets that rule's code |
| Stratigraphy.Legend | cryogrid_data_fetcher/stratigraphy/make_strat.py:209-221 | class_values, class_descriptions and class_colors have one entry per rule, in rule order, next to the first-match raster |
| Stratigraphy.MakeStratigraphyClasses | cryogrid_data_fetcher/stratigraphy/make_strat.py:192-221 | as written: succeeds iff the mask check (as written) and the class check pass; the raster is first-match and class_values lists the codes in rule order |
| Stratigraphy.AsWrittenKeepsGaps | cryogrid_data_fetcher/stratigraphy/make_strat.py:196-212 | on a 1×2 scene with one unclaimed pixel the pipeline succeeds and leaves that pixel unset (NaN) |
| Stratigraphy.FindClass | cryogrid_data_fetcher/stratigraphy/make_strat.py:247 | `classes['excluded']`: the entry with that name, or none when no entry has it |
| Stratigraphy.Coverage | cryogrid_data_fetcher/stratigraphy/make_strat.py:289 | `mask.sum(dim='class')` at a pixel: at most the number of masks, 0 iff no mask is true there |
| Stratigraphy.Classified | cryogrid_data_fetcher/stratigraphy/make_strat.py:196-204 | the classified grid has the shape of the masks |
| Stratigraphy.GapScene | cryogrid_data_fetcher/stratigraphy/make_strat.py:150-190 | a 1×2 scene with land-cover 0 next to cropland: six rules with codes 1..6, none claiming the first pixel and the first rule claiming the second |
| Stratigraphy.GapSceneMasks | cryogrid_data_fetcher/stratigraphy/make_strat.py:282-296 | as written, the mask check passes on that scene although one pixel is unclassified |
| Stratigraphy.GapSceneClasses | cryogrid_data_fetcher/stratigraphy/make_strat.py:244-256 | the class check passes on that scene |
| Stratigraphy.MakeStratigraphyClassesIntended | cryogrid_data_fetcher/stratigraphy/make_strat.py:192-212 | with the documented mask check: succeeds iff the masks form an exact partition (and the class check passes), and then every pixel holds the code of a rule covering it |
| Stratigraphy.LegendCodes | cryogrid_data_fetcher/stratigraphy/make_strat.py:198-212 | under an exact partition and a passing class check every pixel of the raster is coded by a covering rule |
| Stratigraphy.ExactlyOneLayer | cryogrid_data_fetcher/stratigraphy/make_strat.py:198-204 | under an exact partition each pixel's first-match code is the code of the one covering rule |
| Stratigraphy.Classify | cryogrid_data_fetcher/stratigraphy/make_strat.py:116-225 | end to end with the documented mask check: succeeds iff the six built masks are an exact partition |
| Stratigraphy.BinEdges | cryogrid_data_fetcher/stratigraphy/make_strat.py:48-51 | fails for fewer than two centres, with the convolution's ValueError for none and the IndexError for one; otherwise n+1 edges, inner edges the midpoints of neighbours, outer edges half the first/last gap outside |
| Stratigraphy.BinEdgesSeparateCenters | cryogrid_data_fetcher/stratigraphy/make_strat.py:31-52 | for strictly increasing centres the edges are strictly increasing and each centre lies strictly between its two edges |
| Stratigraphy.BinAround | cryogrid_data_fetcher/stratigraphy/make_strat.py:35-36 | each centre lies strictly inside its own bin |
| Raster.PolygonToRasterBool | cryogrid_data_fetcher/utils/shp_helper.py:126-141 | fails with ValueError iff the target lacks an 'x' or a 'y' dimension; otherwise a (len y, len x) boolean mask true exactly where the rasteriser says the shape covers the cell |
| Raster.ColumnValues | cryogrid_data_fetcher/utils/shp_helper.py:173-175 | one value per row, in row order, read from the named column |
| Raster.GeometriesWhere | cryogrid_data_fetcher/utils/shp_helper.py:175 | the geometries of exactly the rows whose column holds the key |
| Raster.Dissolve | cryogrid_data_fetcher/utils/shp_helper.py:175 | one group per distinct value of the column, never more groups than rows |
| Raster.DissolveGroups | cryogrid_data_fetcher/utils/shp_helper.py:175 | the group keys are the distinct column values in strictly increasing order, and every row's geometry lies in the group of its own value |
| Raster.CodeLayer | cryogrid_data_fetcher/utils/shp_helper.py:178 | the boolean mask times the code: the code where the mask holds, 0 elsewhere |
| Raster.MaxOver | cryogrid_data_fetcher/utils/shp_helper.py:188-192 | the max over the layers at a pixel is attained by some layer and bounds all of them |
| Raster.MaxMerge | cryogrid_data_fetcher/utils/shp_helper.py:188-192 | the merged raster holds the per-pixel max over all layers |
| Raster.MaxMergeOrderIndependent | cryogrid_data_fetcher/utils/shp_helper.py:185-192 | any permutation of the layers (the order parallel tasks finish in) gives the same merged raster |
| Raster.LastCovering | cryogrid_data_fetcher/utils/shp_helper.py:178-192 | reference definition: 0 iff no shape covers the pixel, otherwise the 1-based position of the last covering shape |
| Raster.LabelLayers | cryogrid_data_fetcher/utils/shp_helper.py:178-179 | one layer per shape, holding its index label + 1 where the shape covers the pixel and 0 elsewhere |
| Raster.RangeIndex | cryogrid_data_fetcher/utils/shp_helper.py:174 | the labels of a fresh index count 0, 1, .. in order |
| Raster.CodeLayers | cryogrid_data_fetcher/stratigraphy/geology.py:20-23 | over a fresh index, shape k holds k + 1 where it covers the pixel and 0 elsewhere |
| Raster.MaxCoveringLabel | cryogrid_data_fetcher/utils/shp_helper.py:178-192 | reference definition: none iff no shape covers the pixel, otherwise the label of a covering shape that no covering shape exceeds |
| Raster.MaxOverCodes | cryogrid_data_fetcher/utils/shp_helper.py:178-192 | over the code layers the max at a pixel is the position of the last covering shape |
| Raster.MaxOfLabels | cryogrid_data_fetcher/utils/shp_helper.py:188-192 | the max over label layers at a pixel is the largest covering label + 1, and 0 where nothing covers it |
| Raster.RangeIndexLastCovering | cryogrid_data_fetcher/utils/shp_helper.py:174-179 | over a fresh index the largest covering label + 1 is the position of the last covering shape |
| Raster.PolygonsToRasterInt | cryogrid_data_fetcher/utils/shp_helper.py:173-192 | a missing by_column fails its assertion; otherwise each pixel is the largest index label + 1 among the rows (or dissolved groups, which get a fresh index) covering it, and 0 where none does |
| Raster.ShapeLabels | cryogrid_data_fetcher/utils/shp_helper.py:173-179 | one label per rasterised shape: the frame's own index, or a fresh one after dissolving |
| Raster.PolygonsToRasterIntPositions | cryogrid_data_fetcher/utils/shp_helper.py:173-192 | with by_column, or on a frame with a fresh index, each pixel is the position of the last covering shape |
| Raster.Shapes | cryogrid_data_fetcher/utils/shp_helper.py:173-179 | one shape per row without a column, one per dissolved group with one; none iff the frame is empty |
| Raster.CheckBoolRaster | cryogrid_data_fetcher/utils/shp_helper.py:218-219 | passes iff the raster is boolean and 2-D, the dtype assertion coming first |
| Raster.Cells | cryogrid_data_fetcher/utils/shp_helper.py:257 | the values occurring in the raster, every cell included |
| Raster.EqualMask | cryogrid_data_fetcher/utils/shp_helper.py:271 | `da == m`: true exactly at the cells holding the value |
| Raster.ClassValues | cryogrid_data_fetcher/utils/shp_helper.py:257 | the distinct raster values, strictly ascending |
| Raster.RasterIntToVector | cryogrid_data_fetcher/utils/shp_helper.py:255-275 | non-integer input fails; more than 20 distinct values raises; given names must match the class count; otherwise one class per distinct value in ascending order, named by the given name or the value's string form, covering the cells of that value |
| Raster.VectorClassesPartition | cryogrid_data_fetcher/utils/shp_helper.py:257-275 | every pixel lies in exactly one vector class |
| Geology.TablesShareKeys | cryogrid_data_fetcher/stratigraphy/geology.py:94-193 | the long-name and rock-type tables have the same keys, so no unit has one lookup without the other |
| Geology.RockTypeKeysNamed | cryogrid_data_fetcher/stratigraphy/geology.py:94-193 | every unit with a rock type has a long name |
| Geology.NamedKeysHaveRockType | cryogrid_data_fetcher/stratigraphy/geology.py:94-193 | every unit with a long name has a rock type |
| Geology.RockTypesAreKnown | cryogrid_data_fetcher/stratigraphy/geology.py:145-193 | every rock type is granite, limestone, sandstone, schist or "" |
| Geology.UnclassifiedHaveNoRockType | cryogrid_data_fetcher/stratigraphy/geology.py:185-192 | sea, lakes, ice, water, outside-USSR and "oth" map to the empty rock type |
| Geology.PaleozoicNames | cryogrid_data_fetcher/stratigraphy/geology.py:115-116 | Pz and PZ are both "Paleozoic (undivided)" |
| Geology.PaleozoicRockTypes | cryogrid_data_fetcher/stratigraphy/geology.py:164-165 | Pz and PZ are both sandstone |
| Geology.ProterozoicNames | cryogrid_data_fetcher/stratigraphy/geology.py:121-122 | PtA and PtAi share their long name |
| Geology.ProterozoicRockTypes | cryogrid_data_fetcher/stratigraphy/geology.py:170-171 | PtA and PtAi are both granite |
| Geology.RenameColumn | cryogrid_data_fetcher/stratigraphy/geology.py:66 | GLG becomes key, PERIMETER perimeter, AREA area; any other name is kept |
| Geology.Rename | cryogrid_data_fetcher/stratigraphy/geology.py:66 | renames every column by that rule, in place, rows untouched |
| Geology.SetColumn | cryogrid_data_fetcher/stratigraphy/geology.py:68-69 | assigning a column overwrites it if present or appends it, and leaves the other columns and the geometries as they were |
| Geology.MissingKeys | cryogrid_data_fetcher/stratigraphy/geology.py:68-69 | exactly the row units absent from the table |
| Geology.ProcessWith | cryogrid_data_fetcher/stratigraphy/geology.py:65-71 | fails iff there is no key column after renaming or some unit is absent from the table; otherwise every row gets its unit's long name and rock type and every other column is carried over |
| Geology.AddLookupColumns | cryogrid_data_fetcher/stratigraphy/geology.py:68-69 | adds long_name and rock_type looked up from each row's unit and keeps the other columns |
| Geology.ProcessUssrGeology | cryogrid_data_fetcher/stratigraphy/geology.py:65-71 | the same with the module's two tables |
| Geology.ProcessedRockTypesKnown | cryogrid_data_fetcher/stratigraphy/geology.py:69 | every rock type assigned is one of the five known kinds |
| Geology.RenameKeepsOtherColumns | cryogrid_data_fetcher/stratigraphy/geology.py:66 | columns other than GLG, PERIMETER and AREA keep their names |
| Geology.RockTypeOrder | cryogrid_data_fetcher/stratigraphy/geology.py:19 | the distinct rock types of the frame, each exactly once |
| Geology.RockTypeNumbering | cryogrid_data_fetcher/stratigraphy/geology.py:19-23 | rock types are numbered in order of first appearance: an earlier first row means a smaller code |
| Geology.RockTypeShapes | cryogrid_data_fetcher/stratigraphy/geology.py:20-23 | one shape (the rows of that rock type) per distinct rock type |
| Geology.GeologyToRaster | cryogrid_data_fetcher/stratigraphy/geology.py:15-30 | each pixel holds the highest code among the rock types covering it, 0 where none does; fails without a rock_type column |
| S3Path.BucketAndKey | scripts/utils/s3_helpers.py:20-22 | `split('/', 1)`: the bucket has no '/', and bucket + "/" + key rebuilds the path when it has one; otherwise the key is empty |
| S3Path.Check | scripts/utils/s3_helpers.py:9-38 | the checks in source order, each error only when every earlier check passed: no "s3://" prefix gives NoScheme, then "//" after it DoubleSlash, then a bucket failing the pattern or holding ".." or a leading/trailing '-' InvalidBucket, then a key character outside 32..126 InvalidKey, then a key length outside 1..1024 KeyLength; passes iff the prefix is there, no "//" follows it, the bucket matches the pattern, has no "..", does not start or end with '-', and the key is printable ASCII (32..126) of length 1..1024 |
| S3Path.IsSafeS3Path | scripts/utils/s3_helpers.py:4-38 | the validator as written, whose bucket pattern also lets through one trailing newline (Python's `$`) |
| S3Path.IsSafeS3PathIntended | scripts/utils/s3_helpers.py:24-26 | the validator with the bucket pattern matched against the whole name |
| S3Path.AsWrittenAcceptsNewlineBucket | scripts/utils/s3_helpers.py:25 | "s3://abc\n/key" is accepted as written and rejected as an invalid bucket by the corrected validator |
| S3Path.NewlineBucket | scripts/utils/s3_helpers.py:25 | "abc\n" matches the pattern as written but is not 3..63 characters of [a-z0-9.-] |
| S3Path.PathWithBucket | scripts/utils/s3_helpers.py:20-38 | for a slash-free bucket and a key that cannot form "//", a bucket failing the pattern is reported as invalid, and a valid bucket and key pass |
| S3Path.PathAfterScheme | scripts/utils/s3_helpers.py:16-22 | bucket + "/" + key contains no "//" and splits back into that bucket and key |
| S3Path.ComposedPathAccepted | scripts/utils/s3_helpers.py:9-38 | "s3://" + a well-formed bucket + "/" + a well-formed key passes both validators |
| S3Path.AcceptedPathDecomposes | scripts/utils/s3_helpers.py:9-38 | every path the corrected validator accepts is "s3://" + a well-formed bucket + "/" + a well-formed key (the converse of the previous row) |
| Formatting.Repr | scripts/era5/from_cds.py:205 | repr() of a value: a string reads back as itself, a list is bracketed and a dictionary braced |
| Formatting.Str | cryogrid_data_fetcher/utils/helpers.py:39 | str() of a string is the string itself; an integer's reads back as the integer; a list's text is bracketed and a dictionary's braced |
| Formatting.PlainStringList | scripts/era5/from_cds.py:205 | str() of a list of strings that need no escape: each quoted with single quotes, joined with ", ", inside brackets |
| Formatting.TwoNameListStr | scripts/era5/from_cds.py:205 | a two-name list is written as ['a', 'b'] |
| Formatting.EmptyStr | scripts/era5/from_cds.py:205 | an empty list is written as [] and an empty dictionary as {} |
| Formatting.OneEntryDictStr | cryogrid_data_fetcher/utils/helpers.py:39 | a one-entry dictionary is written as {'key': value} |
| PyRepr.QuoteOf | scripts/era5/from_cds.py:205 | repr() chooses double quotes exactly when the string holds a single quote and no double quote |
| PyRepr.HexDigit | scripts/era5/from_cds.py:205 | the hex digit written for a value reads back as that value |
| PyRepr.StrRepr | scripts/era5/from_cds.py:205 | repr() of a string starts and ends with its chosen quote and is at least two characters longer |
| PyRepr.UnescapeChar | scripts/era5/from_cds.py:205 | any one character escaped by repr() reads back as itself, whatever follows |
| PyRepr.UnescapeBody | scripts/era5/from_cds.py:205 | the escaped body of a string reads back as the string |
| PyRepr.StrReprReadsBack | scripts/era5/from_cds.py:205 | repr() of any string reads back, as a quoted literal, to the same string |
| PyRepr.PlainStrRepr | scripts/era5/from_cds.py:205 | a string without quotes, backslashes or control characters is written between single quotes unchanged |
| PyRepr.QuoteChoice | scripts/era5/from_cds.py:205 | "it's" is written with double quotes; a string with both quotes keeps single quotes and escapes the single one |
| Formatting.FirstIndex | cryogrid_data_fetcher/utils/helpers.py:39 | the first occurrence of a character, absent iff the character is not there |
| Formatting.FieldHead | cryogrid_data_fetcher/utils/helpers.py:9-13 | the prefix of a field name before the first '.', '[', ':' or '!' |
| Formatting.FieldValue | cryogrid_data_fetcher/utils/helpers.py:9-11 | a plain name present in the namespace gives str(value), for every kind of value; an absent one gives "{name}" for SafeFormatter and KeyError for plain format |
| Formatting.Format | cryogrid_data_fetcher/utils/helpers.py:5-13 | SafeFormatter().format: text without braces comes back unchanged |
| Formatting.FormatWith | cryogrid_data_fetcher/utils/helpers.py:5-13 | str.format from left to right, strict or safe: text without braces comes back unchanged |
| Formatting.FormatEscapedChar | cryogrid_data_fetcher/utils/helpers.py:5-13 | a doubled brace (or a plain character) formats to that single character followed by the rest |
| Formatting.FormatEscaped | cryogrid_data_fetcher/utils/helpers.py:5-13 | escaped literal text formats back to itself followed by the rest |
| Formatting.FormatField | cryogrid_data_fetcher/utils/helpers.py:9-11 | a leading `{name}` is replaced by its value, kept as "{name}" when absent (safe), or raises (strict) |
| Formatting.FormatRendered | cryogrid_data_fetcher/utils/helpers.py:5-13 | formatting any template of literals and plain fields yields the reference substitution: literals kept, known names replaced, unknown names kept |
| Formatting.KnownAndUnknownFields | cryogrid_data_fetcher/utils/helpers.py:9-11 | `{name}` present is replaced by str(value); absent is kept literally |
| Formatting.StrictUnknownField | scripts/era5/from_cds.py:205 | plain str.format raises KeyError on an absent name |
| Formatting.Overlay | cryogrid_data_fetcher/utils/helpers.py:32 | `{**parent, **dct}`: the keys of both, the dictionary's own values overriding the parent's |
| Formatting.SetEntry | cryogrid_data_fetcher/utils/helpers.py:39 | `dct[key] = v` keeps the place of an existing key and appends a new one; keys stay unique |
| Formatting.Get | scripts/era5/from_cds.py:173-180 | `dct.get(key)`: absent iff the key is not there, otherwise the value of its first entry |
| Formatting.GetFirst | scripts/era5/from_cds.py:173-180 | the first entry with the key is what get returns |
| Formatting.GetUnique | scripts/era5/from_cds.py:173-180 | in a dictionary every entry is what get finds under its key |
| Formatting.GetSetSame | cryogrid_data_fetcher/utils/helpers.py:39 | after `dct[key] = v`, key reads v |
| Formatting.GetSetOther | cryogrid_data_fetcher/utils/helpers.py:39 | after `dct[key] = v`, every other key reads what it read before |
| Formatting.Update | scripts/era5/from_cds.py:253-259 | `dct.update(extra)` keeps keys unique |
| Formatting.GetUpdate | scripts/era5/from_cds.py:253-259 | after an update the keys of extra read their new values and every other key its old one |
| Formatting.UpdateKeys | scripts/era5/from_cds.py:253-259 | an updated dictionary holds exactly the keys of both |
| Formatting.RemoveKey | scripts/era5/from_cds.py:180 | `pop(key)` removes exactly that key and changes no other lookup |
| Formatting.ResolveEntries | cryogrid_data_fetcher/utils/helpers.py:30-40 | one pass keeps the keys, their order and the kind of every value; entry i, if a string, is formatted against the namespace it sees (`SeenAt`), and if a dict, is itself resolved against that namespace overlaid with its own keys. Strings in that namespace keep their text from before the loop, while dicts resolved earlier in the loop are seen resolved, because the namespace holds the same dict objects that the loop rewrites in place |
| Formatting.ResolveOnce | cryogrid_data_fetcher/utils/helpers.py:30-40 | one call of the inner resolver keeps the keys, order and value kinds |
| Formatting.ResolveFormatStrings | cryogrid_data_fetcher/utils/helpers.py:43-45 | the inner resolver applied exactly twice; keys and value kinds unchanged |
| Formatting.ResolveStrCons | cryogrid_data_fetcher/utils/helpers.py:38-39 | a string entry is replaced by its formatted text, the rest resolved after it |
| Formatting.ResolveDictCons | cryogrid_data_fetcher/utils/helpers.py:36-37 | a dict entry is resolved recursively against the parent namespace overlaid with its own keys; the entries after it see its key bound to the resolved dict unless a later entry rebinds that key |
| Formatting.ResolveThree | cryogrid_data_fetcher/utils/helpers.py:35-39 | three string entries are each formatted against the same namespace |
| Formatting.ChainNeedsTwoPasses | cryogrid_data_fetcher/utils/helpers.py:32-44 | with a = x, b = "{a}", c = "{b}": one pass leaves c = "{a}" because the namespace keeps the strings from before the pass; the two passes give c = x |
| Formatting.NestedNamespace | cryogrid_data_fetcher/utils/helpers.py:32-37 | inside a nested dict its own key wins over the parent's; at top level a key known only inside the nested dict stays a literal "{w}" |
| Formatting.InnerDictionary | cryogrid_data_fetcher/utils/helpers.py:32 | a nested dict's reference to its own key resolves to its own value whatever the parent holds |
| Formatting.ReferenceResolved | cryogrid_data_fetcher/utils/helpers.py:30-45 | a top-level "{k}" whose key holds brace-free text ends up as that text |
| Formatting.SeenAtBinding | cryogrid_data_fetcher/utils/helpers.py:32-37 | the namespace entry i sees binds every earlier dict entry that no later entry rebinds to its resolved value; every other name keeps its binding from before the pass |
| Formatting.SiblingSeesResolvedDict | cryogrid_data_fetcher/utils/helpers.py:32-39 | with d a dict and s = "{d}" after it, one pass gives s the str() of d as resolved in that pass |
| Formatting.ResolvedDictSeenBySibling | cryogrid_data_fetcher/utils/helpers.py:30-39 | top level {d: {k: v, p: "{k}"}, s: "{d}"}: one pass gives d = {k: v, p: v} and s = str({k: v, p: v}), not the text of the dict as written |
| ConfigChecks.Missing | scripts/config/loader.py:111-114 | exactly the required items absent from the list, in the order of `required` |
| ConfigChecks.CheckMissingValues | scripts/config/loader.py:110-120 | True iff every required item is in the list; otherwise KeyError naming the field (when given) and listing exactly the missing items in required order |
| ConfigChecks.MissingSameMembers | scripts/config/loader.py:112-114 | two lists with the same members miss the same items |
| ConfigChecks.OnlyMembershipMatters | scripts/config/loader.py:112-114 | order, repeats and extra entries of the list do not change the outcome |
| ConfigChecks.NumericLevelIsMissing | scripts/config/loader.py:99-105 | a level the YAML reader produced as the number 700 does not satisfy the required string '700' |
| ConfigChecks.CheckSingleLevel | scripts/config/loader.py:70-86 | passes iff all nine single-level variables are present, else KeyError for era5.single_levels.variable |
| ConfigChecks.CheckPressureLevel | scripts/config/loader.py:89-107 | passes iff the five variables and the seven levels '700'..'1000' are present; variables are reported first, then the missing levels |
| ConfigChecks.CheckEra5Vars | scripts/config/loader.py:54-59 | passes iff both checks pass; a single-level failure is the error reported when there is one |
| ConfigChecks.CheckS3Paths | scripts/config/loader.py:62-67 | passes iff the base, DEM and ERA5 destination paths all validate; the base path's error comes first |
| ConfigChecks.BboxParts | scripts/config/loader.py:133-135 | zip stops at the shorter input; each part is the compass letter followed by the coordinate in hundredths |
| ConfigChecks.IntToStringNoUnderscore | scripts/config/loader.py:133 | a rendered integer holds no '_' and no brace |
| ConfigChecks.ParsePartsRoundTrip | scripts/config/loader.py:133-135 | the parts read back as the coordinates they were made from |
| ConfigChecks.BboxStrRoundTrip | scripts/config/loader.py:123-138 | for four coordinates "W.._S.._E.._N.." reads back as exactly those four numbers, in W, S, E, N order |
| ConfigChecks.BboxStrIgnoresExtra | scripts/config/loader.py:135 | coordinates beyond the fourth are ignored |
| ConfigChecks.JoinNoBraces | scripts/config/loader.py:136 | joining brace-free parts gives brace-free text |
| ConfigChecks.BboxStrNoBraces | scripts/config/loader.py:123-138 | the bbox string holds no brace, so format resolution leaves it as it is |
| ConfigChecks.BboxStrVisibleToTemplates | scripts/config/loader.py:27-31 | bbox_str is set before resolution, so a top-level "{bbox_str}" ends up holding the bbox string |
| CdsRequests.ScalarInt | scripts/era5/from_cds.py:244-246 | `int(v)`: the int itself, the parsed string, nothing for other values |
| CdsRequests.IntItems | scripts/era5/from_cds.py:245-247 | the integers a `for` loop over the value yields, defined iff every item is an int |
| CdsRequests.IntList | scripts/era5/from_cds.py:210 | the list value of a sequence of ints, element by element |
| CdsRequests.DefaultMonths | scripts/era5/from_cds.py:210 | `range(1, 13)`: 1..12 |
| CdsRequests.DefaultDays | scripts/era5/from_cds.py:210 | `range(1, 32)`: 1..31 |
| CdsRequests.DefaultHours | scripts/era5/from_cds.py:210 | `range(0, 24, 3)`: 0, 3, .., 21 |
| CdsRequests.Padded | scripts/era5/from_cds.py:245-247 | every number zero-padded to the width, followed by the suffix |
| CdsRequests.DateField | scripts/era5/from_cds.py:245-246 | an int or string becomes one two-digit string; a list becomes its items padded; anything not integral raises |
| CdsRequests.Arg | scripts/era5/from_cds.py:210 | a keyword argument's value when passed, its default otherwise |
| CdsRequests.Extra | scripts/era5/from_cds.py:210 | `**kwargs` holds exactly the keywords other than month, day and hours, with their values |
| CdsRequests.AreaNWSE | scripts/era5/from_cds.py:239 | the WSEN bbox reordered as [N, W, S, E] |
| CdsRequests.RequestFields | scripts/era5/from_cds.py:241-247 | a year that is neither int nor str raises TypeError; the year is padded to 4 digits, month and day to 2, hours render as "HH:00" |
| CdsRequests.MakeGeospatialRequestDefaults | scripts/era5/from_cds.py:239-260 | a bbox shorter than four fails first, then the year type; succeeds iff all fields can be built |
| CdsRequests.GeospatialRequestGet | scripts/era5/from_cds.py:249-259 | every key reads the extra keyword when one was passed, else the default field |
| CdsRequests.BaseRequestUnique | scripts/era5/from_cds.py:249-257 | the default request has unique keys and no "hours" key |
| CdsRequests.BaseRequestKeys | scripts/era5/from_cds.py:249-257 | the default request holds only product_type, data_format, download_format, year, month, day, time and area |
| CdsRequests.RequestKeys | scripts/era5/from_cds.py:249-259 | extra keywords become keys of the request and no other key appears |
| CdsRequests.BaseRequestGet | scripts/era5/from_cds.py:249-257 | each default key reads the value it was built with |
| CdsRequests.RequestArea | scripts/era5/from_cds.py:239 | without an "area" keyword the request's area is [N, W, S, E] |
| CdsRequests.RequestYear | scripts/era5/from_cds.py:244 | without a "year" keyword the year is one string, the year zero-padded to four digits |
| CdsRequests.DateFieldReadsBack | scripts/era5/from_cds.py:245-246 | each padded entry has two or more characters and reads back as the number it came from |
| CdsRequests.RequestMonthDay | scripts/era5/from_cds.py:245-255 | month and day always come from the month and day arguments |
| CdsRequests.DefaultTimes | scripts/era5/from_cds.py:247 | without hours or time keywords the times are "00:00", "03:00", .., "21:00" |
| CdsRequests.TwoDigits | scripts/era5/from_cds.py:247 | a number below 100 pads to exactly two characters |
| CdsRequests.ExtraKeywordsOverride | scripts/era5/from_cds.py:259 | keywords other than month, day and hours reach the request unchanged and override the defaults; "hours" never does |
| CdsRequests.Unwrapped | scripts/era5/from_cds.py:198-203 | the copied namespace has the same keys, single-element lists unwrapped |
| CdsRequests.MakeNameFromRequest | scripts/era5/from_cds.py:195-207 | a brace-free template comes back unchanged; every failure is a formatting error |
| CdsRequests.NameField | scripts/era5/from_cds.py:200-205 | an absent name raises KeyError; a one-element list gives str() of its element; any other value, an empty or longer list included, gives its own str() |
| CdsRequests.NameFieldList | scripts/era5/from_cds.py:200-205 | a two-element variable list lands in the name as ['a', 'b'] |
| CdsRequests.NameFieldUnwrapped | scripts/era5/from_cds.py:202-203 | a one-element list stands for its element, whatever that element is |
| CdsRequests.DatasetNameOfEra5 | scripts/era5/from_cds.py:179 | "reanalysis-era5-" + x gives x with every '-' replaced by '_' |
| CdsRequests.LocalsUnique | scripts/era5/from_cds.py:182 | `locals()` at that point has unique keys |
| CdsRequests.MakeCdsRequest | scripts/era5/from_cds.py:173-192 | dataset and variable are required, and pressure_level too when the dataset contains "pressure"; the result is [dataset, request, name] with the dataset popped before the request is built |
| CdsRequests.MakeCdsRequestKeys | scripts/era5/from_cds.py:173-192 | a built request never holds the dataset, always holds the variable, and holds pressure_level for a dataset whose name contains "pressure" |
| CdsRequests.RequestForDataset | scripts/era5/from_cds.py:178-192 | the request is the geospatial defaults of the remaining keywords; the name is formatted from locals() updated with the request |
| CdsRequests.PlaceholderNames | scripts/era5/from_cds.py:179-184 | "year" and "name" are plain placeholders |
| CdsRequests.OutputNameYear | scripts/era5/from_cds.py:182-184 | with "{year}" the output name is the padded year (the request's value overrides the local) |
| CdsRequests.OutputNameDataset | scripts/era5/from_cds.py:179-184 | with "{name}" the output name is the shortened dataset name |
| CdsRequests.ChronologicalConcat | scripts/era5/from_cds.py:136-138 | two chronological runs, the first wholly before the second, join into a chronological run |
| CdsRequests.Loop | scripts/era5/from_cds.py:136-143 | the nested loop from a day on visits exactly the valid dates from there to the end of the last year, in order |
| CdsRequests.YearLoop | scripts/era5/from_cds.py:136-143 | the loop over the years visits exactly the valid dates of those years, in order; 31 April and 29 February of common years are skipped |
| CdsRequests.DateOrderIsOrder | scripts/era5/from_cds.py:136-143 | calendar order is a strict total order |
| CdsRequests.YearLoopIsDaysBetween | scripts/era5/from_cds.py:129-143 | the visited dates are exactly the days from 1 January of the start year up to 31 December of the end year |
| CdsRequests.Duplicate | scripts/era5/from_cds.py:144-145 | the first keyword that a level dictionary passes twice, none iff there is none |
| CdsRequests.DayKeywords | scripts/era5/from_cds.py:144-145 | `month=month, day=day, **levels`; a repeated keyword raises TypeError |
| CdsRequests.DayPair | scripts/era5/from_cds.py:144-145 | the day's two requests succeed exactly when both keyword sets and both requests do, and are the single-level then the pressure-level request for that day |
| CdsRequests.Pairs | scripts/era5/from_cds.py:135-147 | succeeds iff every input's pair does, giving two outputs per input in order; otherwise fails with the error of the first failing input, all earlier ones having succeeded |
| CdsRequests.RequestsForDays | scripts/era5/from_cds.py:135-147 | succeeds iff every day's pair does; two requests per day: single level first, then pressure level |
| CdsRequests.PairsCons | scripts/era5/from_cds.py:144-145 | pairs for the first day followed by the pairs for the rest keep the per-day order |
| CdsRequests.RequestsCoverEveryDay | scripts/era5/from_cds.py:129-147 | the list holds, for every calendar day of the years in order, the single-level request then the pressure-level request, each dated that day |
| CdsRequests.DayRequestDate | scripts/era5/from_cds.py:144-145 | a day's request carries the level dictionary's dataset and that day's padded year, month and day |
| Weatherbench.MonthStart | cryogrid_data_fetcher/era5/from_weatherbench.py:12 | the first day of month number i, a valid date |
| Weatherbench.MonthStartOf | cryogrid_data_fetcher/era5/from_weatherbench.py:12 | a first day of a month is the month start of its own month number |
| Weatherbench.MonthStartsOrder | cryogrid_data_fetcher/era5/from_weatherbench.py:12 | on first days of months, calendar order is month-number order |
| Weatherbench.MonthStarts | cryogrid_data_fetcher/era5/from_weatherbench.py:12 | `pd.date_range(a, b, freq='MS')`: the consecutive month starts from the first on or after a up to b |
| Weatherbench.MonthStartsMembers | cryogrid_data_fetcher/era5/from_weatherbench.py:12 | a first day of a month is in the range iff it lies between a and b; the range is strictly increasing |
| Weatherbench.Consecutive | cryogrid_data_fetcher/era5/from_weatherbench.py:15 | `zip(dates[:-1], dates[1:])`: one window per neighbouring pair |
| Weatherbench.BatchWindowsAt | cryogrid_data_fetcher/era5/from_weatherbench.py:10-15 | window k runs from the start of month FirstMonth(start) + k to the start of the next month |
| Weatherbench.BatchWindowsMonthly | cryogrid_data_fetcher/era5/from_weatherbench.py:10-15 | every window is one calendar month, from its first day to the first day of the next month |
| Weatherbench.PackageBatchesCoverYears | cryogrid_data_fetcher/era5/from_weatherbench.py:10-16 | 12 windows per year; the window of year y, month m starts on the 1st of that month, so every month from January of start_year to December of end_year is requested once |
| Weatherbench.BatchWindowsOrdered | cryogrid_data_fetcher/era5/from_weatherbench.py:12-15 | later windows start strictly later |
| Weatherbench.ScriptsBatchesMissDecember | scripts/era5/from_weatherbench.py:9-14 | the scripts copy ends the range on 31 December, so it has one window fewer: its last window ends on 1 December of end_year and December is never requested |
| Weatherbench.StampOf | cryogrid_data_fetcher/era5/from_weatherbench.py:25-30 | the zero-padded year (4), month (2) and day (2) of a date, reading back as the date's numbers |
| Weatherbench.Validated | cryogrid_data_fetcher/era5/from_weatherbench.py:34 | a composed path is returned iff it passes S3 validation, else its error |
| Weatherbench.MakeS3Path | cryogrid_data_fetcher/era5/from_weatherbench.py:21-36 | a template naming anything but the function's locals (t0, t1, the six padded date parts, data_config) raises; a returned path is valid and starts with dst_dir + "/" |
| Weatherbench.S3PathOfTemplate | cryogrid_data_fetcher/era5/from_weatherbench.py:25-33 | a template of literal text, the six date placeholders and `{data_config}` gives dst_dir + "/" + the template with the padded t0/t1 parts and the str() of the configuration substituted, then validated |
| Weatherbench.DateNamesSimple | cryogrid_data_fetcher/era5/from_weatherbench.py:25-30 | the date placeholders are plain names |
| Weatherbench.DateNamesDistinct | cryogrid_data_fetcher/era5/from_weatherbench.py:25-30 | the six date placeholders are different names |
| Weatherbench.StampLookups | cryogrid_data_fetcher/era5/from_weatherbench.py:25-32 | each placeholder names the matching padded part of t0 or t1 |
| Weatherbench.DateNameBound | cryogrid_data_fetcher/era5/from_weatherbench.py:25-32 | every date placeholder is bound to a string |
| Weatherbench.LastIndex | cryogrid_data_fetcher/era5/from_weatherbench.py:128 | the last occurrence of a character, absent iff it is not there |
| Weatherbench.GeopotentialNameOfPlaceholder | cryogrid_data_fetcher/era5/from_weatherbench.py:128 | on one line, the span from the first '{' to the last '}' becomes "geopotential" and the text around it is kept |
| Weatherbench.FirstIndexIs | cryogrid_data_fetcher/era5/from_weatherbench.py:128 | the first occurrence is where the character first appears |
| Weatherbench.LastIndexIs | cryogrid_data_fetcher/era5/from_weatherbench.py:128 | the last occurrence is where the character last appears |
| Weatherbench.GeopotentialPath | cryogrid_data_fetcher/era5/from_weatherbench.py:120-131 | dst_dir + "/" + the rewritten name, returned only when it validates |
| Weatherbench.BatchPaths | cryogrid_data_fetcher/era5/from_weatherbench.py:15-16 | one path per window in window order; fails iff some window's path fails |
| Weatherbench.DownloadFileList | cryogrid_data_fetcher/era5/from_weatherbench.py:8-18 | the geopotential path first (its failure comes first), then one path per monthly window in order |
| Weatherbench.FileNameNoSlash | cryogrid_data_fetcher/era5/from_weatherbench.py:83-84 | the last URL component holds no '/' |
| Weatherbench.RootChoice | cryogrid_data_fetcher/era5/from_weatherbench.py:83-89 | a URL built on one root does not start with the other |
| Weatherbench.MakeUrl | cryogrid_data_fetcher/era5/from_weatherbench.py:82-89 | the pressure-level template is used iff a level is given, the surface template otherwise |
| Weatherbench.SplitFive | cryogrid_data_fetcher/era5/from_weatherbench.py:83-84 | five slash-free parts joined by '/' split back into themselves |
| Weatherbench.TailSplits | cryogrid_data_fetcher/era5/from_weatherbench.py:83-84 | the URL after its root splits into year, month, day, variable and file name |
| Weatherbench.TailRoundTrip | cryogrid_data_fetcher/era5/from_weatherbench.py:83-84 | the URL tail reads back as its day, variable and level |
| Weatherbench.UrlRoundTrip | cryogrid_data_fetcher/era5/from_weatherbench.py:82-89 | every URL reads back as exactly the day, variable and level it was made from |
| Weatherbench.DayUrls | cryogrid_data_fetcher/era5/from_weatherbench.py:70-72 | one URL per day, in day order |
| Weatherbench.LevelUrls | cryogrid_data_fetcher/era5/from_weatherbench.py:69-72 | levels × days URLs for one variable |
| Weatherbench.PressureUrls | cryogrid_data_fetcher/era5/from_weatherbench.py:68-72 | variables × levels × days URLs |
| Weatherbench.SingleUrls | cryogrid_data_fetcher/era5/from_weatherbench.py:74-77 | variables × days URLs |
| Weatherbench.AppendDays | cryogrid_data_fetcher/era5/from_weatherbench.py:70-72 | the innermost loop appends the day URLs in order |
| Weatherbench.AppendLevels | cryogrid_data_fetcher/era5/from_weatherbench.py:69-72 | the level loop appends the URLs of every level in order |
| Weatherbench.UrlLoops | cryogrid_data_fetcher/era5/from_weatherbench.py:67-79 | the nested loops produce the pressure-level URLs followed by the single-level URLs |
| Weatherbench.MakeUrlList | cryogrid_data_fetcher/era5/from_weatherbench.py:63-79 | the same over the days of [t0, t1), left-inclusive |
| Weatherbench.BlockOffset | cryogrid_data_fetcher/era5/from_weatherbench.py:68-77 | offsets of block i, item k fall inside the list |
| Weatherbench.LevelUrlAt | cryogrid_data_fetcher/era5/from_weatherbench.py:69-72 | within one variable, URL j × days + k is level j on day k |
| Weatherbench.PressureUrlAt | cryogrid_data_fetcher/era5/from_weatherbench.py:68-72 | URL i × (levels × days) + j × days + k is variable i at level j on day k |
| Weatherbench.SingleUrlAt | cryogrid_data_fetcher/era5/from_weatherbench.py:74-77 | URL i × days + k of the single-level part is variable i on day k, at the surface |
| Weatherbench.UrlListPressureAt | cryogrid_data_fetcher/era5/from_weatherbench.py:68-72 | in the full list, the pressure-level URLs come first, nested variables × levels × days |
| Weatherbench.UrlListSingleAt | cryogrid_data_fetcher/era5/from_weatherbench.py:74-77 | after all pressure-level URLs come the single-level URLs, nested variables × days |
| CryoGridLog.WorkerLabel | cryogrid_data_fetcher/cryogrid/read_cryogrid_log.py:41 | a worker header's label starts with "worker", so later lines are attributed to that worker |
| CryoGridLog.ReplaceKeepsPrefix | cryogrid_data_fetcher/cryogrid/read_cryogrid_log.py:41 | replacing a pattern leaves alone a prefix in which the pattern cannot start |
| CryoGridLog.StripLowerWorker | cryogrid_data_fetcher/cryogrid/read_cryogrid_log.py:41 | stripping and lower-casing a text that starts with "Worker" gives one that starts with "worker" |
| CryoGridLog.WorkerLabelPrefix | cryogrid_data_fetcher/cryogrid/read_cryogrid_log.py:40-41 | the whole label chain keeps the "worker" prefix of a header |
| CryoGridLog.DropLast | cryogrid_data_fetcher/cryogrid/read_cryogrid_log.py:44 | `line[:-1]` drops the last character whether or not it is a newline |
| CryoGridLog.RemoveSpacesEmpty | cryogrid_data_fetcher/cryogrid/read_cryogrid_log.py:47 | a line is skipped as blank iff all its characters are spaces |
| CryoGridLog.Classify | cryogrid_data_fetcher/cryogrid/read_cryogrid_log.py:37-56 | the branch order of the loop: a line with a dd-Mmm-yyyy date is dropped; otherwise a "Worker" line is a header; otherwise a line that is not all spaces after dropping its last character and newlines is a message, and the rest are blank |
| CryoGridLog.Kinds | cryogrid_data_fetcher/cryogrid/read_cryogrid_log.py:32-56 | every line is classified on its own |
| CryoGridLog.LastWorker | cryogrid_data_fetcher/cryogrid/read_cryogrid_log.py:30-42 | the label state is the most recent header, or none if no header came before |
| CryoGridLog.ThreadIsWorkerOrMeta | cryogrid_data_fetcher/cryogrid/read_cryogrid_log.py:50-56 | every kept line is attributed to 'meta' or to a label starting with "worker" |
| CryoGridLog.RowAt | cryogrid_data_fetcher/cryogrid/read_cryogrid_log.py:43-56 | line i yields one row iff it is a message, holding its 0-based number, the latest worker label (else 'meta') and its text |
| CryoGridLog.ReadRawLog | cryogrid_data_fetcher/cryogrid/read_cryogrid_log.py:23-58 | the loop's rows equal the reference reading of the lines below n_lines |
| CryoGridLog.RawLogPastLimit | cryogrid_data_fetcher/cryogrid/read_cryogrid_log.py:34-35 | lines at or after n_lines contribute nothing |
| CryoGridLog.RawLogRows | cryogrid_data_fetcher/cryogrid/read_cryogrid_log.py:32-58 | every row comes from a message line below the limit, carries that line's text and thread, and rows appear in increasing line order |
| CryoGridLog.RawLogComplete | cryogrid_data_fetcher/cryogrid/read_cryogrid_log.py:43-56 | every message line below the limit yields a row: nothing else is dropped |
| CryoGridLog.DigitRun | cryogrid_data_fetcher/cryogrid/read_cryogrid_log.py:62 | the greedy `\d+` run: all digits and maximal |
| CryoGridLog.DigitRunAll | cryogrid_data_fetcher/cryogrid/read_cryogrid_log.py:62 | a text of digits is its own run |
| CryoGridLog.CellMatchShift | cryogrid_data_fetcher/cryogrid/read_cryogrid_log.py:62 | matching at k in the tail is matching at k + 1 in the whole |
| CryoGridLog.CellNumberLeftmost | cryogrid_data_fetcher/cryogrid/read_cryogrid_log.py:62-65 | a number is extracted iff "running grid cell " followed by a digit occurs, and it is the number after the leftmost occurrence |
| CryoGridLog.CellNumberOfMessage | cryogrid_data_fetcher/cryogrid/read_cryogrid_log.py:62-65 | "running grid cell N" reads back N |
| CryoGridLog.LatestCellIsLatest | cryogrid_data_fetcher/cryogrid/read_cryogrid_log.py:65-67 | the forward fill takes the number of the latest numbered message of the same thread, and none when no such message exists |
| CryoGridLog.FillCells | cryogrid_data_fetcher/cryogrid/read_cryogrid_log.py:74-94 | non-worker rows get cell 0, worker rows the forward-filled cell of their thread; it fails iff some worker row has no earlier number (the NaN that `astype(int)` rejects) |
| CryoGridLog.Insert | cryogrid_data_fetcher/cryogrid/read_cryogrid_log.py:97 | inserting into a list sorted by (gridcell, line) keeps it sorted and adds exactly one element |
| CryoGridLog.SortByKey | cryogrid_data_fetcher/cryogrid/read_cryogrid_log.py:97 | `sort_values(['gridcell', 'line'])`: sorted, and a permutation of its input |
| CryoGridLog.AssignGridcell | cryogrid_data_fetcher/cryogrid/read_cryogrid_log.py:82-98 | fails with a KeyError iff there is no worker row, and otherwise fails iff a worker row cannot be filled; on success a permutation of the annotated rows sorted by (gridcell, line) |
| YamlTemplate.QuoteBraces | cryogrid_data_fetcher/utils/yml_helpers.py:95-97 | a string holding both '{' and '}' is wrapped in single quotes, any other is returned unchanged |
| YamlTemplate.AddQuotesIfCurlyBraces | cryogrid_data_fetcher/utils/yml_helpers.py:82-97 | numbers, booleans, None and the empty string pass through; a value changes iff it is a string holding both braces |
| YamlTemplate.QuoteBracesInverse | cryogrid_data_fetcher/utils/yml_helpers.py:95-97 | quoting is undone by dropping the first and last character, and it neither adds nor removes braces |
| YamlTemplate.SpaceRun | cryogrid_data_fetcher/utils/yml_helpers.py:50 | the run of spaces at the head: all spaces and maximal |
| YamlTemplate.WsRun | cryogrid_data_fetcher/utils/yml_helpers.py:54 | the run of whitespace at the head: all whitespace and maximal |
| YamlTemplate.WordRun | cryogrid_data_fetcher/utils/yml_helpers.py:50 | the run of `[A-Za-z0-9_]` at the head: all word characters and maximal |
| YamlTemplate.ValueEnd | cryogrid_data_fetcher/utils/yml_helpers.py:51-56 | the lazy value stops at the first position where a comment may begin, or at the end of the line |
| YamlTemplate.ExampleOf | cryogrid_data_fetcher/utils/yml_helpers.py:54-56 | the example group is shorter than the suffix it comes from |
| YamlTemplate.CommentEnd | cryogrid_data_fetcher/utils/yml_helpers.py:53-56 | the lazy comment stops at the first position where the rest is an example suffix, or at the end |
| YamlTemplate.KeyHead | cryogrid_data_fetcher/utils/yml_helpers.py:50 | a key head ends before a ':' at a position inside the line |
| YamlTemplate.KeyHeadParts | cryogrid_data_fetcher/utils/yml_helpers.py:50 | the key is indentation and word characters ending in a word character, followed only by spaces up to the colon |
| YamlTemplate.ParseComment | cryogrid_data_fetcher/utils/yml_helpers.py:52-56 | a comment starts with "# "; the text splits into the spaces before it, the comment and a suffix; an example is present iff the suffix is non-empty, and then it is the suffix's example group |
| YamlTemplate.CommentSplit | cryogrid_data_fetcher/utils/yml_helpers.py:52-56 | the comment and the text after it put the line back together |
| YamlTemplate.ParseRest | cryogrid_data_fetcher/utils/yml_helpers.py:51-56 | the text after the colon is exactly value + spaces + comment + suffix; the value is as short as the pattern allows; without a comment the value is the whole rest |
| YamlTemplate.WithComment | cryogrid_data_fetcher/utils/yml_helpers.py:51-56 | a value ending where a comment starts leaves that comment and its example |
| YamlTemplate.ParseKeyValue | cryogrid_data_fetcher/utils/yml_helpers.py:49-69 | the pattern matches iff the line has a key head; the key group is the text before the key's end and the other groups come from the text after the colon and its spaces |
| YamlTemplate.TemplateLine | cryogrid_data_fetcher/utils/yml_helpers.py:70-71 | the rewritten line starts with the (quoted) key followed by ": " |
| YamlTemplate.RewriteOk | cryogrid_data_fetcher/utils/yml_helpers.py:59-72 | the line loop completes exactly when no line raises |
| YamlTemplate.RewriteFirstError | cryogrid_data_fetcher/utils/yml_helpers.py:59-72 | a loop that raises does so at its first failing line, with that line's error, every earlier line having gone through |
| YamlTemplate.RewriteKept | cryogrid_data_fetcher/utils/yml_helpers.py:59-72 | when each line adds its output if kept and nothing otherwise, the result is the outputs of the kept lines, in input order |
| YamlTemplate.RewriteLineSpec | cryogrid_data_fetcher/utils/yml_helpers.py:60-71 | one line fails exactly when it is a key-value line the pattern does not match, failing with its own line number; otherwise "#!" lines add nothing and the rest add their expected line |
| YamlTemplate.MakeTemplate | cryogrid_data_fetcher/utils/yml_helpers.py:22-75 | the template is the rewritten lines joined by newlines, and fails exactly when the line loop fails |
| YamlTemplate.Kept | cryogrid_data_fetcher/utils/yml_helpers.py:60-66 | the kept lines are schema lines that are not "#!" comments |
| YamlTemplate.KeptBy | cryogrid_data_fetcher/utils/yml_helpers.py:60-66 | the kept lines are lines of the input that pass the filter |
| YamlTemplate.TemplateLinesSpec | cryogrid_data_fetcher/utils/yml_helpers.py:59-72 | the loop succeeds iff every key-value line matches the pattern; then line k of the template is the k-th kept line, copied if it is blank or a comment, rewritten otherwise |
| YamlTemplate.TemplateLinesFirstError | cryogrid_data_fetcher/utils/yml_helpers.py:67-69 | a failure names the first key-value line the pattern does not match |
| WfsBbox.ProcessBbox | cryogrid_data_fetcher/utils/wfs_helper.py:40-55 | None stays None; a list or tuple becomes a tuple and must have four items; a frame gives its total bounds; any other value raises |
| WfsBbox.ProcessBboxIdempotent | cryogrid_data_fetcher/utils/wfs_helper.py:40-55 | a normalised box passes through normalisation unchanged |
| WfsBbox.AsArg | cryogrid_data_fetcher/utils/wfs_helper.py:44-49 | a normalised box is None or a tuple |
| WfsBbox.ReadWfsArguments | cryogrid_data_fetcher/utils/wfs_helper.py:6-11 | a layer that is not a string fails first; otherwise the result is the layer with the normalised box, or the box's error |
| MatlabExport.MatlabT0Ordinal | cryogrid_data_fetcher/era5/to_matlab.py:11-13 | the stand-in for MATLAB's day 0, 31 December of year -1, is a valid date one day before the proleptic day 0 |
| MatlabExport.DatenumOffset | cryogrid_data_fetcher/era5/to_matlab.py:5-17 | the offset is the whole days from the reference back to 31 December of year -1, negative for any later reference |
| MatlabExport.HoursSinceEpoch | cryogrid_data_fetcher/era5/to_matlab.py:37 | a time stamp truncated to the hour counts the whole hours since 1970-01-01 |
| MatlabExport.MatlabDatenumValue | cryogrid_data_fetcher/era5/to_matlab.py:20-43 | the datenum is the day number since MATLAB's day 0 plus the hour as a fraction of a day, shifted by the reference's distance from 1970-01-01, which the function assumes as its epoch |
| MatlabExport.MatlabDatenumMonotone | cryogrid_data_fetcher/era5/to_matlab.py:37-41 | times in the same hour share a datenum; later hours get strictly larger ones |
| MatlabExport.PackBound | cryogrid_data_fetcher/era5/to_matlab.py:116-133 | truncating x / sf toward zero stores an integer whose multiple of sf lies within one sf of x, on the side of zero |
| MatlabExport.PackEraRecovers | cryogrid_data_fetcher/era5/to_matlab.py:86-135 | reading each packed variable back (times its scale factor, undoing the unit conversion) lands within one scale step of the ERA5 value |
| MatlabExport.ScaledPackBound | cryogrid_data_fetcher/era5/to_matlab.py:93-133 | a value divided by a conversion factor and packed reads back within sf times that factor |
| MatlabExport.PressureLevels | cryogrid_data_fetcher/era5/to_matlab.py:80 | the levels are stored in Pa: dividing by 100 gives back the level in hPa |
| CryoGridMat.DecomposeAsWritten | cryogrid_data_fetcher/cryogrid/read_cryogrid_mat.py:5-15 | as written, the parts add back up to x only when "minutes" count sixtieths of a day, and they stay below 3 |
| CryoGridMat.DecomposeAsWrittenHalfPastTwelve | cryogrid_data_fetcher/cryogrid/read_cryogrid_mat.py:8-12 | 12:30 comes out as 12 hours, 1 minute and 0.25 seconds as written, as 12 hours and 30 minutes when corrected |
| CryoGridMat.DecomposeIntended | cryogrid_data_fetcher/cryogrid/read_cryogrid_mat.py:5-15 | the corrected parts add back up to x, with hours below 24, minutes below 60 and seconds below 60, all of the sign of x |
| CryoGridMat.DecomposeWholeDays | cryogrid_data_fetcher/cryogrid/read_cryogrid_mat.py:5-27 | a whole number of days, such as the offset -367, has no hours, minutes or seconds |
| CryoGridMat.FirstOfYearOneOrdinal | cryogrid_data_fetcher/cryogrid/read_cryogrid_mat.py:18-24 | 1 January of year 1 is day 366 of the proleptic calendar |
| CryoGridMat.OffsetTime | cryogrid_data_fetcher/cryogrid/read_cryogrid_mat.py:21-30 | 0001-01-01 plus the parts minus 367 days: a valid time on the day numbered days - 1, with the parts' hour and minute and the whole seconds; none before year 1 |
| CryoGridMat.MatlabToTimeAsWritten | cryogrid_data_fetcher/cryogrid/read_cryogrid_mat.py:5-30 | matlab2datetime as written: the date is the datenum's whole days minus one and the hour is the whole hours of its day fraction, but the minute is at most 2 and the second is 0 |
| CryoGridMat.MatlabToTime | cryogrid_data_fetcher/cryogrid/read_cryogrid_mat.py:18-30 | matlab2datetime with the corrected decomposition: the same date, and the clock counts the whole seconds of the datenum's day fraction; earlier datenums fall before year 1 |
| CryoGridMat.AsWrittenAgreesOnWholeHours | cryogrid_data_fetcher/cryogrid/read_cryogrid_mat.py:5-30 | on an exact datenum with a whole number of hours the source's reading and the corrected one agree and keep the hour (not so for a float64 value just below it) |
| CryoGridMat.MatlabToTimeHalfPastTwelve | cryogrid_data_fetcher/cryogrid/read_cryogrid_mat.py:5-30 | 12:30 on any day reads as minute 1 in the source and minute 30 when corrected |
| CryoGridMat.MatlabRoundTrip | cryogrid_data_fetcher/cryogrid/read_cryogrid_mat.py:18-30 | reading back the exact datenum of the MATLAB export with the 1970-01-01 reference gives the same date and hour (not so for a float64 value just below it) |
| CryoGridMat.FloatErrorLosesHour | cryogrid_data_fetcher/cryogrid/read_cryogrid_mat.py:5-8 | a whole hour h that arrives any amount under one second too low reads as hour h - 1: minute 2 as written, 59:59 with the corrected decomposition |
| CryoGridMat.ExportedOneAm | cryogrid_data_fetcher/era5/to_matlab.py:37-41 | the export's float64 datenum of 2020-01-01 01:00, 737791 + 1/24 - 1/25769803776, reads back in hour 0 |
| CryoGridMat.NearestSecond | cryogrid_data_fetcher/cryogrid/read_cryogrid_mat.py:5-8 | rounding to the nearest second moves a datenum by at most half a second and leaves a whole number of seconds |
| CryoGridMat.MatlabToTimeNearestSecond | cryogrid_data_fetcher/cryogrid/read_cryogrid_mat.py:18-30 | the corrected read-back: the date is the rounded datenum's whole days minus one and the clock is exactly its seconds of the day |
| CryoGridMat.WholeSecondsClock | cryogrid_data_fetcher/cryogrid/read_cryogrid_mat.py:5-12 | a datenum of whole seconds has whole seconds in its day fraction |
| CryoGridMat.NearestSecondRoundTrip | cryogrid_data_fetcher/cryogrid/read_cryogrid_mat.py:18-30 | an exported datenum off by less than half a second in either direction reads back as the exported date and hour |
| CryoGridMat.CentroidIndex | cryogrid_data_fetcher/cryogrid/read_cryogrid_mat.py:91 | a name with fewer than two '_'-separated parts raises; otherwise the index is the second-to-last part |
| CryoGridMat.CentroidIndexOfName | cryogrid_data_fetcher/cryogrid/read_cryogrid_mat.py:91 | a name `<prefix>_<index>_<suffix>` with no '_' in the suffix reads back its index |
| CryoGridMat.NoUnderscoreInInt | cryogrid_data_fetcher/cryogrid/read_cryogrid_mat.py:91 | the decimal form of an integer holds no '_' |
| CryoGridMat.RunInfo | cryogrid_data_fetcher/cryogrid/read_cryogrid_mat.py:74-75 | row i of the run-info table carries label i + 1 |
| CryoGridMat.MissingOf | cryogrid_data_fetcher/cryogrid/read_cryogrid_mat.py:77-81 | the missing labels are exactly the requested labels outside 1..n |
| CryoGridMat.Centroids | cryogrid_data_fetcher/cryogrid/read_cryogrid_mat.py:77-81 | `loc` fails iff some requested label is missing, naming those labels; otherwise one row per requested label, in request order, carrying that label |
| CryoGridMat.CentroidsAreRunInfoRows | cryogrid_data_fetcher/cryogrid/read_cryogrid_mat.py:72-81 | the centroid with label l is the run-info row with label l |
| CryoGridMat.CellValue | cryogrid_data_fetcher/cryogrid/read_cryogrid_mat.py:218 | a row or column below 1 raises; cells outside the filled area are empty |
| CryoGridMat.KeepRowsSpec | cryogrid_data_fetcher/cryogrid/read_cryogrid_mat.py:205-212 | a row number is kept iff it is a marker row (first cell equal to the marker label) shifted by the offset; kept rows increase |
| CryoGridMat.LabelsOfSpec | cryogrid_data_fetcher/cryogrid/read_cryogrid_mat.py:216-218 | the labels succeed iff the column and every kept row are at least 1, and are then the cell values in row order; a failure names the first bad row |
| CryoGridMat.LabelsOfErrExtends | cryogrid_data_fetcher/cryogrid/read_cryogrid_mat.py:218 | the first failing row decides the error |
| CryoGridMat.ReadStratigraphyLabels | cryogrid_data_fetcher/cryogrid/read_cryogrid_mat.py:174-220 | the loop returns the labels of the kept rows in column 1 + col_offset |
| CryoGridMat.SeqMin | cryogrid_data_fetcher/cryogrid/read_cryogrid_mat.py:300-302 | the minimum is an element, at most every element |
| CryoGridMat.SeqMax | cryogrid_data_fetcher/cryogrid/read_cryogrid_mat.py:300-303 | the maximum is an element, at least every element |
| CryoGridMat.Extent | cryogrid_data_fetcher/cryogrid/read_cryogrid_mat.py:296-307 | [west, south, east, north] are the coordinate extremes widened by the pad; an empty grid has no extent |
| CryoGridMat.ExtentContains | cryogrid_data_fetcher/cryogrid/read_cryogrid_mat.py:296-307 | with a non-negative pad every grid point lies inside the extent |
| Series.Count | cryogrid_data_fetcher/snow/from_stac_s2msi.py:121 | `count()` is the number of present pixels: 0 iff all are missing, the full size iff none is |
| Series.UpTo | cryogrid_data_fetcher/snow/from_stac_s2msi.py:130 | slicing never adds steps |
| Series.UpToMembers | cryogrid_data_fetcher/snow/from_stac_s2msi.py:130 | the slice holds exactly the steps at or before the label |
| Series.UpToPrefix | cryogrid_data_fetcher/snow/from_stac_s2msi.py:130 | on a sorted time index, slicing up to the label of step k keeps exactly steps 0..k |
| Series.UpToSplit | cryogrid_data_fetcher/snow/from_stac_s2msi.py:130 | when the steps at or before the label are the first n, the slice is those n |
| Series.ArgMin | cryogrid_data_fetcher/snow/from_stac_s2msi.py:138 | `idxmin` is the first position of the smallest value |
| Series.UpToLowest | cryogrid_data_fetcher/snow/from_stac_s2msi.py:146-147 | cutting at the lowest count fails only on an empty series |
| Series.UpToLowestPrefix | cryogrid_data_fetcher/snow/from_stac_s2msi.py:142-148 | on a sorted series the kept steps are a prefix ending at the first lowest count: every earlier count is higher, no later count is lower |
| Series.MaxWhere | cryogrid_data_fetcher/snow/from_stac_s2msi.py:101-106 | the largest value at a flagged step, which is one of them; missing iff no step is flagged |
| Series.DayOfYear | cryogrid_data_fetcher/snow/from_stac_s2msi.py:102 | the day of year lies in 1..366 |
| Series.DayOfYearOrder | cryogrid_data_fetcher/snow/from_stac_s2msi.py:102 | within one year, day of year orders dates as the calendar does and tells them apart |
| Series.DaysOfYear | cryogrid_data_fetcher/snow/from_stac_s2msi.py:102 | the day of year of every step |
| Series.Column | cryogrid_data_fetcher/snow/from_stac_s2msi.py:101-104 | the time series of one pixel |
| Series.Bfill | cryogrid_data_fetcher/snow/from_stac_s2msi.py:68 | `bfill` keeps every present value |
| Series.PresentFromStep | cryogrid_data_fetcher/snow/from_stac_s2msi.py:68 | a value is present from k on iff it is present at k or from k + 1 on |
| Series.BfillPresent | cryogrid_data_fetcher/snow/from_stac_s2msi.py:68 | after `bfill` a value is present exactly where some value at or after it was present |
| Series.NotNull | cryogrid_data_fetcher/snow/from_stac_s2msi.py:68 | `notnull()` flags exactly the present values |
| Series.Flags | cryogrid_data_fetcher/snow/from_stac_s2msi.py:103 | a boolean mask flags exactly the True values |
| Series.Truthy | cryogrid_data_fetcher/snow/from_stac.py:108 | a float mask of 1, 0 and NaN is true everywhere but 0, NaN included |
| SnowS2msi.LastAbove | cryogrid_data_fetcher/snow/from_stac_s2msi.py:124-130 | the last fraction strictly above the threshold, none iff no fraction is |
| SnowS2msi.Fractions | cryogrid_data_fetcher/snow/from_stac_s2msi.py:121-123 | each step's count of present pixels over the size of the first step |
| SnowS2msi.DropPoorCoverageAtEnd | cryogrid_data_fetcher/snow/from_stac_s2msi.py:111-130 | an empty series raises; otherwise it succeeds iff some step's fraction is above the threshold, and never adds steps |
| SnowS2msi.DropPoorCoverageAtEndPrefix | cryogrid_data_fetcher/snow/from_stac_s2msi.py:111-130 | on a sorted series the result is the prefix ending at the last well-covered step: all later steps are poorly covered |
| SnowS2msi.DocstringExample | cryogrid_data_fetcher/snow/from_stac_s2msi.py:116-120 | the docstring's fractions keep nothing at the default 0.9, because the comparison is strict; at 0.85 the first five steps are kept |
| SnowS2msi.SnowMaskOf | cryogrid_data_fetcher/snow/from_stac_s2msi.py:63 | a pixel is 1 exactly where the class is snow and ice (11), missing elsewhere |
| SnowS2msi.SnowMask | cryogrid_data_fetcher/snow/from_stac_s2msi.py:63 | the snow mask of every step, dates kept |
| SnowS2msi.MaxDayOfYearFromMask | cryogrid_data_fetcher/snow/from_stac_s2msi.py:95-108 | fails iff the steps do not all fall in one year (an empty mask included); otherwise each pixel gets the largest day of year at which it is flagged |
| SnowS2msi.MaxDayIsLastFlagged | cryogrid_data_fetcher/snow/from_stac_s2msi.py:95-108 | within one sorted year that day is the day of the pixel's last flagged step |
| SnowS2msi.MeltDayIsLastSnow | cryogrid_data_fetcher/snow/from_stac_s2msi.py:66-70 | after the cut, `bfill` and `notnull`, a pixel's melt day is the day of the last step at which it was snow, and missing iff it never was |
| SnowS2msi.BfillNoneFlagged | cryogrid_data_fetcher/snow/from_stac_s2msi.py:68 | no step is flagged after `bfill().notnull()` iff no value was present |
| SnowS2msi.BfillLastFlagged | cryogrid_data_fetcher/snow/from_stac_s2msi.py:68 | the last step flagged after `bfill().notnull()` is the last present value |
| SnowStac.MaskCloudsOf | cryogrid_data_fetcher/snow/from_stac.py:119-122 | classes 7 to 10 become missing, everything else is kept |
| SnowStac.MaskClouds | cryogrid_data_fetcher/snow/from_stac.py:119-122 | the cloud mask of every step, dates kept |
| SnowStac.MaskCloudsIdempotent | cryogrid_data_fetcher/snow/from_stac.py:119-122 | no cloud class is left, so masking again changes nothing |
| SnowStac.PositiveCount | cryogrid_data_fetcher/snow/from_stac.py:98 | at most the number of pixels |
| SnowStac.GoodIndices | cryogrid_data_fetcher/snow/from_stac.py:96-102 | the positions of the steps whose positive-pixel share is strictly above the threshold, all of them, in increasing order |
| SnowStac.KeepGood | cryogrid_data_fetcher/snow/from_stac.py:102 | the kept steps are the steps at those positions, in order |
| SnowStac.RemovePoorCover | cryogrid_data_fetcher/snow/from_stac.py:96-103 | an empty series raises; otherwise the well-covered steps, measured against the first step's size |
| SnowStac.RemovePoorCoverSorted | cryogrid_data_fetcher/snow/from_stac.py:96-103 | dropping steps keeps a sorted time index sorted |
| SnowStac.PrepSclClouds | cryogrid_data_fetcher/snow/from_stac.py:87-93 | every kept step is covered above 80% after masking and gap filling |
| SnowStac.PrepWithoutFill | cryogrid_data_fetcher/snow/from_stac.py:87-93 | cover is counted after the clouds are masked, so no kept step holds a cloud class |
| SnowStac.AllCloudNoCover | cryogrid_data_fetcher/snow/from_stac.py:89-99 | a step that is all cloud has no positive pixel left and is dropped |
| SnowStac.SnowMaskOf | cryogrid_data_fetcher/snow/from_stac.py:51 | snow where the class is 11, not snow for other positive classes, missing otherwise |
| SnowStac.SmeltDayAsWritten | cryogrid_data_fetcher/snow/from_stac.py:106-109 | as written, the result is missing only when every step says "not snow", because NaN counts as true |
| SnowStac.SmeltDay | cryogrid_data_fetcher/snow/from_stac.py:106-109 | the corrected melt day is the largest day of year observed as snow, and missing iff there is none |
| SnowStac.SmeltDayMissingCountsAsSnow | cryogrid_data_fetcher/snow/from_stac.py:106-109 | snow on day 10 and a gap on day 20: 20 as written, 10 when corrected |
| SnowStac.SmeltDayAgreesWithoutGaps | cryogrid_data_fetcher/snow/from_stac.py:106-109 | without gaps the two agree |
| SnowStac.SnowMask | cryogrid_data_fetcher/snow/from_stac.py:51 | the snow mask of every step, dates kept |
| SnowStac.MeltCut | cryogrid_data_fetcher/snow/from_stac.py:53-57 | the mask cut at the lowest count fails only on an empty series, and keeps mask steps with valid dates and the full pixel count |
| SnowStac.SmeltDays | cryogrid_data_fetcher/snow/from_stac.py:41-59 | one melt day per pixel, SmeltDayAsWritten over the cut mask: missing only where every kept step says "not snow" |
| SnowStac.SmeltDaysIntended | cryogrid_data_fetcher/snow/from_stac.py:41-59 | the same with the corrected SmeltDay: missing only where no kept step saw snow |
| SnowStac.SmeltDaysAgreeWithoutGaps | cryogrid_data_fetcher/snow/from_stac.py:41-59 | where every prepared pixel holds a positive class, the program's melt days are the intended ones |

## Left out

- Network and storage I/O is not modelled, because it is foreign calls with no logic of its own to state. This covers STAC, WFS, CDS, GCS and S3 access, file reading and writing (MAT, Excel, YAML, zarr, netCDF), and the download and subsetting functions. File contents enter the model as values: lines of a log, a schema string, worksheet rows, MAT-file columns.
- Raster: rasterisation, vectorisation, shapely unions and small-object removal are geometry-library calls. The rasteriser is a function parameter `covers` returning a boolean grid; polygon shapes for a vector class are left abstract.
- Raster: joblib/pqdm parallelism is modelled as a sequential max-fold. `MaxMergeOrderIndependent` shows that the task order does not matter.
- Raster.PolygonsToRasterInt: the frame's index labels are non-negative integers, as for a frame read from a file and clipped. Negative labels and labels that are not integers are not modelled.
- Stratigraphy: DEM smoothing and the slope computation are numerical library calls. The slope grid is an input, with NaN as `None`.
- Stratigraphy: the final NaN-to-int cast of the class grid is not modelled; unset pixels stay `None`.
- Plotting, logging, progress bars, the log summary and the `CryoGrid_TopoSub` class are display and plumbing.
- Formatting.ResolveEntries: a dict that is still being resolved is seen in its pre-pass form by the strings inside it that reach it, or an enclosing dict, through the parent namespace. Python shares that object and shows the entries already rewritten in the pass. For `{'a': {'x': '{z}', 'y': '{a}'}, 'z': 'Z'}`, Python gives y = "{'x': 'Z', 'y': '{a}'}", and the model gives y = "{'x': '{z}', 'y': '{a}'}". Dicts resolved earlier in the pass, which are the siblings of the entry or of an enclosing dict, are seen resolved as in Python.
- Weatherbench.MonthStarts: only the default batch size `download_batch_size='1MS'` (from_weatherbench.py:8,12) is modelled, so the range is always the month starts. Another pandas frequency string passed by a caller would give other window boundaries, and pandas' frequency parser is not part of this model.
- Formatting.FieldValue: conversions (`!r`, `!s`, `!a`), format specs and attribute or index fields are not modelled. Such a field gives `UnsupportedField` where Python would format it; only plain `{name}` fields are substituted.
- CdsRequests.NameField: only plain `{name}` fields are modelled, as for Formatting.FieldValue.
- PyRepr.StrRepr: characters above U+00FF are taken as printable. Python escapes the non-printable ones among them as `\u` or `\U`, and Unicode printability is not modelled.
- Formatting.Repr: values other than strings, integers, lists and dictionaries (floats, booleans, None) carry one text, used for both str() and repr(). The two agree for these Python types.
- Text.ParseInt: non-ASCII decimal digits (Arabic-Indic, full-width and the like), which Python's `int()` accepts, are refused. So CdsRequests.ScalarInt and CdsRequests.DateField give `NotAnInteger` for such a string where Python reads a number.
- CdsRequests.ScalarInt: a Python bool is an int, so `year=True` passes the type check and formats as "0001". The model's values have no boolean: a boolean arrives as `VOther` and gives `YearWrongType` (CdsRequests.DateField gives `NotAnInteger` for a boolean month or day).
- ConfigChecks.MakeBboxStr: `round(100 × coordinate)` on floats is not modelled; the coordinates arrive as whole hundredths.
- MatlabExport.PackEra: the int16/uint16 casts are modelled as truncation toward zero without wrap-around. Values outside the integer range are undefined behaviour in numpy and have no single answer.
- MatlabExport.MatlabDatenum: times carry only date and hour. `astype('datetime64[h]')` drops the rest, so minutes and seconds would add nothing.
- CryoGridMat.MatlabRoundTrip: holds for the exact datenum only. The export computes it in float64, and when that value rounds below the whole hour the reading falls in the hour before (see Findings). CryoGridMat.NearestSecondRoundTrip is the round trip that allows for that error.
- CryoGridMat.AsWrittenAgreesOnWholeHours: holds for exact datenums only; a float64 datenum just below a whole hour reads in the previous hour under both decompositions (CryoGridMat.FloatErrorLosesHour).
- MatlabExport.MatlabDatenumValue: the datenum is an exact real. The source's float64 division and subtraction land within rounding of it, and that error is not modelled beyond CryoGridMat.FloatErrorLosesHour and CryoGridMat.ExportedOneAm.
- CryoGridMat.MatlabToTime: this is the corrected reading; the source's own reading is CryoGridMat.MatlabToTimeAsWritten (see Findings). Sub-second parts are dropped. Datenums before 1 January of year 1 give `None` rather than pandas' out-of-range error. The nanosecond range limit of pandas timestamps (years 1677 to 2262) is not modelled.
- CryoGridMat: `read_OUT_regridded_FCI2_*`, the reindexing and depth averaging of the TopoSub reader, and the mapped-grid construction of `get_mapped` are xarray plumbing. `Extent` takes the mapped x and y coordinates as input.
- CryoGridLog.AssignGridcell: requires the rows in increasing line order. `read_raw_log` produces them that way (`RawLogRows`), and `_assign_gridcell` sorts by line before filling.
- CryoGridLog: regex `\d` is modelled as ASCII digits and `lower()` as ASCII case folding. Unicode digits and letters are not modelled.
- CryoGridLog: `check_run` and the summary functions after line 100 are reporting only.
- Series.UpTo: its contract states only the length bound; `UpToMembers`, `UpToPrefix` and `UpToSplit` state the contents.
- YamlTemplate: `validate_yaml_file` is a yamale call.
- SnowS2msi and SnowStac: the rolling-window smoothing of the snow counts is the parameter `counts`, and pandas' skipping of NaN in `idxmin` is not modelled. The daily median resampling and the five-day forward fill of `_ffill_cloud_gaps` are the parameter `fill`.
- SnowS2msi and SnowStac: the per-year loop, the `/ 30.5` month conversion, `remove_outliers` and `find_local_outlier_from_global_std` are float statistics outside the selection rules.
- SnowS2msi: the assertion that a 'time' dimension exists holds by construction. Time steps are dated by day.
- SnowS2msi.DropPoorCoverageAtEnd: `bfill` on the fractions has nothing to fill. Counts are never NaN, and a zero-size first step is the `NoGoodCover` error.

## Findings

| source | as written | input that shows it | evidently intended | confidence | as-written member | corrected member |
|---|---|---|---|---|---|---|
| cryogrid_data_fetcher/stratigraphy/make_strat.py:289-296 | the check passes only when some pixel is not covered exactly once and some pixel is covered | a stack that partitions the grid exactly is rejected with the overlap error; two masks overlapping on the only pixel pass | reject overlaps, then gaps, as the docstring at lines 265-269 says | not executed | Stratigraphy.CheckStratigraphyMasks, Stratigraphy.AsWrittenRejectsExactPartition | Stratigraphy.CheckStratigraphyMasksIntended |
| cryogrid_data_fetcher/cryogrid/read_cryogrid_mat.py:9-12 | minutes and seconds are taken by scaling the remaining day fraction by 60 | 25/48 of a day (12:30) decomposes as 12 h, 1 min, 0.25 s | scale by 1440 for minutes and 86400 for seconds, giving 12 h 30 min | not executed | CryoGridMat.DecomposeAsWritten, CryoGridMat.DecomposeAsWrittenHalfPastTwelve, CryoGridMat.MatlabToTimeAsWritten, CryoGridMat.MatlabToTimeHalfPastTwelve | CryoGridMat.DecomposeIntended, CryoGridMat.MatlabToTime |
| cryogrid_data_fetcher/cryogrid/read_cryogrid_mat.py:6-8 | the day fraction is truncated to whole hours, so a float64 datenum that rounds just below a whole hour reads in the hour before | 737791.0416666666, the export's float64 datenum for 2020-01-01 01:00 (exactly 737791 + 1/24 - 1/25769803776), reads as 00:02:00.5 | the exported hour read back, for example by rounding the datenum to the nearest second before splitting it | not executed | CryoGridMat.FloatErrorLosesHour, CryoGridMat.ExportedOneAm | CryoGridMat.MatlabToTimeNearestSecond, CryoGridMat.NearestSecondRoundTrip |
| scripts/utils/s3_helpers.py:25 | the bucket regex ends in `$`, which also matches before one trailing newline | "s3://abc\n/key" is accepted | the bucket must consist of the allowed characters only (`\Z` or `fullmatch`) | not executed | S3Path.IsSafeS3Path, S3Path.AsWrittenAcceptsNewlineBucket | S3Path.IsSafeS3PathIntended |
| cryogrid_data_fetcher/snow/from_stac.py:51, 108 | the float snow mask (1, 0, NaN) is used directly in `where`, where NaN counts as true | snow on day 10 then a missing observation on day 20 gives melt day 20 | the last day observed as snow, 10 | not executed | SnowStac.SmeltDayAsWritten, SnowStac.SmeltDayMissingCountsAsSnow, SnowStac.SmeltDays | SnowStac.SmeltDay, SnowStac.SmeltDaysIntended |
| scripts/era5/from_weatherbench.py:10-13 | the month-start range ends on 31 December of the end year | start_year = end_year = 2020 gives 11 windows, the last from 1 November to 1 December | 12 windows covering December too, as the package copy does | not executed | Weatherbench.ScriptsBatches, Weatherbench.ScriptsBatchesMissDecember | Weatherbench.PackageBatches, Weatherbench.PackageBatchesCoverYears |

The docstring of `drop_poor_coverage_at_end` (cryogrid_data_fetcher/snow/from_stac_s2msi.py:116-119) keeps a step whose fraction equals the default threshold 0.9. The code compares strictly, and the model follows the code; `SnowS2msi.DocstringExample` shows the difference.

=== FILE: cds_requests.dfy ===
/**
 * The ERA5 request builders of `scripts/era5/from_cds.py`: the per-day
 * enumeration of `make_cds_requests_list`, the request of
 * `make_cds_request`, the output name of `make_name_from_request`, and the
 * request dictionary of `make_geospatial_request_defaults`. Keyword
 * arguments are dictionaries (`seq<Entry>` with unique keys); an exception
 * is an `Err`.
 */
module CdsRequests {
  import opened Wrappers
  import opened Text
  import opened Dates
  import opened Formatting
  import opened PyRepr
  import opened Sequences

  datatype CdsError =
    | MissingDataset                 // assertion: no 'dataset' keyword
    | MissingVariable                // assertion: no 'variable' keyword
    | MissingPressureLevel           // assertion: a pressure dataset without 'pressure_level'
    | DatasetNotString               // the dataset name is not a string
    | BboxTooShort                   // IndexError reading bbox[3]
    | YearWrongType                  // TypeError: year is neither int nor str
    | NotAnInteger(field: string)    // int() or the ':02d' format refuses a value
    | DuplicateArgument(name: string)  // TypeError: a keyword given twice
    | NameError(err: FormatError)    // the output-name template fails

  /** `[dataset, request_dict, output_name]`. */
  datatype CdsRequest = CdsRequest(dataset: string, request: seq<Entry>, outputName: string)

  // ---------------------------------------------------------------------------
  // make_geospatial_request_defaults
  // ---------------------------------------------------------------------------

  /** `int(v)` for an int or a string. */
  function ScalarInt(v: Value): (r: Option<int>)
    ensures v.VInt? ==> r == Some(v.i)
    ensures v.VStr? ==> r == ParseInt(v.s)
    ensures !v.VInt? && !v.VStr? ==> r.None?
  {
    match v
    case VInt(i) => Some(i)
    case VStr(s) => ParseInt(s)
    case _ => None
  }

  /** The items a `for x in v` loop yields, when every one of them is an
      int (the ':02d' format accepts nothing else). Iterating a dictionary
      yields its string keys and iterating a string its characters, so only
      the empty ones qualify; an int is not iterable. */
  function IntItems(v: Value): (r: Option<seq<int>>)
    ensures v.VList? ==> (r.Some? <==> forall k :: 0 <= k < |v.items| ==> v.items[k].VInt?)
    ensures r.Some? && v.VList? ==> (|r.value| == |v.items| &&
              forall k :: 0 <= k < |v.items| ==> v.items[k] == VInt(r.value[k]))
    ensures !v.VList? ==> (r.Some? <==> (v.VDict? && |v.entries| == 0) || (v.VStr? && |v.s| == 0))
    ensures !v.VList? && r.Some? ==> r.value == []
  {
    match v
    case VList(items) =>
      if forall k :: 0 <= k < |items| ==> items[k].VInt? then
        Some(seq(|items|, k requires 0 <= k < |items| => items[k].i))
      else None
    case VDict(es) => if |es| == 0 then Some([]) else None
    case VStr(s) => if |s| == 0 then Some([]) else None
    case _ => None
  }

  function IntList(xs: seq<int>): (v: Value)
    ensures v.VList? && |v.items| == |xs|
    ensures forall k :: 0 <= k < |xs| ==> v.items[k] == VInt(xs[k])
  {
    VList(seq(|xs|, k requires 0 <= k < |xs| => VInt(xs[k])))
  }

  /** The default arguments `range(1, 13)`, `range(1, 32)` and
      `range(0, 24, 3)`. */
  function DefaultMonths(): (v: Value)
    ensures v.VList? && |v.items| == 12
    ensures forall k :: 0 <= k < 12 ==> v.items[k] == VInt(k + 1)
  {
    IntList(seq(12, k requires 0 <= k < 12 => k + 1))
  }

  function DefaultDays(): (v: Value)
    ensures v.VList? && |v.items| == 31
    ensures forall k :: 0 <= k < 31 ==> v.items[k] == VInt(k + 1)
  {
    IntList(seq(31, k requires 0 <= k < 31 => k + 1))
  }

  function DefaultHours(): (v: Value)
    ensures v.VList? && |v.items| == 8
    ensures forall k :: 0 <= k < 8 ==> v.items[k] == VInt(3 * k)
  {
    IntList(seq(8, k requires 0 <= k < 8 => 3 * k))
  }

  function Padded(xs: seq<int>, width: nat, suffix: string): (r: seq<Value>)
    ensures |r| == |xs|
    ensures forall k :: 0 <= k < |xs| ==> r[k] == VStr(ZeroPad(xs[k], width) + suffix)
  {
    seq(|xs|, k requires 0 <= k < |xs| => VStr(ZeroPad(xs[k], width) + suffix))
  }

  /** `[f"{int(v):02d}"]` for an int or a string, else
      `[f"{m:02d}" for m in v]`. */
  function DateField(field: string, v: Value): (r: Result<seq<Value>, CdsError>)
    ensures (v.VInt? || v.VStr?) ==> (r.Ok? <==> ScalarInt(v).Some?)
    ensures (v.VInt? || v.VStr?) && r.Ok? ==> r.value == [VStr(ZeroPad(ScalarInt(v).value, 2))]
    ensures !(v.VInt? || v.VStr?) ==> (r.Ok? <==> IntItems(v).Some?)
    ensures !(v.VInt? || v.VStr?) && r.Ok? ==> r.value == Padded(IntItems(v).value, 2, "")
    ensures r.Err? ==> r.error == NotAnInteger(field)
  {
    if v.VInt? || v.VStr? then
      match ScalarInt(v)
      case None => Err(NotAnInteger(field))
      case Some(n) => Ok([VStr(ZeroPad(n, 2))])
    else
      match IntItems(v)
      case None => Err(NotAnInteger(field))
      case Some(xs) => Ok(Padded(xs, 2, ""))
  }

  /** A keyword argument with a default. */
  function Arg(kwargs: seq<Entry>, name: string, default: Value): (v: Value)
    ensures name in KeySet(kwargs) ==> Some(v) == Get(kwargs, name)
    ensures name !in KeySet(kwargs) ==> v == default
  {
    Get(kwargs, name).GetOr(default)
  }

  /** The keywords that bind to the named parameters month, day and hours. */
  predicate Named(k: string) {
    k == "month" || k == "day" || k == "hours"
  }

  /** The keywords left in `**kwargs` once month, day and hours are bound. */
  function Extra(kwargs: seq<Entry>): (r: seq<Entry>)
    ensures forall k :: k in KeySet(r) <==> k in KeySet(kwargs) && !Named(k)
    ensures UniqueKeys(kwargs) ==> UniqueKeys(r)
    ensures forall k :: !Named(k) ==> Get(r, k) == Get(kwargs, k)
  {
    RemoveKey(RemoveKey(RemoveKey(kwargs, "month"), "day"), "hours")
  }

  /** `[bbox[3], bbox[0], bbox[1], bbox[2]]`: west-south-east-north becomes
      north-west-south-east. */
  function AreaNWSE(bbox: seq<Value>): (r: seq<Value>)
    requires |bbox| >= 4
    ensures |r| == 4 && r[0] == bbox[3] && r[1] == bbox[0] && r[2] == bbox[1] && r[3] == bbox[2]
  {
    [bbox[3], bbox[0], bbox[1], bbox[2]]
  }

  /** The request before `request.update(kwargs)`. */
  function BaseRequest(years: seq<Value>, months: seq<Value>, days: seq<Value>,
                       times: seq<Value>, area: seq<Value>): seq<Entry>
  {
    [Entry("product_type", VList([VStr("reanalysis")])),
     Entry("data_format", VStr("netcdf")),
     Entry("download_format", VStr("unarchived")),
     Entry("year", VList(years)),
     Entry("month", VList(months)),
     Entry("day", VList(days)),
     Entry("time", VList(times)),
     Entry("area", VList(area))]
  }

  /** The padded year, month, day and time lists, or the first error. */
  function RequestFields(year: Value, kwargs: seq<Entry>): (r: Result<(seq<Value>, seq<Value>, seq<Value>, seq<Value>), CdsError>)
    ensures r.Err? ==> r.error == YearWrongType || r.error.NotAnInteger?
    ensures !(year.VInt? || year.VStr?) ==> r == Err(YearWrongType)
    ensures (year.VInt? || year.VStr?) && ScalarInt(year).None? ==> r == Err(NotAnInteger("year"))
    ensures r.Ok? ==> r.value.0 == [VStr(ZeroPad(ScalarInt(year).value, 4))]
    ensures r.Ok? ==> Ok(r.value.1) == DateField("month", Arg(kwargs, "month", DefaultMonths()))
    ensures r.Ok? ==> Ok(r.value.2) == DateField("day", Arg(kwargs, "day", DefaultDays()))
    ensures r.Ok? ==> (IntItems(Arg(kwargs, "hours", DefaultHours())).Some? &&
                       r.value.3 == Padded(IntItems(Arg(kwargs, "hours", DefaultHours())).value, 2, ":00"))
  {
    if !(year.VInt? || year.VStr?) then Err(YearWrongType)
    else
      var y :- ScalarInt(year).ToResult(NotAnInteger("year"));
      var months :- DateField("month", Arg(kwargs, "month", DefaultMonths()));
      var days :- DateField("day", Arg(kwargs, "day", DefaultDays()));
      var hours :- IntItems(Arg(kwargs, "hours", DefaultHours())).ToResult(NotAnInteger("hours"));
      Ok(([VStr(ZeroPad(y, 4))], months, days, Padded(hours, 2, ":00")))
  }

  /** make_geospatial_request_defaults(bbox, year, **kwargs). */
  function MakeGeospatialRequestDefaults(bbox: seq<Value>, year: Value, kwargs: seq<Entry>): (r: Result<seq<Entry>, CdsError>)
    ensures r == Err(BboxTooShort) <==> |bbox| < 4
    ensures |bbox| >= 4 && !(year.VInt? || year.VStr?) ==> r == Err(YearWrongType)
    ensures r.Ok? <==> |bbox| >= 4 && RequestFields(year, kwargs).Ok?
  {
    if |bbox| < 4 then Err(BboxTooShort)
    else
      match RequestFields(year, kwargs)
      case Err(e) => Err(e)
      case Ok(f) => Ok(Update(BaseRequest(f.0, f.1, f.2, f.3, AreaNWSE(bbox)), Extra(kwargs)))
  }

  /** What the finished request holds under each key: the extra keywords
      override the defaults. */
  lemma {:induction false} GeospatialRequestGet(bbox: seq<Value>, year: Value, kwargs: seq<Entry>, key: string)
    requires UniqueKeys(kwargs)
    requires MakeGeospatialRequestDefaults(bbox, year, kwargs).Ok?
    ensures var f := RequestFields(year, kwargs).value;
            Get(MakeGeospatialRequestDefaults(bbox, year, kwargs).value, key)
            == if key in KeySet(Extra(kwargs)) then Get(kwargs, key)
               else Get(BaseRequest(f.0, f.1, f.2, f.3, AreaNWSE(bbox)), key)
  {
    var f := RequestFields(year, kwargs).value;
    GetUpdate(BaseRequest(f.0, f.1, f.2, f.3, AreaNWSE(bbox)), Extra(kwargs), key);
  }

  lemma BaseRequestUnique(years: seq<Value>, months: seq<Value>, days: seq<Value>, times: seq<Value>, area: seq<Value>)
    ensures UniqueKeys(BaseRequest(years, months, days, times, area))
    ensures "hours" !in KeySet(BaseRequest(years, months, days, times, area))
  {
    var b := BaseRequest(years, months, days, times, area);
    var ks := seq(8, k requires 0 <= k < 8 => b[k].key);
    assert |ks[0]| == 12 && |ks[1]| == 11 && |ks[2]| == 15 && |ks[3]| == 4;
    assert |ks[4]| == 5 && |ks[5]| == 3 && |ks[6]| == 4 && |ks[7]| == 4;
    assert ks[3][0] == 'y' && ks[6][0] == 't' && ks[7][0] == 'a';
    assert ks[4][0] == 'm';
    assert "hours"[0] == 'h' && |"hours"| == 5;
  }

  /** The keys of the request before the update. */
  predicate DefaultKey(k: string) {
    || k == "product_type" || k == "data_format" || k == "download_format" || k == "year"
    || k == "month" || k == "day" || k == "time" || k == "area"
  }

  lemma BaseRequestKeys(years: seq<Value>, months: seq<Value>, days: seq<Value>, times: seq<Value>, area: seq<Value>)
    ensures forall k :: k in KeySet(BaseRequest(years, months, days, times, area)) ==> DefaultKey(k)
  {
  }

  /** Keyword arguments other than month, day and hours are keys of the
      request; a key that is neither a keyword nor a default is not. */
  lemma {:induction false} RequestKeys(bbox: seq<Value>, year: Value, kwargs: seq<Entry>, key: string)
    requires UniqueKeys(kwargs)
    requires MakeGeospatialRequestDefaults(bbox, year, kwargs).Ok?
    ensures key in KeySet(kwargs) && !Named(key) ==>
              key in KeySet(MakeGeospatialRequestDefaults(bbox, year, kwargs).value)
    ensures key !in KeySet(kwargs) && !DefaultKey(key) ==>
              key !in KeySet(MakeGeospatialRequestDefaults(bbox, year, kwargs).value)
  {
    var f := RequestFields(year, kwargs).value;
    var b := BaseRequest(f.0, f.1, f.2, f.3, AreaNWSE(bbox));
    var r := MakeGeospatialRequestDefaults(bbox, year, kwargs).value;
    GeospatialRequestGet(bbox, year, kwargs, key);
    if key in KeySet(kwargs) && !Named(key) {
      assert key in KeySet(Extra(kwargs));
      assert Get(r, key) == Get(kwargs, key);
    } else if key !in KeySet(kwargs) && !DefaultKey(key) {
      BaseRequestKeys(f.0, f.1, f.2, f.3, AreaNWSE(bbox));
      assert key !in KeySet(b);
      assert Get(r, key) == Get(b, key);
    }
  }

  lemma BaseRequestGet(years: seq<Value>, months: seq<Value>, days: seq<Value>, times: seq<Value>, area: seq<Value>)
    ensures var b := BaseRequest(years, months, days, times, area);
            && Get(b, "year") == Some(VList(years))
            && Get(b, "month") == Some(VList(months))
            && Get(b, "day") == Some(VList(days))
            && Get(b, "time") == Some(VList(times))
            && Get(b, "area") == Some(VList(area))
            && "hours" !in KeySet(b)
  {
    var b := BaseRequest(years, months, days, times, area);
    BaseRequestUnique(years, months, days, times, area);
    GetUnique(b, 3);
    GetUnique(b, 4);
    GetUnique(b, 5);
    GetUnique(b, 6);
    GetUnique(b, 7);
  }

  /** The area is the bbox reordered north, west, south, east, unless a
      keyword overrides it. */
  lemma RequestArea(bbox: seq<Value>, year: Value, kwargs: seq<Entry>)
    requires UniqueKeys(kwargs)
    requires MakeGeospatialRequestDefaults(bbox, year, kwargs).Ok?
    requires "area" !in KeySet(kwargs)
    ensures Get(MakeGeospatialRequestDefaults(bbox, year, kwargs).value, "area")
         == Some(VList([bbox[3], bbox[0], bbox[1], bbox[2]]))
  {
    var f := RequestFields(year, kwargs).value;
    GeospatialRequestGet(bbox, year, kwargs, "area");
    BaseRequestGet(f.0, f.1, f.2, f.3, AreaNWSE(bbox));
  }

  /** The year is one zero-padded string of at least four characters that
      reads back as `int(year)`. */
  lemma RequestYear(bbox: seq<Value>, year: Value, kwargs: seq<Entry>)
    requires UniqueKeys(kwargs)
    requires MakeGeospatialRequestDefaults(bbox, year, kwargs).Ok?
    requires "year" !in KeySet(kwargs)
    ensures ScalarInt(year).Some?
    ensures Get(MakeGeospatialRequestDefaults(bbox, year, kwargs).value, "year")
         == Some(VList([VStr(ZeroPad(ScalarInt(year).value, 4))]))
    ensures exists t: string :: Get(MakeGeospatialRequestDefaults(bbox, year, kwargs).value, "year") == Some(VList([VStr(t)]))
                        && |t| >= 4 && ParseInt(t) == ScalarInt(year)
  {
    var f := RequestFields(year, kwargs).value;
    GeospatialRequestGet(bbox, year, kwargs, "year");
    BaseRequestGet(f.0, f.1, f.2, f.3, AreaNWSE(bbox));
    ZeroPadRoundTrip(ScalarInt(year).value, 4);
  }

  /** The numbers a month or day argument stands for. */
  function DateNumbers(v: Value): (xs: seq<int>)
    requires (v.VInt? || v.VStr?) ==> ScalarInt(v).Some?
    requires !(v.VInt? || v.VStr?) ==> IntItems(v).Some?
  {
    if v.VInt? || v.VStr? then [ScalarInt(v).value] else IntItems(v).value
  }

  /** Each padded entry is two or more characters and reads back as the
      number it pads. */
  lemma DateFieldReadsBack(field: string, v: Value)
    requires DateField(field, v).Ok?
    ensures (v.VInt? || v.VStr?) ==> ScalarInt(v).Some?
    ensures !(v.VInt? || v.VStr?) ==> IntItems(v).Some?
    ensures var ts := DateField(field, v).value;
            var xs := DateNumbers(v);
            && |ts| == |xs|
            && forall k :: 0 <= k < |xs| ==> ts[k].VStr? && |ts[k].s| >= 2 && ParseInt(ts[k].s) == Some(xs[k])
  {
    DateFieldPads(field, v);
    PadsReadBack(DateField(field, v).value, DateNumbers(v));
  }

  /** Entry k of the field is number k, padded to two digits. */
  lemma DateFieldPads(field: string, v: Value)
    requires DateField(field, v).Ok?
    ensures (v.VInt? || v.VStr?) ==> ScalarInt(v).Some?
    ensures !(v.VInt? || v.VStr?) ==> IntItems(v).Some?
    ensures var ts := DateField(field, v).value;
            var xs := DateNumbers(v);
            |ts| == |xs| && forall k :: 0 <= k < |xs| ==> ts[k] == VStr(ZeroPad(xs[k], 2))
  {
    if !(v.VInt? || v.VStr?) {
      var ts := DateField(field, v).value;
      var xs := DateNumbers(v);
      forall k | 0 <= k < |xs| ensures ts[k] == VStr(ZeroPad(xs[k], 2)) {
        assert ZeroPad(xs[k], 2) + "" == ZeroPad(xs[k], 2);
      }
    }
  }

  lemma PadsReadBack(ts: seq<Value>, xs: seq<int>)
    requires |ts| == |xs| && forall k :: 0 <= k < |xs| ==> ts[k] == VStr(ZeroPad(xs[k], 2))
    ensures forall k :: 0 <= k < |xs| ==> ts[k].VStr? && |ts[k].s| >= 2 && ParseInt(ts[k].s) == Some(xs[k])
  {
    forall k | 0 <= k < |xs| ensures ParseInt(ZeroPad(xs[k], 2)) == Some(xs[k]) {
      ZeroPadRoundTrip(xs[k], 2);
    }
  }

  /** Month and day always come from the month and day arguments: they are
      never left in `**kwargs`, so no keyword overrides them. */
  lemma RequestMonthDay(bbox: seq<Value>, year: Value, kwargs: seq<Entry>)
    requires UniqueKeys(kwargs)
    requires MakeGeospatialRequestDefaults(bbox, year, kwargs).Ok?
    ensures Get(MakeGeospatialRequestDefaults(bbox, year, kwargs).value, "month")
         == Some(VList(DateField("month", Arg(kwargs, "month", DefaultMonths())).value))
    ensures Get(MakeGeospatialRequestDefaults(bbox, year, kwargs).value, "day")
         == Some(VList(DateField("day", Arg(kwargs, "day", DefaultDays())).value))
  {
    var f := RequestFields(year, kwargs).value;
    GeospatialRequestGet(bbox, year, kwargs, "month");
    GeospatialRequestGet(bbox, year, kwargs, "day");
    BaseRequestGet(f.0, f.1, f.2, f.3, AreaNWSE(bbox));
  }

  /** Without `hours` and `time` keywords the times are "HH:00" for the
      hours 0, 3, ..., 21. */
  lemma DefaultTimes(bbox: seq<Value>, year: Value, kwargs: seq<Entry>)
    requires UniqueKeys(kwargs)
    requires MakeGeospatialRequestDefaults(bbox, year, kwargs).Ok?
    requires "hours" !in KeySet(kwargs) && "time" !in KeySet(kwargs)
    ensures var g := Get(MakeGeospatialRequestDefaults(bbox, year, kwargs).value, "time");
            && g.Some? && g.value.VList? && |g.value.items| == 8
            && forall k :: 0 <= k < 8 ==>
                 var t := g.value.items[k];
                 t.VStr? && |t.s| == 5 && t.s[2..] == ":00" && ParseInt(t.s[..2]) == Some(3 * k)
  {
    var f := RequestFields(year, kwargs).value;
    GeospatialRequestGet(bbox, year, kwargs, "time");
    BaseRequestGet(f.0, f.1, f.2, f.3, AreaNWSE(bbox));
    assert Get(MakeGeospatialRequestDefaults(bbox, year, kwargs).value, "time") == Some(VList(f.3));
    var hours := IntItems(DefaultHours()).value;
    assert |hours| == 8 && forall k :: 0 <= k < 8 ==> hours[k] == 3 * k;
    forall k | 0 <= k < 8
      ensures f.3[k].VStr? && |f.3[k].s| == 5 && f.3[k].s[2..] == ":00" && ParseInt(f.3[k].s[..2]) == Some(3 * k)
    {
      var hh := ZeroPad(3 * k, 2);
      ZeroPadRoundTrip(3 * k, 2);
      TwoDigits(3 * k);
      assert f.3[k] == VStr(hh + ":00");
      assert (hh + ":00")[..2] == hh;
    }
  }

  lemma TwoDigits(n: nat)
    requires n < 100
    ensures |ZeroPad(n, 2)| == 2
  {
    assert |NatToString(n)| <= 2 by {
      if n >= 10 {
        assert NatToString(n) == NatToString(n / 10) + NatToString(n % 10);
      }
    }
  }

  /** Keywords other than month, day and hours reach the request unchanged
      and override the defaults; `hours` itself never does. */
  lemma ExtraKeywordsOverride(bbox: seq<Value>, year: Value, kwargs: seq<Entry>, key: string)
    requires UniqueKeys(kwargs)
    requires MakeGeospatialRequestDefaults(bbox, year, kwargs).Ok?
    ensures key in KeySet(kwargs) && !Named(key) ==>
              Get(MakeGeospatialRequestDefaults(bbox, year, kwargs).value, key) == Get(kwargs, key)
    ensures "hours" !in KeySet(MakeGeospatialRequestDefaults(bbox, year, kwargs).value)
  {
    var f := RequestFields(year, kwargs).value;
    GeospatialRequestGet(bbox, year, kwargs, key);
    GeospatialRequestGet(bbox, year, kwargs, "hours");
    BaseRequestGet(f.0, f.1, f.2, f.3, AreaNWSE(bbox));
  }

  // ---------------------------------------------------------------------------
  // make_name_from_request
  // ---------------------------------------------------------------------------

  /** A one-element list stands for its element. */
  function Unwrap(v: Value): Value {
    if v.VList? && |v.items| == 1 then v.items[0] else v
  }

  /** The copied keyword dictionary with single-element lists unwrapped. */
  function Unwrapped(es: seq<Entry>): (ns: Namespace)
    ensures ns.Keys == KeySet(es)
  {
    map k | k in KeySet(es) :: Unwrap(Get(es, k).value)
  }

  /** `fname.format(**namespace)`; a name missing from the namespace raises. */
  function MakeNameFromRequest(fmt: string, namespace: seq<Entry>): (r: Result<string, CdsError>)
    ensures NoBraces(fmt) ==> r == Ok(fmt)
    ensures r.Err? ==> r.error.NameError?
  {
    match FormatWith(fmt, Unwrapped(namespace), true)
    case Ok(x) => Ok(x)
    case Err(e) => Err(NameError(e))
  }

  /** A single field: a one-element list gives its element, any other
      value (a longer or empty list included) its str(), and a missing
      name is an error. */
  lemma NameField(n: string, es: seq<Entry>)
    requires SimpleName(n)
    ensures n !in KeySet(es) ==> MakeNameFromRequest(Ref(n), es) == Err(NameError(KeyMissing(n)))
    ensures n in KeySet(es) && !(Get(es, n).value.VList? && |Get(es, n).value.items| == 1) ==>
              MakeNameFromRequest(Ref(n), es) == Ok(Str(Get(es, n).value))
    ensures n in KeySet(es) && Get(es, n).value.VList? && |Get(es, n).value.items| == 1 ==>
              MakeNameFromRequest(Ref(n), es) == Ok(Str(Get(es, n).value.items[0]))
  {
    FormatField(n, "", Unwrapped(es), true);
    assert Ref(n) == "{" + n + "}" + "";
    if n in KeySet(es) {
      var t := Str(Unwrapped(es)[n]);
      assert t + "" == t;
    }
  }

  /** A one-element list stands for its element. */
  lemma NameFieldUnwrapped(n: string, es: seq<Entry>, v: Value)
    requires SimpleName(n) && Get(es, n) == Some(VList([v]))
    ensures MakeNameFromRequest(Ref(n), es) == Ok(Str(v))
  {
    FormatField(n, "", Unwrapped(es), true);
    assert Ref(n) == "{" + n + "}" + "";
    assert Unwrapped(es)[n] == v;
    assert Str(v) + "" == Str(v);
  }

  /** A two-element variable list is written with its brackets and quotes. */
  lemma NameFieldList(n: string, es: seq<Entry>, a: string, b: string)
    requires SimpleName(n) && Plain(a) && Plain(b) && Get(es, n) == Some(VList([VStr(a), VStr(b)]))
    ensures MakeNameFromRequest(Ref(n), es) == Ok("['" + a + "', '" + b + "']")
  {
    NameField(n, es);
    TwoNameListStr(a, b);
  }

  // ---------------------------------------------------------------------------
  // make_cds_request
  // ---------------------------------------------------------------------------

  /** The output-name placeholder: "reanalysis-era5-" removed, then every
      '-' replaced by '_'. */
  function DatasetName(dataset: string): string {
    Replace(Replace(dataset, "reanalysis-era5-", ""), "-", "_")
  }

  lemma DatasetNameOfEra5(x: string)
    requires !Contains(x, "reanalysis-era5-")
    ensures |DatasetName("reanalysis-era5-" + x)| == |x|
    ensures forall k :: 0 <= k < |x| ==>
              DatasetName("reanalysis-era5-" + x)[k] == if x[k] == '-' then '_' else x[k]
  {
    var p := "reanalysis-era5-";
    assert (p + x)[..|p|] == p && (p + x)[|p|..] == x;
    ReplaceAbsent(x, p, "");
    assert Replace(p + x, p, "") == x;
    ReplaceChar(x, '-', '_');
  }

  /** `locals()` inside make_cds_request just before the name is made. */
  function Locals(bbox: seq<Value>, year: Value, fmt: string, kwargs: seq<Entry>,
                  dataset: string, name: string, request: seq<Entry>): seq<Entry>
  {
    [Entry("bbox_WSEN", VList(bbox)),
     Entry("year", year),
     Entry("output_name_fmt", VStr(fmt)),
     Entry("kwargs", VDict(kwargs)),
     Entry("dataset", VStr(dataset)),
     Entry("name", VStr(name)),
     Entry("request_dict", VDict(request))]
  }

  lemma LocalsUnique(bbox: seq<Value>, year: Value, fmt: string, kwargs: seq<Entry>,
                     dataset: string, name: string, request: seq<Entry>)
    ensures UniqueKeys(Locals(bbox, year, fmt, kwargs, dataset, name, request))
  {
  }

  /** make_cds_request(bbox_WSEN, year, output_name_fmt, **kwargs). */
  function MakeCdsRequest(bbox: seq<Value>, year: Value, fmt: string, kwargs: seq<Entry>): (r: Result<CdsRequest, CdsError>)
    requires UniqueKeys(kwargs)
    ensures "dataset" !in KeySet(kwargs) ==> r == Err(MissingDataset)
    ensures "dataset" in KeySet(kwargs) && "variable" !in KeySet(kwargs) ==> r == Err(MissingVariable)
    ensures (forall ds :: Get(kwargs, "dataset") == Some(VStr(ds)) && Contains(ds, "pressure") &&
                          "variable" in KeySet(kwargs) && "pressure_level" !in KeySet(kwargs) ==>
               r == Err(MissingPressureLevel))
    ensures r.Ok? ==> Get(kwargs, "dataset") == Some(VStr(r.value.dataset))
    ensures r.Ok? ==> r == RequestForDataset(bbox, year, fmt, RemoveKey(kwargs, "dataset"), r.value.dataset)
    ensures r.Ok? ==> Ok(r.value.request) == MakeGeospatialRequestDefaults(bbox, year, RemoveKey(kwargs, "dataset"))
  {
    if "dataset" !in KeySet(kwargs) then Err(MissingDataset)
    else if "variable" !in KeySet(kwargs) then Err(MissingVariable)
    else
      var d := Get(kwargs, "dataset").value;
      if !d.VStr? then Err(DatasetNotString)
      else if Contains(d.s, "pressure") && "pressure_level" !in KeySet(kwargs) then Err(MissingPressureLevel)
      else
        RequestForDataset(bbox, year, fmt, RemoveKey(kwargs, "dataset"), d.s)
  }

  /** The request never holds the dataset, always holds the variable, and
      holds the pressure level for a pressure-level dataset. */
  lemma MakeCdsRequestKeys(bbox: seq<Value>, year: Value, fmt: string, kwargs: seq<Entry>)
    requires UniqueKeys(kwargs) && MakeCdsRequest(bbox, year, fmt, kwargs).Ok?
    ensures var q := MakeCdsRequest(bbox, year, fmt, kwargs).value;
            && "dataset" !in KeySet(q.request) && "variable" in KeySet(q.request)
            && (Contains(q.dataset, "pressure") ==> "pressure_level" in KeySet(q.request))
  {
  }

  /** The rest of make_cds_request once the dataset is popped from the
      keywords: the request dictionary, then the output name. */
  function RequestForDataset(bbox: seq<Value>, year: Value, fmt: string, rest: seq<Entry>, dataset: string): (r: Result<CdsRequest, CdsError>)
    requires UniqueKeys(rest)
    ensures r.Ok? ==> r.value.dataset == dataset
    ensures r.Ok? ==> Ok(r.value.request) == MakeGeospatialRequestDefaults(bbox, year, rest)
    ensures r.Ok? ==> Ok(r.value.outputName) == MakeNameFromRequest(fmt, Update(Locals(bbox, year, fmt, rest, dataset, DatasetName(dataset), r.value.request), r.value.request))
    ensures r.Ok? && "dataset" !in KeySet(rest) ==> "dataset" !in KeySet(r.value.request)
    ensures r.Ok? && "variable" in KeySet(rest) ==> "variable" in KeySet(r.value.request)
    ensures r.Ok? && "pressure_level" in KeySet(rest) ==> "pressure_level" in KeySet(r.value.request)
  {
    if "bbox" in KeySet(rest) then Err(DuplicateArgument("bbox"))
    else if "year" in KeySet(rest) then Err(DuplicateArgument("year"))
    else
      var request :- MakeGeospatialRequestDefaults(bbox, year, rest);
      var namespace := Update(Locals(bbox, year, fmt, rest, dataset, DatasetName(dataset), request), request);
      if "fname" in KeySet(namespace) then Err(DuplicateArgument("fname"))
      else
        var name :- MakeNameFromRequest(fmt, namespace);
        RequestKeys(bbox, year, rest, "dataset");
        RequestKeys(bbox, year, rest, "variable");
        RequestKeys(bbox, year, rest, "pressure_level");
        Ok(CdsRequest(dataset, request, name))
  }

  lemma PlaceholderNames()
    ensures SimpleName("year") && SimpleName("name")
  {
    assert !IsDigit("year"[0]) && !IsDigit("name"[0]);
  }

  /** With the template "{year}" the output name is the padded year: the
      request's one-element year list is unwrapped, and it overrides the
      `year` argument in the namespace. */
  lemma OutputNameYear(bbox: seq<Value>, year: Value, rest: seq<Entry>, dataset: string)
    requires UniqueKeys(rest)
    requires RequestForDataset(bbox, year, Ref("year"), rest, dataset).Ok?
    ensures RequestForDataset(bbox, year, Ref("year"), rest, dataset).value.outputName
         == ZeroPad(ScalarInt(year).value, 4)
  {
    var request := MakeGeospatialRequestDefaults(bbox, year, rest).value;
    var f := RequestFields(year, rest).value;
    BaseRequestUnique(f.0, f.1, f.2, f.3, AreaNWSE(bbox));
    RequestYear(bbox, year, rest);
    var locals := Locals(bbox, year, Ref("year"), rest, dataset, DatasetName(dataset), request);
    var ns := Update(locals, request);
    GetUpdate(locals, request, "year");
    PlaceholderNames();
    NameFieldUnwrapped("year", ns, VStr(ZeroPad(ScalarInt(year).value, 4)));
  }

  /** With the template "{name}" the output name is the shortened dataset
      name, unless a keyword called `name` overrides it. */
  lemma OutputNameDataset(bbox: seq<Value>, year: Value, rest: seq<Entry>, dataset: string)
    requires UniqueKeys(rest) && "name" !in KeySet(rest)
    requires RequestForDataset(bbox, year, Ref("name"), rest, dataset).Ok?
    ensures RequestForDataset(bbox, year, Ref("name"), rest, dataset).value.outputName == DatasetName(dataset)
  {
    var request := MakeGeospatialRequestDefaults(bbox, year, rest).value;
    var f := RequestFields(year, rest).value;
    BaseRequestUnique(f.0, f.1, f.2, f.3, AreaNWSE(bbox));
    RequestKeys(bbox, year, rest, "name");
    assert UniqueKeys(request) && "name" !in KeySet(request);
    NameFromLocals(bbox, year, rest, dataset, request);
  }

  /** The `name` local reads the shortened dataset name when the request
      does not override it. */
  lemma NameFromLocals(bbox: seq<Value>, year: Value, rest: seq<Entry>, dataset: string, request: seq<Entry>)
    requires UniqueKeys(request) && "name" !in KeySet(request)
    ensures MakeNameFromRequest(Ref("name"), Update(Locals(bbox, year, Ref("name"), rest, dataset, DatasetName(dataset), request), request))
            == Ok(DatasetName(dataset))
  {
    var locals := Locals(bbox, year, Ref("name"), rest, dataset, DatasetName(dataset), request);
    LocalsUnique(bbox, year, Ref("name"), rest, dataset, DatasetName(dataset), request);
    GetUnique(locals, 5);
    var ns := Update(locals, request);
    GetUpdate(locals, request, "name");
    PlaceholderNames();
    NameField("name", ns);
  }

  // ---------------------------------------------------------------------------
  // make_cds_requests_list: the day loop
  // ---------------------------------------------------------------------------

  /** Strictly increasing calendar order. */
  predicate Chronological(ds: seq<Date>) {
    forall i, j :: 0 <= i < j < |ds| ==> Before(ds[i], ds[j])
  }

  lemma ChronologicalConcat(a: seq<Date>, b: seq<Date>)
    requires Chronological(a) && Chronological(b)
    requires forall x, y :: x in a && y in b ==> Before(x, y)
    ensures Chronological(a + b)
  {
    forall i, j | 0 <= i < j < |a + b| ensures Before((a + b)[i], (a + b)[j]) {
      if j < |a| {
        assert (a + b)[i] == a[i] && (a + b)[j] == a[j];
      } else if i >= |a| {
        assert (a + b)[i] == b[i - |a|] && (a + b)[j] == b[j - |a|];
      } else {
        assert (a + b)[i] in a && (a + b)[j] in b;
      }
    }
  }

  /** The three nested loops `for year in range(y0, last + 1)`,
      `for month in range(1, 13)`, `for day in range(1, 32)`, resumed at
      year `y`, month `m`, day `d`; a combination `datetime` rejects is
      skipped. */
  function Loop(y: int, m: int, d: int, last: int): (r: seq<Date>)
    requires 1 <= m <= 12 && 1 <= d <= 31
    ensures forall e :: e in r <==> IsDatetimeDate(e) && !Before(e, Date(y, m, d)) && e.year <= last
    ensures Chronological(r)
    decreases last - y, 12 - m, 31 - d
  {
    if y > last then []
    else
      var here := if IsDatetimeDate(Date(y, m, d)) then [Date(y, m, d)] else [];
      var rest :=
        if d < 31 then Loop(y, m, d + 1, last)
        else if m < 12 then Loop(y, m + 1, 1, last)
        else Loop(y + 1, 1, 1, last);
      assert forall z :: z in rest ==> Before(Date(y, m, d), z);
      ChronologicalConcat(here, rest);
      assert forall e :: e in here + rest <==> IsDatetimeDate(e) && !Before(e, Date(y, m, d)) && e.year <= last by {
        forall e
          ensures e in here + rest <==> IsDatetimeDate(e) && !Before(e, Date(y, m, d)) && e.year <= last
        {
          assert e in here + rest <==> e in here || e in rest;
          if e == Date(y, m, d) {
            assert !Before(e, e);
          }
        }
      }
      here + rest
  }

  /** The days `make_cds_requests_list` visits for the years `first` to
      `last`. */
  function YearLoop(first: int, last: int): (r: seq<Date>)
    ensures forall e :: e in r <==> IsDatetimeDate(e) && first <= e.year <= last
    ensures Chronological(r)
  {
    Loop(first, 1, 1, last)
  }

  function DateOrder(): (Date, Date) -> bool {
    (a: Date, b: Date) => Before(a, b)
  }

  lemma DateOrderIsOrder()
    ensures IsStrictTotalOrder(DateOrder())
  {
  }

  /** The loop visits exactly the days from 1 January of the first year up
      to, not including, 1 January after the last year, in order. */
  lemma YearLoopIsDaysBetween(first: int, last: int)
    requires 1 <= first && last <= 9999
    ensures YearLoop(first, last) == DaysBetween(Date(first, 1, 1), Date(last + 1, 1, 1))
  {
    var a, b := Date(first, 1, 1), Date(last + 1, 1, 1);
    var loop := YearLoop(first, last);
    var days := DaysBetween(a, b);
    var n := if Ordinal(b) > Ordinal(a) then Ordinal(b) - Ordinal(a) else 0;
    DaysFromOrdinals(a, n);
    assert forall k :: 0 <= k < |days| ==> Valid(days[k]) && Ordinal(days[k]) == Ordinal(a) + k;
    assert SortedBy(days, DateOrder()) by {
      forall i, j | 0 <= i < j < |days| ensures Before(days[i], days[j]) {
        OrdinalMonotone(days[i], days[j]);
      }
    }
    forall e ensures e in loop <==> e in days {
      if Valid(e) {
        DaysBetweenMembers(a, b, e);
        OrdinalMonotone(a, e);
        OrdinalMonotone(e, b);
        assert e in days <==> first <= e.year <= last;
      } else {
        assert e !in days;
        assert e !in loop;
      }
    }
    DateOrderIsOrder();
    SortedUniqueIsCanonical(loop, days, DateOrder());
  }

  // ---------------------------------------------------------------------------
  // make_cds_requests_list: two requests per day
  // ---------------------------------------------------------------------------

  /** The first keyword of the call that some level dictionary repeats. */
  function Duplicate(levels: seq<Entry>): (r: Option<string>)
    ensures r.None? <==> forall k :: k in KeySet(levels) ==> !CallKeyword(k)
    ensures r.Some? ==> r.value in KeySet(levels) && CallKeyword(r.value)
  {
    if "month" in KeySet(levels) then Some("month")
    else if "day" in KeySet(levels) then Some("day")
    else if "bbox_WSEN" in KeySet(levels) then Some("bbox_WSEN")
    else if "year" in KeySet(levels) then Some("year")
    else if "output_name_fmt" in KeySet(levels) then Some("output_name_fmt")
    else None
  }

  /** The keywords the call passes itself: the positional parameters and the
      loop's month and day. */
  predicate CallKeyword(k: string) {
    k == "month" || k == "day" || k == "bbox_WSEN" || k == "year" || k == "output_name_fmt"
  }

  /** `month=month, day=day, **levels`. */
  function DayKeywords(d: Date, levels: seq<Entry>): (r: Result<seq<Entry>, CdsError>)
    requires UniqueKeys(levels)
    ensures r.Err? <==> Duplicate(levels).Some?
    ensures r.Err? ==> r.error == DuplicateArgument(Duplicate(levels).value)
    ensures r.Ok? ==> UniqueKeys(r.value) && r.value == [Entry("month", VInt(d.month)), Entry("day", VInt(d.day))] + levels
  {
    match Duplicate(levels)
    case Some(k) => Err(DuplicateArgument(k))
    case None =>
      var kw := [Entry("month", VInt(d.month)), Entry("day", VInt(d.day))] + levels;
      assert forall i :: 0 <= i < |levels| ==> levels[i].key in KeySet(levels);
      Ok(kw)
  }

  /** `first` and `second` are the two requests made for day `d`. */
  predicate DayRequests(d: Date, bbox: seq<Value>, fmt: string, single: seq<Entry>, pressure: seq<Entry>,
                        first: CdsRequest, second: CdsRequest)
    requires UniqueKeys(single) && UniqueKeys(pressure)
  {
    && DayKeywords(d, single).Ok? && DayKeywords(d, pressure).Ok?
    && MakeCdsRequest(bbox, VInt(d.year), fmt, DayKeywords(d, single).value) == Ok(first)
    && MakeCdsRequest(bbox, VInt(d.year), fmt, DayKeywords(d, pressure).value) == Ok(second)
  }

  /** The two requests made for day `d`: single level, then pressure level;
      the first failure is the day's error. */
  function DayPair(d: Date, bbox: seq<Value>, fmt: string, single: seq<Entry>, pressure: seq<Entry>)
    : (r: Result<(CdsRequest, CdsRequest), CdsError>)
    requires UniqueKeys(single) && UniqueKeys(pressure)
    ensures r.Ok? <==> (&& DayKeywords(d, single).Ok? && DayKeywords(d, pressure).Ok?
                        && MakeCdsRequest(bbox, VInt(d.year), fmt, DayKeywords(d, single).value).Ok?
                        && MakeCdsRequest(bbox, VInt(d.year), fmt, DayKeywords(d, pressure).value).Ok?)
    ensures r.Ok? ==> DayRequests(d, bbox, fmt, single, pressure, r.value.0, r.value.1)
  {
    var kw1 :- DayKeywords(d, single);
    var r1 :- MakeCdsRequest(bbox, VInt(d.year), fmt, kw1);
    var kw2 :- DayKeywords(d, pressure);
    var r2 :- MakeCdsRequest(bbox, VInt(d.year), fmt, kw2);
    Ok((r1, r2))
  }

  /** Two outputs per input, in input order; the first input whose pair
      fails ends the list with its error. */
  function Pairs<D, R(==), E(==)>(xs: seq<D>, f: D -> Result<(R, R), E>): (r: Result<seq<R>, E>)
    ensures r.Ok? <==> forall i :: 0 <= i < |xs| ==> f(xs[i]).Ok?
    ensures r.Ok? ==> |r.value| == 2 * |xs|
    ensures r.Ok? ==> forall i :: 0 <= i < |xs| ==> f(xs[i]) == Ok((r.value[2 * i], r.value[2 * i + 1]))
    ensures r.Err? ==> exists i :: 0 <= i < |xs| && f(xs[i]) == Err(r.error)
                                   && forall j :: 0 <= j < i ==> f(xs[j]).Ok?
    decreases |xs|
  {
    if |xs| == 0 then Ok([])
    else
      var pair :- f(xs[0]);
      var rest := Pairs(xs[1..], f);
      assert forall i :: 1 <= i < |xs| ==> xs[i] == xs[1..][i - 1];
      if rest.Err? then
        var i :| 0 <= i < |xs[1..]| && f(xs[1..][i]) == Err(rest.error)
                 && forall j :: 0 <= j < i ==> f(xs[1..][j]).Ok?;
        assert f(xs[i + 1]) == Err(rest.error);
        Err(rest.error)
      else
        PairsCons(xs, pair.0, pair.1, rest.value, (e: D, a: R, b: R) => f(e) == Ok((a, b)));
        Ok([pair.0, pair.1] + rest.value)
  }

  /** For each day, the single-level request and then the pressure-level
      request; the first failure ends the list. */
  function RequestsForDays(days: seq<Date>, bbox: seq<Value>, fmt: string,
                           single: seq<Entry>, pressure: seq<Entry>): (r: Result<seq<CdsRequest>, CdsError>)
    requires UniqueKeys(single) && UniqueKeys(pressure)
    ensures r.Ok? <==> forall i :: 0 <= i < |days| ==> DayPair(days[i], bbox, fmt, single, pressure).Ok?
    ensures r.Ok? ==> |r.value| == 2 * |days|
    ensures r.Ok? ==> forall i :: 0 <= i < |days| ==>
              DayRequests(days[i], bbox, fmt, single, pressure, r.value[2 * i], r.value[2 * i + 1])
  {
    Pairs(days, d => DayPair(d, bbox, fmt, single, pressure))
  }

  /** Two outputs per input: the pair for the first input, then the pairs
      for the rest. */
  lemma PairsCons<D, R>(xs: seq<D>, r1: R, r2: R, rest: seq<R>, p: (D, R, R) -> bool)
    requires |xs| > 0 && |rest| == 2 * (|xs| - 1) && p(xs[0], r1, r2)
    requires forall i :: 0 <= i < |xs| - 1 ==> p(xs[1..][i], rest[2 * i], rest[2 * i + 1])
    ensures forall i :: 0 <= i < |xs| ==> p(xs[i], ([r1, r2] + rest)[2 * i], ([r1, r2] + rest)[2 * i + 1])
  {
    var r := [r1, r2] + rest;
    forall i | 0 <= i < |xs| ensures p(xs[i], r[2 * i], r[2 * i + 1]) {
      if i > 0 {
        assert xs[i] == xs[1..][i - 1];
        assert r[2 * i] == rest[2 * (i - 1)] && r[2 * i + 1] == rest[2 * (i - 1) + 1];
      }
    }
  }

  /** make_cds_requests_list(request_config). */
  function MakeCdsRequestsList(bbox: seq<Value>, startYear: int, endYear: int, fmt: string,
                               single: seq<Entry>, pressure: seq<Entry>): Result<seq<CdsRequest>, CdsError>
    requires UniqueKeys(single) && UniqueKeys(pressure)
  {
    RequestsForDays(YearLoop(startYear, endYear), bbox, fmt, single, pressure)
  }

  /** Every day from 1 January of the start year to 31 December of the end
      year, in order, gets a single-level request and then a pressure-level
      request, whose year, month and day fields are that day's, padded. */
  lemma RequestsCoverEveryDay(bbox: seq<Value>, startYear: int, endYear: int, fmt: string,
                              single: seq<Entry>, pressure: seq<Entry>)
    requires UniqueKeys(single) && UniqueKeys(pressure)
    requires 1 <= startYear && endYear <= 9999
    requires MakeCdsRequestsList(bbox, startYear, endYear, fmt, single, pressure).Ok?
    ensures var r := MakeCdsRequestsList(bbox, startYear, endYear, fmt, single, pressure).value;
            var days := DaysBetween(Date(startYear, 1, 1), Date(endYear + 1, 1, 1));
            && |r| == 2 * |days|
            && forall i :: 0 <= i < |days| ==>
                 && Get(single, "dataset") == Some(VStr(r[2 * i].dataset))
                 && Get(pressure, "dataset") == Some(VStr(r[2 * i + 1].dataset))
                 && RequestDate(r[2 * i], days[i]) && RequestDate(r[2 * i + 1], days[i])
  {
    YearLoopIsDaysBetween(startYear, endYear);
    var r := MakeCdsRequestsList(bbox, startYear, endYear, fmt, single, pressure).value;
    var days := YearLoop(startYear, endYear);
    forall i | 0 <= i < |days|
      ensures Get(single, "dataset") == Some(VStr(r[2 * i].dataset))
      ensures Get(pressure, "dataset") == Some(VStr(r[2 * i + 1].dataset))
      ensures RequestDate(r[2 * i], days[i]) && RequestDate(r[2 * i + 1], days[i])
    {
      assert days[i] in days;
      DayRequestDate(days[i], bbox, fmt, single);
      DayRequestDate(days[i], bbox, fmt, pressure);
    }
  }

  /** The request's year, month and day are the date's, zero-padded. */
  predicate RequestDate(q: CdsRequest, d: Date) {
    && Get(q.request, "year") == Some(VList([VStr(ZeroPad(d.year, 4))]))
    && Get(q.request, "month") == Some(VList([VStr(ZeroPad(d.month, 2))]))
    && Get(q.request, "day") == Some(VList([VStr(ZeroPad(d.day, 2))]))
  }

  lemma DayRequestDate(d: Date, bbox: seq<Value>, fmt: string, levels: seq<Entry>)
    requires UniqueKeys(levels) && DayKeywords(d, levels).Ok?
    requires MakeCdsRequest(bbox, VInt(d.year), fmt, DayKeywords(d, levels).value).Ok?
    ensures Get(levels, "dataset") == Some(VStr(MakeCdsRequest(bbox, VInt(d.year), fmt, DayKeywords(d, levels).value).value.dataset))
    ensures RequestDate(MakeCdsRequest(bbox, VInt(d.year), fmt, DayKeywords(d, levels).value).value, d)
  {
    var kw := DayKeywords(d, levels).value;
    var q := MakeCdsRequest(bbox, VInt(d.year), fmt, kw).value;
    var rest := RemoveKey(kw, "dataset");
    assert kw[2..] == levels;
    GetFirst(kw, "month", 0);
    GetFirst(kw, "day", 1);
    assert Get(kw, "dataset") == Get(levels, "dataset");
    assert "year" !in KeySet(rest);
    RequestYear(bbox, VInt(d.year), rest);
    RequestMonthDay(bbox, VInt(d.year), rest);
    assert Arg(rest, "month", DefaultMonths()) == VInt(d.month);
    assert Arg(rest, "day", DefaultDays()) == VInt(d.day);
  }
}

=== FILE: config_checks.dfy ===
/**
 * Checks run on a loaded configuration (`scripts/config/loader.py`, and the
 * older copy `scripts/data_config_loader.py`): required ERA5 variables and
 * pressure levels, the S3 paths, and the `bbox_str` entry added before the
 * format strings are resolved.
 */
module ConfigChecks {
  import opened Wrappers
  import opened Text
  import opened Formatting
  import S3Path

  /** An element of a YAML list: a string, or a number as YAML reads it. */
  datatype Item = IStr(s: string) | INum(n: int)

  /** KeyError carrying the field name (when given) and the missing items. */
  datatype MissingKeys = MissingKeys(field: Option<string>, missing: seq<string>)

  /** `key in lst`: a number never equals a string. */
  predicate Present(lst: seq<Item>, key: string) {
    IStr(key) in lst
  }

  /** `a` is `b` with some elements left out, the rest kept in order. */
  predicate Subsequence<T(==)>(a: seq<T>, b: seq<T>)
    decreases |b|
  {
    |a| == 0 || (|b| > 0 && ((a[0] == b[0] && Subsequence(a[1..], b[1..])) || Subsequence(a, b[1..])))
  }

  /** The required items absent from `lst`, in the order of `required`. */
  function Missing(lst: seq<Item>, required: seq<string>): (r: seq<string>)
    ensures forall x :: x in r <==> x in required && !Present(lst, x)
    ensures Subsequence(r, required)
    ensures |r| <= |required|
    decreases |required|
  {
    if |required| == 0 then []
    else
      var rest := Missing(lst, required[1..]);
      assert forall x :: x in required <==> x == required[0] || x in required[1..];
      if Present(lst, required[0]) then rest else [required[0]] + rest
  }

  /** _check_missing_values: True when every required item is present,
      otherwise KeyError listing exactly the missing ones. */
  function CheckMissingValues(lst: seq<Item>, required: seq<string>, name: Option<string>)
    : (r: Result<bool, MissingKeys>)
    ensures r.Ok? <==> forall k :: 0 <= k < |required| ==> Present(lst, required[k])
    ensures r.Ok? ==> r.value
    ensures r.Err? ==> r.error.field == name && |r.error.missing| > 0
    ensures r.Err? ==> r.error.missing == Missing(lst, required)
  {
    var missing := Missing(lst, required);
    if |missing| > 0 then
      assert missing[0] in missing;
      Err(MissingKeys(name, missing))
    else
      assert forall k :: 0 <= k < |required| ==> required[k] in required;
      Ok(true)
  }

  lemma {:induction false} MissingSameMembers(lst1: seq<Item>, lst2: seq<Item>, required: seq<string>)
    requires forall x :: Present(lst1, x) <==> Present(lst2, x)
    ensures Missing(lst1, required) == Missing(lst2, required)
    decreases |required|
  {
    if |required| > 0 {
      MissingSameMembers(lst1, lst2, required[1..]);
    }
  }

  /** Only membership matters: order, repetitions and extra items of the
      checked list do not change the outcome. */
  lemma OnlyMembershipMatters(lst1: seq<Item>, lst2: seq<Item>, required: seq<string>, name: Option<string>)
    requires forall x :: Present(lst1, x) <==> Present(lst2, x)
    ensures CheckMissingValues(lst1, required, name) == CheckMissingValues(lst2, required, name)
  {
    MissingSameMembers(lst1, lst2, required);
  }

  /** A level read from YAML as a number is not the string the check wants. */
  lemma NumericLevelIsMissing()
    ensures CheckMissingValues([INum(700)], ["700"], None) == Err(MissingKeys(None, ["700"]))
  {
    var lst, req := [INum(700)], ["700"];
    assert !Present(lst, req[0]);
    assert req[1..] == [];
    assert Missing(lst, req[1..]) == [];
    assert Missing(lst, req) == ["700"];
    assert |Missing(lst, req)| > 0;
  }

  const SingleLevelVariables: seq<string> := [
    "surface_solar_radiation_downwards",
    "surface_thermal_radiation_downwards",
    "toa_incident_solar_radiation",
    "total_precipitation",
    "10m_u_component_of_wind",
    "10m_v_component_of_wind",
    "surface_pressure",
    "2m_dewpoint_temperature",
    "2m_temperature"]

  const PressureLevelVariables: seq<string> := [
    "geopotential",
    "specific_humidity",
    "temperature",
    "u_component_of_wind",
    "v_component_of_wind"]

  /** '700 750 800 850 900 950 1000'.split() */
  const PressureLevels: seq<string> := ["700", "750", "800", "850", "900", "950", "1000"]

  const SingleLevelField: string := "era5.single_levels.variable"
  const PressureVariableField: string := "era5.pressure_levels.variable"
  const PressureLevelField: string := "era5.pressure_levels.pressure_level"

  predicate AllPresent(lst: seq<Item>, required: seq<string>) {
    forall k :: 0 <= k < |required| ==> Present(lst, required[k])
  }

  function CheckSingleLevel(variables: seq<Item>): (r: Result<bool, MissingKeys>)
    ensures r.Ok? <==> AllPresent(variables, SingleLevelVariables)
    ensures r.Err? ==> r.error.field == Some(SingleLevelField) && |r.error.missing| > 0
  {
    CheckMissingValues(variables, SingleLevelVariables, Some(SingleLevelField))
  }

  /** Variables are checked first, so a missing variable is reported even
      when levels are missing too. */
  function CheckPressureLevel(variables: seq<Item>, levels: seq<Item>): (r: Result<bool, MissingKeys>)
    ensures r.Ok? <==> AllPresent(variables, PressureLevelVariables) && AllPresent(levels, PressureLevels)
    ensures r.Ok? ==> r.value
    ensures !AllPresent(variables, PressureLevelVariables) ==>
              r.Err? && r.error.field == Some(PressureVariableField)
    ensures AllPresent(variables, PressureLevelVariables) && !AllPresent(levels, PressureLevels) ==>
              r.Err? && r.error == MissingKeys(Some(PressureLevelField), Missing(levels, PressureLevels))
  {
    match CheckMissingValues(variables, PressureLevelVariables, Some(PressureVariableField))
    case Err(e) => Err(e)
    case Ok(passesValues) =>
      match CheckMissingValues(levels, PressureLevels, Some(PressureLevelField))
      case Err(e) => Err(e)
      case Ok(passesLevels) => Ok(passesValues && passesLevels)
  }

  /** check_era5_vars: the single-level check runs before the
      pressure-level check. */
  function CheckEra5Vars(single: seq<Item>, pressureVariables: seq<Item>, pressureLevels: seq<Item>)
    : (r: Result<(), MissingKeys>)
    ensures r.Ok? <==> AllPresent(single, SingleLevelVariables) &&
                       AllPresent(pressureVariables, PressureLevelVariables) &&
                       AllPresent(pressureLevels, PressureLevels)
    ensures !AllPresent(single, SingleLevelVariables) ==> r.Err? && r.error.field == Some(SingleLevelField)
    ensures AllPresent(single, SingleLevelVariables) && r.Err? ==>
              r.error.field in {Some(PressureVariableField), Some(PressureLevelField)}
  {
    match CheckSingleLevel(single)
    case Err(e) => Err(e)
    case Ok(_) =>
      match CheckPressureLevel(pressureVariables, pressureLevels)
      case Err(e) => Err(e)
      case Ok(_) => Ok(())
  }

  /** check_s3_paths: the base path, the DEM path and the ERA5 destination
      are validated in that order. */
  function CheckS3Paths(base: string, dem: string, era5Destination: string): (r: Result<(), S3Path.S3Error>)
    ensures r.Ok? <==> S3Path.IsSafeS3Path(base).Ok? && S3Path.IsSafeS3Path(dem).Ok? &&
                       S3Path.IsSafeS3Path(era5Destination).Ok?
    ensures S3Path.IsSafeS3Path(base).Err? ==> r == S3Path.IsSafeS3Path(base)
  {
    match S3Path.IsSafeS3Path(base)
    case Err(e) => Err(e)
    case Ok(_) =>
      match S3Path.IsSafeS3Path(dem)
      case Err(e) => Err(e)
      case Ok(_) => S3Path.IsSafeS3Path(era5Destination)
  }

  // ---------------------------------------------------------------------------
  // make_bbox_str
  // ---------------------------------------------------------------------------

  const Compass: string := "WSEN"

  /** One coordinate: the compass letter and the coordinate in hundredths of
      a degree (the sign-based direction is computed by the source and then
      not used). */
  function BboxPart(letter: char, hundredths: int): string {
    [letter] + IntToString(hundredths)
  }

  /** zip(bbox, "WSEN") stops at the shorter of the two. */
  function BboxParts(bbox: seq<int>, letters: string): (r: seq<string>)
    ensures |r| == if |bbox| < |letters| then |bbox| else |letters|
    ensures forall k :: 0 <= k < |r| ==> r[k] == BboxPart(letters[k], bbox[k])
    decreases |letters|
  {
    if |bbox| == 0 || |letters| == 0 then []
    else [BboxPart(letters[0], bbox[0])] + BboxParts(bbox[1..], letters[1..])
  }

  /** make_bbox_str, given each coordinate already rounded to hundredths. */
  function MakeBboxStr(bbox: seq<int>): string {
    Join("_", BboxParts(bbox, Compass))
  }

  /** Reads "W<int>_S<int>_E<int>_N<int>" back into the four numbers. */
  function ParseBboxStr(s: string): Option<seq<int>> {
    var parts := Split(s, '_');
    if |parts| != |Compass| then None else ParseParts(parts, Compass)
  }

  function ParseParts(parts: seq<string>, letters: string): (r: Option<seq<int>>)
    requires |parts| == |letters|
    decreases |parts|
  {
    if |parts| == 0 then Some([])
    else if |parts[0]| == 0 || parts[0][0] != letters[0] then None
    else match (ParseInt(parts[0][1..]), ParseParts(parts[1..], letters[1..]))
      case (Some(v), Some(rest)) => Some([v] + rest)
      case _ => None
  }

  lemma IntToStringNoUnderscore(v: int)
    ensures '_' !in IntToString(v) && NoBraces(IntToString(v))
  {
    var s := IntToString(v);
    forall k | 0 <= k < |s| ensures s[k] == '-' || IsDigit(s[k]) {
      if k > 0 { assert s[k] == s[1..][k - 1]; }
    }
  }

  lemma {:induction false} ParsePartsRoundTrip(bbox: seq<int>, letters: string)
    requires |bbox| == |letters|
    ensures ParseParts(BboxParts(bbox, letters), letters) == Some(bbox)
    decreases |letters|
  {
    if |bbox| > 0 {
      var parts := BboxParts(bbox, letters);
      BboxPartReadsBack(letters[0], bbox[0]);
      assert parts[0] == BboxPart(letters[0], bbox[0]);
      assert parts[1..] == BboxParts(bbox[1..], letters[1..]);
      ParsePartsRoundTrip(bbox[1..], letters[1..]);
      ParsePartsStep(parts, letters, bbox[0], bbox[1..]);
      assert [bbox[0]] + bbox[1..] == bbox;
    }
  }

  /** One part starts with its letter and its number reads back. */
  lemma BboxPartReadsBack(letter: char, v: int)
    ensures |BboxPart(letter, v)| > 0 && BboxPart(letter, v)[0] == letter
    ensures ParseInt(BboxPart(letter, v)[1..]) == Some(v)
  {
    assert BboxPart(letter, v)[1..] == IntToString(v);
    IntToStringRoundTrip(v);
  }

  /** A well-formed first part followed by parts that read back. */
  lemma ParsePartsStep(parts: seq<string>, letters: string, v: int, rest: seq<int>)
    requires |parts| == |letters| > 0 && |parts[0]| > 0 && parts[0][0] == letters[0]
    requires ParseInt(parts[0][1..]) == Some(v)
    requires ParseParts(parts[1..], letters[1..]) == Some(rest)
    ensures ParseParts(parts, letters) == Some([v] + rest)
  {
  }

  /** The bbox string of four coordinates reads back as those coordinates,
      in W, S, E, N order. */
  lemma BboxStrRoundTrip(bbox: seq<int>)
    requires |bbox| == 4
    ensures ParseBboxStr(MakeBboxStr(bbox)) == Some(bbox)
  {
    var parts := BboxParts(bbox, Compass);
    forall k | 0 <= k < |parts| ensures '_' !in parts[k] {
      IntToStringNoUnderscore(bbox[k]);
    }
    SplitJoin(parts, '_');
    assert Split(MakeBboxStr(bbox), '_') == parts;
    ParsePartsRoundTrip(bbox, Compass);
  }

  /** Coordinates after the fourth are ignored by zip. */
  lemma {:induction false} BboxStrIgnoresExtra(bbox: seq<int>, letters: string)
    requires |bbox| >= |letters|
    ensures BboxParts(bbox, letters) == BboxParts(bbox[..|letters|], letters)
    decreases |letters|
  {
    if |letters| > 0 {
      assert bbox[..|letters|][1..] == bbox[1..][..|letters| - 1];
      BboxStrIgnoresExtra(bbox[1..], letters[1..]);
    }
  }

  lemma {:induction false} JoinNoBraces(parts: seq<string>)
    requires forall k :: 0 <= k < |parts| ==> NoBraces(parts[k])
    ensures NoBraces(Join("_", parts))
    decreases |parts|
  {
    if |parts| > 1 {
      JoinNoBraces(parts[1..]);
    }
  }

  lemma BboxStrNoBraces(bbox: seq<int>)
    ensures NoBraces(MakeBboxStr(bbox))
  {
    var parts := BboxParts(bbox, Compass);
    forall k | 0 <= k < |parts| ensures NoBraces(parts[k]) {
      IntToStringNoUnderscore(bbox[k]);
      assert parts[k] == [Compass[k]] + IntToString(bbox[k]);
    }
    JoinNoBraces(parts);
  }

  // ---------------------------------------------------------------------------
  // load_config_yaml: entries added before resolution
  // ---------------------------------------------------------------------------

  /** The configuration as resolved: the YAML path and `bbox_str` are set
      first, so the templates can refer to `{bbox_str}`. */
  function PrepareConfig(config: seq<Entry>, fnameYaml: string, bbox: seq<int>)
    : (r: Result<seq<Entry>, FormatError>)
  {
    var withPath := SetEntry(config, "fname_yaml", VOther(fnameYaml));
    ResolveFormatStrings(SetEntry(withPath, "bbox_str", VStr(MakeBboxStr(bbox))))
  }

  /** A top-level template "{bbox_str}" ends up holding the bbox string. */
  lemma BboxStrVisibleToTemplates(config: seq<Entry>, fnameYaml: string, bbox: seq<int>, i: nat)
    requires i < |config| && config[i].value == VStr(Ref("bbox_str"))
    requires config[i].key != "fname_yaml" && "bbox_str" !in KeySet(config)
    ensures PrepareConfig(config, fnameYaml, bbox).Ok? ==>
              PrepareConfig(config, fnameYaml, bbox).value[i].value == VStr(MakeBboxStr(bbox))
  {
    var b := MakeBboxStr(bbox);
    var withPath := SetEntry(config, "fname_yaml", VOther(fnameYaml));
    assert withPath[i] == config[i];
    assert "bbox_str" !in KeySet(withPath);
    var d := SetEntry(withPath, "bbox_str", VStr(b));
    assert d == withPath + [Entry("bbox_str", VStr(b))];
    assert SimpleName("bbox_str") by {
      assert !IsDigit("bbox_str"[0]);
    }
    BboxStrNoBraces(bbox);
    ReferenceResolved(d, i, |d| - 1);
  }
}

=== FILE: cryogrid_log.dfy ===
/** The CryoGrid run-log reader: `read_raw_log` classifies the lines of a
    MATLAB worker log one by one, remembering the most recent "Worker N:"
    header as the thread label, and `assign_gridcell` forward-fills the grid
    cell named by "running grid cell N" messages within each worker and
    orders the rows by (grid cell, line). */
module CryoGridLog {
  import opened Wrappers
  import opened Text

  // ---------------------------------------------------------------------------
  // Line classification (read_raw_log)
  // ---------------------------------------------------------------------------

  predicate IsAsciiLetter(c: char) {
    ('A' <= c <= 'Z') || ('a' <= c <= 'z')
  }

  /** The pattern `\d{2}-[A-Za-z]{3}-\d{4}` matches at position `k`. */
  predicate DateAt(s: string, k: nat) {
    && k + 11 <= |s|
    && IsDigit(s[k]) && IsDigit(s[k + 1]) && s[k + 2] == '-'
    && IsAsciiLetter(s[k + 3]) && IsAsciiLetter(s[k + 4]) && IsAsciiLetter(s[k + 5])
    && s[k + 6] == '-'
    && IsDigit(s[k + 7]) && IsDigit(s[k + 8]) && IsDigit(s[k + 9]) && IsDigit(s[k + 10])
  }

  /** `any(re.findall(pattern, line))`: every match is eleven characters long,
      so the list is truthy exactly when the pattern matches somewhere. */
  predicate HasDate(s: string) {
    exists k: nat :: k + 11 <= |s| && DateAt(s, k)
  }

  /** The thread label of a worker header: newlines and colons removed,
      double spaces halved (non-overlapping, left to right), stripped and
      lower-cased. */
  function WorkerLabel(line: string): (r: string)
    ensures StartsWith(line, "Worker") ==> StartsWith(r, "worker")
  {
    var cleaned := Replace(Replace(Replace(line, "\n", ""), ":", ""), "  ", " ");
    var r := Lower(Strip(cleaned));
    if StartsWith(line, "Worker") then
      WorkerLabelPrefix(line);
      r
    else r
  }

  /** A prefix none of whose characters starts the pattern survives a
      replacement untouched. */
  lemma {:induction false} ReplaceKeepsPrefix(p: string, t: string, pat: string, rep: string)
    requires |pat| > 0
    requires forall k :: 0 <= k < |p| ==> p[k] != pat[0]
    ensures Replace(p + t, pat, rep) == p + Replace(t, pat, rep)
    decreases |p|
  {
    if |p| > 0 {
      var s := p + t;
      assert s[1..] == p[1..] + t;
      ReplaceKeepsPrefix(p[1..], t, pat, rep);
      if |s| >= |pat| {
        assert s[..|pat|] != pat by {
          assert s[..|pat|][0] == p[0];
        }
        assert Replace(s, pat, rep) == [p[0]] + Replace(s[1..], pat, rep);
        assert p == [p[0]] + p[1..];
      } else {
        assert Replace(t, pat, rep) == t;
      }
    } else {
      assert p + t == t;
    }
  }

  /** Stripping and lower-casing a text that starts with "Worker" leaves
      "worker" at its head. */
  lemma StripLowerWorker(s: string)
    requires StartsWith(s, "Worker")
    ensures StartsWith(Lower(Strip(s)), "worker")
  {
    assert !IsSpace(s[0]);
    assert LStrip(s) == s;
    var r := RStrip(s);
    assert !IsSpace(s[5]);
    assert |r| >= 6;
    assert r[..6] == s[..6];
    var l := Lower(r);
    assert l[..6] == "worker";
  }

  lemma WorkerLabelPrefix(line: string)
    requires StartsWith(line, "Worker")
    ensures StartsWith(Lower(Strip(Replace(Replace(Replace(line, "\n", ""), ":", ""), "  ", " "))), "worker")
  {
    var w := "Worker";
    var t := line[6..];
    assert line == w + t;
    assert forall k :: 0 <= k < |w| ==> IsAsciiLetter(w[k]) by {
      assert w == ['W', 'o', 'r', 'k', 'e', 'r'];
    }
    ReplaceKeepsPrefix(w, t, "\n", "");
    var a := Replace(t, "\n", "");
    ReplaceKeepsPrefix(w, a, ":", "");
    var b := Replace(a, ":", "");
    ReplaceKeepsPrefix(w, b, "  ", " ");
    var c := Replace(b, "  ", " ");
    assert Replace(Replace(Replace(line, "\n", ""), ":", ""), "  ", " ") == w + c;
    StripLowerWorker(w + c);
  }

  /** `line[:-1]`: Python drops the last character, newline or not. */
  function DropLast(s: string): (r: string)
    ensures |s| > 0 ==> r == s[..|s| - 1]
    ensures |s| == 0 ==> r == ""
  {
    if |s| == 0 then "" else s[..|s| - 1]
  }

  /** `len(s.replace(' ', '')) == 0` holds exactly for texts made of spaces
      only. */
  lemma {:induction false} RemoveSpacesEmpty(s: string)
    ensures |Replace(s, " ", "")| == 0 <==> forall k :: 0 <= k < |s| ==> s[k] == ' '
    decreases |s|
  {
    if |s| > 0 {
      RemoveSpacesEmpty(s[1..]);
      if s[0] == ' ' {
        assert Replace(s, " ", "") == Replace(s[1..], " ", "");
        assert forall k :: 1 <= k < |s| ==> s[k] == s[1..][k - 1];
      } else {
        assert Replace(s, " ", "") == [s[0]] + Replace(s[1..], " ", "");
      }
    }
  }

  datatype LineKind =
    | Dated                    // a line with a dd-Mmm-yyyy date: dropped
    | WorkerHeader(name: string)  // "Worker ..." line: becomes the thread label
    | Blank                    // nothing but spaces after the last character is cut
    | Message(text: string)    // kept

  /** The branch `read_raw_log` takes for one line. */
  function Classify(line: string): (k: LineKind)
    ensures k.Dated? <==> HasDate(line)
    ensures k.WorkerHeader? <==> !HasDate(line) && StartsWith(line, "Worker")
    ensures k.WorkerHeader? ==> StartsWith(k.name, "worker")
    ensures k.Message? ==> !StartsWith(line, "Worker") && '\n' !in k.text
    ensures k.Message? ==> exists j :: 0 <= j < |k.text| && k.text[j] != ' '
    ensures k.Blank? ==> forall j :: 0 <= j < |Replace(DropLast(line), "\n", "")| ==>
                                       Replace(DropLast(line), "\n", "")[j] == ' '
  {
    if HasDate(line) then Dated
    else if StartsWith(line, "Worker") then WorkerHeader(WorkerLabel(line))
    else
      var text := Replace(DropLast(line), "\n", "");
      RemoveChar(DropLast(line), '\n');
      RemoveSpacesEmpty(text);
      if |Replace(text, " ", "")| == 0 then Blank else Message(text)
  }

  /** The branch taken for each line of the file. */
  function Kinds(lines: seq<string>): (kinds: seq<LineKind>)
    ensures |kinds| == |lines|
    ensures forall i :: 0 <= i < |lines| ==> kinds[i] == Classify(lines[i])
  {
    seq(|lines|, i requires 0 <= i < |lines| => Classify(lines[i]))
  }

  /** One kept log line: its 0-based line number, thread label and text. */
  datatype Row = Row(line: nat, thread: string, message: string)

  /** The label of the most recent worker header among `kinds`, if any. */
  function LastWorker(kinds: seq<LineKind>): (r: Option<string>)
    ensures r.Some? ==> exists i :: 0 <= i < |kinds| && kinds[i] == WorkerHeader(r.value)
                                     && forall j :: i < j < |kinds| ==> !kinds[j].WorkerHeader?
    ensures r.None? ==> forall i :: 0 <= i < |kinds| ==> !kinds[i].WorkerHeader?
  {
    if |kinds| == 0 then None
    else
      var n := |kinds| - 1;
      if kinds[n].WorkerHeader? then Some(kinds[n].name)
      else
        var r := LastWorker(kinds[..n]);
        assert forall i :: 0 <= i < n ==> kinds[..n][i] == kinds[i];
        r
  }

  /** The thread a kept line is attributed to. */
  function ThreadOf(w: Option<string>): string {
    match w
    case None => "meta"
    case Some(name) => name
  }

  /** The thread of a kept line is a worker label or 'meta': the label
      starts with "worker" since its header started with "Worker". */
  lemma ThreadIsWorkerOrMeta(lines: seq<string>, i: nat)
    requires i <= |lines|
    ensures ThreadOf(LastWorker(Kinds(lines)[..i])) == "meta"
         || StartsWith(ThreadOf(LastWorker(Kinds(lines)[..i])), "worker")
  {
    var kinds := Kinds(lines)[..i];
    var w := LastWorker(kinds);
    if w.Some? {
      var j :| 0 <= j < |kinds| && kinds[j] == WorkerHeader(w.value);
      assert kinds[j] == Classify(lines[j]);
    }
  }

  /** The row line `i` contributes, if any. */
  function RowAt(kinds: seq<LineKind>, i: nat): (r: seq<Row>)
    requires i < |kinds|
    ensures |r| <= 1
    ensures |r| == 1 <==> kinds[i].Message?
    ensures |r| == 1 ==> r[0] == Row(i, ThreadOf(LastWorker(kinds[..i])), kinds[i].text)
  {
    match kinds[i]
    case Message(text) => [Row(i, ThreadOf(LastWorker(kinds[..i])), text)]
    case _ => []
  }

  /** Reference definition of the rows `read_raw_log` returns for lines of
      the given kinds, reading stops at line `limit`. */
  function RawLog(kinds: seq<LineKind>, limit: int): (rows: seq<Row>)
  {
    if |kinds| == 0 then []
    else
      var n := |kinds| - 1;
      RawLog(kinds[..n], limit) + (if n < limit then RowAt(kinds, n) else [])
  }

  /** The label state of the loop: the last header, or the initial ' '. */
  function PreviousLine(kinds: seq<LineKind>): string {
    match LastWorker(kinds)
    case None => " "
    case Some(name) => name
  }

  /** read_raw_log(fname, n_lines): the line-by-line state machine. */
  method ReadRawLog(lines: seq<string>, limit: int) returns (rows: seq<Row>)
    ensures rows == RawLog(Kinds(lines), limit)
  {
    ghost var kinds := Kinds(lines);
    var previous := " ";
    rows := [];
    var i := 0;
    while i < |lines| && i < limit
      invariant 0 <= i <= |lines|
      invariant rows == RawLog(kinds[..i], limit)
      invariant previous == PreviousLine(kinds[..i])
      invariant LastWorker(kinds[..i]).Some? ==> StartsWith(previous, "worker")
    {
      var kind := Classify(lines[i]);
      RawLogExtend(kinds, limit, i);
      LastWorkerExtend(kinds, i);
      match kind {
        case Dated =>
        case WorkerHeader(name) =>
          previous := name;
        case Blank =>
        case Message(text) =>
          if StartsWith(previous, "worker") {
            rows := rows + [Row(i, previous, text)];
          } else {
            assert previous == " ";
            rows := rows + [Row(i, "meta", text)];
          }
      }
      i := i + 1;
    }
    if i < |lines| {
      RawLogPastLimit(kinds, limit, i);
    }
    assert kinds[..|lines|] == kinds;
  }

  /** One more line before the limit adds its row, if it has one. */
  lemma RawLogExtend(kinds: seq<LineKind>, limit: int, i: nat)
    requires i < |kinds| && i < limit
    ensures kinds[i].Message? ==>
              RawLog(kinds[..i + 1], limit) == RawLog(kinds[..i], limit) + [Row(i, ThreadOf(LastWorker(kinds[..i])), kinds[i].text)]
    ensures !kinds[i].Message? ==> RawLog(kinds[..i + 1], limit) == RawLog(kinds[..i], limit)
  {
    var next := kinds[..i + 1];
    assert next[..i] == kinds[..i];
    assert next[i] == kinds[i];
    assert RawLog(next, limit) == RawLog(kinds[..i], limit) + RowAt(next, i);
  }

  /** One more line changes the last label only if it is a worker header. */
  lemma LastWorkerExtend(kinds: seq<LineKind>, i: nat)
    requires i < |kinds|
    ensures LastWorker(kinds[..i + 1]) == if kinds[i].WorkerHeader? then Some(kinds[i].name) else LastWorker(kinds[..i])
  {
    var next := kinds[..i + 1];
    assert next[..i] == kinds[..i];
    assert next[i] == kinds[i];
  }

  /** Lines at or after the limit contribute nothing. */
  lemma {:induction false} RawLogPastLimit(kinds: seq<LineKind>, limit: int, m: nat)
    requires limit <= m <= |kinds|
    ensures RawLog(kinds, limit) == RawLog(kinds[..m], limit)
    decreases |kinds|
  {
    if |kinds| > m {
      var n := |kinds| - 1;
      assert kinds[..n][..m] == kinds[..m];
      RawLogPastLimit(kinds[..n], limit, m);
    } else {
      assert kinds[..m] == kinds;
    }
  }

  /** What read_raw_log promises of its rows: each stems from a message
      line before the limit, its thread is the latest worker label or
      'meta', and the line numbers strictly increase. */
  predicate RowsFaithful(kinds: seq<LineKind>, limit: int, rows: seq<Row>) {
    && (forall k :: 0 <= k < |rows| ==>
          && rows[k].line < |kinds| && rows[k].line < limit
          && kinds[rows[k].line] == Message(rows[k].message)
          && rows[k].thread == ThreadOf(LastWorker(kinds[..rows[k].line])))
    && (forall a, b :: 0 <= a < b < |rows| ==> rows[a].line < rows[b].line)
  }

  lemma {:induction false} RawLogRows(kinds: seq<LineKind>, limit: int)
    ensures RowsFaithful(kinds, limit, RawLog(kinds, limit))
    decreases |kinds|
  {
    if |kinds| > 0 {
      var n := |kinds| - 1;
      RawLogRows(kinds[..n], limit);
      var front := RawLog(kinds[..n], limit);
      var rows := RawLog(kinds, limit);
      assert rows == front + (if n < limit then RowAt(kinds, n) else []);
      forall k | 0 <= k < |front|
        ensures front[k].line < n
        ensures kinds[..n][front[k].line] == kinds[front[k].line]
        ensures kinds[..n][..front[k].line] == kinds[..front[k].line]
      {
      }
      assert forall k :: 0 <= k < |front| ==> rows[k] == front[k];
    }
  }

  /** Every message line before the limit yields a row: nothing else is
      dropped. */
  lemma {:induction false} RawLogComplete(kinds: seq<LineKind>, limit: int, i: nat)
    requires i < |kinds| && i < limit && kinds[i].Message?
    ensures exists k :: 0 <= k < |RawLog(kinds, limit)| && RawLog(kinds, limit)[k].line == i
    decreases |kinds|
  {
    var n := |kinds| - 1;
    var front := RawLog(kinds[..n], limit);
    if i < n {
      assert kinds[..n][i] == kinds[i];
      RawLogComplete(kinds[..n], limit, i);
      var k :| 0 <= k < |front| && front[k].line == i;
      assert RawLog(kinds, limit)[k] == front[k];
    } else {
      assert RawLog(kinds, limit)[|front|] == RowAt(kinds, n)[0];
    }
  }

  // ---------------------------------------------------------------------------
  // Grid cells (_get_gridcell, _assign_gridcell, assign_gridcell)
  // ---------------------------------------------------------------------------

  const CellMarker: string := "running grid cell "

  /** The pattern `running grid cell (\d+)` matches at position `k`. */
  predicate CellMatchAt(m: string, k: nat) {
    k + |CellMarker| < |m| && m[k..k + |CellMarker|] == CellMarker && IsDigit(m[k + |CellMarker|])
  }

  /** The greedy `\d+` run at the head of `s`. */
  function DigitRun(s: string): (r: string)
    ensures |r| <= |s| && r == s[..|r|] && AllDigits(r)
    ensures |r| < |s| ==> !IsDigit(s[|r|])
    decreases |s|
  {
    if |s| > 0 && IsDigit(s[0]) then [s[0]] + DigitRun(s[1..]) else ""
  }

  lemma {:induction false} DigitRunAll(s: string)
    requires AllDigits(s)
    ensures DigitRun(s) == s
    decreases |s|
  {
    if |s| > 0 {
      DigitRunAll(s[1..]);
      assert s == [s[0]] + s[1..];
    }
  }

  lemma CellMatchShift(m: string, k: nat)
    requires |m| > 0
    ensures CellMatchAt(m[1..], k) <==> CellMatchAt(m, k + 1)
  {
    if k + 1 + |CellMarker| < |m| {
      assert m[1..][k..k + |CellMarker|] == m[k + 1..k + 1 + |CellMarker|];
    }
  }

  /** `str.extract(pattern)`: the number after the leftmost match, if any. */
  function CellNumber(m: string): Option<nat>
    decreases |m|
  {
    if |m| == 0 then None
    else if CellMatchAt(m, 0) then Some(DigitsValue(DigitRun(m[|CellMarker|..])))
    else CellNumber(m[1..])
  }

  /** A number is extracted exactly when the pattern matches somewhere, and
      it is the digit run after the leftmost match. */
  lemma {:induction false} CellNumberLeftmost(m: string)
    ensures CellNumber(m).Some? <==> exists k: nat :: k < |m| && CellMatchAt(m, k)
    ensures CellNumber(m).Some? ==>
              exists k: nat :: k < |m| && CellMatchAt(m, k)
                               && (forall j: nat :: j < k ==> !CellMatchAt(m, j))
                               && CellNumber(m) == Some(DigitsValue(DigitRun(m[k + |CellMarker|..])))
    decreases |m|
  {
    if |m| > 0 && !CellMatchAt(m, 0) {
      CellNumberLeftmost(m[1..]);
      if CellNumber(m).Some? {
        var k: nat :| k < |m[1..]| && CellMatchAt(m[1..], k)
                      && (forall j: nat :: j < k ==> !CellMatchAt(m[1..], j))
                      && CellNumber(m[1..]) == Some(DigitsValue(DigitRun(m[1..][k + |CellMarker|..])));
        CellMatchShift(m, k);
        forall j: nat | j < k + 1 ensures !CellMatchAt(m, j) {
          if j > 0 { CellMatchShift(m, j - 1); }
        }
        assert m[1..][k + |CellMarker|..] == m[k + 1 + |CellMarker|..];
      }
      if exists k: nat :: k < |m| && CellMatchAt(m, k) {
        var k: nat :| k < |m| && CellMatchAt(m, k);
        CellMatchShift(m, k - 1);
      }
    } else if |m| > 0 {
      assert m[0 + |CellMarker|..] == m[|CellMarker|..];
    }
  }

  /** A CryoGrid progress message reads back the cell number it names. */
  lemma CellNumberOfMessage(n: nat)
    ensures CellNumber(CellMarker + NatToString(n)) == Some(n)
  {
    var m := CellMarker + NatToString(n);
    assert m[..|CellMarker|] == CellMarker;
    assert m[|CellMarker|..] == NatToString(n);
    assert CellMatchAt(m, 0);
    DigitRunAll(NatToString(n));
    NatToStringValue(n);
  }

  /** A row with the grid cell it is assigned to. */
  datatype CellRow = CellRow(gridcell: int, line: nat, thread: string, message: string)

  predicate IsWorker(r: Row) {
    StartsWith(r.thread, "work")
  }

  /** Rows in increasing line order, as `read_raw_log` produces them. */
  predicate LinesIncrease(rows: seq<Row>) {
    forall a, b :: 0 <= a < b < |rows| ==> rows[a].line < rows[b].line
  }

  /** The cell named by the latest message of `thread` among the first `n`
      rows (the forward fill). */
  function LatestCell(rows: seq<Row>, thread: string, n: nat): Option<nat>
    requires n <= |rows|
    decreases n
  {
    if n == 0 then None
    else if rows[n - 1].thread == thread && CellNumber(rows[n - 1].message).Some? then
      CellNumber(rows[n - 1].message)
    else LatestCell(rows, thread, n - 1)
  }

  /** The forward fill takes the cell of the last numbered message of the
      thread, and is missing only when the thread has none so far. */
  lemma {:induction false} LatestCellIsLatest(rows: seq<Row>, thread: string, n: nat)
    requires n <= |rows|
    ensures LatestCell(rows, thread, n).Some? ==>
              exists j :: 0 <= j < n && rows[j].thread == thread
                          && CellNumber(rows[j].message) == LatestCell(rows, thread, n)
                          && forall m :: j < m < n && rows[m].thread == thread ==> CellNumber(rows[m].message).None?
    ensures LatestCell(rows, thread, n).None? ==>
              forall j :: 0 <= j < n && rows[j].thread == thread ==> CellNumber(rows[j].message).None?
    decreases n
  {
    if n > 0 && !(rows[n - 1].thread == thread && CellNumber(rows[n - 1].message).Some?) {
      LatestCellIsLatest(rows, thread, n - 1);
    }
  }

  /** Every worker row has a cell to fill from; otherwise the NaN left by the
      forward fill fails the integer cast. */
  predicate Fillable(rows: seq<Row>) {
    forall i :: 0 <= i < |rows| && IsWorker(rows[i]) ==> LatestCell(rows, rows[i].thread, i + 1).Some?
  }

  /** Reference definition of row `i` with its grid cell: 0 outside the
      workers, the forward-filled cell inside (meaningful when the rows are
      `Fillable`). */
  function Annotated(rows: seq<Row>, i: nat): CellRow
    requires i < |rows|
  {
    var cell := if IsWorker(rows[i]) then LatestCell(rows, rows[i].thread, i + 1).GetOr(0) else 0;
    CellRow(cell, rows[i].line, rows[i].thread, rows[i].message)
  }

  datatype LogError =
    | CellNotFilled(line: nat) // the NaN → int cast of `astype(int)` fails
    | NoWorkerRows             // KeyError of `set_index('gridcell')`: with no group, `apply` adds no column

  /** The rows annotated with their grid cell, in line order: the forward
      fill of `_get_gridcell` per worker thread, written as one pass that
      remembers the last cell of every thread. */
  method FillCells(rows: seq<Row>) returns (r: Result<seq<CellRow>, LogError>)
    ensures r.Ok? <==> Fillable(rows)
    ensures r.Err? ==> r.error.CellNotFilled?
    ensures r.Ok? ==> |r.value| == |rows|
    ensures r.Ok? ==> forall i :: 0 <= i < |rows| ==> r.value[i] == Annotated(rows, i)
  {
    var last: map<string, nat> := map[];
    var out: seq<CellRow> := [];
    for i := 0 to |rows|
      invariant forall t :: t in last <==> LatestCell(rows, t, i).Some?
      invariant forall t :: t in last ==> last[t] == LatestCell(rows, t, i).value
      invariant |out| == i
      invariant forall j :: 0 <= j < i && IsWorker(rows[j]) ==> LatestCell(rows, rows[j].thread, j + 1).Some?
      invariant forall j :: 0 <= j < i ==> out[j] == Annotated(rows, j)
    {
      var row := rows[i];
      var found := CellNumber(row.message);
      if found.Some? {
        last := last[row.thread := found.value];
      }
      if StartsWith(row.thread, "work") {
        if row.thread !in last {
          return Err(CellNotFilled(row.line));
        }
        assert LatestCell(rows, row.thread, i + 1).Some?;
        out := out + [CellRow(last[row.thread], row.line, row.thread, row.message)];
      } else {
        out := out + [CellRow(0, row.line, row.thread, row.message)];
      }
    }
    r := Ok(out);
  }

  // ---------------------------------------------------------------------------
  // Ordering by (gridcell, line)
  // ---------------------------------------------------------------------------

  predicate KeyLe(a: CellRow, b: CellRow) {
    a.gridcell < b.gridcell || (a.gridcell == b.gridcell && a.line <= b.line)
  }

  predicate SortedByKey(s: seq<CellRow>) {
    forall a, b :: 0 <= a < b < |s| ==> KeyLe(s[a], s[b])
  }

  function Insert(x: CellRow, s: seq<CellRow>): (r: seq<CellRow>)
    requires SortedByKey(s)
    ensures SortedByKey(r)
    ensures multiset(r) == multiset(s) + multiset{x}
    ensures |r| == |s| + 1
  {
    if |s| == 0 then [x]
    else if KeyLe(x, s[0]) then [x] + s
    else
      var rest := Insert(x, s[1..]);
      assert s == [s[0]] + s[1..];
      assert KeyLe(s[0], x);
      forall j | 0 <= j < |rest|
        ensures KeyLe(s[0], rest[j])
      {
        assert rest[j] in multiset(rest);
        if rest[j] != x {
          assert rest[j] in multiset(s[1..]);
          var m :| 0 <= m < |s[1..]| && s[1..][m] == rest[j];
          assert s[m + 1] == rest[j];
        }
      }
      [s[0]] + rest
  }

  /** `sort_values(['gridcell', 'line'])`. */
  function SortByKey(s: seq<CellRow>): (r: seq<CellRow>)
    ensures SortedByKey(r)
    ensures multiset(r) == multiset(s)
    decreases |s|
  {
    if |s| == 0 then []
    else
      var n := |s| - 1;
      assert s == s[..n] + [s[n]];
      Insert(s[n], SortByKey(s[..n]))
  }

  /** assign_gridcell(df): fill the cells, then order by (gridcell, line).
      The rows come in increasing line order, as read_raw_log returns them.
      A log without worker rows fails, since the empty per-thread result
      has no `gridcell` column to index by. */
  method AssignGridcell(rows: seq<Row>) returns (r: Result<seq<CellRow>, LogError>)
    requires LinesIncrease(rows)
    ensures r == Err(NoWorkerRows) <==> forall i :: 0 <= i < |rows| ==> !IsWorker(rows[i])
    ensures r.Ok? <==> (exists i :: 0 <= i < |rows| && IsWorker(rows[i])) && Fillable(rows)
    ensures r.Ok? ==> SortedByKey(r.value)
    ensures r.Ok? ==> multiset(r.value) == multiset(seq(|rows|, i requires 0 <= i < |rows| => Annotated(rows, i)))
  {
    if forall i :: 0 <= i < |rows| ==> !IsWorker(rows[i]) {
      return Err(NoWorkerRows);
    }
    var filled := FillCells(rows);
    if filled.Err? {
      return filled;
    }
    assert filled.value == seq(|rows|, i requires 0 <= i < |rows| => Annotated(rows, i));
    r := Ok(SortByKey(filled.value));
  }
}

=== FILE: dates.dfy ===
/** The proleptic Gregorian calendar used by Python's `datetime` and by
    pandas timestamps: leap years, month lengths, the day after a date, and
    a day count (`Ordinal`) that turns date differences into integers. */
module Dates {

  datatype Date = Date(year: int, month: int, day: int)

  predicate IsLeap(y: int) {
    y % 4 == 0 && (y % 100 != 0 || y % 400 == 0)
  }

  function DaysInMonth(y: int, m: int): (n: int)
    requires 1 <= m <= 12
    ensures 28 <= n <= 31
    ensures n == 31 <==> m in {1, 3, 5, 7, 8, 10, 12}
    ensures m == 2 ==> (n == 29 <==> IsLeap(y))
  {
    if m == 2 then (if IsLeap(y) then 29 else 28)
    else if m == 4 || m == 6 || m == 9 || m == 11 then 30
    else 31
  }

  /** A day/month combination that exists in year `year` (any year; see
      `IsDatetimeDate` for the range Python's `datetime` accepts). */
  predicate Valid(d: Date) {
    1 <= d.month <= 12 && 1 <= d.day <= DaysInMonth(d.year, d.month)
  }

  /** Python's `datetime(year, month, day)` succeeds exactly on these. */
  predicate IsDatetimeDate(d: Date) {
    1 <= d.year <= 9999 && Valid(d)
  }

  function NextDay(d: Date): (n: Date)
    requires Valid(d)
    ensures Valid(n)
  {
    if d.day < DaysInMonth(d.year, d.month) then Date(d.year, d.month, d.day + 1)
    else if d.month < 12 then Date(d.year, d.month + 1, 1)
    else Date(d.year + 1, 1, 1)
  }

  function YearLength(y: int): int {
    if IsLeap(y) then 366 else 365
  }

  /** Days from 1 January of year 0 to 1 January of year `y` (negative for
      earlier years). */
  function DaysBeforeYear(y: int): int {
    365 * y + (y + 3) / 4 - (y + 99) / 100 + (y + 399) / 400
  }

  function DaysBeforeMonth(y: int, m: int): (n: int)
    requires 1 <= m <= 12
    ensures 28 * (m - 1) <= n <= 31 * (m - 1)
  {
    if m == 1 then 0 else DaysBeforeMonth(y, m - 1) + DaysInMonth(y, m - 1)
  }

  /** Day number: 0 for 0000-01-01, one more for every following day. */
  function Ordinal(d: Date): int
    requires Valid(d)
  {
    DaysBeforeYear(d.year) + DaysBeforeMonth(d.year, d.month) + d.day - 1
  }

  lemma CeilStep4(y: int)
    ensures (y + 4) / 4 - (y + 3) / 4 == if y % 4 == 0 then 1 else 0
  {
    var q, r := y / 4, y % 4;
    assert y == 4 * q + r && 0 <= r < 4;
    assert (y + 4) / 4 == q + 1;
    assert (y + 3) / 4 == if r == 0 then q else q + 1;
  }

  lemma CeilStep100(y: int)
    ensures (y + 100) / 100 - (y + 99) / 100 == if y % 100 == 0 then 1 else 0
  {
    var q, r := y / 100, y % 100;
    assert y == 100 * q + r && 0 <= r < 100;
    assert (y + 100) / 100 == q + 1;
    assert (y + 99) / 100 == if r == 0 then q else q + 1;
  }

  lemma CeilStep400(y: int)
    ensures (y + 400) / 400 - (y + 399) / 400 == if y % 400 == 0 then 1 else 0
  {
    var q, r := y / 400, y % 400;
    assert y == 400 * q + r && 0 <= r < 400;
    assert (y + 400) / 400 == q + 1;
    assert (y + 399) / 400 == if r == 0 then q else q + 1;
  }

  lemma YearStep(y: int)
    ensures DaysBeforeYear(y + 1) == DaysBeforeYear(y) + YearLength(y)
  {
    CeilStep4(y);
    CeilStep100(y);
    CeilStep400(y);
    var a := (y + 4) / 4 - (y + 3) / 4;
    var b := (y + 100) / 100 - (y + 99) / 100;
    var c := (y + 400) / 400 - (y + 399) / 400;
    assert DaysBeforeYear(y + 1) - DaysBeforeYear(y) == 365 + a - b + c;
    if y % 100 == 0 {
      Mod100Mod4(y);
    }
    if y % 400 == 0 {
      Mod400Mod100(y);
    }
  }

  lemma Mod100Mod4(y: int)
    requires y % 100 == 0
    ensures y % 4 == 0
  {
    var q := y / 100;
    assert y == 4 * (25 * q);
  }

  lemma Mod400Mod100(y: int)
    requires y % 400 == 0
    ensures y % 100 == 0
  {
    var q := y / 400;
    assert y == 100 * (4 * q);
  }

  lemma DecemberEnd(y: int)
    ensures DaysBeforeMonth(y, 12) + 31 == YearLength(y)
  {
    var f := if IsLeap(y) then 1 else 0;
    assert DaysBeforeMonth(y, 2) == 31;
    assert DaysBeforeMonth(y, 3) == 59 + f;
    assert DaysBeforeMonth(y, 4) == 90 + f;
    assert DaysBeforeMonth(y, 5) == 120 + f;
    assert DaysBeforeMonth(y, 6) == 151 + f;
    assert DaysBeforeMonth(y, 7) == 181 + f;
    assert DaysBeforeMonth(y, 8) == 212 + f;
    assert DaysBeforeMonth(y, 9) == 243 + f;
    assert DaysBeforeMonth(y, 10) == 273 + f;
    assert DaysBeforeMonth(y, 11) == 304 + f;
    assert DaysBeforeMonth(y, 12) == 334 + f;
  }

  lemma OrdinalNext(d: Date)
    requires Valid(d)
    ensures Ordinal(NextDay(d)) == Ordinal(d) + 1
  {
    if d.day == DaysInMonth(d.year, d.month) && d.month == 12 {
      YearStep(d.year);
      DecemberEnd(d.year);
    }
  }

  /** Distinct valid dates have distinct day numbers, and the day numbers
      order dates as the calendar does. */
  lemma OrdinalMonotone(a: Date, b: Date)
    requires Valid(a) && Valid(b)
    ensures Ordinal(a) < Ordinal(b) <==> Before(a, b)
    ensures Ordinal(a) == Ordinal(b) <==> a == b
  {
    if a.year < b.year {
      YearBounds(a);
      YearBounds(b);
      DaysBeforeYearMonotone(a.year + 1, b.year);
      YearStep(a.year);
    } else if a.year > b.year {
      YearBounds(a);
      YearBounds(b);
      DaysBeforeYearMonotone(b.year + 1, a.year);
      YearStep(b.year);
    } else if a.month < b.month {
      MonthBounds(a.year, a.month, b.month);
    } else if a.month > b.month {
      MonthBounds(a.year, b.month, a.month);
    }
  }

  /** Calendar order: by year, then month, then day. */
  predicate Before(a: Date, b: Date) {
    a.year < b.year
    || (a.year == b.year && a.month < b.month)
    || (a.year == b.year && a.month == b.month && a.day < b.day)
  }

  lemma YearBounds(d: Date)
    requires Valid(d)
    ensures DaysBeforeYear(d.year) <= Ordinal(d) < DaysBeforeYear(d.year) + YearLength(d.year)
  {
    MonthBounds(d.year, d.month, 12);
    DecemberEnd(d.year);
  }

  lemma {:induction false} MonthBounds(y: int, m1: int, m2: int)
    requires 1 <= m1 <= m2 <= 12
    ensures m1 < m2 ==> DaysBeforeMonth(y, m1) + DaysInMonth(y, m1) <= DaysBeforeMonth(y, m2)
    decreases m2 - m1
  {
    if m1 < m2 {
      assert DaysBeforeMonth(y, m1 + 1) == DaysBeforeMonth(y, m1) + DaysInMonth(y, m1);
      if m1 + 1 < m2 {
        MonthBounds(y, m1 + 1, m2);
      }
    }
  }

  lemma {:induction false} DaysBeforeYearMonotone(y1: int, y2: int)
    requires y1 <= y2
    ensures DaysBeforeYear(y1) <= DaysBeforeYear(y2)
    decreases y2 - y1
  {
    if y1 < y2 {
      YearStep(y1);
      DaysBeforeYearMonotone(y1 + 1, y2);
    }
  }

  // ---------------------------------------------------------------------------
  // Runs of consecutive days

  /** The `n` consecutive days starting at `d`. */
  function DaysFrom(d: Date, n: nat): (r: seq<Date>)
    requires Valid(d)
    ensures |r| == n
    decreases n
  {
    if n == 0 then [] else [d] + DaysFrom(NextDay(d), n - 1)
  }

  lemma {:induction false} DaysFromOrdinals(d: Date, n: nat)
    requires Valid(d)
    ensures forall k :: 0 <= k < n ==> Valid(DaysFrom(d, n)[k])
    ensures forall k :: 0 <= k < n ==> Ordinal(DaysFrom(d, n)[k]) == Ordinal(d) + k
    decreases n
  {
    if n > 0 {
      DaysFromOrdinals(NextDay(d), n - 1);
      OrdinalNext(d);
      forall k | 0 < k < n
        ensures Valid(DaysFrom(d, n)[k]) && Ordinal(DaysFrom(d, n)[k]) == Ordinal(d) + k
      {
        assert DaysFrom(d, n)[k] == DaysFrom(NextDay(d), n - 1)[k - 1];
      }
    }
  }

  /** Every valid date between `d` and `d + n - 1` occurs in the run, and the
      run is in strictly increasing calendar order. */
  lemma DaysFromExactlyCovers(d: Date, n: nat, e: Date)
    requires Valid(d) && Valid(e)
    ensures e in DaysFrom(d, n) <==> Ordinal(d) <= Ordinal(e) < Ordinal(d) + n
  {
    DaysFromOrdinals(d, n);
    var r := DaysFrom(d, n);
    if Ordinal(d) <= Ordinal(e) < Ordinal(d) + n {
      var k := Ordinal(e) - Ordinal(d);
      OrdinalMonotone(r[k], e);
    }
  }

  lemma {:induction false} DaysFromSplit(d: Date, a: nat, b: nat)
    requires Valid(d)
    ensures DaysFrom(d, a + b) == DaysFrom(d, a) + DaysFrom(Advance(d, a), b)
    decreases a
  {
    if a > 0 {
      DaysFromSplit(NextDay(d), a - 1, b);
    }
  }

  /** The date `n` days after `d`. */
  function Advance(d: Date, n: nat): (r: Date)
    requires Valid(d)
    ensures Valid(r)
    decreases n
  {
    if n == 0 then d else Advance(NextDay(d), n - 1)
  }

  lemma {:induction false} AdvanceOrdinal(d: Date, n: nat)
    requires Valid(d)
    ensures Ordinal(Advance(d, n)) == Ordinal(d) + n
    decreases n
  {
    if n > 0 {
      OrdinalNext(d);
      AdvanceOrdinal(NextDay(d), n - 1);
    }
  }

  /** The days `d` with `a <= d < b`, in order (pandas
      `date_range(a, b, freq='1D', inclusive='left')`). */
  function DaysBetween(a: Date, b: Date): (r: seq<Date>)
    requires Valid(a) && Valid(b)
    ensures |r| == if Ordinal(b) > Ordinal(a) then Ordinal(b) - Ordinal(a) else 0
  {
    DaysFrom(a, if Ordinal(b) > Ordinal(a) then Ordinal(b) - Ordinal(a) else 0)
  }

  lemma DaysBetweenMembers(a: Date, b: Date, e: Date)
    requires Valid(a) && Valid(b) && Valid(e)
    ensures e in DaysBetween(a, b) <==> Ordinal(a) <= Ordinal(e) < Ordinal(b)
  {
    DaysFromExactlyCovers(a, if Ordinal(b) > Ordinal(a) then Ordinal(b) - Ordinal(a) else 0, e);
  }
}

=== FILE: formatting.dfy ===
/**
 * The missing-key-tolerant formatter `SafeFormatter` and the two-pass
 * nested resolver `resolve_format_strings`, which exist in two identical
 * copies (`cryogrid_data_fetcher/utils/helpers.py` and
 * `scripts/utils/dict_helpers.py`).
 */
module Formatting {
  import opened Wrappers
  import opened Text
  import opened PyRepr

  /** A configuration value. Dictionaries keep their insertion order. */
  datatype Value =
    | VStr(s: string)
    | VInt(i: int)
    | VDict(entries: seq<Entry>)
    | VList(items: seq<Value>)
    | VOther(text: string)    // any other value, carried with its str() form

  datatype Entry = Entry(key: string, value: Value)

  type Namespace = map<string, Value>

  datatype FormatError =
    | SingleOpenBrace            // a '{' that ends the template
    | SingleCloseBrace           // a '}' not doubled and not closing a field
    | UnclosedField              // "expected '}' before end of string"
    | PositionalField            // "{}" or "{0}": there are no positional arguments
    | UnsupportedField(name: string)    // conversion, format spec, attribute or index
    | KeyMissing(name: string)          // only when missing keys are not kept

  /** repr(v): strings quoted and escaped, lists as `[a, b]` and
      dictionaries as `{'k': v}`, each item by its own repr. */
  function Repr(v: Value): (r: string)
    ensures v.VStr? ==> ReadStrLiteral(r) == Some(v.s)
    ensures v.VList? ==> |r| >= 2 && r[0] == '[' && r[|r| - 1] == ']'
    ensures v.VDict? ==> |r| >= 2 && r[0] == '{' && r[|r| - 1] == '}'
    decreases v
  {
    StrReprReadsBack(if v.VStr? then v.s else "");
    match v
    case VStr(s) => StrRepr(s)
    case VInt(i) => IntToString(i)
    case VOther(t) => t
    case VList(items) =>
      "[" + Join(", ", seq(|items|, k requires 0 <= k < |items| => Repr(items[k]))) + "]"
    case VDict(es) =>
      "{" + Join(", ", seq(|es|, k requires 0 <= k < |es| => EntryRepr(es[k]))) + "}"
  }

  function EntryRepr(e: Entry): string
    decreases e
  {
    StrRepr(e.key) + ": " + Repr(e.value)
  }

  /** str(v): a string is itself, every other value its repr. */
  function Str(v: Value): (r: string)
    ensures v.VStr? ==> r == v.s
    ensures v.VInt? ==> ParseInt(r) == Some(v.i)
    ensures v.VList? ==> |r| >= 2 && r[0] == '[' && r[|r| - 1] == ']'
    ensures v.VDict? ==> |r| >= 2 && r[0] == '{' && r[|r| - 1] == '}'
  {
    IntToStringRoundTrip(if v.VInt? then v.i else 0);
    if v.VStr? then v.s else Repr(v)
  }

  function Strings(xs: seq<string>): (r: seq<Value>)
    ensures |r| == |xs| && forall k :: 0 <= k < |xs| ==> r[k] == VStr(xs[k])
  {
    seq(|xs|, k requires 0 <= k < |xs| => VStr(xs[k]))
  }

  /** str() of a list of plain strings: each between single quotes,
      separated by ", ", inside brackets. */
  lemma PlainStringList(xs: seq<string>)
    requires forall k :: 0 <= k < |xs| ==> Plain(xs[k])
    ensures Str(VList(Strings(xs))) ==
            "[" + Join(", ", seq(|xs|, k requires 0 <= k < |xs| => "'" + xs[k] + "'")) + "]"
  {
    var vs := Strings(xs);
    var reprs := seq(|vs|, k requires 0 <= k < |vs| => Repr(vs[k]));
    var quoted := seq(|xs|, k requires 0 <= k < |xs| => "'" + xs[k] + "'");
    forall k | 0 <= k < |xs| ensures reprs[k] == quoted[k] {
      PlainStrRepr(xs[k]);
    }
    assert reprs == quoted;
  }

  /** A list of two variable names, as str() writes it into a file name. */
  lemma TwoNameListStr(a: string, b: string)
    requires Plain(a) && Plain(b)
    ensures Str(VList([VStr(a), VStr(b)])) == "['" + a + "', '" + b + "']"
  {
    TwoPlainStrings(a, b);
    BracketTwo(a, b);
  }

  lemma TwoPlainStrings(a: string, b: string)
    requires Plain(a) && Plain(b)
    ensures Str(VList([VStr(a), VStr(b)])) == "[" + (("'" + a + "'") + ", " + ("'" + b + "'")) + "]"
  {
    var xs := [a, b];
    var quoted := seq(|xs|, k requires 0 <= k < |xs| => "'" + xs[k] + "'");
    PlainStringList(xs);
    assert Strings(xs) == [VStr(a), VStr(b)];
    assert Join(", ", quoted) == quoted[0] + ", " + quoted[1];
  }

  lemma BracketTwo(a: string, b: string)
    ensures "[" + (("'" + a + "'") + ", " + ("'" + b + "'")) + "]" == "['" + a + "', '" + b + "']"
  {
  }

  /** str() of an empty list or dictionary. */
  lemma EmptyStr()
    ensures Str(VList([])) == "[]" && Str(VDict([])) == "{}"
  {
    assert "[" + "" + "]" == "[]";
    assert "{" + "" + "}" == "{}";
  }

  /** str() of a one-entry dictionary: the key quoted, the value by its repr. */
  lemma OneEntryDictStr(k: string, i: int)
    requires Plain(k)
    ensures Str(VDict([Entry(k, VInt(i))])) == "{'" + k + "': " + IntToString(i) + "}"
  {
    var es := [Entry(k, VInt(i))];
    var e := EntryRepr(es[0]);
    assert Str(VDict(es)) == "{" + e + "}" by {
      assert seq(|es|, j requires 0 <= j < |es| => EntryRepr(es[j])) == [e];
    }
    assert e == "'" + k + "'" + ": " + IntToString(i) by {
      PlainStrRepr(k);
      assert Repr(VInt(i)) == IntToString(i);
    }
    ConcatQuoted(k, IntToString(i));
  }

  lemma ConcatQuoted(k: string, t: string)
    ensures "{" + ("'" + k + "'" + ": " + t) + "}" == "{'" + k + "': " + t + "}"
  {
  }

  predicate Special(c: char) {
    c == '.' || c == '[' || c == ':' || c == '!' || c == '{' || c == '}'
  }

  /** The first index of `c` in `s`. */
  function FirstIndex(s: string, c: char): (r: Option<nat>)
    ensures r.None? <==> c !in s
    ensures r.Some? ==> r.value < |s| && s[r.value] == c && c !in s[..r.value]
    decreases |s|
  {
    if |s| == 0 then None
    else if s[0] == c then Some(0)
    else match FirstIndex(s[1..], c)
      case None => None
      case Some(k) =>
        assert s[..k + 1] == [s[0]] + s[1..][..k];
        Some(k + 1)
  }

  /** The part of a field name before any attribute, index, conversion or spec. */
  function FieldHead(name: string): (r: string)
    ensures |r| <= |name| && r == name[..|r|]
    ensures forall k :: 0 <= k < |r| ==> !(r[k] in ".[:!")
    ensures |r| < |name| ==> name[|r|] in ".[:!"
    decreases |name|
  {
    if |name| == 0 || name[0] in ".[:!" then ""
    else [name[0]] + FieldHead(name[1..])
  }

  /** A plain keyword field: non-empty, not a number, no special character. */
  predicate SimpleName(name: string) {
    |name| > 0 && !AllDigits(name) && forall k :: 0 <= k < |name| ==> !Special(name[k])
  }

  /** The text a field contributes: the value when the name is in the
      namespace; for a name that is not, the field itself with its braces
      (SafeFormatter), or KeyError when `strict` (plain str.format). */
  function FieldValue(name: string, ns: Namespace, strict: bool): (r: Result<string, FormatError>)
    ensures SimpleName(name) && name !in ns ==> r == if strict then Err(KeyMissing(name)) else Ok("{" + name + "}")
    ensures SimpleName(name) && name in ns ==> r == Ok(Str(ns[name]))
    ensures r.Ok? ==> SimpleName(name)
  {
    var head := FieldHead(name);
    if '{' in name || '}' in name then Err(UnsupportedField(name))
    else if |head| == 0 || AllDigits(head) then Err(PositionalField)
    else if head != name then Err(UnsupportedField(name))
    else if name in ns then Ok(Str(ns[name]))
    else if strict then Err(KeyMissing(name))
    else Ok("{" + name + "}")
  }

  function Prepend(t: string, r: Result<string, FormatError>): Result<string, FormatError> {
    match r
    case Ok(x) => Ok(t + x)
    case Err(e) => Err(e)
  }

  predicate NoBraces(s: string) {
    '{' !in s && '}' !in s
  }

  /** SafeFormatter().format(s, **ns). */
  function Format(s: string, ns: Namespace): (r: Result<string, FormatError>)
    ensures NoBraces(s) ==> r == Ok(s)
  {
    FormatWith(s, ns, false)
  }

  /** `s.format(**ns)`, left to right; "{{" and "}}" are literal braces. */
  function FormatWith(s: string, ns: Namespace, strict: bool): (r: Result<string, FormatError>)
    ensures NoBraces(s) ==> r == Ok(s)
    decreases |s|
  {
    if |s| == 0 then Ok("")
    else if s[0] == '{' then
      if |s| >= 2 && s[1] == '{' then Prepend("{", FormatWith(s[2..], ns, strict))
      else if |s| == 1 then Err(SingleOpenBrace)
      else
        match FirstIndex(s[1..], '}')
        case None => Err(UnclosedField)
        case Some(k) =>
          match FieldValue(s[1..k + 1], ns, strict)
          case Err(e) => Err(e)
          case Ok(t) => Prepend(t, FormatWith(s[k + 2..], ns, strict))
    else if s[0] == '}' then
      if |s| >= 2 && s[1] == '}' then Prepend("}", FormatWith(s[2..], ns, strict))
      else Err(SingleCloseBrace)
    else
      assert s[0] in s;
      assert forall c :: c in s[1..] ==> c in s;
      assert s == [s[0]] + s[1..];
      Prepend([s[0]], FormatWith(s[1..], ns, strict))
  }

  // ---------------------------------------------------------------------------
  // Templates as pieces: an independent description of what Format does
  // ---------------------------------------------------------------------------

  datatype Piece = Lit(text: string) | Field(name: string)

  /** Literal text with every brace doubled. */
  function Escape(t: string): (r: string)
    ensures |r| >= |t|
  {
    if |t| == 0 then "" else EscapeChar(t[0]) + Escape(t[1..])
  }

  function EscapeChar(c: char): string {
    if c == '{' then "{{" else if c == '}' then "}}" else [c]
  }

  function Render(ps: seq<Piece>): string {
    if |ps| == 0 then ""
    else
      (match ps[0]
       case Lit(t) => Escape(t)
       case Field(n) => "{" + n + "}") + Render(ps[1..])
  }

  /** Every field is a plain name; when `strict`, every name is in the
      namespace. */
  predicate Formattable(ps: seq<Piece>, ns: Namespace, strict: bool) {
    forall k :: 0 <= k < |ps| && ps[k].Field? ==>
      SimpleName(ps[k].name) && (strict ==> ps[k].name in ns)
  }

  /** What the template means: literals as they are, known names replaced,
      unknown names kept with their braces. */
  function Substitute(ps: seq<Piece>, ns: Namespace): string {
    if |ps| == 0 then ""
    else
      (match ps[0]
       case Lit(t) => t
       case Field(n) => if n in ns then Str(ns[n]) else "{" + n + "}") +
      Substitute(ps[1..], ns)
  }

  lemma FormatEscapedChar(c: char, x: string, ns: Namespace, strict: bool)
    ensures FormatWith(EscapeChar(c) + x, ns, strict) == Prepend([c], FormatWith(x, ns, strict))
  {
    var s := EscapeChar(c) + x;
    if c == '{' || c == '}' {
      assert s[2..] == x;
    } else {
      assert s[1..] == x;
    }
  }

  lemma PrependTwice(a: string, b: string, r: Result<string, FormatError>)
    ensures Prepend(a, Prepend(b, r)) == Prepend(a + b, r)
  {
    if r.Ok? { assert a + (b + r.value) == (a + b) + r.value; }
  }

  lemma {:induction false} FormatEscaped(t: string, rest: string, ns: Namespace, strict: bool)
    ensures FormatWith(Escape(t) + rest, ns, strict) == Prepend(t, FormatWith(rest, ns, strict))
    decreases |t|
  {
    var r := FormatWith(rest, ns, strict);
    if |t| == 0 {
      assert Escape(t) + rest == rest;
      if r.Ok? { assert t + r.value == r.value; }
    } else {
      assert Escape(t) + rest == EscapeChar(t[0]) + (Escape(t[1..]) + rest);
      FormatEscapedChar(t[0], Escape(t[1..]) + rest, ns, strict);
      FormatEscaped(t[1..], rest, ns, strict);
      PrependTwice([t[0]], t[1..], r);
      assert [t[0]] + t[1..] == t;
    }
  }

  lemma FormatField(n: string, rest: string, ns: Namespace, strict: bool)
    requires SimpleName(n)
    ensures FormatWith("{" + n + "}" + rest, ns, strict) == (
      if n !in ns && strict then Err(KeyMissing(n))
      else Prepend(if n in ns then Str(ns[n]) else "{" + n + "}", FormatWith(rest, ns, strict)))
  {
    var s := "{" + n + "}" + rest;
    assert s[1..] == n + "}" + rest;
    assert '}' !in n by {
      forall k | 0 <= k < |n| ensures n[k] != '}' { assert !Special(n[k]); }
    }
    FirstNotIn(n, rest);
    assert s[1..|n| + 1] == n;
    assert s[|n| + 2..] == rest;
  }

  lemma FirstNotIn(n: string, rest: string)
    requires '}' !in n
    ensures FirstIndex(n + "}" + rest, '}') == Some(|n|)
  {
    var r := FirstIndex(n + "}" + rest, '}');
    assert (n + "}" + rest)[|n|] == '}';
    assert (n + "}" + rest)[..|n|] == n;
  }

  /** Formatting a rendered template substitutes its fields. */
  lemma {:induction false} FormatRendered(ps: seq<Piece>, ns: Namespace, strict: bool)
    requires Formattable(ps, ns, strict)
    ensures FormatWith(Render(ps), ns, strict) == Ok(Substitute(ps, ns))
    decreases |ps|
  {
    if |ps| == 0 {
    } else {
      assert Formattable(ps[1..], ns, strict) by {
        forall k | 0 <= k < |ps| - 1 && ps[1..][k].Field?
          ensures SimpleName(ps[1..][k].name) && (strict ==> ps[1..][k].name in ns)
        {
          assert ps[1..][k] == ps[k + 1];
        }
      }
      FormatRendered(ps[1..], ns, strict);
      match ps[0] {
        case Lit(t) => FormatEscaped(t, Render(ps[1..]), ns, strict);
        case Field(n) =>
          assert ps[0].Field?;
          FormatField(n, Render(ps[1..]), ns, strict);
      }
    }
  }

  /** SafeFormatter: a single known field is replaced and a single unknown
      one is kept. */
  lemma KnownAndUnknownFields(n: string, ns: Namespace)
    requires SimpleName(n)
    ensures n in ns ==> Format("{" + n + "}", ns) == Ok(Str(ns[n]))
    ensures n !in ns ==> Format("{" + n + "}", ns) == Ok("{" + n + "}")
  {
    FormatField(n, "", ns, false);
    assert "{" + n + "}" + "" == "{" + n + "}";
    var t := if n in ns then Str(ns[n]) else "{" + n + "}";
    assert t + "" == t;
  }

  /** Plain str.format: an unknown field raises KeyError. */
  lemma StrictUnknownField(n: string, ns: Namespace)
    requires SimpleName(n) && n !in ns
    ensures FormatWith("{" + n + "}", ns, true) == Err(KeyMissing(n))
  {
    FormatField(n, "", ns, true);
    assert "{" + n + "}" + "" == "{" + n + "}";
  }

  // ---------------------------------------------------------------------------
  // resolve_format_strings
  // ---------------------------------------------------------------------------

  function KeySet(es: seq<Entry>): set<string> {
    set i | 0 <= i < |es| :: es[i].key
  }

  /** No later entry has the same key as entry `i`. */
  predicate LastWithKey(es: seq<Entry>, i: nat) {
    forall j :: i < j < |es| ==> es[j].key != es[i].key
  }

  /** `{**parent, **dct}`: the dictionary's own keys override the parent's. */
  function Overlay(parent: Namespace, es: seq<Entry>): (r: Namespace)
    ensures r.Keys == parent.Keys + KeySet(es)
    ensures forall k :: k in parent && k !in KeySet(es) ==> r[k] == parent[k]
    ensures forall i :: 0 <= i < |es| && LastWithKey(es, i) ==> r[es[i].key] == es[i].value
    decreases |es|
  {
    if |es| == 0 then parent
    else
      var r := Overlay(parent[es[0].key := es[0].value], es[1..]);
      KeySetCons(es);
      assert forall i :: 1 <= i < |es| && LastWithKey(es, i) ==> LastWithKey(es[1..], i - 1);
      r
  }

  lemma KeySetCons(es: seq<Entry>)
    requires |es| > 0
    ensures KeySet(es) == {es[0].key} + KeySet(es[1..])
  {
    assert forall i :: 1 <= i < |es| ==> es[i] == es[1..][i - 1];
  }

  /** `dct[key] = v`: an existing key keeps its place, a new key goes last. */
  function SetEntry(es: seq<Entry>, key: string, v: Value): (r: seq<Entry>)
    ensures key in KeySet(es) ==> (|r| == |es| &&
              forall k :: 0 <= k < |es| ==> r[k] == (if es[k].key == key then Entry(key, v) else es[k]))
    ensures key !in KeySet(es) ==> r == es + [Entry(key, v)]
    ensures UniqueKeys(es) ==> UniqueKeys(r)
  {
    assert key !in KeySet(es) ==> forall k :: 0 <= k < |es| ==> es[k].key != key by {
      if key !in KeySet(es) {
        forall k | 0 <= k < |es| ensures es[k].key != key { assert es[k].key in KeySet(es); }
      }
    }
    if key in KeySet(es) then
      seq(|es|, k requires 0 <= k < |es| => if es[k].key == key then Entry(key, v) else es[k])
    else es + [Entry(key, v)]
  }

  /** Python dictionaries hold each key once. */
  predicate UniqueKeys(es: seq<Entry>) {
    forall i, j :: 0 <= i < j < |es| ==> es[i].key != es[j].key
  }

  /** `dct.get(key)`: the value of the first entry with that key. */
  function Get(es: seq<Entry>, key: string): (r: Option<Value>)
    ensures r.None? <==> key !in KeySet(es)
    ensures r.Some? ==> exists i :: 0 <= i < |es| && es[i].key == key && es[i].value == r.value &&
                                   forall j :: 0 <= j < i ==> es[j].key != key
    decreases |es|
  {
    if |es| == 0 then None
    else
      KeySetCons(es);
      if es[0].key == key then Some(es[0].value)
      else
        var r := Get(es[1..], key);
        assert r.Some? ==> exists i :: 1 <= i < |es| && es[i].key == key && es[i].value == r.value &&
                                      forall j :: 0 <= j < i ==> es[j].key != key by {
          if r.Some? {
            var i :| 0 <= i < |es| - 1 && es[1..][i].key == key && es[1..][i].value == r.value &&
                     forall j :: 0 <= j < i ==> es[1..][j].key != key;
            assert es[i + 1] == es[1..][i];
            assert forall j :: 1 <= j < i + 1 ==> es[j] == es[1..][j - 1];
          }
        }
        r
  }

  lemma {:induction false} GetFirst(es: seq<Entry>, key: string, i: nat)
    requires i < |es| && es[i].key == key && forall j :: 0 <= j < i ==> es[j].key != key
    ensures Get(es, key) == Some(es[i].value)
    decreases i
  {
    if i > 0 {
      assert es[0].key != key;
      assert forall j :: 0 <= j < i - 1 ==> es[1..][j] == es[j + 1];
      GetFirst(es[1..], key, i - 1);
    }
  }

  /** In a dictionary, every entry is what `get` finds under its key. */
  lemma GetUnique(es: seq<Entry>, i: nat)
    requires UniqueKeys(es) && i < |es|
    ensures Get(es, es[i].key) == Some(es[i].value)
  {
    GetFirst(es, es[i].key, i);
  }

  /** After `dct[key] = v`, `key` reads `v`. */
  lemma GetSetSame(es: seq<Entry>, key: string, v: Value)
    ensures Get(SetEntry(es, key, v), key) == Some(v)
  {
    var r := SetEntry(es, key, v);
    if key in KeySet(es) {
      var i :| 0 <= i < |es| && es[i].key == key && forall j :: 0 <= j < i ==> es[j].key != key by {
        var g := Get(es, key);
      }
      assert forall j :: 0 <= j < i ==> r[j].key != key by {
        forall j | 0 <= j < i ensures r[j].key != key {
          assert r[j] == es[j];
        }
      }
      assert i < |r| && r[i] == Entry(key, v);
      GetFirst(r, key, i);
    } else {
      assert forall j :: 0 <= j < |es| ==> r[j].key != key by {
        forall j | 0 <= j < |es| ensures r[j].key != key {
          assert r[j] == es[j] && es[j].key in KeySet(es);
        }
      }
      assert r[|es|] == Entry(key, v);
      GetFirst(r, key, |es|);
    }
  }

  /** ... and every other key reads what it read before. */
  lemma GetSetOther(es: seq<Entry>, key: string, v: Value, other: string)
    requires other != key
    ensures Get(SetEntry(es, key, v), other) == Get(es, other)
  {
    var r := SetEntry(es, key, v);
    assert forall j :: 0 <= j < |es| && es[j].key != key ==> r[j] == es[j];
    assert forall j :: 0 <= j < |es| && es[j].key == key ==> r[j].key == key;
    match Get(es, other)
    case Some(w) =>
      var i :| 0 <= i < |es| && es[i].key == other && es[i].value == w &&
               forall j :: 0 <= j < i ==> es[j].key != other;
      GetFirst(r, other, i);
    case None =>
  }

  /** `dct.update(extra)`: each entry of `extra` set in turn. */
  function Update(base: seq<Entry>, extra: seq<Entry>): (r: seq<Entry>)
    ensures UniqueKeys(base) ==> UniqueKeys(r)
    decreases |extra|
  {
    if |extra| == 0 then base
    else Update(SetEntry(base, extra[0].key, extra[0].value), extra[1..])
  }

  /** After an update, keys of `extra` read their new values and every other
      key keeps its old one. */
  lemma {:induction false} GetUpdate(base: seq<Entry>, extra: seq<Entry>, key: string)
    requires UniqueKeys(extra)
    ensures Get(Update(base, extra), key) == if key in KeySet(extra) then Get(extra, key) else Get(base, key)
    decreases |extra|
  {
    if |extra| > 0 {
      KeySetCons(extra);
      var b := SetEntry(base, extra[0].key, extra[0].value);
      GetUpdate(b, extra[1..], key);
      if key == extra[0].key { GetSetSame(base, key, extra[0].value); }
      else { GetSetOther(base, extra[0].key, extra[0].value, key); }
      if key in KeySet(extra[1..]) {
        var i :| 0 <= i < |extra| - 1 && extra[1..][i].key == key;
        assert extra[i + 1].key == key;
        assert key != extra[0].key;
        assert Get(extra[1..], key) == Get(extra, key);
      } else if key == extra[0].key {
        GetUnique(extra, 0);
      }
    }
  }

  /** An updated dictionary holds the keys of both. */
  lemma UpdateKeys(base: seq<Entry>, extra: seq<Entry>)
    requires UniqueKeys(extra)
    ensures KeySet(Update(base, extra)) == KeySet(base) + KeySet(extra)
  {
    forall k ensures k in KeySet(Update(base, extra)) <==> k in KeySet(base) + KeySet(extra) {
      GetUpdate(base, extra, k);
    }
  }

  /** `dct.pop(key)` on a dictionary: every entry with that key removed. */
  function RemoveKey(es: seq<Entry>, key: string): (r: seq<Entry>)
    ensures KeySet(r) == KeySet(es) - {key}
    ensures UniqueKeys(es) ==> UniqueKeys(r)
    ensures forall k :: k != key ==> Get(r, k) == Get(es, k)
    decreases |es|
  {
    if |es| == 0 then []
    else
      KeySetCons(es);
      var rest := RemoveKey(es[1..], key);
      if es[0].key == key then
        assert forall k :: k != key ==> Get(es, k) == Get(es[1..], k);
        rest
      else
        var r := [es[0]] + rest;
        assert r[1..] == rest;
        KeySetCons(r);
        assert UniqueKeys(es) ==> UniqueKeys(r) by {
          if UniqueKeys(es) {
            assert es[0].key !in KeySet(es[1..]);
            forall i, j | 0 <= i < j < |r| ensures r[i].key != r[j].key {
              if i == 0 { assert r[j].key in KeySet(rest); }
              else {
                assert UniqueKeys(es[1..]) by {
                  forall a, b | 0 <= a < b < |es| - 1 ensures es[1..][a].key != es[1..][b].key {
                    assert es[1..][a] == es[a + 1] && es[1..][b] == es[b + 1];
                  }
                }
                assert r[i] == rest[i - 1] && r[j] == rest[j - 1];
              }
            }
          }
        }
        r
  }

  /** Same keys in the same order, strings where there were strings, and
      every other non-dictionary value unchanged. */
  predicate SameShape(a: Value, b: Value) {
    match a
    case VStr(_) => b.VStr?
    case VDict(es) => b.VDict? && SameEntries(es, b.entries)
    case _ => b == a
  }

  predicate SameEntries(es: seq<Entry>, fs: seq<Entry>) {
    |es| == |fs| &&
    forall i :: 0 <= i < |es| ==> es[i].key == fs[i].key && SameShape(es[i].value, fs[i].value)
  }

  /** The namespace the rest of a pass sees once entry `e` has been resolved
      to `v`. A dictionary is resolved in place, and the namespace holds that
      same object under its key, so later entries see it resolved (unless a
      later entry rebinds the key). A string is rebound in the dictionary
      only, so the namespace keeps its old text. */
  function Advance(ns: Namespace, e: Entry, v: Value, later: seq<Entry>): Namespace {
    if e.value.VDict? && e.key !in KeySet(later) then ns[e.key := v] else ns
  }

  /** The namespace entry `i` of a pass sees, given the pass's results `rs`
      for the entries before it. */
  function SeenAt(ns: Namespace, es: seq<Entry>, rs: seq<Entry>, i: nat): Namespace
    requires i <= |es| && i <= |rs|
    decreases i
  {
    if i == 0 then ns
    else SeenAt(Advance(ns, es[0], rs[0].value, es[1..]), es[1..], rs[1..], i - 1)
  }

  /** One pass over a dictionary whose namespace is `ns`: strings are
      formatted, a dictionary is resolved with the namespace overlaid by its
      own keys, and every other value is kept. A string rewritten earlier in
      the pass is seen by the later entries with its old text; a dictionary
      resolved earlier is seen resolved (`SeenAt`). */
  function ResolveEntries(es: seq<Entry>, ns: Namespace): (r: Result<seq<Entry>, FormatError>)
    ensures r.Ok? ==> SameEntries(es, r.value)
    ensures r.Ok? ==> forall i :: 0 <= i < |es| && es[i].value.VStr? ==>
              r.value[i].value.VStr? && Format(es[i].value.s, SeenAt(ns, es, r.value, i)) == Ok(r.value[i].value.s)
    ensures r.Ok? ==> forall i :: 0 <= i < |es| && es[i].value.VDict? ==>
              r.value[i].value.VDict? &&
              ResolveEntries(es[i].value.entries, Overlay(SeenAt(ns, es, r.value, i), es[i].value.entries))
                == Ok(r.value[i].value.entries)
    decreases es
  {
    if |es| == 0 then Ok([])
    else
      var head :=
        match es[0].value
        case VStr(t) =>
          (match Format(t, ns)
           case Ok(x) => Ok(VStr(x))
           case Err(e) => Err(e))
        case VDict(sub) =>
          (match ResolveEntries(sub, Overlay(ns, sub))
           case Ok(sub') => Ok(VDict(sub'))
           case Err(e) => Err(e))
        case other => Ok(other);
      match head
      case Err(e) => Err(e)
      case Ok(v) =>
        var ns' := Advance(ns, es[0], v, es[1..]);
        match ResolveEntries(es[1..], ns')
        case Err(e) => Err(e)
        case Ok(rest) =>
          var r := [Entry(es[0].key, v)] + rest;
          assert forall i :: 1 <= i < |es| ==> es[i] == es[1..][i - 1] && r[i] == rest[i - 1];
          assert r[1..] == rest;
          assert forall i :: 1 <= i < |es| ==> SeenAt(ns, es, r, i) == SeenAt(ns', es[1..], rest, i - 1);
          Ok(r)
  }

  /** Entry `j`, a dictionary not rebound later, is seen resolved by every
      later entry; a name no earlier such dictionary binds keeps its
      binding in `ns`. */
  lemma {:induction false} SeenAtBinding(ns: Namespace, es: seq<Entry>, rs: seq<Entry>, i: nat)
    requires i <= |es| && i <= |rs|
    ensures forall j :: 0 <= j < i && es[j].value.VDict? && LastWithKey(es, j) ==>
              es[j].key in SeenAt(ns, es, rs, i) && SeenAt(ns, es, rs, i)[es[j].key] == rs[j].value
    ensures forall k :: k in ns && (forall j :: 0 <= j < i && es[j].key == k ==> !(es[j].value.VDict? && LastWithKey(es, j))) ==>
              k in SeenAt(ns, es, rs, i) && SeenAt(ns, es, rs, i)[k] == ns[k]
    decreases i
  {
    if i > 0 {
      var ns' := Advance(ns, es[0], rs[0].value, es[1..]);
      SeenAtBinding(ns', es[1..], rs[1..], i - 1);
      assert forall j :: 1 <= j < |es| ==> es[j] == es[1..][j - 1];
      assert forall j :: 1 <= j < |rs| ==> rs[j] == rs[1..][j - 1];
      assert es[0].key !in KeySet(es[1..]) <==> LastWithKey(es, 0) by {
        if es[0].key in KeySet(es[1..]) {
          var m :| 0 <= m < |es[1..]| && es[1..][m].key == es[0].key;
          assert es[m + 1].key == es[0].key;
        }
      }
      forall j | 1 <= j < i && es[j].value.VDict? && LastWithKey(es, j)
        ensures LastWithKey(es[1..], j - 1)
      {
        forall m | j - 1 < m < |es[1..]| ensures es[1..][m].key != es[1..][j - 1].key {
          assert es[1..][m] == es[m + 1];
        }
      }
      forall j | 1 <= j < i && es[j].value.VDict? && LastWithKey(es, j)
        ensures es[j].key in SeenAt(ns, es, rs, i) && SeenAt(ns, es, rs, i)[es[j].key] == rs[j].value
      {
        assert es[1..][j - 1] == es[j] && rs[1..][j - 1] == rs[j];
      }
      forall k | k in ns && (forall j :: 0 <= j < i && es[j].key == k ==> !(es[j].value.VDict? && LastWithKey(es, j)))
        ensures k in SeenAt(ns, es, rs, i) && SeenAt(ns, es, rs, i)[k] == ns[k]
      {
        assert k in ns' && ns'[k] == ns[k];
        forall j | 0 <= j < i - 1 && es[1..][j].key == k
          ensures !(es[1..][j].value.VDict? && LastWithKey(es[1..], j))
        {
          assert es[1..][j] == es[j + 1];
          assert LastWithKey(es[1..], j) ==> LastWithKey(es, j + 1) by {
            if LastWithKey(es[1..], j) {
              forall m | j + 1 < m < |es| ensures es[m].key != es[j + 1].key {
                assert es[m] == es[1..][m - 1];
              }
            }
          }
        }
      }
    }
  }

  /** One call of the inner resolver on the top-level dictionary. */
  function ResolveOnce(es: seq<Entry>): (r: Result<seq<Entry>, FormatError>)
    ensures r.Ok? ==> SameEntries(es, r.value)
  {
    ResolveEntries(es, Overlay(map[], es))
  }

  lemma {:induction false} SameShapeTrans(a: Value, b: Value, c: Value)
    requires SameShape(a, b) && SameShape(b, c)
    ensures SameShape(a, c)
    decreases a
  {
    if a.VDict? {
      SameEntriesTrans(a.entries, b.entries, c.entries);
    }
  }

  lemma {:induction false} SameEntriesTrans(es: seq<Entry>, fs: seq<Entry>, gs: seq<Entry>)
    requires SameEntries(es, fs) && SameEntries(fs, gs)
    ensures SameEntries(es, gs)
    decreases es
  {
    forall i | 0 <= i < |es|
      ensures es[i].key == gs[i].key && SameShape(es[i].value, gs[i].value)
    {
      SameShapeTrans(es[i].value, fs[i].value, gs[i].value);
    }
  }

  /** resolve_format_strings: the inner resolver applied exactly twice. The
      result has the input's keys, at every depth, in the same order. */
  function ResolveFormatStrings(es: seq<Entry>): (r: Result<seq<Entry>, FormatError>)
    ensures r.Ok? ==> SameEntries(es, r.value)
    ensures r.Ok? ==> ResolveOnce(es).Ok? && ResolveOnce(ResolveOnce(es).value) == r
  {
    match ResolveOnce(es)
    case Err(e) => Err(e)
    case Ok(once) =>
      var r := ResolveOnce(once);
      assert r.Ok? ==> SameEntries(es, r.value) by {
        if r.Ok? { SameEntriesTrans(es, once, r.value); }
      }
      r
  }

  function Ref(n: string): string {
    "{" + n + "}"
  }

  lemma ResolveStrCons(key: string, t: string, x: string, tail: seq<Entry>, rest: seq<Entry>, ns: Namespace)
    requires Format(t, ns) == Ok(x) && ResolveEntries(tail, ns) == Ok(rest)
    ensures ResolveEntries([Entry(key, VStr(t))] + tail, ns) == Ok([Entry(key, VStr(x))] + rest)
  {
    assert ([Entry(key, VStr(t))] + tail)[1..] == tail;
  }

  lemma ResolveDictCons(key: string, sub: seq<Entry>, sub': seq<Entry>, tail: seq<Entry>, rest: seq<Entry>, ns: Namespace)
    requires ResolveEntries(sub, Overlay(ns, sub)) == Ok(sub')
    requires ResolveEntries(tail, Advance(ns, Entry(key, VDict(sub)), VDict(sub'), tail)) == Ok(rest)
    ensures ResolveEntries([Entry(key, VDict(sub))] + tail, ns) == Ok([Entry(key, VDict(sub'))] + rest)
  {
    assert ([Entry(key, VDict(sub))] + tail)[1..] == tail;
  }

  /** A string after a dictionary that names it sees it resolved: the
      namespace holds the dictionary that the pass rewrote in place. */
  lemma SiblingSeesResolvedDict(d: string, s: string, sub: seq<Entry>, sub': seq<Entry>, ns: Namespace)
    requires SimpleName(d) && d != s && ResolveEntries(sub, Overlay(ns, sub)) == Ok(sub')
    ensures ResolveEntries([Entry(d, VDict(sub)), Entry(s, VStr(Ref(d)))], ns)
         == Ok([Entry(d, VDict(sub')), Entry(s, VStr(Str(VDict(sub'))))])
  {
    var tail, rest := [Entry(s, VStr(Ref(d)))], [Entry(s, VStr(Str(VDict(sub'))))];
    var ns' := Advance(ns, Entry(d, VDict(sub)), VDict(sub'), tail);
    assert ns' == ns[d := VDict(sub')];
    KnownAndUnknownFields(d, ns');
    ResolveStrCons(s, Ref(d), Str(VDict(sub')), [], [], ns');
    assert [Entry(s, VStr(Ref(d)))] + [] == tail && [Entry(s, VStr(Str(VDict(sub'))))] + [] == rest;
    ResolveDictCons(d, sub, sub', tail, rest, ns);
    Cons2(Entry(d, VDict(sub)), Entry(s, VStr(Ref(d))));
    Cons2(Entry(d, VDict(sub')), Entry(s, VStr(Str(VDict(sub')))));
  }

  /** {d: {k: v, p: "{k}"}, s: "{d}"}: one pass gives `s` the text of the
      resolved dictionary, {k: v, p: v}, not of the one written. */
  lemma ResolvedDictSeenBySibling(d: string, s: string, k: string, p: string, v: string)
    requires SimpleName(d) && SimpleName(k) && NoBraces(v) && d != s && k != p
    ensures ResolveOnce([Entry(d, VDict([Entry(k, VStr(v)), Entry(p, VStr(Ref(k)))])), Entry(s, VStr(Ref(d)))])
         == Ok([Entry(d, VDict([Entry(k, VStr(v)), Entry(p, VStr(v))])),
                Entry(s, VStr(Str(VDict([Entry(k, VStr(v)), Entry(p, VStr(v))]))))])
  {
    var sub := [Entry(k, VStr(v)), Entry(p, VStr(Ref(k)))];
    var top := [Entry(d, VDict(sub)), Entry(s, VStr(Ref(d)))];
    var ns := Overlay(map[], top);
    InnerDictionary(k, p, v, ns);
    SiblingSeesResolvedDict(d, s, sub, [Entry(k, VStr(v)), Entry(p, VStr(v))], ns);
  }

  /** Three string entries, each formatted against `ns`. */
  lemma ResolveThree(a: string, b: string, c: string, x: string, y: string, z: string,
                     x': string, y': string, z': string, ns: Namespace)
    requires Format(x, ns) == Ok(x') && Format(y, ns) == Ok(y') && Format(z, ns) == Ok(z')
    ensures ResolveEntries([Entry(a, VStr(x)), Entry(b, VStr(y)), Entry(c, VStr(z))], ns)
         == Ok([Entry(a, VStr(x')), Entry(b, VStr(y')), Entry(c, VStr(z'))])
  {
    var ea, eb, ec := Entry(a, VStr(x)), Entry(b, VStr(y)), Entry(c, VStr(z));
    var fa, fb, fc := Entry(a, VStr(x')), Entry(b, VStr(y')), Entry(c, VStr(z'));
    var tail2, rest2 := [eb, ec], [fb, fc];
    ResolveStrCons(c, z, z', [], [], ns);
    assert [ec] + [] == [ec] && [fc] + [] == [fc];
    ResolveStrCons(b, y, y', [ec], [fc], ns);
    assert [eb] + [ec] == tail2 && [fb] + [fc] == rest2;
    ResolveStrCons(a, x, x', tail2, rest2, ns);
    assert [ea] + tail2 == [ea, eb, ec] && [fa] + rest2 == [fa, fb, fc];
  }

  /** A reference to a reference needs the second pass: after one pass `c`
      still holds a reference to `a`, because `b` was read from the
      snapshot taken before the pass. */
  lemma ChainNeedsTwoPasses(a: string, b: string, c: string, x: string)
    requires SimpleName(a) && SimpleName(b) && a != b && b != c && a != c && NoBraces(x)
    ensures ResolveOnce([Entry(a, VStr(x)), Entry(b, VStr(Ref(a))), Entry(c, VStr(Ref(b)))])
         == Ok([Entry(a, VStr(x)), Entry(b, VStr(x)), Entry(c, VStr(Ref(a)))])
    ensures ResolveFormatStrings([Entry(a, VStr(x)), Entry(b, VStr(Ref(a))), Entry(c, VStr(Ref(b)))])
         == Ok([Entry(a, VStr(x)), Entry(b, VStr(x)), Entry(c, VStr(x))])
  {
    var d := [Entry(a, VStr(x)), Entry(b, VStr(Ref(a))), Entry(c, VStr(Ref(b)))];
    var once := [Entry(a, VStr(x)), Entry(b, VStr(x)), Entry(c, VStr(Ref(a)))];
    var twice := [Entry(a, VStr(x)), Entry(b, VStr(x)), Entry(c, VStr(x))];
    assert LastWithKey(d, 0) && LastWithKey(d, 1);
    assert LastWithKey(once, 0) && LastWithKey(once, 1);
    var ns1, ns2 := Overlay(map[], d), Overlay(map[], once);
    KnownAndUnknownFields(a, ns1);
    KnownAndUnknownFields(b, ns1);
    KnownAndUnknownFields(a, ns2);
    ResolveThree(a, b, c, x, Ref(a), Ref(b), x, x, Ref(a), ns1);
    ResolveThree(a, b, c, x, x, Ref(a), x, x, x, ns2);
  }

  /** A nested dictionary sees its own keys first, then its parent's; a
      name known to neither is kept as it is. */
  lemma NestedNamespace(k: string, s: string, p: string, q: string, w: string, u: string, v: string)
    requires SimpleName(k) && SimpleName(w) && NoBraces(u) && NoBraces(v)
    requires k != s && k != q && s != q && k != p && w != k && w != s && w != q
    ensures ResolveOnce([Entry(k, VStr(u)),
                         Entry(s, VDict([Entry(k, VStr(v)), Entry(p, VStr(Ref(k)))])),
                         Entry(q, VStr(Ref(k) + Ref(w)))])
         == Ok([Entry(k, VStr(u)),
                Entry(s, VDict([Entry(k, VStr(v)), Entry(p, VStr(v))])),
                Entry(q, VStr(u + Ref(w)))])
  {
    var sub := [Entry(k, VStr(v)), Entry(p, VStr(Ref(k)))];
    var sub' := [Entry(k, VStr(v)), Entry(p, VStr(v))];
    var e1, e2, e3 := Entry(k, VStr(u)), Entry(s, VDict(sub)), Entry(q, VStr(Ref(k) + Ref(w)));
    var f1, f2, f3 := Entry(k, VStr(u)), Entry(s, VDict(sub')), Entry(q, VStr(u + Ref(w)));
    var d := [e1, e2, e3];
    var ns := Overlay(map[], d);
    assert ns[k] == VStr(u) && w !in ns by {
      assert LastWithKey(d, 0);
    }
    NestedNamespaceTail(k, s, p, q, w, u, v, ns);
    ResolveStrCons(k, u, u, [e2, e3], [f2, f3], ns);
    Cons3(e1, e2, e3);
    Cons3(f1, f2, f3);
  }

  lemma NestedNamespaceTail(k: string, s: string, p: string, q: string, w: string, u: string, v: string,
                            ns: Namespace)
    requires SimpleName(k) && SimpleName(w) && NoBraces(u) && NoBraces(v)
    requires k != s && s != q && w != s && k != p
    requires k in ns && ns[k] == VStr(u) && w !in ns
    ensures ResolveEntries([Entry(s, VDict([Entry(k, VStr(v)), Entry(p, VStr(Ref(k)))])),
                            Entry(q, VStr(Ref(k) + Ref(w)))], ns)
         == Ok([Entry(s, VDict([Entry(k, VStr(v)), Entry(p, VStr(v))])), Entry(q, VStr(u + Ref(w)))])
  {
    var sub := [Entry(k, VStr(v)), Entry(p, VStr(Ref(k)))];
    var sub' := [Entry(k, VStr(v)), Entry(p, VStr(v))];
    InnerDictionary(k, p, v, ns);
    var e2, e3 := Entry(s, VDict(sub)), Entry(q, VStr(Ref(k) + Ref(w)));
    var f2, f3 := Entry(s, VDict(sub')), Entry(q, VStr(u + Ref(w)));
    var tail, rest := [e3], [f3];
    var ns2 := Advance(ns, e2, VDict(sub'), tail);
    assert ResolveEntries(tail, ns2) == Ok(rest) by {
      assert ns2 == ns[s := VDict(sub')];
      assert Format(Ref(k) + Ref(w), ns2) == Ok(u + Ref(w)) by {
        assert ns2[k] == VStr(u) && w !in ns2;
        FormatField(k, Ref(w), ns2, false);
        KnownAndUnknownFields(w, ns2);
      }
      ResolveStrCons(q, Ref(k) + Ref(w), u + Ref(w), [], [], ns2);
      assert [e3] + [] == tail && [f3] + [] == rest;
    }
    ResolveDictCons(s, sub, sub', tail, rest, ns);
    Cons2(e2, e3);
    Cons2(f2, f3);
  }

  lemma Cons2<T>(a: T, b: T)
    ensures [a] + [b] == [a, b]
  {
  }

  lemma Cons3<T>(a: T, b: T, c: T)
    ensures [a] + [b, c] == [a, b, c]
  {
  }

  /** {k: v, p: "{k}"} under any parent namespace: the inner `k` wins. */
  lemma InnerDictionary(k: string, p: string, v: string, ns: Namespace)
    requires SimpleName(k) && NoBraces(v) && k != p
    ensures ResolveEntries([Entry(k, VStr(v)), Entry(p, VStr(Ref(k)))],
                           Overlay(ns, [Entry(k, VStr(v)), Entry(p, VStr(Ref(k)))]))
         == Ok([Entry(k, VStr(v)), Entry(p, VStr(v))])
  {
    var e1, e2 := Entry(k, VStr(v)), Entry(p, VStr(Ref(k)));
    var f1, f2 := Entry(k, VStr(v)), Entry(p, VStr(v));
    var sub := [e1, e2];
    var nsSub := Overlay(ns, sub);
    assert Format(Ref(k), nsSub) == Ok(v) by {
      assert LastWithKey(sub, 0);
      assert nsSub[k] == VStr(v);
      KnownAndUnknownFields(k, nsSub);
    }
    var tail, rest := [e2], [f2];
    assert ResolveEntries(tail, nsSub) == Ok(rest) by {
      ResolveStrCons(p, Ref(k), v, [], [], nsSub);
      assert [e2] + [] == tail && [f2] + [] == rest;
    }
    ResolveStrCons(k, v, v, tail, rest, nsSub);
    assert [e1] + tail == sub && [f1] + rest == [f1, f2];
  }

  /** A top-level reference to a key holding brace-free text resolves to
      that text. */
  lemma ReferenceResolved(d: seq<Entry>, i: nat, j: nat)
    requires i < |d| && j < |d| && LastWithKey(d, j)
    requires d[j].value.VStr? && NoBraces(d[j].value.s) && SimpleName(d[j].key)
    requires d[i].value == VStr(Ref(d[j].key))
    ensures ResolveFormatStrings(d).Ok? ==> ResolveFormatStrings(d).value[i].value == d[j].value
  {
    var key, b := d[j].key, d[j].value.s;
    if ResolveFormatStrings(d).Ok? {
      var r1 := ResolveOnce(d).value;
      var r2 := ResolveFormatStrings(d).value;
      var ns1 := Overlay(map[], d);
      assert ns1[key] == VStr(b);
      SeenAtBinding(ns1, d, r1, i);
      var seen := SeenAt(ns1, d, r1, i);
      assert key in seen && seen[key] == VStr(b) by {
        forall m | 0 <= m < i && d[m].key == key ensures !(d[m].value.VDict? && LastWithKey(d, m)) {
          if m != j && m < j {
            assert !LastWithKey(d, m);
          }
        }
      }
      KnownAndUnknownFields(key, seen);
      assert r1[i].value == VStr(b);
      assert ResolveOnce(r1) == Ok(r2);
      assert r2[i].value == VStr(b);
    }
  }
}

=== FILE: geology.dfy ===
/** The geology layer of `geology.py`: the two lookup tables keyed by map
    unit, the column renaming and lookup of `process_ussr_geology`, and the
    rasterisation of rock types numbered by first appearance. */
module Geology {
  import opened Wrappers
  import opened Grids
  import opened Sequences
  import opened Raster

  /** Long names of the map units of the geological map of the former USSR.
      The table is written as six displays joined with `+`: four groups by
      age, the units without bedrock, and the two units spelt two ways
      (Pz/PZ, PtA/PtAi). No unit appears in two of them. */
  const GeologicalKey: map<string, string> := NamesAtoD + NamesJtoO + NamesPtoQ + NamesStoZ + NamesUnclassified + NamesAliases

  const NamesAtoD: map<string, string> := map[
    "A" := "Archean",
    "C" := "Carboniferous",
    "CD" := "Carboniferous and Devonian",
    "Cm" := "Cambrian",
    "CmPt" := "Cambrian-Proterozoic",
    "D" := "Devonian (undivided)",
    "DS" := "Devonian and Silurian"
  ]

  const NamesJtoO: map<string, string> := map[
    "J" := "Jurassic (undivided)",
    "JTr" := "Jurassic and Triassic",
    "K" := "Cretaceous (undivided)",
    "KJ" := "Cretaceous and Jurassic",
    "Mi" := "Acidic Mesozoic intrusive rocks",
    "N" := "Neogene",
    "NPg" := "Neogene and Paleogene",
    "O" := "Ordovician",
    "OCm" := "Ordovician-Cambrian"
  ]

  const NamesPtoQ: map<string, string> := map[
    "P" := "Permian",
    "PC" := "Permian-Carboniferous",
    "Pg" := "Paleogene",
    "PgK" := "Paleogene and Cretaceous",
    "Pi" := "Paleozoic intrusive rocks",
    "Pt" := "Proterozoic",
    "Q" := "Quaternary (undivided)",
    "QT" := "Quaternary and Tertiary",
    "Qv" := "Extrusive rocks Pliocene and Quaternary"
  ]

  const NamesStoZ: map<string, string> := map[
    "S" := "Silurian",
    "SO" := "Silurian-Ordovician",
    "TKi" := "Acidic intrusive rocks Cretaceous, Paleogene and Neogene",
    "Tr" := "Triassic",
    "TrP" := "Triassic and Permian",
    "X" := "Lower and Middle Proterozoic",
    "Y" := "Upper and Middle Proterozoic",
    "Z" := "Upper Proterozoic",
    "ii" := "Basic, Ultrabasic and Alkaline intrusive rocks of unknown age",
    "pC" := "Precambrian (undivided)"
  ]

  const NamesUnclassified: map<string, string> := map[
    "Sea and large lakes" := "",
    "Lakes and wide rivers" := "",
    "Arctic areas covered by Ice" := "",
    "Areas outside of the former Soviet Union" := "",
    "Ice" := "Ice sheet",
    "H2O" := "Water",
    "SEA" := "Ocean",
    "oth" := "Other"
  ]

  const NamesAliases: map<string, string> := map[
    "Pz" := "Paleozoic (undivided)",
    "PZ" := "Paleozoic (undivided)",
    "PtA" := "Acidic Proterozoic and Archean intrusive rocks",
    "PtAi" := "Acidic Proterozoic and Archean intrusive rocks"
  ]

  /** The bedrock type assumed for each map unit; "" where none applies.
      The groups are the same as for the long names. */
  const RockTypes: map<string, string> := RocksAtoD + RocksJtoO + RocksPtoQ + RocksStoZ + RocksUnclassified + RocksAliases

  const RocksAtoD: map<string, string> := map[
    "A" := "granite",
    "C" := "limestone",
    "CD" := "limestone",
    "Cm" := "sandstone",
    "CmPt" := "schist",
    "D" := "limestone",
    "DS" := "limestone"
  ]

  const RocksJtoO: map<string, string> := map[
    "J" := "limestone",
    "JTr" := "sandstone",
    "K" := "sandstone",
    "KJ" := "sandstone",
    "Mi" := "granite",
    "N" := "sandstone",
    "NPg" := "limestone",
    "O" := "limestone",
    "OCm" := "limestone"
  ]

  const RocksPtoQ: map<string, string> := map[
    "P" := "limestone",
    "PC" := "limestone",
    "Pg" := "limestone",
    "PgK" := "limestone",
    "Pi" := "granite",
    "Pt" := "schist",
    "Q" := "sandstone",
    "QT" := "sandstone",
    "Qv" := "sandstone"
  ]

  const RocksStoZ: map<string, string> := map[
    "S" := "limestone",
    "SO" := "limestone",
    "TKi" := "granite",
    "Tr" := "sandstone",
    "TrP" := "sandstone",
    "X" := "schist",
    "Y" := "schist",
    "Z" := "schist",
    "ii" := "granite",
    "pC" := "granite"
  ]

  const RocksUnclassified: map<string, string> := map[
    "Sea and large lakes" := "",
    "Lakes and wide rivers" := "",
    "Arctic areas covered by Ice" := "",
    "Areas outside of the former Soviet Union" := "",
    "Ice" := "",
    "H2O" := "",
    "SEA" := "",
    "oth" := ""
  ]

  const RocksAliases: map<string, string> := map[
    "Pz" := "sandstone",
    "PZ" := "sandstone",
    "PtA" := "granite",
    "PtAi" := "granite"
  ]

  const RockTypeNames: set<string> := {"granite", "limestone", "sandstone", "schist", ""}

  /** Units with no bedrock: water, ice, areas outside the map and "other". */
  const Unclassified: set<string> := {
    "Sea and large lakes", "Lakes and wide rivers", "Arctic areas covered by Ice",
    "Areas outside of the former Soviet Union", "Ice", "H2O", "SEA", "oth"}

  // Each fact about the tables is first proved of one group at a time,
  // where only that group's literals are in view.

  lemma GroupAtoD()
    ensures NamesAtoD.Keys == RocksAtoD.Keys
    ensures forall k :: k in RocksAtoD ==> RocksAtoD[k] in RockTypeNames
  {
  }

  lemma GroupJtoO()
    ensures NamesJtoO.Keys == RocksJtoO.Keys
    ensures forall k :: k in RocksJtoO ==> RocksJtoO[k] in RockTypeNames
  {
  }

  lemma GroupPtoQ()
    ensures NamesPtoQ.Keys == RocksPtoQ.Keys
    ensures forall k :: k in RocksPtoQ ==> RocksPtoQ[k] in RockTypeNames
  {
  }

  lemma GroupStoZ()
    ensures NamesStoZ.Keys == RocksStoZ.Keys
    ensures forall k :: k in RocksStoZ ==> RocksStoZ[k] in RockTypeNames
  {
  }

  lemma GroupUnclassified()
    ensures NamesUnclassified.Keys == RocksUnclassified.Keys
    ensures forall k :: k in RocksUnclassified ==> RocksUnclassified[k] in RockTypeNames
  {
  }

  lemma GroupAliases()
    ensures NamesAliases.Keys == RocksAliases.Keys
    ensures forall k :: k in RocksAliases ==> RocksAliases[k] in RockTypeNames
  {
  }

  /** The units without bedrock all map to "", and are none of the aliases. */
  lemma UnclassifiedGroup()
    ensures forall k :: k in Unclassified ==> k in RocksUnclassified && RocksUnclassified[k] == ""
    ensures forall k :: k in RocksUnclassified ==> k !in RocksAliases
  {
  }

  lemma PaleozoicGroup()
    ensures "Pz" in NamesAliases && "PZ" in NamesAliases && "Pz" in RocksAliases && "PZ" in RocksAliases
    ensures NamesAliases["Pz"] == NamesAliases["PZ"] == "Paleozoic (undivided)"
    ensures RocksAliases["Pz"] == RocksAliases["PZ"] == "sandstone"
  {
  }

  lemma ProterozoicGroup()
    ensures "PtA" in NamesAliases && "PtAi" in NamesAliases && "PtA" in RocksAliases && "PtAi" in RocksAliases
    ensures NamesAliases["PtA"] == NamesAliases["PtAi"] == "Acidic Proterozoic and Archean intrusive rocks"
    ensures RocksAliases["PtA"] == RocksAliases["PtAi"] == "granite"
  {
  }

  lemma TablesShareKeys()
    ensures GeologicalKey.Keys == RockTypes.Keys
  {
    GroupAtoD();
    GroupJtoO();
    GroupPtoQ();
    GroupStoZ();
    GroupUnclassified();
    GroupAliases();
  }

  lemma RockTypeKeysNamed()
    ensures forall k :: k in RockTypes ==> k in GeologicalKey
  {
    TablesShareKeys();
  }

  lemma NamedKeysHaveRockType()
    ensures forall k :: k in GeologicalKey ==> k in RockTypes
  {
    TablesShareKeys();
  }

  lemma RockTypesAreKnown()
    ensures forall k :: k in RockTypes ==> RockTypes[k] in RockTypeNames
  {
    GroupAtoD();
    GroupJtoO();
    GroupPtoQ();
    GroupStoZ();
    GroupUnclassified();
    GroupAliases();
  }

  lemma UnclassifiedHaveNoRockType()
    ensures forall k :: k in Unclassified ==> k in RockTypes && RockTypes[k] == ""
  {
    UnclassifiedGroup();
  }

  /** Pz/PZ and PtA/PtAi are spellings of the same unit. */
  lemma PaleozoicNames()
    ensures "Pz" in GeologicalKey && "PZ" in GeologicalKey
    ensures GeologicalKey["Pz"] == GeologicalKey["PZ"] == "Paleozoic (undivided)"
  {
    PaleozoicGroup();
  }

  lemma PaleozoicRockTypes()
    ensures "Pz" in RockTypes && "PZ" in RockTypes
    ensures RockTypes["Pz"] == RockTypes["PZ"] == "sandstone"
  {
    PaleozoicGroup();
  }

  lemma ProterozoicNames()
    ensures "PtA" in GeologicalKey && "PtAi" in GeologicalKey
    ensures GeologicalKey["PtA"] == GeologicalKey["PtAi"] == "Acidic Proterozoic and Archean intrusive rocks"
  {
    ProterozoicGroup();
  }

  lemma ProterozoicRockTypes()
    ensures "PtA" in RockTypes && "PtAi" in RockTypes
    ensures RockTypes["PtA"] == RockTypes["PtAi"] == "granite"
  {
    ProterozoicGroup();
  }

  // ---------------------------------------------------------------------------
  // process_ussr_geology

  datatype GeoError =
    | NoKeyColumn                       // the frame has no `key` column after renaming
    | UnknownKeys(keys: seq<string>)    // KeyError: units absent from the tables
    | NoRockTypeColumn
    | RasterFailed(e: RasterError)

  function RenameColumn(c: string): (r: string)
    ensures c == "GLG" ==> r == "key"
    ensures c == "PERIMETER" ==> r == "perimeter"
    ensures c == "AREA" ==> r == "area"
    ensures c !in {"GLG", "PERIMETER", "AREA"} ==> r == c
  {
    if c == "GLG" then "key"
    else if c == "PERIMETER" then "perimeter"
    else if c == "AREA" then "area"
    else c
  }

  function Rename<G>(f: Frame<G>): (r: Frame<G>)
    ensures |r.columns| == |f.columns| && r.rows == f.rows
    ensures forall k :: 0 <= k < |f.columns| ==> r.columns[k] == RenameColumn(f.columns[k])
  {
    Frame(seq(|f.columns|, k requires 0 <= k < |f.columns| => RenameColumn(f.columns[k])), f.rows)
  }

  /** Assign column `name`: overwrite it when present, append it otherwise. */
  function SetColumn<G>(f: Frame<G>, name: string, values: seq<string>): (r: Frame<G>)
    requires WellFormed(f) && |values| == |f.rows|
    ensures WellFormed(r) && name in r.columns && |r.rows| == |f.rows|
    ensures ColumnValues(r, name) == values
    ensures name in f.columns ==> r.columns == f.columns
    ensures name !in f.columns ==> r.columns == f.columns + [name]
    ensures forall c :: c in f.columns && c != name ==> c in r.columns && ColumnValues(r, c) == ColumnValues(f, c)
    ensures forall k :: 0 <= k < |f.rows| ==> r.rows[k].geometry == f.rows[k].geometry
  {
    if name in f.columns then
      var idx := IndexOf(f.columns, name);
      var r := Frame(f.columns, seq(|f.rows|, k requires 0 <= k < |f.rows| =>
                 Row(f.rows[k].cells[idx := values[k]], f.rows[k].geometry)));
      assert forall c :: c in f.columns && c != name ==> IndexOf(f.columns, c) != idx;
      r
    else
      var r := Frame(f.columns + [name], seq(|f.rows|, k requires 0 <= k < |f.rows| =>
                 Row(f.rows[k].cells + [values[k]], f.rows[k].geometry)));
      assert forall c :: c in f.columns ==> IndexOf(r.columns, c) == IndexOf(f.columns, c) by {
        forall c | c in f.columns ensures IndexOf(r.columns, c) == IndexOf(f.columns, c) {
          IndexOfPrefix(f.columns, name, c);
        }
      }
      IndexOfAfter(f.columns, name, name);
      r
  }

  /** The keys absent from a table, in row order. */
  function MissingKeys(keys: seq<string>, table: map<string, string>): (m: seq<string>)
    ensures forall k :: k in m <==> k in keys && k !in table
  {
    if |keys| == 0 then []
    else (if keys[0] in table then [] else [keys[0]]) + MissingKeys(keys[1..], table)
  }

  /** Some row's unit is absent from `names`. */
  predicate HasUnknownKey<G>(f: Frame<G>, names: map<string, string>)
    requires WellFormed(f)
  {
    "key" in Rename(f).columns && exists k :: k in ColumnValues(Rename(f), "key") && k !in names
  }

  /** `r` is `f` renamed, with each row's long name and rock type looked up
      by its unit and every other column carried over. */
  ghost predicate Annotated<G>(f: Frame<G>, r: Frame<G>, names: map<string, string>, types: map<string, string>)
    requires WellFormed(f)
  {
    && "key" in Rename(f).columns
    && WellFormed(r) && |r.rows| == |f.rows|
    && "long_name" in r.columns && "rock_type" in r.columns
    && (forall k :: 0 <= k < |f.rows| ==>
          && ColumnValues(Rename(f), "key")[k] in names && ColumnValues(Rename(f), "key")[k] in types
          && ColumnValues(r, "long_name")[k] == names[ColumnValues(Rename(f), "key")[k]]
          && ColumnValues(r, "rock_type")[k] == types[ColumnValues(Rename(f), "key")[k]]
          && r.rows[k].geometry == f.rows[k].geometry)
    && forall c :: c in Rename(f).columns && c !in {"long_name", "rock_type"} ==>
         c in r.columns && ColumnValues(r, c) == ColumnValues(Rename(f), c)
  }

  /** The renaming and the two lookups, over any pair of tables with the
      same keys. */
  function ProcessWith<G>(f: Frame<G>, names: map<string, string>, types: map<string, string>): (r: Result<Frame<G>, GeoError>)
    requires WellFormed(f) && names.Keys == types.Keys
    ensures r == Err(NoKeyColumn) <==> "key" !in Rename(f).columns
    ensures r.Err? <==> "key" !in Rename(f).columns || HasUnknownKey(f, names)
    ensures r.Ok? ==> Annotated(f, r.value, names, types)
  {
    var g := Rename(f);
    if "key" !in g.columns then Err(NoKeyColumn)
    else
      var keys := ColumnValues(g, "key");
      var missing := MissingKeys(keys, names);
      if |missing| > 0 then
        assert missing[0] in missing;
        Err(UnknownKeys(missing))
      else
        assert forall k :: 0 <= k < |keys| ==> keys[k] in names by {
          forall k | 0 <= k < |keys| ensures keys[k] in names {
            assert keys[k] !in missing;
          }
        }
        Ok(AddLookupColumns(g, keys, names, types))
  }

  /** Assign `long_name` then `rock_type` from the row keys. */
  function AddLookupColumns<G>(g: Frame<G>, keys: seq<string>, names: map<string, string>, types: map<string, string>): (r: Frame<G>)
    requires WellFormed(g) && |keys| == |g.rows| && names.Keys == types.Keys
    requires forall k :: 0 <= k < |keys| ==> keys[k] in names
    ensures WellFormed(r) && |r.rows| == |g.rows|
    ensures "long_name" in r.columns && "rock_type" in r.columns
    ensures forall k :: 0 <= k < |keys| ==>
              && ColumnValues(r, "long_name")[k] == names[keys[k]]
              && ColumnValues(r, "rock_type")[k] == types[keys[k]]
              && r.rows[k].geometry == g.rows[k].geometry
    ensures forall c :: c in g.columns && c !in {"long_name", "rock_type"} ==>
              c in r.columns && ColumnValues(r, c) == ColumnValues(g, c)
  {
    var withNames := SetColumn(g, "long_name", seq(|keys|, k requires 0 <= k < |keys| => names[keys[k]]));
    SetColumn(withNames, "rock_type", seq(|keys|, k requires 0 <= k < |keys| => types[keys[k]]))
  }

  /** process_ussr_geology: rename GLG, PERIMETER and AREA; then add the long
      name and the rock type of each row's unit, failing on unknown units. */
  function ProcessUssrGeology<G>(f: Frame<G>): (r: Result<Frame<G>, GeoError>)
    requires WellFormed(f)
    ensures r == Err(NoKeyColumn) <==> "key" !in Rename(f).columns
    ensures r.Err? <==> "key" !in Rename(f).columns || HasUnknownKey(f, GeologicalKey)
    ensures r.Ok? ==> Annotated(f, r.value, GeologicalKey, RockTypes)
  {
    TablesShareKeys();
    ProcessWith(f, GeologicalKey, RockTypes)
  }

  /** Every rock type the processing assigns is one of the known kinds. */
  lemma ProcessedRockTypesKnown<G>(f: Frame<G>, k: nat)
    requires WellFormed(f) && ProcessUssrGeology(f).Ok? && k < |f.rows|
    ensures ColumnValues(ProcessUssrGeology(f).value, "rock_type")[k] in RockTypeNames
  {
    var r := ProcessUssrGeology(f).value;
    assert Annotated(f, r, GeologicalKey, RockTypes);
    var key := ColumnValues(Rename(f), "key")[k];
    assert key in RockTypes;
    RockTypesAreKnown();
  }

  /** Renaming touches only the three named columns. */
  lemma RenameKeepsOtherColumns<G>(f: Frame<G>, k: nat)
    requires k < |f.columns| && f.columns[k] !in {"GLG", "PERIMETER", "AREA"}
    ensures Rename(f).columns[k] == f.columns[k]
  {
  }

  // ---------------------------------------------------------------------------
  // geology_df_to_xarray

  /** The rock types in order of first appearance; type `RockTypeOrder()[c]`
      gets code c + 1. */
  function RockTypeOrder<G>(f: Frame<G>): (ts: seq<string>)
    requires WellFormed(f) && "rock_type" in f.columns
    ensures Distinct(ts)
    ensures forall t :: t in ts <==> t in ColumnValues(f, "rock_type")
  {
    Unique(ColumnValues(f, "rock_type"))
  }

  /** Rock types are numbered in the order they first appear in the frame. */
  lemma RockTypeNumbering<G>(f: Frame<G>, a: string, b: string)
    requires WellFormed(f) && "rock_type" in f.columns
    requires a in ColumnValues(f, "rock_type") && b in ColumnValues(f, "rock_type")
    ensures a in RockTypeOrder(f) && b in RockTypeOrder(f)
    ensures IndexOf(ColumnValues(f, "rock_type"), a) < IndexOf(ColumnValues(f, "rock_type"), b)
            <==> IndexOf(RockTypeOrder(f), a) < IndexOf(RockTypeOrder(f), b)
  {
    UniqueFirstAppearance(ColumnValues(f, "rock_type"), a, b);
  }

  /** The shape rasterised for each rock type: the geometries of its rows. */
  function RockTypeShapes<G>(f: Frame<G>): (shapes: seq<seq<G>>)
    requires WellFormed(f) && "rock_type" in f.columns
    ensures |shapes| == |RockTypeOrder(f)|
  {
    var types := RockTypeOrder(f);
    var idx := IndexOf(f.columns, "rock_type");
    seq(|types|, c requires 0 <= c < |types| => GeometriesWhere(f.rows, idx, types[c]))
  }

  /** geology_df_to_xarray: each pixel holds the highest code among the rock
      types whose rows cover it, 0 where none does. */
  function GeologyToRaster<G>(f: Frame<G>, t: Target, covers: (seq<G>, int, int) -> bool): (r: Result<Grid<int>, GeoError>)
    requires WellFormed(f)
    ensures "rock_type" !in f.columns ==> r == Err(NoRockTypeColumn)
    ensures r.Ok? ==> "rock_type" in f.columns && HasXY(t) && |f.rows| > 0 && IsGrid(r.value, t.ny, t.nx)
    ensures r.Ok? ==> var shapes := RockTypeShapes(f);
              forall i, j :: 0 <= i < t.ny && 0 <= j < t.nx ==>
                && r.value[i][j] == LastCovering(shapes, covers, i, j)
                && (r.value[i][j] == 0 <==> forall c :: 0 <= c < |shapes| ==> !covers(shapes[c], i, j))
    ensures "rock_type" in f.columns && HasXY(t) && |f.rows| > 0 ==> r.Ok?
  {
    if "rock_type" !in f.columns then Err(NoRockTypeColumn)
    else
      var shapes := RockTypeShapes(f);
      assert |f.rows| > 0 ==> ColumnValues(f, "rock_type")[0] in RockTypeOrder(f);
      if |shapes| == 0 then Err(RasterFailed(NoPolygons))
      else if !HasXY(t) then Err(RasterFailed(MissingXY))
      else
        var g := MaxMerge(CodeLayers(shapes, t, covers), t.ny, t.nx);
        assert forall i, j :: 0 <= i < t.ny && 0 <= j < t.nx ==> g[i][j] == LastCovering(shapes, covers, i, j) by {
          forall i, j | 0 <= i < t.ny && 0 <= j < t.nx ensures g[i][j] == LastCovering(shapes, covers, i, j) {
            MaxOverCodes(shapes, t, covers, i, j);
          }
        }
        Ok(g)
  }
}

=== FILE: grids.dfy ===
/** Rectangular rasters as sequences of rows, shared by the raster modules. */
module Grids {

  type Grid<T> = seq<seq<T>>

  /** The element type of an array, as far as the validators look at it. */
  datatype DType = BoolType | IntType | FloatType | OtherType

  /** `g` has `rows` rows of `cols` cells each (numpy shape (rows, cols)). */
  predicate IsGrid<T>(g: Grid<T>, rows: nat, cols: nat) {
    |g| == rows && forall i :: 0 <= i < rows ==> |g[i]| == cols
  }

  /** Every layer of a stack has the given shape. */
  predicate AllGrids<T>(layers: seq<Grid<T>>, rows: nat, cols: nat) {
    forall k :: 0 <= k < |layers| ==> |layers[k]| == rows && forall i :: 0 <= i < rows ==> |layers[k][i]| == cols
  }

  /** The cell at (i, j), false outside the grid. */
  predicate At(g: Grid<bool>, i: int, j: int) {
    0 <= i < |g| && 0 <= j < |g[i]| && g[i][j]
  }

  function Fill<T>(rows: nat, cols: nat, v: T): (g: Grid<T>)
    ensures IsGrid(g, rows, cols)
    ensures forall i, j :: 0 <= i < rows && 0 <= j < cols ==> g[i][j] == v
  {
    seq(rows, i => seq(cols, j => v))
  }
}

=== FILE: mat_reader.dfy ===
/** Reading CryoGrid's MATLAB output (`read_cryogrid_mat.py`): MATLAB day
    numbers back to calendar times, the centroid index in an output file
    name, the 1-based rows of the spatial run info, the stratigraphy labels
    of a CryoGrid Excel sheet, and the padded extent of the mapped grid. */
module CryoGridMat {
  import opened Wrappers
  import opened Text
  import opened Dates
  import opened Reals
  import opened MatlabExport

  datatype MatError =
    | TooFewParts                  // IndexError of `split('_')[-2]`
    | NotAnInteger(part: string)   // ValueError of `int(...)`
    | MissingLabels(labels: seq<int>)  // KeyError of `.loc[cluster_idx]`
    | BadCell(row: int, column: int)   // ValueError of `worksheet.cell`
    | EmptyCoordinate              // reduction over an empty coordinate

  // ---------------------------------------------------------------------------
  // decompose_decimal_day, matlab2datetime
  // ---------------------------------------------------------------------------

  /** The keyword arguments handed to `pd.DateOffset`. */
  datatype DayParts = DayParts(days: int, hours: int, minutes: int, seconds: real)

  /** decompose_decimal_day as written: after the hours it scales the
      remaining fraction of a DAY by 60, so `minutes` counts 1/60 days and
      `seconds` 1/3600 days. The parts still add up to the input, but with
      those weights. */
  function DecomposeAsWritten(x: real): (r: DayParts)
    ensures x == r.days as real + r.hours as real / 24.0 + r.minutes as real / 60.0 + r.seconds / 60.0
    ensures x >= 0.0 ==> r.days >= 0 && 0 <= r.hours < 24 && 0 <= r.minutes <= 2 && 0.0 <= r.seconds < 1.0
  {
    var days := Truncate(x);
    var frac := x - days as real;
    var hours := Truncate(frac * 24.0);
    var frac2 := frac - hours as real / 24.0;
    var minutes := Truncate(frac2 * 60.0);
    var frac3 := frac2 - minutes as real / 60.0;
    DayParts(days, hours, minutes, frac3 * 60.0)
  }

  /** 12:30 on day 0 (25/48 of a day) comes out as 12 hours, 1 "minute" and
      0.25 "seconds": `pd.DateOffset` then reads 12:01:00.25. */
  lemma DecomposeAsWrittenHalfPastTwelve()
    ensures DecomposeAsWritten(25.0 / 48.0) == DayParts(0, 12, 1, 0.25)
    ensures DecomposeIntended(25.0 / 48.0) == DayParts(0, 12, 30, 0.0)
  {
    assert Truncate(25.0 / 48.0) == 0;
    assert Truncate(25.0 / 48.0 * 24.0) == 12;
    assert Truncate((25.0 / 48.0 - 12.0 / 24.0) * 60.0) == 1;
    assert Truncate((25.0 / 48.0 - 12.0 / 24.0) * 1440.0) == 30;
  }

  /** The decomposition the function evidently intends: minutes of 1/1440
      day and seconds of 1/86400 day, each within its clock range. */
  function DecomposeIntended(x: real): (r: DayParts)
    ensures x == r.days as real + r.hours as real / 24.0 + r.minutes as real / 1440.0 + r.seconds / 86400.0
    ensures x >= 0.0 ==> r.days >= 0 && 0 <= r.hours < 24 && 0 <= r.minutes < 60 && 0.0 <= r.seconds < 60.0
    ensures x < 0.0 ==> r.days <= 0 && -24 < r.hours <= 0 && -60 < r.minutes <= 0 && -60.0 < r.seconds <= 0.0
  {
    var days := Truncate(x);
    var frac := x - days as real;
    var hours := Truncate(frac * 24.0);
    var frac2 := frac - hours as real / 24.0;
    var minutes := Truncate(frac2 * 1440.0);
    var frac3 := frac2 - minutes as real / 1440.0;
    DayParts(days, hours, minutes, frac3 * 86400.0)
  }

  /** A whole number of days has no hours, minutes or seconds (the
      `offset_days=-367` of matlab2datetime is such a case). */
  lemma DecomposeWholeDays(d: int)
    ensures DecomposeIntended(d as real) == DayParts(d, 0, 0, 0.0)
    ensures DecomposeAsWritten(d as real) == DayParts(d, 0, 0, 0.0)
  {
    TruncateInt(d);
    TruncateInt(0);
  }

  const FirstOfYearOne: Date := Date(1, 1, 1)

  /** `pd.Timestamp("0001-01-01")` is day 366 of the proleptic calendar
      (year 0 is a leap year). */
  lemma FirstOfYearOneOrdinal()
    ensures Valid(FirstOfYearOne) && Ordinal(FirstOfYearOne) == 366
  {
  }

  /** `t0 + DateOffset(**parts) + DateOffset(days=-367)` with t0 =
      0001-01-01: `None` when the day falls before year 1; fractions of a
      second are dropped. */
  function OffsetTime(p: DayParts): (r: Option<Time>)
    requires 0 <= p.hours < 24 && 0 <= p.minutes < 60 && 0.0 <= p.seconds < 60.0
    ensures r.Some? <==> p.days >= 367
    ensures r.Some? ==> ValidTime(r.value) && Ordinal(r.value.date) == p.days - 1
    ensures r.Some? ==> r.value.hour == p.hours && r.value.minute == p.minutes
                        && r.value.second as real <= p.seconds < r.value.second as real + 1.0
  {
    if p.days < 367 then None
    else
      FirstOfYearOneOrdinal();
      AdvanceOrdinal(FirstOfYearOne, p.days - 367);
      Some(Time(Advance(FirstOfYearOne, p.days - 367), p.hours, p.minutes, Truncate(p.seconds)))
  }

  /** matlab2datetime(x) as written, over DecomposeAsWritten: the hour is
      the whole hours of the day fraction, but the "minutes" are whole
      sixtieths of a day past the hour (at most 2) and no whole second is
      left. */
  function MatlabToTimeAsWritten(x: real): (r: Option<Time>)
    ensures r.Some? <==> x >= 367.0
    ensures r.Some? ==> ValidTime(r.value) && Ordinal(r.value.date) == Truncate(x) - 1
    ensures r.Some? ==> r.value.hour == Truncate((x - Truncate(x) as real) * 24.0)
    ensures r.Some? ==> 0 <= r.value.minute <= 2 && r.value.second == 0
  {
    if x < 367.0 then None else OffsetTime(DecomposeAsWritten(x))
  }

  /** matlab2datetime(x) with the corrected decomposition: the clock is the
      whole number of seconds in the day fraction of x. */
  function MatlabToTime(x: real): (r: Option<Time>)
    ensures r.Some? <==> x >= 367.0
    ensures r.Some? ==> ValidTime(r.value) && Ordinal(r.value.date) == Truncate(x) - 1
    ensures r.Some? ==> r.value.hour * 3600 + r.value.minute * 60 + r.value.second
                        == Truncate((x - Truncate(x) as real) * 86400.0)
  {
    if x < 367.0 then None
    else
      var p := DecomposeIntended(x);
      var r := OffsetTime(p);
      ClockSeconds(x - p.days as real, p);
      r
  }

  /** The corrected parts of a day fraction f count its whole seconds. */
  lemma ClockSeconds(f: real, p: DayParts)
    requires 0.0 <= f < 1.0
    requires f * 86400.0 == p.hours as real * 3600.0 + p.minutes as real * 60.0 + p.seconds
    requires 0 <= p.hours && 0 <= p.minutes && 0.0 <= p.seconds
    ensures Truncate(f * 86400.0) == p.hours * 3600 + p.minutes * 60 + Truncate(p.seconds)
  {
    var n := p.hours * 3600 + p.minutes * 60 + Truncate(p.seconds);
    assert n as real <= f * 86400.0 < n as real + 1.0;
  }

  /** On an exact whole number of hours, the two readings agree. A float64
      datenum a little below the hour does not (FloatErrorLosesHour). */
  lemma AsWrittenAgreesOnWholeHours(d: int, h: int)
    requires d >= 367 && 0 <= h < 24
    ensures MatlabToTimeAsWritten(d as real + h as real / 24.0) == MatlabToTime(d as real + h as real / 24.0)
    ensures MatlabToTime(d as real + h as real / 24.0).value.hour == h
  {
    var x := d as real + h as real / 24.0;
    assert Truncate(x) == d;
    assert x - d as real == h as real / 24.0;
    TruncateInt(h);
    assert Truncate(h as real / 24.0 * 24.0) == h;
    TruncateInt(0);
  }

  /** 12:30 on any day from year 1 on: as written the reading is 12:01,
      corrected it is 12:30. */
  lemma MatlabToTimeHalfPastTwelve(d: int)
    requires d >= 367
    ensures MatlabToTimeAsWritten(d as real + 25.0 / 48.0).value.minute == 1
    ensures MatlabToTime(d as real + 25.0 / 48.0).value.minute == 30
  {
    var x := d as real + 25.0 / 48.0;
    assert Truncate(x) == d;
    assert x - d as real == 25.0 / 48.0;
    assert Truncate(25.0 / 48.0 * 24.0) == 12;
    assert Truncate((25.0 / 48.0 - 12.0 / 24.0) * 60.0) == 1;
    assert Truncate((25.0 / 48.0 - 12.0 / 24.0) * 1440.0) == 30;
  }

  /** Reading back the exact datenum of the MATLAB export (reference date
      1970-01-01) gives the original date and hour; the export already
      dropped minutes and seconds. The float64 value the export writes can
      lie below it (FloatErrorLosesHour, NearestSecondRoundTrip). */
  lemma MatlabRoundTrip(t: Time)
    requires ValidTime(t) && t.date.year >= 1
    ensures MatlabToTime(MatlabDatenum(t, UnixEpoch)) == Some(Time(t.date, t.hour, 0, 0))
  {
    MatlabDatenumValue(t, UnixEpoch);
    var d := Ordinal(t.date) + 1;
    var x := MatlabDatenum(t, UnixEpoch);
    assert x == d as real + t.hour as real / 24.0;
    YearBounds(t.date);
    DaysBeforeYearMonotone(1, t.date.year);
    assert d >= 367;
    assert Truncate(x) == d;
    assert x - d as real == t.hour as real / 24.0;
    TruncateInt(t.hour);
    assert Truncate(t.hour as real / 24.0 * 24.0) == t.hour;
    TruncateInt(0);
    var r := MatlabToTime(x);
    OrdinalMonotone(r.value.date, t.date);
  }

  /** The export writes its datenums in float64, so a whole hour h arrives
      as d + h/24 - e for a rounding error e. Any e below the whole hour,
      however small, turns the hour back by one: as written the reading is
      (h-1):02, corrected it is (h-1):59:59. */
  lemma FloatErrorLosesHour(d: int, h: int, e: real)
    requires d >= 367 && 1 <= h < 24 && 0.0 < e < 1.0 / 86400.0
    ensures MatlabToTimeAsWritten(d as real + h as real / 24.0 - e).value.hour == h - 1
    ensures MatlabToTimeAsWritten(d as real + h as real / 24.0 - e).value.minute == 2
    ensures MatlabToTime(d as real + h as real / 24.0 - e).value.hour == h - 1
    ensures MatlabToTime(d as real + h as real / 24.0 - e).value.minute == 59
    ensures MatlabToTime(d as real + h as real / 24.0 - e).value.second == 59
  {
    var x := d as real + h as real / 24.0 - e;
    var f := h as real / 24.0 - e;
    assert Truncate(x) == d && x - d as real == f;
    assert Truncate(f * 24.0) == h - 1;
    assert Truncate(f * 86400.0) == h * 3600 - 1;
    var p := DecomposeAsWritten(x);
    assert p.hours == h - 1;
    assert Truncate((f - (h - 1) as real / 24.0) * 60.0) == 2;
  }

  /** The export's float64 datenum for 2020-01-01 01:00 is 737791.0416666666,
      exactly 6337576790480213 / 2^33, which is 1/(3 * 2^33) below 01:00. It
      reads back as 00:02 as written and as 00:59:59 corrected. */
  lemma ExportedOneAm()
    ensures 6337576790480213.0 / 8589934592.0 == 737791.0 + 1.0 / 24.0 - 1.0 / 25769803776.0
    ensures MatlabToTimeAsWritten(6337576790480213.0 / 8589934592.0).value.hour == 0
    ensures MatlabToTimeAsWritten(6337576790480213.0 / 8589934592.0).value.minute == 2
    ensures MatlabToTime(6337576790480213.0 / 8589934592.0).value.hour == 0
  {
    FloatErrorLosesHour(737791, 1, 1.0 / 25769803776.0);
  }

  /** x rounded to the nearest whole second of a day (halves round up). */
  function NearestSecond(x: real): (y: real)
    ensures x - 1.0 / 172800.0 < y <= x + 1.0 / 172800.0
    ensures (y * 86400.0).Floor as real == y * 86400.0
  {
    (x * 86400.0 + 0.5).Floor as real / 86400.0
  }

  /** The read-back with the float error absorbed: the datenum is first
      rounded to the nearest second, then read with the corrected
      decomposition, so the clock is exactly that second of the day. */
  function MatlabToTimeNearestSecond(x: real): (r: Option<Time>)
    ensures r.Some? <==> NearestSecond(x) >= 367.0
    ensures r.Some? ==> ValidTime(r.value)
                        && Ordinal(r.value.date) == Truncate(NearestSecond(x)) - 1
    ensures r.Some? ==> (r.value.hour * 3600 + r.value.minute * 60 + r.value.second) as real
                        == (NearestSecond(x) - Truncate(NearestSecond(x)) as real) * 86400.0
  {
    var y := NearestSecond(x);
    WholeSecondsClock(y);
    MatlabToTime(y)
  }

  /** A datenum of whole seconds has a whole number of seconds in its day
      fraction. */
  lemma WholeSecondsClock(y: real)
    requires (y * 86400.0).Floor as real == y * 86400.0
    ensures Truncate((y - Truncate(y) as real) * 86400.0) as real == (y - Truncate(y) as real) * 86400.0
  {
    var n := (y * 86400.0).Floor;
    var d := Truncate(y);
    assert (y - d as real) * 86400.0 == (n - d * 86400) as real;
    TruncateInt(n - d * 86400);
  }

  /** Any exported datenum read with an error under half a second gives back
      the exported date and hour. */
  lemma NearestSecondRoundTrip(t: Time, e: real)
    requires ValidTime(t) && t.date.year >= 1
    requires -1.0 / 172800.0 <= e < 1.0 / 172800.0
    ensures MatlabToTimeNearestSecond(MatlabDatenum(t, UnixEpoch) + e) == Some(Time(t.date, t.hour, 0, 0))
  {
    var x := MatlabDatenum(t, UnixEpoch);
    MatlabDatenumValue(t, UnixEpoch);
    var n := (Ordinal(t.date) + 1) * 86400 + t.hour * 3600;
    assert x * 86400.0 == n as real;
    assert ((x + e) * 86400.0 + 0.5).Floor == n;
    assert NearestSecond(x + e) == x;
    MatlabRoundTrip(t);
  }

  // ---------------------------------------------------------------------------
  // read_OUT_regridded_FCI2_file: the centroid index in the file name
  // ---------------------------------------------------------------------------

  /** `int(fname.split('_')[-2])`. */
  function CentroidIndex(fname: string): (r: Result<int, MatError>)
    ensures |Split(fname, '_')| < 2 <==> r == Err(TooFewParts)
    ensures r.Ok? ==> |Split(fname, '_')| >= 2
                      && ParseInt(Split(fname, '_')[|Split(fname, '_')| - 2]) == Some(r.value)
  {
    var parts := Split(fname, '_');
    if |parts| < 2 then Err(TooFewParts)
    else
      match ParseInt(parts[|parts| - 2])
      case None => Err(NotAnInteger(parts[|parts| - 2]))
      case Some(i) => Ok(i)
  }

  /** A name `<anything>_<index>_<suffix>` whose suffix has no underscore
      yields the index back. */
  lemma CentroidIndexOfName(prefix: string, index: int, suffix: string)
    requires '_' !in suffix
    ensures CentroidIndex(prefix + "_" + IntToString(index) + "_" + suffix) == Ok(index)
  {
    var n := IntToString(index);
    NoUnderscoreInInt(index);
    SplitTwoLast(prefix, n, suffix);
    IntToStringRoundTrip(index);
    CentroidIndexOfParts(prefix + "_" + n + "_" + suffix, Split(prefix, '_') + [n, suffix], index);
  }

  /** Two underscore-free fields after a last underscore-separated prefix. */
  lemma SplitTwoLast(prefix: string, n: string, suffix: string)
    requires '_' !in n && '_' !in suffix
    ensures Split(prefix + "_" + n + "_" + suffix, '_') == Split(prefix, '_') + [n, suffix]
  {
    var tail := n + ['_'] + suffix;
    assert prefix + "_" + n + "_" + suffix == prefix + ['_'] + tail;
    SplitConcat(prefix, tail, '_');
    SplitConcat(n, suffix, '_');
    SplitNoSep(n, '_');
    SplitNoSep(suffix, '_');
  }

  lemma CentroidIndexOfParts(fname: string, parts: seq<string>, index: int)
    requires Split(fname, '_') == parts && |parts| >= 2
    requires ParseInt(parts[|parts| - 2]) == Some(index)
    ensures CentroidIndex(fname) == Ok(index)
  {
    var last := parts[|parts| - 2];
    assert Split(fname, '_')[|Split(fname, '_')| - 2] == last;
  }

  lemma NoUnderscoreInInt(i: int)
    ensures '_' !in IntToString(i)
  {
    var n := IntToString(i);
    if i >= 0 {
      assert forall k :: 0 <= k < |n| ==> IsDigit(n[k]);
    } else {
      assert n[0] == '-';
      assert forall k :: 1 <= k < |n| ==> IsDigit(n[1..][k - 1]) && n[k] == n[1..][k - 1];
    }
  }

  // ---------------------------------------------------------------------------
  // read_cryogrid_spatial_run_info: 1-based rows and the centroid lookup
  // ---------------------------------------------------------------------------

  /** The run-info table after `df.index += 1`: row i carries label i + 1. */
  function RunInfo<T>(rows: seq<T>): (r: seq<(int, T)>)
    ensures |r| == |rows|
    ensures forall i :: 0 <= i < |rows| ==> r[i] == (i + 1, rows[i])
  {
    seq(|rows|, i requires 0 <= i < |rows| => (i + 1, rows[i]))
  }

  /** The labels of `cluster_idx` the table does not hold, in order. */
  function MissingOf(n: nat, idx: seq<int>): (r: seq<int>)
    ensures forall l :: l in r <==> l in idx && !(1 <= l <= n)
  {
    if |idx| == 0 then []
    else
      var rest := MissingOf(n, idx[1..]);
      assert idx == [idx[0]] + idx[1..];
      if 1 <= idx[0] <= n then rest else [idx[0]] + rest
  }

  /** `df.loc[cluster_idx].set_index(cluster_idx)`: one centroid row per
      label, in the order of `cluster_idx`; any label outside 1..n is a
      KeyError naming the missing labels. */
  function Centroids<T>(rows: seq<T>, idx: seq<int>): (r: Result<seq<(int, T)>, MatError>)
    ensures r.Ok? <==> forall k :: 0 <= k < |idx| ==> 1 <= idx[k] <= |rows|
    ensures r.Err? ==> r.error == MissingLabels(MissingOf(|rows|, idx)) && |MissingOf(|rows|, idx)| > 0
    ensures r.Ok? ==> |r.value| == |idx|
    ensures r.Ok? ==> forall k :: 0 <= k < |idx| ==> r.value[k] == (idx[k], rows[idx[k] - 1])
  {
    var missing := MissingOf(|rows|, idx);
    if |missing| > 0 then
      assert missing[0] in idx;
      assert exists k :: 0 <= k < |idx| && idx[k] == missing[0];
      Err(MissingLabels(missing))
    else
      assert forall k :: 0 <= k < |idx| ==> idx[k] in idx;
      Ok(seq(|idx|, k requires 0 <= k < |idx| => (idx[k], rows[idx[k] - 1])))
  }

  /** The centroid with label l is the run-info row with label l: labels are
      1-based positions. */
  lemma CentroidsAreRunInfoRows<T>(rows: seq<T>, idx: seq<int>, k: nat)
    requires Centroids(rows, idx).Ok? && k < |idx|
    ensures 0 <= idx[k] - 1 < |RunInfo(rows)|
    ensures Centroids(rows, idx).value[k] == RunInfo(rows)[idx[k] - 1]
  {
  }

  // ---------------------------------------------------------------------------
  // read_stratigraphy_labels
  // ---------------------------------------------------------------------------

  /** A worksheet cell value. */
  datatype Cell = Empty | Str(s: string) | Num(n: int)

  /** The first worksheet: row r (from 1) is `sheet[r - 1]`, column c (from
      1) is `sheet[r - 1][c - 1]`; cells beyond the stored ones are empty. */
  type Sheet = seq<seq<Cell>>

  function FirstCell(row: seq<Cell>): Cell {
    if |row| > 0 then row[0] else Empty
  }

  /** `worksheet.cell(row=r, column=c).value`: rows and columns below 1 are
      a ValueError, cells outside the stored area are empty. */
  function CellValue(sheet: Sheet, r: int, c: int): (v: Result<Cell, MatError>)
    ensures v.Err? <==> r < 1 || c < 1
    ensures v.Err? ==> v.error == BadCell(r, c)
    ensures v.Ok? && r <= |sheet| && c <= |sheet[r - 1]| ==> v.value == sheet[r - 1][c - 1]
    ensures v.Ok? && (r > |sheet| || c > |sheet[r - 1]|) ==> v.value == Empty
  {
    if r < 1 || c < 1 then Err(BadCell(r, c))
    else if r <= |sheet| && c <= |sheet[r - 1]| then Ok(sheet[r - 1][c - 1])
    else Ok(Empty)
  }

  /** `keep_rows`: for each sheet row whose first cell equals the marker
      label, in sheet order, its row number plus the offset. */
  function KeepRows(sheet: Sheet, marker: string, rowOffset: int): seq<int>
  {
    if |sheet| == 0 then []
    else
      var earlier := KeepRows(sheet[..|sheet| - 1], marker, rowOffset);
      if FirstCell(sheet[|sheet| - 1]) == Str(marker) then earlier + [|sheet| + rowOffset] else earlier
  }

  /** A kept row number is a marker row shifted by the offset, every
      marker row is kept, and they are kept in increasing order. */
  lemma {:induction false} KeepRowsSpec(sheet: Sheet, marker: string, rowOffset: int)
    ensures forall r :: r in KeepRows(sheet, marker, rowOffset) <==>
              1 <= r - rowOffset <= |sheet| && FirstCell(sheet[r - rowOffset - 1]) == Str(marker)
    ensures forall i, j :: 0 <= i < j < |KeepRows(sheet, marker, rowOffset)| ==>
              KeepRows(sheet, marker, rowOffset)[i] < KeepRows(sheet, marker, rowOffset)[j]
    ensures forall i :: 0 <= i < |KeepRows(sheet, marker, rowOffset)| ==>
              KeepRows(sheet, marker, rowOffset)[i] <= |sheet| + rowOffset
  {
    if |sheet| > 0 {
      var init := sheet[..|sheet| - 1];
      KeepRowsSpec(init, marker, rowOffset);
      assert forall p :: 0 <= p < |init| ==> sheet[p] == init[p];
    }
  }

  /** The labels of the given rows in column `col`, stopping at the first
      invalid cell. */
  function LabelsOf(sheet: Sheet, rows: seq<int>, col: int): Result<seq<Cell>, MatError>
  {
    if |rows| == 0 then Ok([])
    else
      match LabelsOf(sheet, rows[..|rows| - 1], col)
      case Err(e) => Err(e)
      case Ok(earlier) =>
        match CellValue(sheet, rows[|rows| - 1], col)
        case Err(e) => Err(e)
        case Ok(v) => Ok(earlier + [v])
  }

  /** The labels succeed exactly when every row and the column are at least
      1 (or there are no rows); then there is one label per row, read at
      that row and column; otherwise the error names the first bad row. */
  lemma {:induction false} LabelsOfSpec(sheet: Sheet, rows: seq<int>, col: int)
    ensures LabelsOf(sheet, rows, col).Ok? <==> |rows| == 0 || (col >= 1 && forall k :: 0 <= k < |rows| ==> rows[k] >= 1)
    ensures LabelsOf(sheet, rows, col).Ok? ==>
              |LabelsOf(sheet, rows, col).value| == |rows|
              && forall k :: 0 <= k < |rows| ==> CellValue(sheet, rows[k], col) == Ok(LabelsOf(sheet, rows, col).value[k])
    ensures LabelsOf(sheet, rows, col).Err? ==>
              exists j :: 0 <= j < |rows| && LabelsOf(sheet, rows, col).error == BadCell(rows[j], col)
                          && (rows[j] < 1 || col < 1) && forall k :: 0 <= k < j ==> rows[k] >= 1
  {
    if |rows| > 0 {
      var init := rows[..|rows| - 1];
      LabelsOfSpec(sheet, init, col);
      assert forall k :: 0 <= k < |init| ==> init[k] == rows[k];
      var last := |rows| - 1;
      if LabelsOf(sheet, init, col).Err? {
        var j :| 0 <= j < |init| && LabelsOf(sheet, init, col).error == BadCell(init[j], col)
                  && (init[j] < 1 || col < 1) && forall k :: 0 <= k < j ==> init[k] >= 1;
        assert rows[j] == init[j];
      } else if CellValue(sheet, rows[last], col).Err? {
        if |init| == 0 {
          assert LabelsOf(sheet, rows, col).error == BadCell(rows[last], col);
        } else {
          assert col >= 1;
        }
      }
    }
  }

  /** An error among the first rows is the error of all of them. */
  lemma {:induction false} LabelsOfErrExtends(sheet: Sheet, rows: seq<int>, j: nat, col: int)
    requires j <= |rows| && LabelsOf(sheet, rows[..j], col).Err?
    ensures LabelsOf(sheet, rows, col) == LabelsOf(sheet, rows[..j], col)
    decreases |rows|
  {
    if j < |rows| {
      var init := rows[..|rows| - 1];
      assert init[..j] == rows[..j];
      LabelsOfErrExtends(sheet, init, j, col);
    } else {
      assert rows[..j] == rows;
    }
  }

  /** read_stratigraphy_labels over the first worksheet. */
  method ReadStratigraphyLabels(sheet: Sheet, marker: string, rowOffset: int, colOffset: int)
    returns (r: Result<seq<Cell>, MatError>)
    ensures r == LabelsOf(sheet, KeepRows(sheet, marker, rowOffset), 1 + colOffset)
  {
    var keep: seq<int> := [];
    var i := 0;
    while i < |sheet|
      invariant 0 <= i <= |sheet|
      invariant keep == KeepRows(sheet[..i], marker, rowOffset)
    {
      assert sheet[..i + 1][..i] == sheet[..i];
      if FirstCell(sheet[i]) == Str(marker) {
        keep := keep + [i + 1 + rowOffset];
      }
      i := i + 1;
    }
    assert sheet[..|sheet|] == sheet;
    var col := 1 + colOffset;
    var labels: seq<Cell> := [];
    var j := 0;
    while j < |keep|
      invariant 0 <= j <= |keep|
      invariant LabelsOf(sheet, keep[..j], col) == Ok(labels)
    {
      assert keep[..j + 1][..j] == keep[..j];
      var v := CellValue(sheet, keep[j], col);
      if v.Err? {
        LabelsOfErrExtends(sheet, keep, j + 1, col);
        return Err(v.error);
      }
      labels := labels + [v.value];
      j := j + 1;
    }
    assert keep[..|keep|] == keep;
    return Ok(labels);
  }

  // ---------------------------------------------------------------------------
  // CryoGrid_TopoSub.get_extent
  // ---------------------------------------------------------------------------

  function SeqMin(xs: seq<real>): (m: real)
    requires |xs| > 0
    ensures m in xs && forall k :: 0 <= k < |xs| ==> m <= xs[k]
  {
    if |xs| == 1 then xs[0]
    else
      var rest := SeqMin(xs[1..]);
      assert forall k :: 1 <= k < |xs| ==> xs[k] == xs[1..][k - 1];
      if xs[0] <= rest then xs[0] else rest
  }

  function SeqMax(xs: seq<real>): (m: real)
    requires |xs| > 0
    ensures m in xs && forall k :: 0 <= k < |xs| ==> xs[k] <= m
  {
    if |xs| == 1 then xs[0]
    else
      var rest := SeqMax(xs[1..]);
      assert forall k :: 1 <= k < |xs| ==> xs[k] == xs[1..][k - 1];
      if xs[0] >= rest then xs[0] else rest
  }

  /** get_extent(pad): [west, south, east, north] of the mapped grid, each
      side pushed out by `pad`. */
  function Extent(xs: seq<real>, ys: seq<real>, pad: real): (r: Result<seq<real>, MatError>)
    ensures r.Ok? <==> |xs| > 0 && |ys| > 0
    ensures r.Err? ==> r.error == EmptyCoordinate
    ensures r.Ok? ==> |r.value| == 4
    ensures r.Ok? ==> r.value[0] + pad in xs && r.value[2] - pad in xs
    ensures r.Ok? ==> r.value[1] + pad in ys && r.value[3] - pad in ys
    ensures r.Ok? ==> forall k :: 0 <= k < |xs| ==> r.value[0] + pad <= xs[k] <= r.value[2] - pad
    ensures r.Ok? ==> forall k :: 0 <= k < |ys| ==> r.value[1] + pad <= ys[k] <= r.value[3] - pad
  {
    if |xs| == 0 || |ys| == 0 then Err(EmptyCoordinate)
    else Ok([SeqMin(xs) - pad, SeqMin(ys) - pad, SeqMax(xs) + pad, SeqMax(ys) + pad])
  }

  /** With a non-negative pad every grid point lies inside the extent, at
      least `pad` away from each side. */
  lemma ExtentContains(xs: seq<real>, ys: seq<real>, pad: real, i: nat, j: nat)
    requires pad >= 0.0 && i < |xs| && j < |ys|
    ensures Extent(xs, ys, pad).Ok?
    ensures var e := Extent(xs, ys, pad).value;
              e[0] <= e[0] + pad <= xs[i] <= e[2] - pad <= e[2]
              && e[1] <= e[1] + pad <= ys[j] <= e[3] - pad <= e[3]
  {
  }
}

=== FILE: matlab_export.dfy ===
/** The MATLAB export of ERA5 data (`to_matlab.py`): times become MATLAB
    datenums, variables are converted to CryoGrid's units and packed into
    integers with fixed scale factors. Values are `real`s; the integer
    casts truncate toward zero as numpy's `astype` does. */
module MatlabExport {
  import opened Dates
  import opened Reals

  // ---------------------------------------------------------------------------
  // get_matlab_datenum_offset, get_datetime_to_matlab_datenum
  // ---------------------------------------------------------------------------

  /** The stand-in for MATLAB's day 0 (year 0, January 0). */
  const MatlabT0: Date := Date(-1, 12, 31)
  const UnixEpoch: Date := Date(1970, 1, 1)

  /** The day before 1 January of year 0 is day number -1. */
  lemma MatlabT0Ordinal()
    ensures Valid(MatlabT0) && Ordinal(MatlabT0) == -1
  {
    assert Valid(MatlabT0);
    OrdinalNext(MatlabT0);
    assert NextDay(MatlabT0) == Date(0, 1, 1);
  }

  /** get_matlab_datenum_offset(reference): the whole days from the
      reference date back to -0001-12-31 (negative for any later reference). */
  function DatenumOffset(reference: Date): (r: int)
    requires Valid(reference)
    ensures r == -1 - Ordinal(reference)
    ensures Before(MatlabT0, reference) ==> r < 0
  {
    MatlabT0Ordinal();
    OrdinalMonotone(MatlabT0, reference);
    Ordinal(MatlabT0) - Ordinal(reference)
  }

  /** A time stamp: a date and a time of day. */
  datatype Time = Time(date: Date, hour: int, minute: int, second: int)

  predicate ValidTime(t: Time) {
    Valid(t.date) && 0 <= t.hour < 24 && 0 <= t.minute < 60 && 0 <= t.second < 60
  }

  /** `astype('datetime64[h]').astype(float)`: whole hours since the Unix
      epoch, minutes and seconds dropped. */
  function HoursSinceEpoch(t: Time): (h: int)
    requires ValidTime(t)
    ensures h == (Ordinal(t.date) - Ordinal(UnixEpoch)) * 24 + t.hour
  {
    (Ordinal(t.date) - Ordinal(UnixEpoch)) * 24 + t.hour
  }

  /** get_datetime_to_matlab_datenum(time, reference): days since the Unix
      epoch minus the offset of the reference date. */
  function MatlabDatenum(t: Time, reference: Date): (r: real)
    requires ValidTime(t) && Valid(reference)
  {
    HoursSinceEpoch(t) as real / 24.0 - DatenumOffset(reference) as real
  }

  /** With the default reference 1970-01-01 the result is MATLAB's datenum
      of the time truncated to the hour: day 1 is 1 January of year 0. For
      any other reference it is shifted by the days between that reference
      and 1970-01-01, because the hours always count from the Unix epoch. */
  lemma MatlabDatenumValue(t: Time, reference: Date)
    requires ValidTime(t) && Valid(reference)
    ensures MatlabDatenum(t, reference) ==
              (Ordinal(t.date) + 1) as real + t.hour as real / 24.0
              + (Ordinal(reference) - Ordinal(UnixEpoch)) as real
    ensures reference == UnixEpoch ==>
              MatlabDatenum(t, reference) == (Ordinal(t.date) + 1) as real + t.hour as real / 24.0
  {
    var d := Ordinal(t.date) - Ordinal(UnixEpoch);
    assert (d * 24 + t.hour) as real / 24.0 == d as real + t.hour as real / 24.0;
  }

  /** Times within the same hour get the same datenum; later hours get
      larger ones. */
  lemma MatlabDatenumMonotone(a: Time, b: Time, reference: Date)
    requires ValidTime(a) && ValidTime(b) && Valid(reference)
    ensures a.date == b.date && a.hour == b.hour ==> MatlabDatenum(a, reference) == MatlabDatenum(b, reference)
    ensures Before(a.date, b.date) || (a.date == b.date && a.hour < b.hour) ==>
              MatlabDatenum(a, reference) < MatlabDatenum(b, reference)
  {
    MatlabDatenumValue(a, reference);
    MatlabDatenumValue(b, reference);
    OrdinalMonotone(a.date, b.date);
  }

  // ---------------------------------------------------------------------------
  // Unit conversions and packing (get_era5_ds_as_dict)
  // ---------------------------------------------------------------------------

  /** Packing by a positive scale factor: the stored integer times the
      factor is within one factor of the value, on the value's side of 0. */
  lemma PackBound(x: real, sf: real)
    requires sf > 0.0
    ensures x >= 0.0 ==> 0.0 <= Truncate(x / sf) as real * sf <= x < Truncate(x / sf) as real * sf + sf
    ensures x < 0.0 ==> Truncate(x / sf) as real * sf - sf < x <= Truncate(x / sf) as real * sf <= 0.0
  {
    var y := x / sf;
    DivMul(x, sf);
    if x >= 0.0 {
      assert y >= 0.0;
      NonNegativeBounds(x, sf, y, Truncate(y) as real);
    } else {
      assert y < 0.0;
      NegativeBounds(x, sf, y, Truncate(y) as real);
    }
  }

  lemma DivMul(x: real, sf: real)
    requires sf > 0.0
    ensures (x / sf) * sf == x
  {
  }

  /** `n <= y < n + 1` scaled by a positive factor. */
  lemma NonNegativeBounds(x: real, sf: real, y: real, n: real)
    requires sf > 0.0 && y * sf == x
    requires 0.0 <= n <= y < n + 1.0
    ensures 0.0 <= n * sf <= x < n * sf + sf
  {
    MulMono(0.0, n, sf);
    MulMono(n, y, sf);
    MulStrict(y, n + 1.0, sf);
    Distribute(n, 1.0, sf);
    ChainUp(n * sf, y * sf, (n + 1.0) * sf, x, sf);
  }

  /** `n - 1 < y <= n <= 0` scaled by a positive factor. */
  lemma NegativeBounds(x: real, sf: real, y: real, n: real)
    requires sf > 0.0 && y * sf == x
    requires n - 1.0 < y <= n <= 0.0
    ensures n * sf - sf < x <= n * sf <= 0.0
  {
    MulMono(n, 0.0, sf);
    MulMono(y, n, sf);
    MulStrict(n + -1.0, y, sf);
    Distribute(n, -1.0, sf);
    ChainDown((n + -1.0) * sf, y * sf, n * sf, x, sf);
  }

  /** The linear steps of the two bounds, with the products as atoms. */
  lemma ChainUp(p: real, q: real, r: real, x: real, sf: real)
    requires 0.0 <= p <= q < r && q == x && r == p + sf
    ensures 0.0 <= p <= x < p + sf
  {
  }

  lemma ChainDown(p: real, q: real, r: real, x: real, sf: real)
    requires p < q <= r <= 0.0 && q == x && p == r - sf
    ensures r - sf < x <= r <= 0.0
  {
  }

  lemma Distribute(a: real, b: real, c: real)
    ensures (a + b) * c == a * c + b * c
  {
  }

  lemma MulMono(a: real, b: real, c: real)
    requires a <= b && c > 0.0
    ensures a * c <= b * c
  {
  }

  lemma MulStrict(a: real, b: real, c: real)
    requires a < b && c > 0.0
    ensures a * c < b * c
  {
  }

  const WindSf: real := 0.01
  const HumiditySf: real := 0.000001
  const PressureSf: real := 100.0
  const RadiationSf: real := 0.1
  const TemperatureSf: real := 0.01
  const PrecipitationSf: real := 0.01

  /** One grid point and time of the merged ERA5 dataset. */
  datatype EraInput = EraInput(
    u10: real, v10: real, sp: real, d2m: real, t2m: real,
    ssrd: real, strd: real, tisr: real, tp: real,
    t: real, z: real, q: real, u: real, v: real)

  /** The integers stored for CryoGrid's `read_mat_ERA`. */
  datatype EraPacked = EraPacked(
    u10: int, v10: int, ps: int, T2d: int, T2: int,
    SW: int, LW: int, S_TOA: int, P: int,
    T: int, Z: int, q: int, u: int, v: int)

  function KelvinToCelsius(k: real): real { k - 273.15 }
  /** The comment in the source speaks of "/sec -> /hour": accumulated J/m²
      per hour become W/m². */
  function PerHour(x: real): real { x / 3600.0 }
  function MetresToMillimetres(x: real): real { x * 1000.0 }
  function GeopotentialHeight(z: real): real { z / 9.81 }

  /** get_era5_ds_as_dict for one point: convert, then divide by the scale
      factor and truncate. */
  function PackEra(x: EraInput): (r: EraPacked)
  {
    EraPacked(
      u10 := Truncate(x.u10 / WindSf),
      v10 := Truncate(x.v10 / WindSf),
      ps := Truncate(x.sp / PressureSf),
      T2d := Truncate(KelvinToCelsius(x.d2m) / TemperatureSf),
      T2 := Truncate(KelvinToCelsius(x.t2m) / TemperatureSf),
      SW := Truncate(PerHour(x.ssrd) / RadiationSf),
      LW := Truncate(PerHour(x.strd) / RadiationSf),
      S_TOA := Truncate(PerHour(x.tisr) / RadiationSf),
      P := Truncate(MetresToMillimetres(x.tp) / PrecipitationSf),
      T := Truncate(KelvinToCelsius(x.t) / TemperatureSf),
      Z := Truncate(GeopotentialHeight(x.z)),
      q := Truncate(x.q / HumiditySf),
      u := Truncate(x.u / WindSf),
      v := Truncate(x.v / WindSf))
  }

  /** |a - b| < e. */
  predicate Near(a: real, b: real, e: real) {
    a - e < b < a + e
  }

  /** Reading the packed values back (times the scale factor, then the
      inverse unit conversion) recovers every input to within one scale
      step. */
  lemma PackEraRecovers(x: EraInput)
    ensures var r := PackEra(x);
      && Near(r.u10 as real * WindSf, x.u10, WindSf)
      && Near(r.v10 as real * WindSf, x.v10, WindSf)
      && Near(r.ps as real * PressureSf, x.sp, PressureSf)
      && Near(r.T2d as real * TemperatureSf + 273.15, x.d2m, TemperatureSf)
      && Near(r.T2 as real * TemperatureSf + 273.15, x.t2m, TemperatureSf)
      && Near(r.SW as real * RadiationSf * 3600.0, x.ssrd, RadiationSf * 3600.0)
      && Near(r.LW as real * RadiationSf * 3600.0, x.strd, RadiationSf * 3600.0)
      && Near(r.S_TOA as real * RadiationSf * 3600.0, x.tisr, RadiationSf * 3600.0)
      && Near(r.P as real * PrecipitationSf / 1000.0, x.tp, PrecipitationSf / 1000.0)
      && Near(r.T as real * TemperatureSf + 273.15, x.t, TemperatureSf)
      && Near(r.Z as real * 9.81, x.z, 9.81)
      && Near(r.q as real * HumiditySf, x.q, HumiditySf)
      && Near(r.u as real * WindSf, x.u, WindSf)
      && Near(r.v as real * WindSf, x.v, WindSf)
  {
    PackBound(x.u10, WindSf);
    PackBound(x.v10, WindSf);
    PackBound(x.sp, PressureSf);
    PackBound(KelvinToCelsius(x.d2m), TemperatureSf);
    PackBound(KelvinToCelsius(x.t2m), TemperatureSf);
    ScaledPackBound(x.ssrd, 3600.0, RadiationSf);
    ScaledPackBound(x.strd, 3600.0, RadiationSf);
    ScaledPackBound(x.tisr, 3600.0, RadiationSf);
    PackBound(MetresToMillimetres(x.tp), PrecipitationSf);
    PackBound(KelvinToCelsius(x.t), TemperatureSf);
    PackBound(GeopotentialHeight(x.z), 1.0);
    assert GeopotentialHeight(x.z) / 1.0 == GeopotentialHeight(x.z);
    PackBound(x.q, HumiditySf);
    PackBound(x.u, WindSf);
    PackBound(x.v, WindSf);
  }

  /** Packing `x / d` by `sf` and reading back times `sf * d`. */
  lemma ScaledPackBound(x: real, d: real, sf: real)
    requires d > 0.0 && sf > 0.0
    ensures Near(Truncate(x / d / sf) as real * sf * d, x, sf * d)
  {
    PackBound(x / d, sf);
    var n := Truncate(x / d / sf) as real;
    var y := x / d;
    assert y * d == x;
    if y >= 0.0 {
      assert n * sf <= y < n * sf + sf;
      assert n * sf * d <= y * d;
      assert y * d < (n * sf + sf) * d;
    } else {
      assert n * sf - sf < y <= n * sf;
      assert (n * sf - sf) * d < y * d;
      assert y * d <= n * sf * d;
    }
  }

  /** Pressure levels are stored in Pa: the level in hPa times 100. */
  function PressureLevels(levels: seq<real>): (p: seq<real>)
    ensures |p| == |levels|
    ensures forall k :: 0 <= k < |levels| ==> p[k] / 100.0 == levels[k]
  {
    seq(|levels|, k requires 0 <= k < |levels| => levels[k] * 100.0)
  }
}

=== FILE: py_repr.dfy ===
/** Python's `repr()` of a string, which `str()` of a list or a dictionary
    applies to every string inside it, and the reading of such a literal
    back into the string it denotes. */
module PyRepr {
  import opened Wrappers

  /** The quote repr() puts around a string: a single quote, unless the
      string holds a single quote and no double quote. */
  function QuoteOf(s: string): (q: char)
    ensures q == '\'' || q == '"'
    ensures q == '"' <==> '\'' in s && '"' !in s
  {
    if '\'' in s && '"' !in s then '"' else '\''
  }

  /** Characters repr() writes as `\xhh`: the control characters other
      than tab, newline and carriage return, DEL, the C1 controls, the
      no-break space and the soft hyphen. */
  predicate HexEscaped(c: char) {
    c < ' ' || ('\U{7F}' <= c <= '\U{A0}') || c == '\U{AD}'
  }

  /** The lower-case hexadecimal digit of value k. */
  function HexDigit(k: nat): (c: char)
    requires k < 16
    ensures HexValue(c) == Some(k)
  {
    if k < 10 then ('0' as int + k) as char else ('a' as int + k - 10) as char
  }

  /** The value of a hexadecimal digit of either case. */
  function HexValue(c: char): (r: Option<nat>)
    ensures r.Some? ==> r.value < 16
  {
    if '0' <= c <= '9' then Some(c as int - '0' as int)
    else if 'a' <= c <= 'f' then Some(c as int - 'a' as int + 10)
    else if 'A' <= c <= 'F' then Some(c as int - 'A' as int + 10)
    else None
  }

  /** How repr() writes one character inside quotes `q`. */
  function EscapeChar(c: char, q: char): (r: string)
    ensures |r| >= 1
  {
    if c == '\\' || c == q then ['\\', c]
    else if c == '\t' then "\\t"
    else if c == '\n' then "\\n"
    else if c == '\r' then "\\r"
    else if HexEscaped(c) then ['\\', 'x', HexDigit(c as int / 16), HexDigit(c as int % 16)]
    else [c]
  }

  function EscapeBody(s: string, q: char): (r: string)
    ensures |r| >= |s|
  {
    if |s| == 0 then "" else EscapeChar(s[0], q) + EscapeBody(s[1..], q)
  }

  /** repr(s) for a string. */
  function StrRepr(s: string): (r: string)
    ensures |r| >= |s| + 2
    ensures r[0] == QuoteOf(s) && r[|r| - 1] == QuoteOf(s)
  {
    [QuoteOf(s)] + EscapeBody(s, QuoteOf(s)) + [QuoteOf(s)]
  }

  function Cons(c: char, r: Option<string>): Option<string> {
    if r.Some? then Some([c] + r.value) else None
  }

  /** The text between the quotes of a string literal, with the escapes
      repr() writes decoded; a backslash that starts no such escape fails. */
  function Unescape(b: string): (r: Option<string>)
    decreases |b|
  {
    if |b| == 0 then Some("")
    else if b[0] != '\\' then Cons(b[0], Unescape(b[1..]))
    else if |b| < 2 then None
    else if b[1] == '\\' || b[1] == '\'' || b[1] == '"' then Cons(b[1], Unescape(b[2..]))
    else if b[1] == 't' then Cons('\t', Unescape(b[2..]))
    else if b[1] == 'n' then Cons('\n', Unescape(b[2..]))
    else if b[1] == 'r' then Cons('\r', Unescape(b[2..]))
    else if b[1] == 'x' && |b| >= 4 && HexValue(b[2]).Some? && HexValue(b[3]).Some? then
      Cons((HexValue(b[2]).value * 16 + HexValue(b[3]).value) as char, Unescape(b[4..]))
    else None
  }

  /** Reads a quoted string literal. */
  function ReadStrLiteral(r: string): Option<string> {
    if |r| >= 2 && (r[0] == '\'' || r[0] == '"') && r[|r| - 1] == r[0] then Unescape(r[1..|r| - 1])
    else None
  }

  /** One escaped character reads back as itself, whatever follows. */
  lemma UnescapeChar(c: char, q: char, rest: string)
    requires q == '\'' || q == '"'
    ensures Unescape(EscapeChar(c, q) + rest) == Cons(c, Unescape(rest))
  {
    var b := EscapeChar(c, q) + rest;
    if c == '\\' || c == q {
      assert b[..2] == ['\\', c] && b[2..] == rest;
    } else if c == '\t' || c == '\n' || c == '\r' {
      assert b[2..] == rest;
    } else if HexEscaped(c) {
      assert b[4..] == rest;
      assert (c as int / 16) * 16 + c as int % 16 == c as int;
    } else {
      assert b[1..] == rest;
    }
  }

  lemma {:induction false} UnescapeBody(s: string, q: char)
    requires q == '\'' || q == '"'
    ensures Unescape(EscapeBody(s, q)) == Some(s)
    decreases |s|
  {
    if |s| > 0 {
      UnescapeChar(s[0], q, EscapeBody(s[1..], q));
      UnescapeBody(s[1..], q);
      assert [s[0]] + s[1..] == s;
    }
  }

  /** The repr of a string reads back as the string. */
  lemma StrReprReadsBack(s: string)
    ensures ReadStrLiteral(StrRepr(s)) == Some(s)
  {
    var r := StrRepr(s);
    assert r[1..|r| - 1] == EscapeBody(s, QuoteOf(s));
    UnescapeBody(s, QuoteOf(s));
  }

  /** No character of s needs an escape. */
  predicate Plain(s: string) {
    forall k :: 0 <= k < |s| ==> s[k] != '\\' && s[k] != '\'' && s[k] >= ' ' && !HexEscaped(s[k])
  }

  lemma {:induction false} PlainBody(s: string)
    requires Plain(s)
    ensures EscapeBody(s, '\'') == s
    decreases |s|
  {
    if |s| > 0 {
      assert Plain(s[1..]) by {
        forall k | 0 <= k < |s| - 1 ensures s[1..][k] == s[k + 1] { }
      }
      PlainBody(s[1..]);
      assert [s[0]] + s[1..] == s;
    }
  }

  /** A string without quotes, backslashes or control characters is
      written between single quotes as it is. */
  lemma PlainStrRepr(s: string)
    requires Plain(s)
    ensures StrRepr(s) == "'" + s + "'"
  {
    assert '\'' !in s by {
      forall k | 0 <= k < |s| ensures s[k] != '\'' { }
    }
    PlainBody(s);
  }

  /** A single quote inside switches to double quotes; a double quote as
      well keeps single quotes and escapes the single one. */
  lemma QuoteChoice()
    ensures StrRepr("it's") == "\"it's\""
    ensures StrRepr("a'\"") == "'a\\'\"'"
  {
    assert '\'' in "it's" && '"' !in "it's";
    assert "it's"[1..] == "t's" && "t's"[1..] == "'s" && "'s"[1..] == "s";
    assert '\'' in "a'\"" && '"' in "a'\"";
    assert "a'\""[1..] == "'\"" && "'\""[1..] == "\"";
  }
}

=== FILE: raster.dfy ===
/** Polygon/raster conversion of `shp_helper.py`. The geometry library is not
    modelled: rasterising a shape onto the target grid (rasterio with
    `all_touched=True`) is the parameter `covers`, and vectorising a boolean
    mask is represented by the mask itself. */
module Raster {
  import opened Wrappers
  import opened Grids
  import opened Text
  import opened Sequences

  /** The target grid: its dimension names and the lengths of `y` and `x`. */
  datatype Target = Target(dims: seq<string>, ny: nat, nx: nat)

  datatype RasterError =
    | MissingXY                       // ValueError: no 'x'/'y' dimensions
    | MissingColumn(column: string)   // AssertionError: by_column not a column
    | NoPolygons                      // ValueError from concatenating nothing
    | NotBoolean | NotTwoD | NotInteger
    | TooManyClasses(n: nat)          // ValueError: more than 20 classes
    | NameCountMismatch(names: nat, classes: nat)

  predicate HasXY(t: Target) {
    "x" in t.dims && "y" in t.dims
  }

  /** polygon_to_raster_bool: a (len y, len x) boolean mask of the cells the
      rasteriser marks. */
  function PolygonToRasterBool<S>(shape: S, t: Target, covers: (S, int, int) -> bool): (r: Result<Grid<bool>, RasterError>)
    ensures r.Err? <==> !HasXY(t)
    ensures r.Err? ==> r.error == MissingXY
    ensures r.Ok? ==> IsGrid(r.value, t.ny, t.nx)
    ensures r.Ok? ==> forall i, j :: 0 <= i < t.ny && 0 <= j < t.nx ==> r.value[i][j] == covers(shape, i, j)
  {
    if HasXY(t) then
      Ok(seq(t.ny, i requires 0 <= i < t.ny => seq(t.nx, j requires 0 <= j < t.nx => covers(shape, i, j))))
    else Err(MissingXY)
  }

  // ---------------------------------------------------------------------------
  // Data frames

  /** A row: its attribute cells (one per column, as text) and its geometry. */
  datatype Row<G> = Row(cells: seq<string>, geometry: G)

  datatype Frame<G> = Frame(columns: seq<string>, rows: seq<Row<G>>)

  predicate WellFormed<G>(f: Frame<G>) {
    forall k :: 0 <= k < |f.rows| ==> |f.rows[k].cells| == |f.columns|
  }

  /** The values of column `c`, in row order. */
  function ColumnValues<G>(f: Frame<G>, c: string): (vs: seq<string>)
    requires WellFormed(f) && c in f.columns
    ensures |vs| == |f.rows|
    ensures forall k :: 0 <= k < |f.rows| ==> vs[k] == f.rows[k].cells[IndexOf(f.columns, c)]
  {
    var idx := IndexOf(f.columns, c);
    seq(|f.rows|, k requires 0 <= k < |f.rows| => f.rows[k].cells[idx])
  }

  /** The geometries of the rows whose value in column `c` is `key`, in row order. */
  function GeometriesWhere<G>(rows: seq<Row<G>>, idx: nat, key: string): (gs: seq<G>)
    requires forall k :: 0 <= k < |rows| ==> idx < |rows[k].cells|
    ensures forall g :: g in gs ==> exists k :: 0 <= k < |rows| && rows[k].geometry == g && rows[k].cells[idx] == key
    ensures forall k :: 0 <= k < |rows| && rows[k].cells[idx] == key ==> rows[k].geometry in gs
  {
    if |rows| == 0 then []
    else
      var rest := GeometriesWhere(rows[1..], idx, key);
      assert forall g :: g in rest ==> exists k :: 0 <= k < |rows| && rows[k].geometry == g && rows[k].cells[idx] == key by {
        forall g | g in rest ensures exists k :: 0 <= k < |rows| && rows[k].geometry == g && rows[k].cells[idx] == key {
          var k :| 0 <= k < |rows[1..]| && rows[1..][k].geometry == g && rows[1..][k].cells[idx] == key;
          assert rows[k + 1] == rows[1..][k];
        }
      }
      assert forall k :: 1 <= k < |rows| ==> rows[k] == rows[1..][k - 1];
      if rows[0].cells[idx] == key then [rows[0].geometry] + rest else rest
  }

  /** `df.dissolve(by=c).reset_index()`: one shape per distinct value of `c`,
      in increasing value order, made of the geometries of the rows with that
      value (the union is kept as the list of its parts). */
  function Dissolve<G>(f: Frame<G>, c: string): (groups: seq<seq<G>>)
    requires WellFormed(f) && c in f.columns
    ensures |groups| == |SortedStrings(ColumnValues(f, c))| <= |f.rows|
  {
    var keys := SortedStrings(ColumnValues(f, c));
    var idx := IndexOf(f.columns, c);
    seq(|keys|, k requires 0 <= k < |keys| => GeometriesWhere(f.rows, idx, keys[k]))
  }

  /** The dissolved group keys are the distinct column values, strictly
      increasing, and every row lands in the group of its own value. */
  lemma DissolveGroups<G>(f: Frame<G>, c: string)
    requires WellFormed(f) && c in f.columns
    ensures var keys := SortedStrings(ColumnValues(f, c));
            && (forall a, b :: 0 <= a < b < |keys| ==> StringLess(keys[a], keys[b]))
            && (forall v :: v in keys <==> v in ColumnValues(f, c))
            && forall k :: 0 <= k < |f.rows| ==>
                 exists g :: 0 <= g < |keys| && keys[g] == ColumnValues(f, c)[k]
                             && f.rows[k].geometry in Dissolve(f, c)[g]
  {
    var keys := SortedStrings(ColumnValues(f, c));
    forall k | 0 <= k < |f.rows|
      ensures exists g :: 0 <= g < |keys| && keys[g] == ColumnValues(f, c)[k]
                          && f.rows[k].geometry in Dissolve(f, c)[g]
    {
      var v := ColumnValues(f, c)[k];
      assert v in ColumnValues(f, c);
      var g := IndexOf(keys, v);
      assert f.rows[k].geometry in Dissolve(f, c)[g];
    }
  }

  // ---------------------------------------------------------------------------
  // The max-merge

  /** `mask * code` as an integer raster. */
  function CodeLayer(mask: Grid<bool>, code: int): (g: Grid<int>)
    ensures |g| == |mask| && forall i :: 0 <= i < |g| ==> |g[i]| == |mask[i]|
    ensures forall i, j :: 0 <= i < |g| && 0 <= j < |g[i]| ==> g[i][j] == if mask[i][j] then code else 0
  {
    seq(|mask|, i requires 0 <= i < |mask| => seq(|mask[i]|, j requires 0 <= j < |mask[i]| => if mask[i][j] then code else 0))
  }

  /** The largest value at (i, j) over a non-empty stack of layers
      (`xr.concat(..).max(dim=..)`). */
  function MaxOver(layers: seq<Grid<int>>, rows: nat, cols: nat, i: nat, j: nat): (m: int)
    requires |layers| > 0 && i < rows && j < cols
    requires AllGrids(layers, rows, cols)
    ensures forall k :: 0 <= k < |layers| ==> layers[k][i][j] <= m
    ensures exists k :: 0 <= k < |layers| && layers[k][i][j] == m
  {
    if |layers| == 1 then layers[0][i][j]
    else
      var rest := MaxOver(layers[1..], rows, cols, i, j);
      assert forall k :: 1 <= k < |layers| ==> layers[k] == layers[1..][k - 1];
      if layers[0][i][j] >= rest then layers[0][i][j] else rest
  }

  function MaxMerge(layers: seq<Grid<int>>, rows: nat, cols: nat): (g: Grid<int>)
    requires |layers| > 0
    requires AllGrids(layers, rows, cols)
    ensures IsGrid(g, rows, cols)
    ensures forall i, j :: 0 <= i < rows && 0 <= j < cols ==> g[i][j] == MaxOver(layers, rows, cols, i, j)
  {
    seq(rows, i requires 0 <= i < rows => seq(cols, j requires 0 <= j < cols => MaxOver(layers, rows, cols, i, j)))
  }

  /** The merge is a max-reduction: any reordering of the layers, such as
      the order in which parallel tasks finish, gives the same raster. */
  lemma MaxMergeOrderIndependent(layers: seq<Grid<int>>, other: seq<Grid<int>>, rows: nat, cols: nat)
    requires |layers| > 0 && multiset(layers) == multiset(other)
    requires AllGrids(layers, rows, cols)
    ensures |other| > 0 && AllGrids(other, rows, cols)
    ensures MaxMerge(layers, rows, cols) == MaxMerge(other, rows, cols)
  {
    assert |other| == |multiset(other)| == |multiset(layers)| == |layers|;
    assert forall x :: x in layers <==> x in other by {
      forall x ensures x in layers <==> x in other {
        assert x in layers <==> x in multiset(layers);
        assert x in other <==> x in multiset(other);
      }
    }
    assert AllGrids(other, rows, cols) by {
      forall k | 0 <= k < |other| ensures |other[k]| == rows && forall i :: 0 <= i < rows ==> |other[k][i]| == cols {
        assert other[k] in layers;
      }
    }
    var a := MaxMerge(layers, rows, cols);
    var b := MaxMerge(other, rows, cols);
    forall i, j | 0 <= i < rows && 0 <= j < cols ensures a[i][j] == b[i][j] {
      var ka :| 0 <= ka < |layers| && layers[ka][i][j] == a[i][j];
      var kb :| 0 <= kb < |other| && other[kb][i][j] == b[i][j];
      assert layers[ka] in other;
      assert other[kb] in layers;
    }
    assert forall i :: 0 <= i < rows ==> a[i] == b[i];
  }

  /** Reference definition: the 1-based position of the last shape that
      covers (i, j), 0 when none does. */
  function LastCovering<S>(shapes: seq<S>, covers: (S, int, int) -> bool, i: int, j: int): (n: nat)
    ensures n <= |shapes|
    ensures n == 0 <==> forall k :: 0 <= k < |shapes| ==> !covers(shapes[k], i, j)
    ensures n > 0 ==> covers(shapes[n - 1], i, j) && forall k :: n <= k < |shapes| ==> !covers(shapes[k], i, j)
  {
    if |shapes| == 0 then 0
    else if covers(shapes[|shapes| - 1], i, j) then |shapes|
    else LastCovering(shapes[..|shapes| - 1], covers, i, j)
  }

  /** The raster of one shape per row, each scaled by its index label + 1
      (`polygon_to_raster_bool(..) * (i + 1)` over `df.iterrows()`). */
  function LabelLayers<S>(shapes: seq<S>, labels: seq<nat>, t: Target, covers: (S, int, int) -> bool): (layers: seq<Grid<int>>)
    requires HasXY(t) && |labels| == |shapes|
    ensures |layers| == |shapes|
    ensures AllGrids(layers, t.ny, t.nx)
    ensures forall k, i, j :: 0 <= k < |layers| && 0 <= i < t.ny && 0 <= j < t.nx ==>
              layers[k][i][j] == if covers(shapes[k], i, j) then labels[k] + 1 else 0
  {
    seq(|shapes|, k requires 0 <= k < |shapes| => CodeLayer(PolygonToRasterBool(shapes[k], t, covers).value, labels[k] + 1))
  }

  /** The labels 0, 1, .., n - 1 of a fresh (reset) index. */
  function RangeIndex(n: nat): (labels: seq<nat>)
    ensures |labels| == n && forall k :: 0 <= k < n ==> labels[k] == k
  {
    seq(n, k requires 0 <= k < n => k)
  }

  /** The code layers over a fresh index: shape k is coded k + 1. */
  function CodeLayers<S>(shapes: seq<S>, t: Target, covers: (S, int, int) -> bool): (layers: seq<Grid<int>>)
    requires HasXY(t)
    ensures |layers| == |shapes|
    ensures AllGrids(layers, t.ny, t.nx)
    ensures forall k, i, j :: 0 <= k < |layers| && 0 <= i < t.ny && 0 <= j < t.nx ==>
              layers[k][i][j] == if covers(shapes[k], i, j) then k + 1 else 0
  {
    LabelLayers(shapes, RangeIndex(|shapes|), t, covers)
  }

  /** Reference definition: the largest index label among the shapes that
      cover (i, j), none when no shape does. */
  function MaxCoveringLabel<S>(shapes: seq<S>, labels: seq<nat>, covers: (S, int, int) -> bool, i: int, j: int): (r: Option<nat>)
    requires |labels| == |shapes|
    ensures r.None? <==> forall k :: 0 <= k < |shapes| ==> !covers(shapes[k], i, j)
    ensures r.Some? ==> exists k :: 0 <= k < |shapes| && covers(shapes[k], i, j) && labels[k] == r.value
    ensures r.Some? ==> forall k :: 0 <= k < |shapes| && covers(shapes[k], i, j) ==> labels[k] <= r.value
  {
    if |shapes| == 0 then None
    else
      var n := |shapes| - 1;
      var rest := MaxCoveringLabel(shapes[..n], labels[..n], covers, i, j);
      assert forall k :: 0 <= k < n ==> shapes[..n][k] == shapes[k] && labels[..n][k] == labels[k];
      if !covers(shapes[n], i, j) then rest
      else if rest.Some? && rest.value >= labels[n] then rest
      else Some(labels[n])
  }

  /** The pixel value of a merged raster: the covering label + 1, or 0. */
  function LabelCode(l: Option<nat>): nat {
    if l.Some? then l.value + 1 else 0
  }

  /** Over label layers, the max at a pixel is the largest covering label
      + 1, and 0 where no shape covers it. */
  lemma MaxOfLabels<S>(shapes: seq<S>, labels: seq<nat>, layers: seq<Grid<int>>, rows: nat, cols: nat,
                       covers: (S, int, int) -> bool, i: nat, j: nat)
    requires |shapes| > 0 && |layers| == |shapes| == |labels| && i < rows && j < cols
    requires AllGrids(layers, rows, cols)
    requires forall k :: 0 <= k < |layers| ==> layers[k][i][j] == if covers(shapes[k], i, j) then labels[k] + 1 else 0
    ensures MaxOver(layers, rows, cols, i, j) == LabelCode(MaxCoveringLabel(shapes, labels, covers, i, j))
  {
    var m := MaxOver(layers, rows, cols, i, j);
    var n := MaxCoveringLabel(shapes, labels, covers, i, j);
    var k :| 0 <= k < |layers| && layers[k][i][j] == m;
    if n.Some? {
      var c :| 0 <= c < |shapes| && covers(shapes[c], i, j) && labels[c] == n.value;
      assert layers[c][i][j] == n.value + 1;
    } else {
      assert layers[0][i][j] == 0;
    }
  }

  /** Over a fresh index the largest covering label + 1 is the position of
      the last covering shape. */
  lemma RangeIndexLastCovering<S>(shapes: seq<S>, covers: (S, int, int) -> bool, i: int, j: int)
    ensures LabelCode(MaxCoveringLabel(shapes, RangeIndex(|shapes|), covers, i, j)) == LastCovering(shapes, covers, i, j)
  {
    var labels := RangeIndex(|shapes|);
    var r := MaxCoveringLabel(shapes, labels, covers, i, j);
    var n := LastCovering(shapes, covers, i, j);
    if r.Some? {
      var c :| 0 <= c < |shapes| && covers(shapes[c], i, j) && labels[c] == r.value;
      assert n > 0 && labels[n - 1] <= r.value;
    }
  }

  /** Over code layers, the max is the position of the last covering shape. */
  lemma MaxOverCodes<S>(shapes: seq<S>, t: Target, covers: (S, int, int) -> bool, i: nat, j: nat)
    requires HasXY(t) && |shapes| > 0 && i < t.ny && j < t.nx
    ensures MaxOver(CodeLayers(shapes, t, covers), t.ny, t.nx, i, j) == LastCovering(shapes, covers, i, j)
  {
    MaxOfLabels(shapes, RangeIndex(|shapes|), CodeLayers(shapes, t, covers), t.ny, t.nx, covers, i, j);
    RangeIndexLastCovering(shapes, covers, i, j);
  }

  /** The index of the frame that is rasterised: the frame's own labels, or
      a fresh index after `dissolve(..).reset_index()`. */
  function ShapeLabels<G>(f: Frame<G>, index: seq<nat>, byColumn: Option<string>): (labels: seq<nat>)
    requires WellFormed(f) && |index| == |f.rows| && (byColumn.Some? ==> byColumn.value in f.columns)
    ensures |labels| == |Shapes(f, byColumn)|
  {
    if byColumn.None? then index else RangeIndex(|Shapes(f, byColumn)|)
  }

  /** polygons_to_raster_int: each pixel holds the largest index label + 1
      of the (dissolved) rows covering it, 0 where no row covers it. The
      frame's index labels are `index`. */
  function PolygonsToRasterInt<G>(f: Frame<G>, index: seq<nat>, t: Target, byColumn: Option<string>,
                                  covers: (seq<G>, int, int) -> bool): (r: Result<Grid<int>, RasterError>)
    requires WellFormed(f) && |index| == |f.rows|
    ensures byColumn.Some? && byColumn.value !in f.columns ==> r == Err(MissingColumn(byColumn.value))
    ensures r.Ok? ==> IsGrid(r.value, t.ny, t.nx)
    ensures r.Ok? ==> HasXY(t) && |f.rows| > 0
    ensures r.Ok? ==> var shapes := Shapes(f, byColumn);
              forall i, j :: 0 <= i < t.ny && 0 <= j < t.nx ==>
                r.value[i][j] == LabelCode(MaxCoveringLabel(shapes, ShapeLabels(f, index, byColumn), covers, i, j))
    ensures r.Err? && HasXY(t) && (byColumn.None? || byColumn.value in f.columns) ==> r == Err(NoPolygons) && |f.rows| == 0
  {
    if byColumn.Some? && byColumn.value !in f.columns then Err(MissingColumn(byColumn.value))
    else
      var shapes := Shapes(f, byColumn);
      var labels := ShapeLabels(f, index, byColumn);
      if |shapes| == 0 then Err(NoPolygons)
      else if !HasXY(t) then Err(MissingXY)
      else
        var layers := LabelLayers(shapes, labels, t, covers);
        var g := MaxMerge(layers, t.ny, t.nx);
        assert forall i, j :: 0 <= i < t.ny && 0 <= j < t.nx ==>
                 g[i][j] == LabelCode(MaxCoveringLabel(shapes, labels, covers, i, j)) by {
          forall i, j | 0 <= i < t.ny && 0 <= j < t.nx
            ensures g[i][j] == LabelCode(MaxCoveringLabel(shapes, labels, covers, i, j))
          {
            MaxOfLabels(shapes, labels, layers, t.ny, t.nx, covers, i, j);
          }
        }
        Ok(g)
  }

  /** With a column, the dissolved groups get a fresh index, so each pixel
      holds the position of the last covering group. Without one, a frame
      whose index is fresh behaves the same way row by row. */
  lemma PolygonsToRasterIntPositions<G>(f: Frame<G>, index: seq<nat>, t: Target, byColumn: Option<string>,
                                        covers: (seq<G>, int, int) -> bool, i: nat, j: nat)
    requires WellFormed(f) && |index| == |f.rows| && i < t.ny && j < t.nx
    requires byColumn.Some? || index == RangeIndex(|f.rows|)
    requires PolygonsToRasterInt(f, index, t, byColumn, covers).Ok?
    ensures PolygonsToRasterInt(f, index, t, byColumn, covers).value[i][j] == LastCovering(Shapes(f, byColumn), covers, i, j)
  {
    RangeIndexLastCovering(Shapes(f, byColumn), covers, i, j);
  }

  /** The shapes rasterised: each row on its own, or one per dissolved group. */
  function Shapes<G>(f: Frame<G>, byColumn: Option<string>): (shapes: seq<seq<G>>)
    requires WellFormed(f) && (byColumn.Some? ==> byColumn.value in f.columns)
    ensures byColumn.None? ==> |shapes| == |f.rows|
    ensures |shapes| == 0 <==> |f.rows| == 0
  {
    if byColumn.None? then seq(|f.rows|, k requires 0 <= k < |f.rows| => [f.rows[k].geometry])
    else
      if |f.rows| > 0 then
        assert ColumnValues(f, byColumn.value)[0] in ColumnValues(f, byColumn.value);
        Dissolve(f, byColumn.value)
      else Dissolve(f, byColumn.value)
  }

  // ---------------------------------------------------------------------------
  // Raster to vector

  /** raster_bool_to_vector's preconditions, in the order it asserts them. */
  function CheckBoolRaster(dtype: DType, ndim: nat): (r: Result<(), RasterError>)
    ensures r.Ok? <==> dtype == BoolType && ndim == 2
    ensures dtype != BoolType ==> r == Err(NotBoolean)
  {
    if dtype != BoolType then Err(NotBoolean)
    else if ndim != 2 then Err(NotTwoD)
    else Ok(())
  }

  /** All cells in row-major order. */
  function Cells(g: Grid<int>): (cs: seq<int>)
    ensures forall v :: v in cs <==> exists i, j :: 0 <= i < |g| && 0 <= j < |g[i]| && g[i][j] == v
  {
    if |g| == 0 then []
    else
      var rest := Cells(g[1..]);
      assert forall v :: v in rest <==> exists i, j :: 1 <= i < |g| && 0 <= j < |g[i]| && g[i][j] == v by {
        forall v ensures v in rest <==> exists i, j :: 1 <= i < |g| && 0 <= j < |g[i]| && g[i][j] == v {
          if v in rest {
            var i, j :| 0 <= i < |g[1..]| && 0 <= j < |g[1..][i]| && g[1..][i][j] == v;
            assert g[i + 1][j] == v;
          }
          if exists i, j :: 1 <= i < |g| && 0 <= j < |g[i]| && g[i][j] == v {
            var i, j :| 1 <= i < |g| && 0 <= j < |g[i]| && g[i][j] == v;
            assert g[1..][i - 1][j] == v;
          }
        }
      }
      g[0] + rest
  }

  /** One vectorised class: its raster value, its name and the area it covers. */
  datatype VectorClass = VectorClass(value: int, name: string, mask: Grid<bool>)

  const MaxVectorClasses: nat := 20

  function EqualMask(g: Grid<int>, v: int): (m: Grid<bool>)
    ensures |m| == |g| && forall i :: 0 <= i < |g| ==> |m[i]| == |g[i]|
    ensures forall i, j :: 0 <= i < |g| && 0 <= j < |g[i]| ==> (m[i][j] <==> g[i][j] == v)
  {
    seq(|g|, i requires 0 <= i < |g| => seq(|g[i]|, j requires 0 <= j < |g[i]| => g[i][j] == v))
  }

  /** The distinct raster values in increasing order (`np.sort(np.unique(..))`). */
  function ClassValues(g: Grid<int>): (vs: seq<int>)
    ensures forall a, b :: 0 <= a < b < |vs| ==> vs[a] < vs[b]
    ensures forall v :: v in vs <==> exists i, j :: 0 <= i < |g| && 0 <= j < |g[i]| && g[i][j] == v
  {
    IntLessIsOrder();
    var vs := SortedUnique(Cells(g), IntLess());
    assert forall a, b :: 0 <= a < b < |vs| ==> IntLess()(vs[a], vs[b]);
    vs
  }

  /** raster_int_to_vector: one vector class per distinct value, ascending;
      names default to the values' decimal strings. */
  function RasterIntToVector(g: Grid<int>, dtype: DType, names: Option<seq<string>>): (r: Result<seq<VectorClass>, RasterError>)
    ensures dtype != IntType ==> r == Err(NotInteger)
    ensures dtype == IntType && |ClassValues(g)| > MaxVectorClasses ==> r == Err(TooManyClasses(|ClassValues(g)|))
    ensures r.Ok? ==> 0 < |r.value| <= MaxVectorClasses && |r.value| == |ClassValues(g)|
    ensures r.Ok? && names.Some? ==> |names.value| == |r.value|
    ensures r.Ok? ==> forall k :: 0 <= k < |r.value| ==>
              && r.value[k].value == ClassValues(g)[k]
              && r.value[k].name == (if names.Some? then names.value[k] else IntToString(ClassValues(g)[k]))
              && r.value[k].mask == EqualMask(g, ClassValues(g)[k])
    ensures names.Some? && |names.value| != |ClassValues(g)| && dtype == IntType && |ClassValues(g)| <= MaxVectorClasses
            ==> r == Err(NameCountMismatch(|names.value|, |ClassValues(g)|))
  {
    if dtype != IntType then Err(NotInteger)
    else
      var values := ClassValues(g);
      if |values| > MaxVectorClasses then Err(TooManyClasses(|values|))
      else if names.Some? && |names.value| != |values| then Err(NameCountMismatch(|names.value|, |values|))
      else
        var ns := if names.Some? then names.value else seq(|values|, k requires 0 <= k < |values| => IntToString(values[k]));
        if |values| == 0 then Err(NoPolygons)
        else Ok(seq(|values|, k requires 0 <= k < |values| => VectorClass(values[k], ns[k], EqualMask(g, values[k]))))
  }

  /** Each pixel belongs to exactly one vector class: the one of its value. */
  lemma VectorClassesPartition(g: Grid<int>, names: Option<seq<string>>, i: nat, j: nat)
    requires RasterIntToVector(g, IntType, names).Ok?
    requires i < |g| && j < |g[i]|
    ensures var cs := RasterIntToVector(g, IntType, names).value;
            exists k :: 0 <= k < |cs| && cs[k].mask[i][j]
                        && forall m :: 0 <= m < |cs| && m != k ==> !cs[m].mask[i][j]
  {
    var cs := RasterIntToVector(g, IntType, names).value;
    var vs := ClassValues(g);
    var k := IndexOf(vs, g[i][j]);
    assert cs[k].mask[i][j];
  }
}

=== FILE: reals.dfy ===
/** Python's `int()` on a float and numpy's `astype` to an integer type (for
    values in range) both truncate toward zero. */
module Reals {
  function Truncate(x: real): (n: int)
    ensures x >= 0.0 ==> n >= 0 && n as real <= x < n as real + 1.0
    ensures x < 0.0 ==> n <= 0 && n as real - 1.0 < x <= n as real
  {
    if x >= 0.0 then x.Floor else -((-x).Floor)
  }

  /** An integral value is its own truncation. */
  lemma TruncateInt(i: int)
    ensures Truncate(i as real) == i
  {
  }
}

=== FILE: s3_path.dfy ===
/** The S3 path validator of `scripts/utils/s3_helpers.py`. */
module S3Path {
  import opened Wrappers
  import opened Text

  const Scheme: string := "s3://"
  const MaxKeyLength: nat := 1024

  datatype S3Error =
    | NoScheme              // does not start with "s3://"
    | DoubleSlash           // "//" after the scheme
    | InvalidBucket         // fails the pattern, or holds "..", or starts/ends with '-'
    | InvalidKey            // a character outside code points 32..126
    | KeyLength             // key empty or longer than 1024

  predicate BucketChar(c: char) {
    'a' <= c <= 'z' || '0' <= c <= '9' || c == '.' || c == '-'
  }

  /** 3 to 63 characters from [a-z0-9.-]. */
  predicate BucketBody(b: string) {
    3 <= |b| <= 63 && forall k :: 0 <= k < |b| ==> BucketChar(b[k])
  }

  /** `re.match(r'^[a-z0-9.-]{3,63}$', b)`: Python's `$` also matches just
      before a newline that ends the string. */
  predicate BucketPatternAsWritten(b: string) {
    BucketBody(b) || (|b| > 0 && b[|b| - 1] == '\n' && BucketBody(b[..|b| - 1]))
  }

  predicate BucketShape(b: string) {
    !Contains(b, "..") && !StartsWith(b, "-") && !EndsWith(b, "-")
  }

  predicate PrintableKey(key: string) {
    forall k :: 0 <= k < |key| ==> 32 <= key[k] as int <= 126
  }

  /** Bucket and key of the text after the scheme: `path.split('/', 1)`. */
  function BucketAndKey(path: string): (r: (string, string))
    ensures '/' !in r.0
    ensures '/' in path ==> path == r.0 + "/" + r.1
    ensures '/' !in path ==> r == (path, "")
  {
    var (bucket, rest) := SplitOnce(path, '/');
    (bucket, rest.GetOr(""))
  }

  /** The checks in source order, parameterised by the bucket pattern. */
  function Check(p: string, pattern: string -> bool): (r: Result<(), S3Error>)
    ensures r.Ok? ==> StartsWith(p, Scheme) && !Contains(p[|Scheme|..], "//")
    ensures !StartsWith(p, Scheme) ==> r == Err(NoScheme)
    ensures StartsWith(p, Scheme) && Contains(p[|Scheme|..], "//") ==> r == Err(DoubleSlash)
    ensures StartsWith(p, Scheme) && !Contains(p[|Scheme|..], "//") ==>
              var (b, key) := BucketAndKey(p[|Scheme|..]);
              (!pattern(b) || !BucketShape(b) ==> r == Err(InvalidBucket)) &&
              (pattern(b) && BucketShape(b) && !PrintableKey(key) ==> r == Err(InvalidKey)) &&
              (pattern(b) && BucketShape(b) && PrintableKey(key) && !(1 <= |key| <= MaxKeyLength) ==> r == Err(KeyLength))
    ensures r.Ok? ==> var (b, key) := BucketAndKey(p[|Scheme|..]);
              pattern(b) && BucketShape(b) && PrintableKey(key) && 1 <= |key| <= MaxKeyLength
    ensures r.Ok? <==> (StartsWith(p, Scheme) && !Contains(p[|Scheme|..], "//") &&
              var (b, key) := BucketAndKey(p[|Scheme|..]);
              pattern(b) && BucketShape(b) && PrintableKey(key) && 1 <= |key| <= MaxKeyLength)
  {
    if !StartsWith(p, Scheme) then Err(NoScheme)
    else
      var path := p[|Scheme|..];
      if Contains(path, "//") then Err(DoubleSlash)
      else
        var (bucket, key) := BucketAndKey(path);
        if !pattern(bucket) then Err(InvalidBucket)
        else if !BucketShape(bucket) then Err(InvalidBucket)
        else if !PrintableKey(key) then Err(InvalidKey)
        else if !(1 <= |key| <= MaxKeyLength) then Err(KeyLength)
        else Ok(())
  }

  /** is_safe_s3_path as written: it returns normally or raises. */
  function IsSafeS3Path(p: string): (r: Result<(), S3Error>)
    ensures r == Check(p, BucketPatternAsWritten)
  {
    Check(p, BucketPatternAsWritten)
  }

  /** The validator with the bucket pattern matched against the whole name. */
  function IsSafeS3PathIntended(p: string): (r: Result<(), S3Error>)
    ensures r == Check(p, BucketBody)
  {
    Check(p, BucketBody)
  }

  /** As written, a bucket name ending in a newline is accepted. */
  lemma AsWrittenAcceptsNewlineBucket()
    ensures IsSafeS3Path("s3://abc\n/key").Ok?
    ensures IsSafeS3PathIntended("s3://abc\n/key") == Err(InvalidBucket)
  {
    var b, key := "abc\n", "key";
    assert Scheme + b + "/" + key == "s3://abc\n/key";
    NewlineBucket();
    PlainKey();
    PathWithBucket(b, key, BucketPatternAsWritten);
    PathWithBucket(b, key, BucketBody);
  }

  lemma NewlineBucket()
    ensures '/' !in "abc\n"
    ensures BucketPatternAsWritten("abc\n") && !BucketBody("abc\n") && BucketShape("abc\n")
  {
    var b := "abc\n";
    NoPairWithout(b, '.');
    assert b[..3] == "abc";
    assert !BucketChar(b[3]);
  }

  lemma PlainKey()
    ensures !Contains("key", "//") && "key"[0] != '/' && PrintableKey("key")
  {
    NoPairWithout("key", '/');
  }

  /** Scheme, bucket, '/', key: accepted by the corrected validator exactly
      when the parts are well formed. */
  predicate WellFormedBucket(b: string) {
    BucketBody(b) && BucketShape(b)
  }

  predicate WellFormedKey(key: string) {
    PrintableKey(key) && 1 <= |key| <= MaxKeyLength && !Contains(key, "//") && key[0] != '/'
  }

  lemma {:induction false} ContainsSlashes(x: string, y: string)
    ensures Contains(x + y, "//") <==>
              Contains(x, "//") || Contains(y, "//") || (|x| > 0 && |y| > 0 && x[|x| - 1] == '/' && y[0] == '/')
    decreases |x|
  {
    if |x| == 0 {
      assert x + y == y;
    } else {
      assert (x + y)[1..] == x[1..] + y;
      ContainsSlashes(x[1..], y);
      if |x| == 1 {
        assert Contains(x, "//") == false by {
          assert !StartsWith(x, "//");
          assert x[1..] == "";
        }
      }
    }
  }

  /** A string without `c` does not contain `cc`. */
  lemma {:induction false} NoPairWithout(s: string, c: char)
    requires c !in s
    ensures !Contains(s, [c, c])
    decreases |s|
  {
    if |s| > 0 {
      assert s[0] in s;
      assert forall x :: x in s[1..] ==> x in s;
      NoPairWithout(s[1..], c);
    }
  }

  lemma {:induction false} TooShortToContain(s: string, sub: string)
    requires |s| < |sub|
    ensures !Contains(s, sub)
    decreases |s|
  {
    if |s| > 0 { TooShortToContain(s[1..], sub); }
  }

  /** With a slash-free bucket and a key that cannot form "//", only the
      bucket pattern, the bucket shape and the key decide the verdict. */
  lemma PathWithBucket(bucket: string, key: string, pattern: string -> bool)
    requires '/' !in bucket && !Contains(key, "//") && (|key| > 0 ==> key[0] != '/')
    ensures !pattern(bucket) ==> Check(Scheme + bucket + "/" + key, pattern) == Err(InvalidBucket)
    ensures pattern(bucket) && BucketShape(bucket) && PrintableKey(key) && 1 <= |key| <= MaxKeyLength ==>
              Check(Scheme + bucket + "/" + key, pattern).Ok?
  {
    var rest := bucket + "/" + key;
    assert Scheme + bucket + "/" + key == Scheme + rest;
    SchemePrefix(rest);
    PathAfterScheme(bucket, key);
    CheckParts(Scheme + rest, pattern, bucket, key);
  }

  lemma SchemePrefix(rest: string)
    ensures StartsWith(Scheme + rest, Scheme) && (Scheme + rest)[|Scheme|..] == rest
  {
    assert (Scheme + rest)[..|Scheme|] == Scheme;
  }

  /** Past the scheme and the double-slash test, the verdict depends on the
      bucket and the key alone. */
  lemma CheckParts(p: string, pattern: string -> bool, bucket: string, key: string)
    requires StartsWith(p, Scheme) && !Contains(p[|Scheme|..], "//")
    requires BucketAndKey(p[|Scheme|..]) == (bucket, key)
    ensures !pattern(bucket) ==> Check(p, pattern) == Err(InvalidBucket)
    ensures pattern(bucket) && BucketShape(bucket) && PrintableKey(key) && 1 <= |key| <= MaxKeyLength ==>
              Check(p, pattern).Ok?
  {
  }

  lemma PathAfterScheme(bucket: string, key: string)
    requires '/' !in bucket && !Contains(key, "//") && (|key| > 0 ==> key[0] != '/')
    ensures !Contains(bucket + "/" + key, "//")
    ensures BucketAndKey(bucket + "/" + key) == (bucket, key)
  {
    NoPairWithout(bucket, '/');
    ContainsSlashes(bucket, "/");
    TooShortToContain("/", "//");
    ContainsSlashes(bucket + "/", key);
    SplitOnceAt(bucket, key);
  }

  lemma ComposedPathAccepted(bucket: string, key: string)
    requires WellFormedBucket(bucket) && WellFormedKey(key)
    ensures IsSafeS3PathIntended(Scheme + bucket + "/" + key).Ok?
    ensures IsSafeS3Path(Scheme + bucket + "/" + key).Ok?
  {
    assert '/' !in bucket;
    PathWithBucket(bucket, key, BucketBody);
    PathWithBucket(bucket, key, BucketPatternAsWritten);
  }

  lemma {:induction false} SplitOnceAt(a: string, b: string)
    requires '/' !in a
    ensures SplitOnce(a + "/" + b, '/') == (a, Some(b))
    decreases |a|
  {
    var s := a + "/" + b;
    if |a| == 0 {
      assert s == "/" + b;
    } else {
      assert a[0] in a;
      assert s[1..] == a[1..] + "/" + b;
      assert forall x :: x in a[1..] ==> x in a;
      SplitOnceAt(a[1..], b);
      assert [a[0]] + a[1..] == a;
    }
  }

  /** Every path the corrected validator accepts is scheme, bucket, '/', key
      with a well-formed bucket and key. */
  lemma AcceptedPathDecomposes(p: string) returns (bucket: string, key: string)
    requires IsSafeS3PathIntended(p).Ok?
    ensures p == Scheme + bucket + "/" + key
    ensures WellFormedBucket(bucket) && WellFormedKey(key)
  {
    var path := p[|Scheme|..];
    bucket, key := BucketAndKey(path).0, BucketAndKey(path).1;
    assert '/' in path;
    assert p == Scheme + path;
    ContainsSlashes(bucket + "/", key);
    assert (bucket + "/")[|bucket|] == '/';
    assert path == (bucket + "/") + key;
  }
}

=== FILE: sequences.dfy ===
/** Ordering and de-duplication of sequences: `np.sort(np.unique(..))` and
    pandas' sorted group keys (strictly increasing, duplicates removed) and
    `Series.unique()` (first appearance order). */
module Sequences {

  /** `lt` is a strict total order on `T`. */
  ghost predicate IsStrictTotalOrder<T(!new)>(lt: (T, T) -> bool) {
    && (forall a :: !lt(a, a))
    && (forall a, b, c :: lt(a, b) && lt(b, c) ==> lt(a, c))
    && (forall a, b :: a == b || lt(a, b) || lt(b, a))
  }

  predicate SortedBy<T>(s: seq<T>, lt: (T, T) -> bool) {
    forall i, j :: 0 <= i < j < |s| ==> lt(s[i], s[j])
  }

  /** No element occurs twice. */
  predicate Distinct<T(==)>(s: seq<T>) {
    forall i, j :: 0 <= i < j < |s| ==> s[i] != s[j]
  }

  lemma SortedIsDistinct<T(!new)>(s: seq<T>, lt: (T, T) -> bool)
    requires IsStrictTotalOrder(lt) && SortedBy(s, lt)
    ensures Distinct(s)
  {
  }

  /** Insert `x` into a strictly sorted sequence, unless it is already there. */
  function InsertSorted<T(==,!new)>(x: T, s: seq<T>, lt: (T, T) -> bool): (r: seq<T>)
    requires IsStrictTotalOrder(lt) && SortedBy(s, lt)
    ensures SortedBy(r, lt)
    ensures forall y :: y in r <==> y == x || y in s
    ensures |r| <= |s| + 1
  {
    if |s| == 0 then [x]
    else if x == s[0] then s
    else if lt(x, s[0]) then [x] + s
    else
      var rest := InsertSorted(x, s[1..], lt);
      assert forall y :: y in rest ==> lt(s[0], y) by {
        forall y | y in rest ensures lt(s[0], y) {
          if y != x {
            var k :| 1 <= k < |s| && s[k] == y;
          }
        }
      }
      [s[0]] + rest
  }

  /** The distinct elements of `xs` in increasing order. */
  function SortedUnique<T(==,!new)>(xs: seq<T>, lt: (T, T) -> bool): (r: seq<T>)
    requires IsStrictTotalOrder(lt)
    ensures SortedBy(r, lt)
    ensures forall y :: y in r <==> y in xs
    ensures |r| <= |xs|
  {
    if |xs| == 0 then []
    else
      var r := InsertSorted(xs[|xs| - 1], SortedUnique(xs[..|xs| - 1], lt), lt);
      assert forall y :: y in xs <==> y in xs[..|xs| - 1] || y == xs[|xs| - 1] by {
        assert xs == xs[..|xs| - 1] + [xs[|xs| - 1]];
      }
      r
  }

  /** Two strictly sorted sequences with the same elements are equal: the
      sorted, de-duplicated form of a collection is unique. */
  lemma {:induction false} SortedUniqueIsCanonical<T(!new)>(a: seq<T>, b: seq<T>, lt: (T, T) -> bool)
    requires IsStrictTotalOrder(lt) && SortedBy(a, lt) && SortedBy(b, lt)
    requires forall y :: y in a <==> y in b
    ensures a == b
    decreases |a|
  {
    if |a| > 0 { assert a[0] in a; }
    if |b| > 0 { assert b[0] in b; }
    if |a| > 0 && |b| > 0 {
      assert a[0] in a && b[0] in b;
      assert a[0] == b[0];
      forall y ensures y in a[1..] <==> y in b[1..] {
        if y in a[1..] {
          var k :| 1 <= k < |a| && a[k] == y;
          assert lt(a[0], y);
          assert y in b;
          assert y != b[0];
        }
        if y in b[1..] {
          var k :| 1 <= k < |b| && b[k] == y;
          assert lt(b[0], y);
          assert y in a;
          assert y != a[0];
        }
      }
      SortedUniqueIsCanonical(a[1..], b[1..], lt);
      assert a == [a[0]] + a[1..] && b == [b[0]] + b[1..];
    }
  }

  /** `Series.unique()`: the distinct elements in order of first appearance. */
  function Unique<T(==,!new)>(xs: seq<T>): (r: seq<T>)
    ensures Distinct(r)
    ensures forall y :: y in r <==> y in xs
    ensures |r| <= |xs|
  {
    if |xs| == 0 then []
    else
      var init := Unique(xs[..|xs| - 1]);
      var last := xs[|xs| - 1];
      assert forall y :: y in xs <==> y in xs[..|xs| - 1] || y == last by {
        assert xs == xs[..|xs| - 1] + [last];
      }
      if last in init then init else init + [last]
  }

  /** Index of the first occurrence of `x`. */
  function IndexOf<T(==)>(xs: seq<T>, x: T): (k: nat)
    requires x in xs
    ensures k < |xs| && xs[k] == x
    ensures forall m :: 0 <= m < k ==> xs[m] != x
  {
    if xs[0] == x then 0 else 1 + IndexOf(xs[1..], x)
  }

  /** `Unique` keeps the order of first appearance. */
  lemma {:induction false} UniqueFirstAppearance<T(!new)>(xs: seq<T>, a: T, b: T)
    requires a in xs && b in xs
    ensures IndexOf(xs, a) < IndexOf(xs, b) <==> IndexOf(Unique(xs), a) < IndexOf(Unique(xs), b)
    decreases |xs|
  {
    var init := xs[..|xs| - 1];
    var last := xs[|xs| - 1];
    assert xs == init + [last];
    if a == b {
    } else if a in init && b in init {
      UniqueFirstAppearance(init, a, b);
      IndexOfPrefix(init, last, a);
      IndexOfPrefix(init, last, b);
      IndexOfPrefix(Unique(init), last, a);
      IndexOfPrefix(Unique(init), last, b);
    } else if a in init {
      assert b == last;
      IndexOfPrefix(init, last, a);
      IndexOfPrefix(Unique(init), last, a);
      IndexOfAfter(init, last, b);
      IndexOfAfter(Unique(init), last, b);
    } else {
      assert a == last;
      if b in init {
        IndexOfPrefix(init, last, b);
        IndexOfPrefix(Unique(init), last, b);
        IndexOfAfter(init, last, a);
        IndexOfAfter(Unique(init), last, a);
      }
    }
  }

  lemma IndexOfPrefix<T>(xs: seq<T>, y: T, x: T)
    requires x in xs
    ensures x in xs + [y] && IndexOf(xs + [y], x) == IndexOf(xs, x)
  {
    assert (xs + [y])[IndexOf(xs, x)] == x;
  }

  lemma IndexOfAfter<T>(xs: seq<T>, y: T, x: T)
    requires x !in xs
    ensures x in xs + [x] && IndexOf(xs + [x], x) == |xs|
  {
  }

  // ---------------------------------------------------------------------------
  // Orders used by the model

  function IntLess(): (int, int) -> bool {
    (a: int, b: int) => a < b
  }

  lemma IntLessIsOrder()
    ensures IsStrictTotalOrder(IntLess())
  {
  }

  /** Code-point lexicographic order on strings (Python's `str.__lt__`). */
  predicate StringLess(a: string, b: string) {
    if |a| == 0 then |b| > 0
    else if |b| == 0 then false
    else if a[0] != b[0] then a[0] < b[0]
    else StringLess(a[1..], b[1..])
  }

  lemma {:induction false} StringLessIrreflexive(a: string)
    ensures !StringLess(a, a)
    decreases |a|
  {
    if |a| > 0 { StringLessIrreflexive(a[1..]); }
  }

  lemma {:induction false} StringLessTransitive(a: string, b: string, c: string)
    requires StringLess(a, b) && StringLess(b, c)
    ensures StringLess(a, c)
    decreases |a|
  {
    if |a| > 0 && a[0] == b[0] && b[0] == c[0] {
      StringLessTransitive(a[1..], b[1..], c[1..]);
    }
  }

  lemma {:induction false} StringLessTotal(a: string, b: string)
    ensures a == b || StringLess(a, b) || StringLess(b, a)
    decreases |a|
  {
    if |a| > 0 && |b| > 0 && a[0] == b[0] {
      StringLessTotal(a[1..], b[1..]);
      if a[1..] == b[1..] {
        assert a == [a[0]] + a[1..] && b == [b[0]] + b[1..];
      }
    }
  }

  /** The distinct strings of `xs`, in increasing order. */
  function SortedStrings(xs: seq<string>): (r: seq<string>)
    ensures forall a, b :: 0 <= a < b < |r| ==> StringLess(r[a], r[b])
    ensures forall y :: y in r <==> y in xs
    ensures |r| <= |xs|
  {
    StringOrderIsOrder();
    var r := SortedUnique(xs, StringOrder());
    assert forall a, b :: 0 <= a < b < |r| ==> StringOrder()(r[a], r[b]);
    r
  }

  function StringOrder(): (string, string) -> bool {
    (a: string, b: string) => StringLess(a, b)
  }

  lemma StringOrderIsOrder()
    ensures IsStrictTotalOrder(StringOrder())
  {
    forall a: string ensures !StringLess(a, a) { StringLessIrreflexive(a); }
    forall a: string, b: string, c: string | StringLess(a, b) && StringLess(b, c)
      ensures StringLess(a, c)
    {
      StringLessTransitive(a, b, c);
    }
    forall a: string, b: string ensures a == b || StringLess(a, b) || StringLess(b, a) {
      StringLessTotal(a, b);
    }
  }
}

=== FILE: series.dfy ===
/** The xarray operations the snow code applies along the time axis of a
    (time, pixel) array: counting valid pixels, label slicing
    `sel(time=slice(None, t))`, `idxmin`, and `where(mask).max('time')`. A
    missing value (NaN) is `None`. */
module Series {
  import opened Wrappers
  import opened Dates

  /** One time step: its acquisition date and its pixels, flattened. */
  datatype Step<T> = Step(date: Date, pixels: seq<Option<T>>)

  predicate ValidDates<T>(s: seq<Step<T>>) {
    forall k :: 0 <= k < |s| ==> Valid(s[k].date)
  }

  /** A time index as xarray keeps it after `groupby('time')`: sorted,
      without repeats. */
  predicate Increasing<T>(s: seq<Step<T>>) {
    forall i, j :: 0 <= i < j < |s| ==> Before(s[i].date, s[j].date)
  }

  /** `count()` over the pixels: the non-missing ones. */
  function Count<T>(px: seq<Option<T>>): (n: nat)
    ensures n <= |px|
    ensures n == 0 <==> forall k :: 0 <= k < |px| ==> px[k].None?
    ensures n == |px| <==> forall k :: 0 <= k < |px| ==> px[k].Some?
  {
    if |px| == 0 then 0
    else
      var rest := Count(px[1..]);
      assert forall k :: 1 <= k < |px| ==> px[k] == px[1..][k - 1];
      (if px[0].Some? then 1 else 0) + rest
  }

  /** `sel(time=slice(None, t))`: the steps at or before `t`, in order. */
  function UpTo<T>(s: seq<Step<T>>, t: Date): (r: seq<Step<T>>)
    ensures |r| <= |s|
  {
    if |s| == 0 then []
    else
      var earlier := UpTo(s[..|s| - 1], t);
      if !Before(t, s[|s| - 1].date) then earlier + [s[|s| - 1]] else earlier
  }

  /** The slice holds exactly the steps at or before `t`. */
  lemma {:induction false} UpToMembers<T>(s: seq<Step<T>>, t: Date)
    ensures forall k :: 0 <= k < |UpTo(s, t)| ==> UpTo(s, t)[k] in s && !Before(t, UpTo(s, t)[k].date)
    ensures forall k :: 0 <= k < |s| && !Before(t, s[k].date) ==> s[k] in UpTo(s, t)
    decreases |s|
  {
    if |s| > 0 {
      var init := s[..|s| - 1];
      UpToMembers(init, t);
      assert s == init + [s[|s| - 1]];
    }
  }

  /** On a sorted time index, slicing up to the label of step k keeps
      exactly steps 0..k. */
  lemma UpToPrefix<T>(s: seq<Step<T>>, k: nat)
    requires Increasing(s) && k < |s|
    ensures UpTo(s, s[k].date) == s[..k + 1]
  {
    var t := s[k].date;
    assert forall j :: 0 <= j < |s| && j <= k ==> !Before(t, s[j].date);
    UpToSplit(s, k + 1, t);
  }

  /** When the steps at or before `t` are exactly the first n, the slice
      is those n steps. */
  lemma {:induction false} UpToSplit<T>(s: seq<Step<T>>, n: nat, t: Date)
    requires n <= |s|
    requires forall j :: 0 <= j < n ==> !Before(t, s[j].date)
    requires forall j :: n <= j < |s| ==> Before(t, s[j].date)
    ensures UpTo(s, t) == s[..n]
    decreases |s|
  {
    if |s| > 0 {
      var init := s[..|s| - 1];
      if n == |s| {
        UpToSplit(init, n - 1, t);
        assert init[..n - 1] + [s[|s| - 1]] == s[..n];
      } else {
        UpToSplit(init, n, t);
        assert init[..n] == s[..n];
      }
    }
  }

  /** `idxmin`: the first position holding the smallest value. */
  function ArgMin(xs: seq<int>): (k: nat)
    requires |xs| > 0
    ensures k < |xs|
    ensures forall j :: 0 <= j < |xs| ==> xs[k] <= xs[j]
    ensures forall j :: 0 <= j < k ==> xs[k] < xs[j]
  {
    if |xs| == 1 then 0
    else
      var k := ArgMin(xs[..|xs| - 1]);
      assert forall j :: 0 <= j < |xs| - 1 ==> xs[..|xs| - 1][j] == xs[j];
      if xs[|xs| - 1] < xs[k] then |xs| - 1 else k
  }

  /** `sel(time=slice(None, idxmin(counts)))`: the steps up to the first
      time of lowest count. An empty series has no minimum. */
  function UpToLowest<T>(s: seq<Step<T>>, counts: seq<int>): (r: Option<seq<Step<T>>>)
    requires |counts| == |s|
    ensures r.None? <==> |s| == 0
  {
    if |s| == 0 then None else Some(UpTo(s, s[ArgMin(counts)].date))
  }

  /** On a sorted series the kept steps end at the first lowest count: no
      earlier step has a count as low, no dropped step has a lower one. */
  lemma UpToLowestPrefix<T>(s: seq<Step<T>>, counts: seq<int>)
    requires Increasing(s) && |counts| == |s| > 0
    ensures var r := UpToLowest(s, counts).value;
              0 < |r| <= |s| && r == s[..|r|]
              && (forall j :: 0 <= j < |r| - 1 ==> counts[|r| - 1] < counts[j])
              && (forall j :: |r| <= j < |s| ==> counts[|r| - 1] <= counts[j])
  {
    UpToPrefix(s, ArgMin(counts));
  }

  /** `values.where(flags).max('time')` for one pixel: the largest value at
      a flagged step, missing when no step is flagged. */
  function MaxWhere(values: seq<int>, flags: seq<bool>): (r: Option<int>)
    requires |values| == |flags|
    ensures r.None? <==> forall k :: 0 <= k < |flags| ==> !flags[k]
    ensures r.Some? ==> exists k :: 0 <= k < |flags| && flags[k] && values[k] == r.value
    ensures r.Some? ==> forall k :: 0 <= k < |flags| && flags[k] ==> values[k] <= r.value
  {
    if |values| == 0 then None
    else
      var n := |values| - 1;
      var earlier := MaxWhere(values[..n], flags[..n]);
      assert forall k :: 0 <= k < n ==> values[..n][k] == values[k] && flags[..n][k] == flags[k];
      if !flags[n] then earlier
      else if earlier.Some? && earlier.value >= values[n] then earlier
      else Some(values[n])
  }

  /** `time.dt.dayofyear`: 1 on 1 January. */
  function DayOfYear(d: Date): (r: int)
    requires Valid(d)
    ensures 1 <= r <= 366
  {
    YearBounds(d);
    Ordinal(d) - DaysBeforeYear(d.year) + 1
  }

  /** Within one year, day of year orders dates as the calendar does. */
  lemma DayOfYearOrder(a: Date, b: Date)
    requires Valid(a) && Valid(b) && a.year == b.year
    ensures DayOfYear(a) < DayOfYear(b) <==> Before(a, b)
    ensures DayOfYear(a) == DayOfYear(b) <==> a == b
  {
    OrdinalMonotone(a, b);
  }

  /** The days of year of all steps. */
  function DaysOfYear<T>(s: seq<Step<T>>): (r: seq<int>)
    requires ValidDates(s)
    ensures |r| == |s|
    ensures forall k :: 0 <= k < |s| ==> r[k] == DayOfYear(s[k].date)
  {
    seq(|s|, k requires 0 <= k < |s| => DayOfYear(s[k].date))
  }

  /** Every step has at least `n` pixels. */
  predicate HasPixels<T>(s: seq<Step<T>>, n: nat) {
    forall k :: 0 <= k < |s| ==> |s[k].pixels| >= n
  }

  /** The time series of pixel p. */
  function Column<T>(s: seq<Step<T>>, p: nat): (r: seq<Option<T>>)
    requires HasPixels(s, p + 1)
    ensures |r| == |s|
    ensures forall k :: 0 <= k < |s| ==> r[k] == s[k].pixels[p]
  {
    seq(|s|, k requires 0 <= k < |s| => s[k].pixels[p])
  }

  /** `bfill('time')` on one pixel: a missing value takes the next present
      one; trailing missing values stay missing. */
  function Bfill<T>(xs: seq<Option<T>>): (r: seq<Option<T>>)
    ensures |r| == |xs|
    ensures forall k :: 0 <= k < |xs| && xs[k].Some? ==> r[k] == xs[k]
    decreases |xs|
  {
    if |xs| == 0 then []
    else
      var rest := Bfill(xs[1..]);
      assert forall k :: 1 <= k < |xs| ==> xs[k] == xs[1..][k - 1];
      [if xs[0].Some? || |rest| == 0 then xs[0] else rest[0]] + rest
  }

  /** After `bfill`, a value is present exactly where some value at or
      after it was present. */
  predicate PresentFrom<T>(xs: seq<Option<T>>, k: nat) {
    exists j :: k <= j < |xs| && xs[j].Some?
  }

  /** A value is present from k on when it is present at k or from k + 1 on. */
  lemma PresentFromStep<T>(xs: seq<Option<T>>, k: nat)
    requires k < |xs|
    ensures PresentFrom(xs, k) <==> xs[k].Some? || (k + 1 < |xs| && PresentFrom(xs, k + 1))
  {
    if PresentFrom(xs, k) && xs[k].None? {
      var j :| k <= j < |xs| && xs[j].Some?;
      assert k + 1 <= j;
    }
  }

  lemma {:induction false} BfillPresent<T>(xs: seq<Option<T>>, k: nat)
    requires k < |xs|
    ensures Bfill(xs)[k].Some? <==> PresentFrom(xs, k)
    decreases |xs|
  {
    var rest := Bfill(xs[1..]);
    assert forall j :: 1 <= j < |xs| ==> xs[j] == xs[1..][j - 1];
    if k > 0 {
      BfillPresent(xs[1..], k - 1);
      assert Bfill(xs)[k] == rest[k - 1];
      if exists j :: k <= j < |xs| && xs[j].Some? {
        var j :| k <= j < |xs| && xs[j].Some?;
        assert xs[1..][j - 1].Some?;
      }
    } else if xs[0].None? && |rest| > 0 {
      BfillPresent(xs[1..], 0);
      if exists j :: 0 <= j < |xs| && xs[j].Some? {
        var j :| 0 <= j < |xs| && xs[j].Some?;
        assert j > 0 && xs[1..][j - 1].Some?;
      }
    }
  }

  /** `notnull()`. */
  function NotNull<T>(xs: seq<Option<T>>): (r: seq<bool>)
    ensures |r| == |xs|
    ensures forall k :: 0 <= k < |xs| ==> (r[k] <==> xs[k].Some?)
  {
    seq(|xs|, k requires 0 <= k < |xs| => xs[k].Some?)
  }

  /** The values that are `True`. */
  function Flags(xs: seq<Option<bool>>): (r: seq<bool>)
    ensures |r| == |xs|
    ensures forall k :: 0 <= k < |xs| ==> (r[k] <==> xs[k] == Some(true))
  {
    seq(|xs|, k requires 0 <= k < |xs| => xs[k] == Some(true))
  }

  /** numpy truthiness of a float mask holding 1, 0 or NaN: everything but
      0 is true, NaN included. */
  function Truthy(xs: seq<Option<bool>>): (r: seq<bool>)
    ensures |r| == |xs|
    ensures forall k :: 0 <= k < |xs| ==> (r[k] <==> xs[k] != Some(false))
  {
    seq(|xs|, k requires 0 <= k < |xs| => xs[k] != Some(false))
  }
}

=== FILE: snow_s2msi.dfy ===
/** The Sentinel-2 snow-melt day of `snow/from_stac_s2msi.py`: scene
    classifications are clipped after the last well-covered time step, snow
    (class 11) is kept, the series is cut at the lowest snow cover, gaps are
    back-filled, and each pixel's melt day is the last day of year still
    covered. Scene classes are integers, NaN is `None`. */
module SnowS2msi {
  import opened Wrappers
  import opened Dates
  import opened Series

  datatype S2Error =
    | EmptySeries   // IndexError of `isel(time=0)`
    | NoGoodCover   // IndexError of `good_cover[-1]`
    | NotOneYear    // AssertionError "Only one year is supported"

  /** Scene-classification code of snow and ice. */
  const SclSnowIce: int := 11

  // ---------------------------------------------------------------------------
  // drop_poor_coverage_at_end
  // ---------------------------------------------------------------------------

  /** The last position whose value is strictly above the threshold. */
  function LastAbove(fracs: seq<real>, threshold: real): (r: Option<nat>)
    ensures r.None? <==> forall k :: 0 <= k < |fracs| ==> fracs[k] <= threshold
    ensures r.Some? ==> r.value < |fracs| && fracs[r.value] > threshold
    ensures r.Some? ==> forall k :: r.value < k < |fracs| ==> fracs[k] <= threshold
  {
    if |fracs| == 0 then None
    else if fracs[|fracs| - 1] > threshold then Some(|fracs| - 1)
    else
      var r := LastAbove(fracs[..|fracs| - 1], threshold);
      assert forall k :: 0 <= k < |fracs| - 1 ==> fracs[..|fracs| - 1][k] == fracs[k];
      r
  }

  /** The valid-pixel fraction of every step, relative to the size of the
      first step. */
  function Fractions(s: seq<Step<int>>, size: nat): (r: seq<real>)
    requires size > 0
    ensures |r| == |s|
    ensures forall k :: 0 <= k < |s| ==> r[k] == Count(s[k].pixels) as real / size as real
  {
    seq(|s|, k requires 0 <= k < |s| => Count(s[k].pixels) as real / size as real)
  }

  /** Step k has a valid fraction strictly above the threshold. With no
      pixels the fraction is NaN, which passes no threshold; `bfill` has
      nothing to fill otherwise, since counts are never NaN. */
  predicate WellCovered(s: seq<Step<int>>, k: nat, threshold: real)
    requires 0 < |s| && k < |s|
  {
    |s[0].pixels| > 0 && Count(s[k].pixels) as real / |s[0].pixels| as real > threshold
  }

  /** drop_poor_coverage_at_end(da, threshold). */
  function DropPoorCoverageAtEnd(s: seq<Step<int>>, threshold: real): (r: Result<seq<Step<int>>, S2Error>)
    ensures |s| == 0 <==> r == Err(EmptySeries)
    ensures r.Ok? <==> |s| > 0 && exists k :: 0 <= k < |s| && WellCovered(s, k, threshold)
    ensures r.Ok? ==> |r.value| <= |s|
  {
    if |s| == 0 then Err(EmptySeries)
    else if |s[0].pixels| == 0 then Err(NoGoodCover)
    else
      var fracs := Fractions(s, |s[0].pixels|);
      match LastAbove(fracs, threshold)
      case None =>
        assert forall k :: 0 <= k < |s| ==> !WellCovered(s, k, threshold) by {
          assert forall k :: 0 <= k < |s| ==> fracs[k] <= threshold;
        }
        Err(NoGoodCover)
      case Some(k) =>
        assert WellCovered(s, k, threshold);
        Ok(UpTo(s, s[k].date))
  }

  /** On a sorted series the result is a prefix that ends at the last
      well-covered step: every dropped step is poorly covered, and poorly
      covered steps before it are kept. */
  lemma DropPoorCoverageAtEndPrefix(s: seq<Step<int>>, threshold: real)
    requires Increasing(s) && DropPoorCoverageAtEnd(s, threshold).Ok?
    ensures var r := DropPoorCoverageAtEnd(s, threshold).value;
              0 < |r| <= |s| && r == s[..|r|]
              && WellCovered(s, |r| - 1, threshold)
              && forall k :: |r| <= k < |s| ==> !WellCovered(s, k, threshold)
  {
    var fracs := Fractions(s, |s[0].pixels|);
    var k := LastAbove(fracs, threshold).value;
    UpToPrefix(s, k);
  }

  /** The docstring's example [0.4, 0.5, 0.3, 0.7, 0.9, 0.3] promises to keep
      the first five steps. With the default threshold 0.9 the comparison is
      strict, so no step qualifies and the function fails; only a lower
      threshold keeps the five. */
  lemma DocstringExample()
    ensures LastAbove([0.4, 0.5, 0.3, 0.7, 0.9, 0.3], 0.9) == None
    ensures LastAbove([0.4, 0.5, 0.3, 0.7, 0.9, 0.3], 0.85) == Some(4)
  {
    var f := [0.4, 0.5, 0.3, 0.7, 0.9, 0.3];
    assert f[..5] == [0.4, 0.5, 0.3, 0.7, 0.9];
  }

  // ---------------------------------------------------------------------------
  // The snow mask of calc_sentinel2_snow_melt_day_for_single_year
  // ---------------------------------------------------------------------------

  /** `scl.where(scl == 11) * 0 + 1`: 1 on snow, NaN elsewhere. */
  function SnowMaskOf(px: seq<Option<int>>): (r: seq<Option<int>>)
    ensures |r| == |px|
    ensures forall k :: 0 <= k < |px| ==> (r[k].Some? <==> px[k] == Some(SclSnowIce))
    ensures forall k :: 0 <= k < |px| ==> r[k].Some? ==> r[k] == Some(1)
  {
    seq(|px|, k requires 0 <= k < |px| => if px[k] == Some(SclSnowIce) then Some(1) else None)
  }

  function SnowMask(s: seq<Step<int>>): (r: seq<Step<int>>)
    ensures |r| == |s|
    ensures forall k :: 0 <= k < |s| ==> r[k] == Step(s[k].date, SnowMaskOf(s[k].pixels))
  {
    seq(|s|, k requires 0 <= k < |s| => Step(s[k].date, SnowMaskOf(s[k].pixels)))
  }

  // ---------------------------------------------------------------------------
  // get_max_day_of_year_from_mask
  // ---------------------------------------------------------------------------

  /** All time steps fall in one calendar year (the set of years has one
      element, so there is at least one step). */
  predicate OneYear<T>(s: seq<Step<T>>) {
    |s| > 0 && forall k :: 0 <= k < |s| ==> s[k].date.year == s[0].date.year
  }

  /** get_max_day_of_year_from_mask(mask) for a boolean mask. */
  function MaxDayOfYearFromMask(mask: seq<Step<bool>>, npix: nat): (r: Result<seq<Option<int>>, S2Error>)
    requires ValidDates(mask) && HasPixels(mask, npix)
    ensures r.Ok? <==> OneYear(mask)
    ensures r.Err? ==> r.error == NotOneYear
    ensures r.Ok? ==> |r.value| == npix
    ensures r.Ok? ==> forall p :: 0 <= p < npix ==>
              r.value[p] == MaxWhere(DaysOfYear(mask), Flags(Column(mask, p)))
  {
    if !OneYear(mask) then Err(NotOneYear)
    else Ok(seq(npix, p requires 0 <= p < npix => MaxWhere(DaysOfYear(mask), Flags(Column(mask, p)))))
  }

  /** Within one sorted year the largest day of year at which a pixel is
      flagged is the day of its LAST flagged step. */
  lemma MaxDayIsLastFlagged<T>(s: seq<Step<T>>, flags: seq<bool>)
    requires Increasing(s) && ValidDates(s) && OneYear(s) && |flags| == |s|
    ensures var r := MaxWhere(DaysOfYear(s), flags);
              (r.None? <==> forall k :: 0 <= k < |s| ==> !flags[k])
              && (r.Some? ==> exists k :: 0 <= k < |s| && flags[k] && r.value == DayOfYear(s[k].date)
                                           && forall j :: k < j < |s| ==> !flags[j])
  {
    var doys := DaysOfYear(s);
    var r := MaxWhere(doys, flags);
    if r.Some? {
      var k :| 0 <= k < |s| && flags[k] && doys[k] == r.value;
      forall j | k < j < |s|
        ensures !flags[j]
      {
        DayOfYearOrder(s[k].date, s[j].date);
      }
    }
  }

  // ---------------------------------------------------------------------------
  // The per-pixel melt day (calc_sentinel2_snow_melt_day_for_single_year)
  // ---------------------------------------------------------------------------

  /** After the melt period is cut, `bfill('time').notnull()` then the
      maximum day of year: a pixel's melt day is the day of the last step at
      which it was observed as snow, and missing if it never was. */
  lemma MeltDayIsLastSnow(melt: seq<Step<int>>, p: nat)
    requires Increasing(melt) && ValidDates(melt) && OneYear(melt) && HasPixels(melt, p + 1)
    ensures var col := Column(melt, p);
            var r := MaxWhere(DaysOfYear(melt), NotNull(Bfill(col)));
              (r.None? <==> forall k :: 0 <= k < |col| ==> col[k].None?)
              && (r.Some? ==> exists k :: 0 <= k < |col| && col[k].Some?
                                           && r.value == DayOfYear(melt[k].date)
                                           && forall j :: k < j < |col| ==> col[j].None?)
  {
    var col := Column(melt, p);
    var doys := DaysOfYear(melt);
    forall i, j | 0 <= i < j < |doys|
      ensures doys[i] < doys[j]
    {
      DayOfYearOrder(melt[i].date, melt[j].date);
    }
    MaxWhereBfill(doys, col);
  }

  /** Over strictly increasing days, the largest day at which a back-filled
      value is present is the day of the last value present. */
  lemma MaxWhereBfill<T>(doys: seq<int>, col: seq<Option<T>>)
    requires |doys| == |col|
    requires forall i, j :: 0 <= i < j < |doys| ==> doys[i] < doys[j]
    ensures var r := MaxWhere(doys, NotNull(Bfill(col)));
              (r.None? <==> forall k :: 0 <= k < |col| ==> col[k].None?)
              && (r.Some? ==> exists k :: 0 <= k < |col| && col[k].Some? && r.value == doys[k]
                                           && forall j :: k < j < |col| ==> col[j].None?)
  {
    var flags := NotNull(Bfill(col));
    var r := MaxWhere(doys, flags);
    BfillNoneFlagged(col);
    if r.Some? {
      var k :| 0 <= k < |flags| && flags[k] && doys[k] == r.value;
      forall j | k < j < |flags|
        ensures !flags[j]
      {
        assert doys[k] < doys[j];
      }
      BfillLastFlagged(col, k);
    }
  }

  /** No step is flagged after `bfill().notnull()` exactly when no value
      was present. */
  lemma BfillNoneFlagged<T>(col: seq<Option<T>>)
    ensures (forall k :: 0 <= k < |col| ==> !NotNull(Bfill(col))[k]) <==> (forall k :: 0 <= k < |col| ==> col[k].None?)
  {
    var flags := NotNull(Bfill(col));
    if k :| 0 <= k < |col| && col[k].Some? {
      assert PresentFrom(col, k);
      BfillPresent(col, k);
      assert flags[k];
    } else if k :| 0 <= k < |col| && flags[k] {
      BfillPresent(col, k);
    }
  }

  /** The last step flagged after `bfill().notnull()` is the last present
      value. */
  lemma BfillLastFlagged<T>(col: seq<Option<T>>, k: nat)
    requires k < |col| && NotNull(Bfill(col))[k]
    requires forall j :: k < j < |col| ==> !NotNull(Bfill(col))[j]
    ensures col[k].Some? && forall j :: k < j < |col| ==> col[j].None?
  {
    var flags := NotNull(Bfill(col));
    forall j | k < j < |col|
      ensures col[j].None?
    {
      assert !flags[j];
      BfillPresent(col, j);
      PresentFromStep(col, j);
    }
    BfillPresent(col, k);
    PresentFromStep(col, k);
    if k + 1 < |col| {
      assert !flags[k + 1];
      BfillPresent(col, k + 1);
    }
  }
}

=== FILE: snow_stac.dfy ===
/** The older snow-melt day of `snow/from_stac.py`: cloud classes are
    removed from the Sentinel-2 scene classification, gaps are filled,
    poorly covered steps are dropped, a snow mask is built, cut at the
    lowest snow cover, and each pixel's melt day is the largest day of year
    at which the mask holds. Scene classes are integers, NaN is `None`. */
module SnowStac {
  import opened Wrappers
  import opened Dates
  import opened Series

  datatype StacError = EmptySeries   // IndexError of `isel(time=0)`

  /** Scene classes 7 to 10: unclassified, cloud medium and high
      probability, thin cirrus. */
  predicate IsCloud(v: int) {
    v == 7 || v == 8 || v == 9 || v == 10
  }

  const SclSnowIce: int := 11
  const CoverThreshold: real := 0.8

  // ---------------------------------------------------------------------------
  // _mask_clouds
  // ---------------------------------------------------------------------------

  /** `scl.where(~scl.isin([7, 8, 9, 10]))` for one step. */
  function MaskCloudsOf(px: seq<Option<int>>): (r: seq<Option<int>>)
    ensures |r| == |px|
    ensures forall k :: 0 <= k < |px| ==>
              r[k] == (if px[k].Some? && IsCloud(px[k].value) then None else px[k])
  {
    seq(|px|, k requires 0 <= k < |px| => if px[k].Some? && IsCloud(px[k].value) then None else px[k])
  }

  function MaskClouds(s: seq<Step<int>>): (r: seq<Step<int>>)
    ensures |r| == |s|
    ensures forall k :: 0 <= k < |s| ==> r[k] == Step(s[k].date, MaskCloudsOf(s[k].pixels))
  {
    seq(|s|, k requires 0 <= k < |s| => Step(s[k].date, MaskCloudsOf(s[k].pixels)))
  }

  /** No cloud class is left; masking again changes nothing. */
  lemma MaskCloudsIdempotent(px: seq<Option<int>>)
    ensures forall k :: 0 <= k < |px| ==> !(MaskCloudsOf(px)[k].Some? && IsCloud(MaskCloudsOf(px)[k].value))
    ensures MaskCloudsOf(MaskCloudsOf(px)) == MaskCloudsOf(px)
  {
  }

  // ---------------------------------------------------------------------------
  // _remove_poor_cover
  // ---------------------------------------------------------------------------

  /** `(da > 0).sum()` over the pixels: NaN compares false. */
  function PositiveCount(px: seq<Option<int>>): (n: nat)
    ensures n <= |px|
  {
    if |px| == 0 then 0
    else (if px[0].Some? && px[0].value > 0 then 1 else 0) + PositiveCount(px[1..])
  }

  /** The step's share of positive pixels, relative to the first step's
      size, is strictly above the threshold (NaN for zero pixels is not). */
  predicate GoodCover(px: seq<Option<int>>, size: nat, threshold: real) {
    size > 0 && PositiveCount(px) as real / size as real > threshold
  }

  /** The positions below n of the well-covered steps, in increasing
      order. */
  function GoodIndices(s: seq<Step<int>>, n: nat, size: nat, threshold: real): (idx: seq<nat>)
    requires n <= |s|
    ensures |idx| <= n
    ensures forall i :: 0 <= i < |idx| ==> idx[i] < n && GoodCover(s[idx[i]].pixels, size, threshold)
    ensures forall i, j :: 0 <= i < j < |idx| ==> idx[i] < idx[j]
    ensures forall k :: 0 <= k < n && GoodCover(s[k].pixels, size, threshold) ==> k in idx
  {
    if n == 0 then []
    else
      var earlier := GoodIndices(s, n - 1, size, threshold);
      if GoodCover(s[n - 1].pixels, size, threshold) then earlier + [n - 1] else earlier
  }

  /** `da[good_cover]`: the well-covered steps, in order. */
  function KeepGood(s: seq<Step<int>>, size: nat, threshold: real): (r: seq<Step<int>>)
    ensures |r| == |GoodIndices(s, |s|, size, threshold)|
    ensures forall i :: 0 <= i < |r| ==> r[i] == s[GoodIndices(s, |s|, size, threshold)[i]]
  {
    var idx := GoodIndices(s, |s|, size, threshold);
    seq(|idx|, i requires 0 <= i < |idx| => s[idx[i]])
  }

  /** _remove_poor_cover(da, cover_threshold). */
  function RemovePoorCover(s: seq<Step<int>>, threshold: real): (r: Result<seq<Step<int>>, StacError>)
    ensures r.Err? <==> |s| == 0
    ensures r.Ok? ==> r.value == KeepGood(s, |s[0].pixels|, threshold)
  {
    if |s| == 0 then Err(EmptySeries) else Ok(KeepGood(s, |s[0].pixels|, threshold))
  }

  /** Dropping steps keeps a sorted time index sorted. */
  lemma RemovePoorCoverSorted(s: seq<Step<int>>, threshold: real)
    requires Increasing(s) && |s| > 0
    ensures Increasing(RemovePoorCover(s, threshold).value)
  {
    var r := RemovePoorCover(s, threshold).value;
    var idx := GoodIndices(s, |s|, |s[0].pixels|, threshold);
    forall i, j | 0 <= i < j < |r|
      ensures Before(r[i].date, r[j].date)
    {
      assert r[i] == s[idx[i]] && r[j] == s[idx[j]];
    }
  }

  // ---------------------------------------------------------------------------
  // prep_s2_scl_clouds
  // ---------------------------------------------------------------------------

  /** prep_s2_scl_clouds(scl): mask clouds, fill the gaps, then drop the
      steps with at most 80% cover. The gap filling (daily median and a
      five-day forward fill) is the parameter `fill`. */
  function PrepSclClouds(s: seq<Step<int>>, fill: seq<Step<int>> -> seq<Step<int>>): (r: Result<seq<Step<int>>, StacError>)
    ensures r.Err? <==> |fill(MaskClouds(s))| == 0
    ensures r.Ok? ==> forall k :: 0 <= k < |r.value| ==>
              GoodCover(r.value[k].pixels, |fill(MaskClouds(s))[0].pixels|, CoverThreshold)
  {
    var filled := fill(MaskClouds(s));
    if |filled| == 0 then Err(EmptySeries)
    else RemovePoorCover(filled, CoverThreshold)
  }

  /** Cover is counted after the clouds are masked: with no gap filling, a
      step that is all cloud is dropped, and no kept step holds a cloud
      class. */
  lemma PrepWithoutFill(s: seq<Step<int>>)
    requires |s| > 0
    ensures var r := PrepSclClouds(s, x => x);
              r.Ok?
              && (forall k :: 0 <= k < |r.value| ==>
                    forall q :: 0 <= q < |r.value[k].pixels| ==>
                      !(r.value[k].pixels[q].Some? && IsCloud(r.value[k].pixels[q].value)))
  {
    var m := MaskClouds(s);
    var r := PrepSclClouds(s, x => x).value;
    var idx := GoodIndices(m, |m|, |m[0].pixels|, CoverThreshold);
    forall k | 0 <= k < |r|
      ensures forall q :: 0 <= q < |r[k].pixels| ==> !(r[k].pixels[q].Some? && IsCloud(r[k].pixels[q].value))
    {
      MaskCloudsIdempotent(s[idx[k]].pixels);
    }
  }

  /** A step whose pixels are all cloud has no positive pixel left. */
  lemma {:induction false} AllCloudNoCover(px: seq<Option<int>>)
    requires forall k :: 0 <= k < |px| ==> px[k].Some? && IsCloud(px[k].value)
    ensures PositiveCount(MaskCloudsOf(px)) == 0
  {
    if |px| > 0 {
      assert MaskCloudsOf(px)[1..] == MaskCloudsOf(px[1..]);
      AllCloudNoCover(px[1..]);
    }
  }

  // ---------------------------------------------------------------------------
  // The snow mask and the melt day (get_smelt_day)
  // ---------------------------------------------------------------------------

  /** `(scl == 11).where(scl > 0)`: snow, another class, or missing. */
  function SnowMaskOf(px: seq<Option<int>>): (r: seq<Option<bool>>)
    ensures |r| == |px|
    ensures forall k :: 0 <= k < |px| ==> (r[k] == Some(true) <==> px[k] == Some(SclSnowIce))
    ensures forall k :: 0 <= k < |px| ==> (r[k] == Some(false) <==> px[k].Some? && px[k].value > 0 && px[k].value != SclSnowIce)
    ensures forall k :: 0 <= k < |px| ==> (r[k].None? <==> !(px[k].Some? && px[k].value > 0))
  {
    seq(|px|, k requires 0 <= k < |px| =>
      if px[k].Some? && px[k].value > 0 then Some(px[k].value == SclSnowIce) else None)
  }

  /** `doy.where(snow_mask).max('time')` as written. The mask is a float
      array (1, 0 or NaN) and `where` treats it as a truth value, so a
      missing pixel (NaN) counts as snow. */
  function SmeltDayAsWritten(doys: seq<int>, mask: seq<Option<bool>>): (r: Option<int>)
    requires |doys| == |mask|
    ensures r.None? <==> forall k :: 0 <= k < |mask| ==> mask[k] == Some(false)
  {
    MaxWhere(doys, Truthy(mask))
  }

  /** The melt day the function is meant to compute: the largest day of
      year at which the pixel was observed as snow. */
  function SmeltDay(doys: seq<int>, mask: seq<Option<bool>>): (r: Option<int>)
    requires |doys| == |mask|
    ensures r.None? <==> forall k :: 0 <= k < |mask| ==> mask[k] != Some(true)
    ensures r.Some? ==> exists k :: 0 <= k < |mask| && mask[k] == Some(true) && doys[k] == r.value
    ensures r.Some? ==> forall k :: 0 <= k < |mask| && mask[k] == Some(true) ==> doys[k] <= r.value
  {
    MaxWhere(doys, Flags(mask))
  }

  /** A snowy day 10 followed by a missing observation on day 20: the code
      as written reports day 20, the snow mask says day 10. */
  lemma SmeltDayMissingCountsAsSnow()
    ensures SmeltDayAsWritten([10, 20], [Some(true), None]) == Some(20)
    ensures SmeltDay([10, 20], [Some(true), None]) == Some(10)
  {
    var mask := [Some(true), None];
    assert Truthy(mask) == [true, true];
    assert Flags(mask) == [true, false];
    assert [10, 20][..1] == [10];
    assert [true, true][..1] == [true];
    assert [true, false][..1] == [true];
  }

  /** Where every observation is present the two agree. */
  lemma SmeltDayAgreesWithoutGaps(doys: seq<int>, mask: seq<Option<bool>>)
    requires |doys| == |mask| && forall k :: 0 <= k < |mask| ==> mask[k].Some?
    ensures SmeltDayAsWritten(doys, mask) == SmeltDay(doys, mask)
  {
    var a, b := Truthy(mask), Flags(mask);
    forall k | 0 <= k < |mask|
      ensures a[k] == b[k]
    {
      if mask[k].value { assert mask[k] == Some(true); } else { assert mask[k] == Some(false); }
    }
    assert a == b;
  }

  /** The snow mask of every step, dates kept. */
  function SnowMask(s: seq<Step<int>>): (r: seq<Step<bool>>)
    ensures |r| == |s|
    ensures forall k :: 0 <= k < |s| ==> r[k] == Step(s[k].date, SnowMaskOf(s[k].pixels))
  {
    seq(|s|, k requires 0 <= k < |s| => Step(s[k].date, SnowMaskOf(s[k].pixels)))
  }

  /** The snow mask cut at the first time of lowest (smoothed) snow count;
      the smoothed counts are the parameter `counts`. The cut keeps steps
      of the mask, so dates and pixel counts stay valid. */
  function MeltCut(prepared: seq<Step<int>>, counts: seq<int>, npix: nat): (r: Option<seq<Step<bool>>>)
    requires ValidDates(prepared) && |counts| == |prepared| && HasPixels(prepared, npix)
    ensures r.None? <==> |prepared| == 0
    ensures r.Some? ==> ValidDates(r.value) && HasPixels(r.value, npix)
    ensures r.Some? ==> forall k :: 0 <= k < |r.value| ==> r.value[k] in SnowMask(prepared)
  {
    var mask := SnowMask(prepared);
    match UpToLowest(mask, counts)
    case None => None
    case Some(cut) =>
      UpToMembers(mask, mask[ArgMin(counts)].date);
      assert forall k :: 0 <= k < |cut| ==> cut[k] in mask;
      Some(cut)
  }

  /** get_smelt_day after the preparation, as written: each pixel's melt
      day is SmeltDayAsWritten over the cut mask, so it is missing only
      where every kept step says "not snow". */
  function SmeltDays(prepared: seq<Step<int>>, counts: seq<int>, npix: nat): (r: Option<seq<Option<int>>>)
    requires ValidDates(prepared) && |counts| == |prepared| && HasPixels(prepared, npix)
    ensures r.None? <==> |prepared| == 0
    ensures r.Some? ==> |r.value| == npix
    ensures r.Some? ==> var cut := MeltCut(prepared, counts, npix).value;
              forall p :: 0 <= p < npix ==>
                r.value[p] == SmeltDayAsWritten(DaysOfYear(cut), Column(cut, p))
                && (r.value[p].None? <==> forall k :: 0 <= k < |cut| ==> cut[k].pixels[p] == Some(false))
  {
    match MeltCut(prepared, counts, npix)
    case None => None
    case Some(cut) =>
      Some(seq(npix, p requires 0 <= p < npix => SmeltDayAsWritten(DaysOfYear(cut), Column(cut, p))))
  }

  /** The same composition with the corrected SmeltDay: each pixel's melt
      day is the largest day of year at which a kept step saw snow. */
  function SmeltDaysIntended(prepared: seq<Step<int>>, counts: seq<int>, npix: nat): (r: Option<seq<Option<int>>>)
    requires ValidDates(prepared) && |counts| == |prepared| && HasPixels(prepared, npix)
    ensures r.None? <==> |prepared| == 0
    ensures r.Some? ==> |r.value| == npix
    ensures r.Some? ==> var cut := MeltCut(prepared, counts, npix).value;
              forall p :: 0 <= p < npix ==>
                r.value[p] == SmeltDay(DaysOfYear(cut), Column(cut, p))
                && (r.value[p].None? <==> forall k :: 0 <= k < |cut| ==> cut[k].pixels[p] != Some(true))
  {
    match MeltCut(prepared, counts, npix)
    case None => None
    case Some(cut) =>
      Some(seq(npix, p requires 0 <= p < npix => SmeltDay(DaysOfYear(cut), Column(cut, p))))
  }

  /** Where every pixel of the prepared series holds a positive class, the
      mask has no gaps and the program's melt days are the intended ones. */
  lemma SmeltDaysAgreeWithoutGaps(prepared: seq<Step<int>>, counts: seq<int>, npix: nat)
    requires ValidDates(prepared) && |counts| == |prepared| && HasPixels(prepared, npix)
    requires forall k, q :: 0 <= k < |prepared| && 0 <= q < npix ==>
               prepared[k].pixels[q].Some? && prepared[k].pixels[q].value > 0
    ensures SmeltDays(prepared, counts, npix) == SmeltDaysIntended(prepared, counts, npix)
  {
    if |prepared| > 0 {
      var cut := MeltCut(prepared, counts, npix).value;
      var a := SmeltDays(prepared, counts, npix).value;
      var b := SmeltDaysIntended(prepared, counts, npix).value;
      forall p | 0 <= p < npix
        ensures a[p] == b[p]
      {
        var col := Column(cut, p);
        forall k | 0 <= k < |cut|
          ensures col[k].Some?
        {
          var i :| 0 <= i < |prepared| && cut[k] == SnowMask(prepared)[i];
          assert prepared[i].pixels[p].Some? && prepared[i].pixels[p].value > 0;
        }
        SmeltDayAgreesWithoutGaps(DaysOfYear(cut), col);
      }
      assert a == b;
    }
  }
}

=== FILE: stratigraphy.dfy ===
/** The stratigraphy classifier of `make_strat.py`: six ordered rules
    (excluded, glaciers, bedrock, bare_soil, vegetation, lichen_moss), the two
    structural validators, the first-match-wins progressive fill and the
    legend attached to the classified raster. */
module Stratigraphy {
  import opened Wrappers
  import opened Grids
  import opened Text

  // ---------------------------------------------------------------------------
  // Land-cover value groups (ESA WorldCover codes)

  const ExcludeValues: set<int> := {10, 40, 50, 80, 90}
  const BareGroundValues: set<int> := {60, 70}
  const VegetatedValues: set<int> := {20, 30}
  const LichenMossValues: set<int> := {100}

  /** A slope threshold in degrees, with the text str() gives for it in the
      descriptions: any Python number, 30 or 27.5 alike. */
  datatype Threshold = Threshold(degrees: real, text: string)

  /** Default slope threshold in degrees. */
  const DefaultSlopeThreshold: Threshold := Threshold(30.0, "30")

  /** Separator put between the title and the detail of a description. */
  const Space: string := "\n     "

  /** A classification rule: one entry of the ordered rule table. */
  datatype Rule = Rule(name: string, mask: Grid<bool>, description: string, color: string, code: int)

  /** The rule table, in priority order. `slope` is `None` where the slope is
      undefined (NaN): NaN compares false both ways, so such a bare-ground
      pixel is neither bedrock nor bare soil. */
  function MakeRules(landCover: Grid<int>, glacier: Grid<bool>, slope: Grid<Option<real>>,
                     threshold: Threshold, rows: nat, cols: nat): (rules: seq<Rule>)
    requires IsGrid(landCover, rows, cols) && IsGrid(glacier, rows, cols) && IsGrid(slope, rows, cols)
    ensures |rules| == 6
    ensures forall k :: 0 <= k < 6 ==> rules[k].code == k + 1
    ensures forall k :: 0 <= k < 6 ==> IsGrid(rules[k].mask, rows, cols)
    ensures [rules[0].name, rules[1].name, rules[2].name, rules[3].name, rules[4].name, rules[5].name]
            == ["excluded", "glaciers", "bedrock", "bare_soil", "vegetation", "lichen_moss"]
    ensures forall i, j :: 0 <= i < rows && 0 <= j < cols ==>
              && (At(rules[0].mask, i, j) <==> landCover[i][j] in ExcludeValues)
              && (At(rules[1].mask, i, j) <==> glacier[i][j])
              && (At(rules[2].mask, i, j) <==> (landCover[i][j] in BareGroundValues
                                           && slope[i][j].Some? && slope[i][j].value > threshold.degrees))
              && (At(rules[3].mask, i, j) <==> (landCover[i][j] in BareGroundValues
                                           && slope[i][j].Some? && slope[i][j].value <= threshold.degrees))
              && (At(rules[4].mask, i, j) <==> landCover[i][j] in VegetatedValues)
              && (At(rules[5].mask, i, j) <==> landCover[i][j] in LichenMossValues)
  {
    var isIn := (vals: set<int>) => seq(rows, i requires 0 <= i < rows =>
                  seq(cols, j requires 0 <= j < cols => landCover[i][j] in vals));
    var bare := (steep: bool) => seq(rows, i requires 0 <= i < rows =>
                  seq(cols, j requires 0 <= j < cols =>
                    landCover[i][j] in BareGroundValues && slope[i][j].Some?
                    && (if steep then slope[i][j].value > threshold.degrees
                        else slope[i][j].value <= threshold.degrees)));
    var thr := threshold.text;
    [ Rule("excluded", isIn(ExcludeValues),
           "Excluded" + Space + "crops, built-up, water, forsests", "#FA0000", 1),
      Rule("glaciers", glacier, "Glacier" + Space + "RGI mask", "#fcfcfc", 2),
      Rule("bedrock", bare(true), "Bed-rock" + Space + "slope > " + thr + "°", "#485b73", 3),
      Rule("bare_soil", bare(false), "Bare soil" + Space + "slope ≤ " + thr + "°", "#c4b18b", 4),
      Rule("vegetation", isIn(VegetatedValues), "Vegetated" + Space + "thicker soils", "#FFFF4C", 5),
      Rule("lichen_moss", isIn(LichenMossValues),
           "Lichen and moss" + Space + "rocky/thin soil", "#469ec7", 6) ]
  }

  /** The four land-cover groups share no value. */
  lemma ValueGroupsDisjoint()
    ensures ExcludeValues * BareGroundValues == {}
    ensures ExcludeValues * VegetatedValues == {}
    ensures ExcludeValues * LichenMossValues == {}
    ensures BareGroundValues * VegetatedValues == {}
    ensures BareGroundValues * LichenMossValues == {}
    ensures VegetatedValues * LichenMossValues == {}
  {
  }

  /** A bare-ground pixel with a defined slope is bedrock or bare soil, never
      both; with an undefined slope it is neither. */
  lemma BedrockBareSoilExclusive(landCover: Grid<int>, glacier: Grid<bool>, slope: Grid<Option<real>>,
                                 threshold: Threshold, rows: nat, cols: nat, i: nat, j: nat)
    requires IsGrid(landCover, rows, cols) && IsGrid(glacier, rows, cols) && IsGrid(slope, rows, cols)
    requires i < rows && j < cols
    ensures var rules := MakeRules(landCover, glacier, slope, threshold, rows, cols);
            landCover[i][j] in BareGroundValues ==>
              (slope[i][j].Some? ==> (At(rules[2].mask, i, j) != At(rules[3].mask, i, j)))
              && (slope[i][j].None? ==> !At(rules[2].mask, i, j) && !At(rules[3].mask, i, j))
  {
  }

  // ---------------------------------------------------------------------------
  // check_stratigraphy_classes

  /** What the validator sees of an array: its dtype and its shape (the
      number of dimensions is the length of the shape). */
  datatype ArrayInfo = ArrayInfo(dtype: DType, shape: seq<nat>)

  /** A Python value stored under one key of a class dictionary; `Absent`
      when the key is missing. A Python `bool` is an `int`. */
  datatype PyValue = Absent | PyStr(s: string) | PyInt(i: int) | PyBool(b: bool) | PyOther

  datatype ClassEntry = ClassEntry(name: string, data: ArrayInfo, description: PyValue, color: PyValue, value: PyValue)

  datatype ClassCheckError =
    | NotTwoD(name: string) | NotBoolean(name: string) | NoExcludedClass | ShapeMismatch(name: string)
    | MissingDescription(name: string) | MissingColor(name: string) | MissingValue(name: string)
    | DescriptionNotString(name: string) | ColorNotString(name: string)
    | ValueNotInt(name: string) | ValueNotPositive(name: string)

  function FindClass(entries: seq<ClassEntry>, name: string): (r: Option<ClassEntry>)
    ensures r.Some? ==> r.value in entries && r.value.name == name
    ensures r.None? ==> forall k :: 0 <= k < |entries| ==> entries[k].name != name
  {
    if |entries| == 0 then None
    else if entries[0].name == name then Some(entries[0])
    else FindClass(entries[1..], name)
  }

  /** `isinstance(v, int)`. */
  predicate IsPyInt(v: PyValue) {
    v.PyInt? || v.PyBool?
  }

  function PyIntValue(v: PyValue): int
    requires IsPyInt(v)
  {
    if v.PyInt? then v.i else if v.b then 1 else 0
  }

  /** The assertions of the loop body, in the order the source makes them;
      `excluded` is looked up only when the shape assertion is reached. */
  function CheckEntry(e: ClassEntry, all: seq<ClassEntry>): Result<(), ClassCheckError>
  {
    if |e.data.shape| != 2 then Err(NotTwoD(e.name))
    else if e.data.dtype != BoolType then Err(NotBoolean(e.name))
    else if FindClass(all, "excluded").None? then Err(NoExcludedClass)
    else if e.data.shape != FindClass(all, "excluded").value.data.shape then Err(ShapeMismatch(e.name))
    else if e.description.Absent? then Err(MissingDescription(e.name))
    else if e.color.Absent? then Err(MissingColor(e.name))
    else if e.value.Absent? then Err(MissingValue(e.name))
    else if !e.description.PyStr? then Err(DescriptionNotString(e.name))
    else if !e.color.PyStr? then Err(ColorNotString(e.name))
    else if !IsPyInt(e.value) then Err(ValueNotInt(e.name))
    else if PyIntValue(e.value) <= 0 then Err(ValueNotPositive(e.name))
    else Ok(())
  }

  /** A class the validator accepts, given the shape of `excluded`. */
  predicate WellFormedClass(e: ClassEntry, excludedShape: seq<nat>) {
    && |e.data.shape| == 2 && e.data.dtype == BoolType && e.data.shape == excludedShape
    && e.description.PyStr? && e.color.PyStr? && IsPyInt(e.value) && PyIntValue(e.value) > 0
  }

  function CheckFrom(entries: seq<ClassEntry>, k: nat, all: seq<ClassEntry>): Result<(), ClassCheckError>
    requires k <= |entries|
    decreases |entries| - k
  {
    if k == |entries| then Ok(())
    else match CheckEntry(entries[k], all)
      case Err(e) => Err(e)
      case Ok(_) => CheckFrom(entries, k + 1, all)
  }

  /** check_stratigraphy_classes: every class holds 2-D boolean data shaped
      like `excluded`, string description and colour, and an int value > 0. */
  function CheckStratigraphyClasses(entries: seq<ClassEntry>): (r: Result<(), ClassCheckError>)
    ensures r.Ok? <==>
              (|entries| == 0 ||
               (FindClass(entries, "excluded").Some? &&
                forall k :: 0 <= k < |entries| ==>
                  WellFormedClass(entries[k], FindClass(entries, "excluded").value.data.shape)))
    ensures r.Err? ==> exists k :: 0 <= k < |entries| && CheckEntry(entries[k], entries) == r
                                     && forall j :: 0 <= j < k ==> CheckEntry(entries[j], entries).Ok?
  {
    CheckFromSpec(entries, 0, entries);
    CheckFrom(entries, 0, entries)
  }

  lemma {:induction false} CheckFromSpec(entries: seq<ClassEntry>, k: nat, all: seq<ClassEntry>)
    requires k <= |entries|
    ensures CheckFrom(entries, k, all).Ok? <==>
              forall m :: k <= m < |entries| ==> CheckEntry(entries[m], all).Ok?
    ensures CheckFrom(entries, k, all).Err? ==>
              exists m :: k <= m < |entries| && CheckEntry(entries[m], all) == CheckFrom(entries, k, all)
                          && forall j :: k <= j < m ==> CheckEntry(entries[j], all).Ok?
    ensures forall m :: k <= m < |entries| ==>
              (CheckEntry(entries[m], all).Ok? <==>
                 FindClass(all, "excluded").Some? &&
                 WellFormedClass(entries[m], FindClass(all, "excluded").value.data.shape))
    decreases |entries| - k
  {
    if k < |entries| {
      CheckFromSpec(entries, k + 1, all);
    }
  }

  /** The view of a rule that the validator receives. */
  function Entry(r: Rule, rows: nat, cols: nat): ClassEntry {
    ClassEntry(r.name, ArrayInfo(BoolType, [rows, cols]), PyStr(r.description), PyStr(r.color), PyInt(r.code))
  }

  /** The table the classifier builds passes its own class validator. */
  lemma BuiltTablePassesClassCheck(landCover: Grid<int>, glacier: Grid<bool>, slope: Grid<Option<real>>,
                                   threshold: Threshold, rows: nat, cols: nat)
    requires IsGrid(landCover, rows, cols) && IsGrid(glacier, rows, cols) && IsGrid(slope, rows, cols)
    ensures var rules := MakeRules(landCover, glacier, slope, threshold, rows, cols);
            CheckStratigraphyClasses(seq(6, k requires 0 <= k < 6 => Entry(rules[k], rows, cols))).Ok?
  {
    var rules := MakeRules(landCover, glacier, slope, threshold, rows, cols);
    var entries := seq(6, k requires 0 <= k < 6 => Entry(rules[k], rows, cols));
    assert FindClass(entries, "excluded") == Some(entries[0]);
  }

  // ---------------------------------------------------------------------------
  // check_stratigraphy_masks

  /** The masks concatenated along a new leading dimension. */
  datatype MaskStack = MaskStack(dims: seq<string>, dtype: DType, layers: seq<Grid<bool>>, rows: nat, cols: nat)

  predicate WellShaped(s: MaskStack) {
    forall k :: 0 <= k < |s.layers| ==> IsGrid(s.layers[k], s.rows, s.cols)
  }

  /** Number of masks true at a pixel (`mask.sum(dim='class')`). */
  function Coverage(layers: seq<Grid<bool>>, i: int, j: int): (n: nat)
    ensures n <= |layers|
    ensures n == 0 <==> forall k :: 0 <= k < |layers| ==> !At(layers[k], i, j)
  {
    if |layers| == 0 then 0
    else (if At(layers[0], i, j) then 1 else 0) + Coverage(layers[1..], i, j)
  }

  datatype MaskCheckError = NotThreeD | WrongDims | NotBooleanStack | OverlapReported | UnclassifiedReported

  predicate SomePixelNotSingle(s: MaskStack) {
    exists i, j | 0 <= i < s.rows && 0 <= j < s.cols :: Coverage(s.layers, i, j) != 1
  }

  predicate SomePixelCovered(s: MaskStack) {
    exists i, j | 0 <= i < s.rows && 0 <= j < s.cols :: Coverage(s.layers, i, j) >= 1
  }

  /** Every pixel is claimed by exactly one mask. */
  predicate ExactPartition(s: MaskStack) {
    forall i, j | 0 <= i < s.rows && 0 <= j < s.cols :: Coverage(s.layers, i, j) == 1
  }

  predicate StructureOk(s: MaskStack) {
    |s.dims| == 3 && s.dims == ["class", "y", "x"] && s.dtype == BoolType
  }

  /** check_stratigraphy_masks AS WRITTEN: after the structural checks it
      asserts that the number of pixels NOT covered exactly once is non-zero,
      then that the number of covered pixels is non-zero (the reverse of the
      promised "no overlap, no gap"). */
  function CheckStratigraphyMasks(s: MaskStack): (r: Result<(), MaskCheckError>)
    ensures r.Ok? <==> StructureOk(s) && SomePixelNotSingle(s) && SomePixelCovered(s)
    ensures r == Err(NotThreeD) <==> |s.dims| != 3
    ensures r == Err(OverlapReported) <==> StructureOk(s) && !SomePixelNotSingle(s)
  {
    if |s.dims| != 3 then Err(NotThreeD)
    else if s.dims != ["class", "y", "x"] then Err(WrongDims)
    else if s.dtype != BoolType then Err(NotBooleanStack)
    else if !SomePixelNotSingle(s) then Err(OverlapReported)
    else if !SomePixelCovered(s) then Err(UnclassifiedReported)
    else Ok(())
  }

  /** As written, an exact partition of a non-empty grid is rejected, and it
      is rejected with the "overlap" error. */
  lemma AsWrittenRejectsExactPartition(s: MaskStack)
    requires StructureOk(s) && ExactPartition(s)
    ensures CheckStratigraphyMasks(s) == Err(OverlapReported)
  {
  }

  /** As written, a stack whose two masks overlap on the only pixel passes. */
  lemma AsWrittenAcceptsOverlap()
    ensures CheckStratigraphyMasks(MaskStack(["class", "y", "x"], BoolType, [[[true]], [[true]]], 1, 1)).Ok?
  {
    var s := MaskStack(["class", "y", "x"], BoolType, [[[true]], [[true]]], 1, 1);
    assert Coverage(s.layers, 0, 0) == 2;
  }

  predicate SomeOverlap(s: MaskStack) {
    exists i, j | 0 <= i < s.rows && 0 <= j < s.cols :: Coverage(s.layers, i, j) > 1
  }

  predicate SomeGap(s: MaskStack) {
    exists i, j | 0 <= i < s.rows && 0 <= j < s.cols :: Coverage(s.layers, i, j) == 0
  }

  /** The validator as documented: no pixel covered twice, then no pixel left
      uncovered. */
  function CheckStratigraphyMasksIntended(s: MaskStack): (r: Result<(), MaskCheckError>)
    ensures r.Ok? <==> StructureOk(s) && ExactPartition(s)
    ensures r == Err(OverlapReported) <==> StructureOk(s) && SomeOverlap(s)
    ensures r == Err(UnclassifiedReported) <==> StructureOk(s) && !SomeOverlap(s) && SomeGap(s)
  {
    if |s.dims| != 3 then Err(NotThreeD)
    else if s.dims != ["class", "y", "x"] then Err(WrongDims)
    else if s.dtype != BoolType then Err(NotBooleanStack)
    else if SomeOverlap(s) then Err(OverlapReported)
    else if SomeGap(s) then Err(UnclassifiedReported)
    else Ok(())
  }

  // ---------------------------------------------------------------------------
  // The progressive fill

  /** `info['data'].astype(float) * info['value']` cast back to bool: the
      rule claims a pixel where its mask is true and its code is non-zero. */
  predicate Claims(r: Rule, i: int, j: int) {
    At(r.mask, i, j) && r.code != 0
  }

  /** Reference definition of first-match-wins: the code of the first rule
      claiming the pixel, `None` (NaN) when no rule does. */
  function FirstMatch(rules: seq<Rule>, i: int, j: int): Option<int>
  {
    if |rules| == 0 then None
    else if Claims(rules[0], i, j) then Some(rules[0].code)
    else FirstMatch(rules[1..], i, j)
  }

  lemma {:induction false} FirstMatchSpec(rules: seq<Rule>, i: int, j: int)
    ensures FirstMatch(rules, i, j).None? <==> forall k :: 0 <= k < |rules| ==> !Claims(rules[k], i, j)
    ensures FirstMatch(rules, i, j).Some? ==>
              exists k :: 0 <= k < |rules| && Claims(rules[k], i, j)
                          && FirstMatch(rules, i, j) == Some(rules[k].code)
                          && forall m :: 0 <= m < k ==> !Claims(rules[m], i, j)
    decreases |rules|
  {
    if |rules| > 0 && !Claims(rules[0], i, j) {
      FirstMatchSpec(rules[1..], i, j);
      if FirstMatch(rules, i, j).Some? {
        var k :| 0 <= k < |rules[1..]| && Claims(rules[1..][k], i, j)
                 && FirstMatch(rules[1..], i, j) == Some(rules[1..][k].code)
                 && forall m :: 0 <= m < k ==> !Claims(rules[1..][m], i, j);
        assert Claims(rules[k + 1], i, j);
      }
    }
  }

  /** Adding a rule at the end changes only pixels no earlier rule claimed. */
  lemma {:induction false} FirstMatchExtend(rules: seq<Rule>, r: Rule, i: int, j: int)
    ensures FirstMatch(rules + [r], i, j) ==
              if FirstMatch(rules, i, j).Some? then FirstMatch(rules, i, j)
              else if Claims(r, i, j) then Some(r.code) else None
    decreases |rules|
  {
    if |rules| > 0 {
      assert (rules + [r])[1..] == rules[1..] + [r];
      FirstMatchExtend(rules[1..], r, i, j);
    }
  }

  /** A pixel that holds a code keeps it when more rules are applied. */
  lemma {:induction false} NeverOverwritten(rules: seq<Rule>, k: nat, n: nat, i: int, j: int)
    requires k <= n <= |rules|
    requires FirstMatch(rules[..k], i, j).Some?
    ensures FirstMatch(rules[..n], i, j) == FirstMatch(rules[..k], i, j)
    decreases n - k
  {
    if k < n {
      assert rules[..k + 1] == rules[..k] + [rules[k]];
      FirstMatchExtend(rules[..k], rules[k], i, j);
      NeverOverwritten(rules, k + 1, n, i, j);
    }
  }

  function Classified(rules: seq<Rule>, rows: nat, cols: nat): (g: Grid<Option<int>>)
    ensures IsGrid(g, rows, cols)
  {
    seq(rows, i requires 0 <= i < rows => seq(cols, j requires 0 <= j < cols => FirstMatch(rules, i, j)))
  }

  /** make_strat.py's fill loop: start all-NaN; for each rule in order, set
      its code where it claims the pixel and the pixel is still unset. */
  method Fill(rules: seq<Rule>, rows: nat, cols: nat) returns (g: Grid<Option<int>>)
    ensures IsGrid(g, rows, cols)
    ensures forall i, j :: 0 <= i < rows && 0 <= j < cols ==> g[i][j] == FirstMatch(rules, i, j)
    ensures forall i, j :: 0 <= i < rows && 0 <= j < cols ==>
              (g[i][j].None? <==> forall k :: 0 <= k < |rules| ==> !Claims(rules[k], i, j))
  {
    g := Grids.Fill(rows, cols, None);
    var k := 0;
    while k < |rules|
      invariant 0 <= k <= |rules|
      invariant IsGrid(g, rows, cols)
      invariant forall a, b :: 0 <= a < rows && 0 <= b < cols ==> g[a][b] == FirstMatch(rules[..k], a, b)
    {
      var i := 0;
      while i < rows
        invariant 0 <= i <= rows
        invariant IsGrid(g, rows, cols)
        invariant forall a, b :: 0 <= a < i && 0 <= b < cols ==> g[a][b] == FirstMatch(rules[..k + 1], a, b)
        invariant forall a, b :: i <= a < rows && 0 <= b < cols ==> g[a][b] == FirstMatch(rules[..k], a, b)
      {
        var row := g[i];
        var j := 0;
        while j < cols
          invariant 0 <= j <= cols && |row| == cols
          invariant forall b :: 0 <= b < j ==> row[b] == FirstMatch(rules[..k + 1], i, b)
          invariant forall b :: j <= b < cols ==> row[b] == FirstMatch(rules[..k], i, b)
        {
          assert rules[..k + 1] == rules[..k] + [rules[k]];
          FirstMatchExtend(rules[..k], rules[k], i, j);
          if row[j].None? && Claims(rules[k], i, j) {
            row := row[j := Some(rules[k].code)];
          }
          j := j + 1;
        }
        g := g[i := row];
        i := i + 1;
      }
      k := k + 1;
    }
    assert rules[..|rules|] == rules;
    forall a, b | 0 <= a < rows && 0 <= b < cols
      ensures g[a][b].None? <==> forall k :: 0 <= k < |rules| ==> !Claims(rules[k], a, b)
    {
      FirstMatchSpec(rules, a, b);
    }
  }

  lemma FillMatchesClassified(rules: seq<Rule>, rows: nat, cols: nat, i: nat, j: nat)
    requires i < rows && j < cols
    ensures Classified(rules, rows, cols)[i][j] == FirstMatch(rules, i, j)
  {
  }

  /** With an exact partition and positive codes, every pixel receives the
      code of the one rule whose mask covers it: no gaps, no ties. */
  lemma {:induction false} PartitionGivesUniqueCode(rules: seq<Rule>, i: int, j: int, k: nat)
    requires k < |rules| && At(rules[k].mask, i, j)
    requires forall m :: 0 <= m < |rules| ==> rules[m].code > 0
    requires forall m :: 0 <= m < |rules| && m != k ==> !At(rules[m].mask, i, j)
    ensures FirstMatch(rules, i, j) == Some(rules[k].code)
    decreases |rules|
  {
    if k > 0 {
      PartitionGivesUniqueCode(rules[1..], i, j, k - 1);
    }
  }

  // ---------------------------------------------------------------------------
  // make_stratigraphy_classes

  datatype Classification = Classification(
    grid: Grid<Option<int>>,
    classValues: seq<int>,
    classDescriptions: seq<string>,
    classColors: seq<string>,
    description: string)

  datatype StratError = MaskError(m: MaskCheckError) | ClassError(c: ClassCheckError)

  function Stack(rules: seq<Rule>, rows: nat, cols: nat): MaskStack {
    MaskStack(["class", "y", "x"], BoolType, seq(|rules|, k requires 0 <= k < |rules| => rules[k].mask), rows, cols)
  }

  function Entries(rules: seq<Rule>, rows: nat, cols: nat): seq<ClassEntry> {
    seq(|rules|, k requires 0 <= k < |rules| => Entry(rules[k], rows, cols))
  }

  /** The legend lists and the attached raster, in rule order. */
  function Legend(rules: seq<Rule>, rows: nat, cols: nat, threshold: Threshold): (c: Classification)
    ensures IsGrid(c.grid, rows, cols)
    ensures forall i, j :: 0 <= i < rows && 0 <= j < cols ==> c.grid[i][j] == FirstMatch(rules, i, j)
    ensures |c.classValues| == |c.classDescriptions| == |c.classColors| == |rules|
    ensures forall k :: 0 <= k < |rules| ==>
              c.classValues[k] == rules[k].code && c.classDescriptions[k] == rules[k].description
              && c.classColors[k] == rules[k].color
  {
    Classification(
      Classified(rules, rows, cols),
      seq(|rules|, k requires 0 <= k < |rules| => rules[k].code),
      seq(|rules|, k requires 0 <= k < |rules| => rules[k].description),
      seq(|rules|, k requires 0 <= k < |rules| => rules[k].color),
      "Stratigraphy estimated from land cover, slope, and glacier mask "
      + "Bare rock and soil are distinguished by slope threshold of "
      + threshold.text + " degrees.")
  }

  /** make_stratigraphy_classes as written, over any rule table: the mask
      check runs first, then the class check; gaps are not rejected and stay
      `None`. */
  function MakeStratigraphyClasses(rules: seq<Rule>, rows: nat, cols: nat, threshold: Threshold): (r: Result<Classification, StratError>)
    ensures r.Ok? <==> CheckStratigraphyMasks(Stack(rules, rows, cols)).Ok?
                       && CheckStratigraphyClasses(Entries(rules, rows, cols)).Ok?
    ensures r.Ok? ==>
              && IsGrid(r.value.grid, rows, cols)
              && r.value.classValues == seq(|rules|, k requires 0 <= k < |rules| => rules[k].code)
              && forall i, j :: 0 <= i < rows && 0 <= j < cols ==> r.value.grid[i][j] == FirstMatch(rules, i, j)
  {
    match CheckStratigraphyMasks(Stack(rules, rows, cols))
    case Err(e) => Err(MaskError(e))
    case Ok(_) =>
      match CheckStratigraphyClasses(Entries(rules, rows, cols))
      case Err(e) => Err(ClassError(e))
      case Ok(_) => Ok(Legend(rules, rows, cols, threshold))
  }

  /** The 1×2 scene used below: land-cover 0 (no class) next to cropland. */
  function GapScene(): (rules: seq<Rule>)
    ensures |rules| == 6
    ensures forall k :: 0 <= k < 6 ==> IsGrid(rules[k].mask, 1, 2) && rules[k].code == k + 1
    ensures forall k :: 0 <= k < 6 ==> !Claims(rules[k], 0, 0)
    ensures Claims(rules[0], 0, 1)
  {
    MakeRules([[0, 10]], [[false, false]], [[None, None]], DefaultSlopeThreshold, 1, 2)
  }

  lemma GapSceneMasks()
    ensures CheckStratigraphyMasks(Stack(GapScene(), 1, 2)).Ok?
  {
    var rules := GapScene();
    var s := Stack(rules, 1, 2);
    assert forall k :: 0 <= k < |s.layers| ==> s.layers[k] == rules[k].mask;
    assert Coverage(s.layers, 0, 0) == 0;
    assert At(s.layers[0], 0, 1);
    assert Coverage(s.layers, 0, 1) != 0;
  }

  lemma GapSceneClasses()
    ensures CheckStratigraphyClasses(Entries(GapScene(), 1, 2)).Ok?
  {
    var lc: Grid<int> := [[0, 10]];
    var gl: Grid<bool> := [[false, false]];
    var sl: Grid<Option<real>> := [[None, None]];
    BuiltTablePassesClassCheck(lc, gl, sl, DefaultSlopeThreshold, 1, 2);
    var rules := GapScene();
    assert Entries(rules, 1, 2) == seq(6, k requires 0 <= k < 6 => Entry(rules[k], 1, 2));
  }

  /** As written, a pixel that no rule claims does not stop the pipeline: the
      result is produced and that pixel stays unset. */
  lemma AsWrittenKeepsGaps()
    ensures var r := MakeStratigraphyClasses(GapScene(), 1, 2, DefaultSlopeThreshold);
            r.Ok? && r.value.grid[0][0].None? && r.value.grid[0][1] == Some(1)
  {
    GapSceneMasks();
    GapSceneClasses();
    FirstMatchSpec(GapScene(), 0, 0);
  }

  /** The same pipeline with the documented mask check: when it succeeds,
      every pixel holds the code of the one rule that covers it. */
  function MakeStratigraphyClassesIntended(rules: seq<Rule>, rows: nat, cols: nat, threshold: Threshold): (r: Result<Classification, StratError>)
    ensures r.Ok? <==> StructureOk(Stack(rules, rows, cols)) && ExactPartition(Stack(rules, rows, cols))
                       && CheckStratigraphyClasses(Entries(rules, rows, cols)).Ok?
    ensures r.Ok? ==> IsGrid(r.value.grid, rows, cols)
    ensures r.Ok? ==> forall i, j :: 0 <= i < rows && 0 <= j < cols ==>
              CodedByCoveringRule(rules, r.value.grid, i, j)
  {
    match CheckStratigraphyMasksIntended(Stack(rules, rows, cols))
    case Err(e) => Err(MaskError(e))
    case Ok(_) =>
      match CheckStratigraphyClasses(Entries(rules, rows, cols))
      case Err(e) => Err(ClassError(e))
      case Ok(_) =>
        var c := Legend(rules, rows, cols, threshold);
        LegendCodes(rules, rows, cols, threshold);
        Ok(c)
  }

  /** The pixel holds the code of a rule whose mask covers it. */
  predicate CodedByCoveringRule(rules: seq<Rule>, g: Grid<Option<int>>, i: int, j: int)
    requires 0 <= i < |g| && 0 <= j < |g[i]|
  {
    exists k :: 0 <= k < |rules| && At(rules[k].mask, i, j) && g[i][j] == Some(rules[k].code)
  }

  lemma LegendCodes(rules: seq<Rule>, rows: nat, cols: nat, threshold: Threshold)
    requires ExactPartition(Stack(rules, rows, cols))
    requires CheckStratigraphyClasses(Entries(rules, rows, cols)).Ok?
    ensures forall i, j :: 0 <= i < rows && 0 <= j < cols ==>
              CodedByCoveringRule(rules, Legend(rules, rows, cols, threshold).grid, i, j)
  {
    var c := Legend(rules, rows, cols, threshold);
    forall i, j | 0 <= i < rows && 0 <= j < cols
      ensures CodedByCoveringRule(rules, c.grid, i, j)
    {
      ExactlyOneLayer(rules, rows, cols, i, j);
      assert c.grid[i][j] == FirstMatch(rules, i, j);
    }
  }

  /** Under an exact partition and a passing class check, the pixel's code is
      the code of its unique covering rule. */
  lemma ExactlyOneLayer(rules: seq<Rule>, rows: nat, cols: nat, i: nat, j: nat)
    requires i < rows && j < cols
    requires ExactPartition(Stack(rules, rows, cols))
    requires CheckStratigraphyClasses(Entries(rules, rows, cols)).Ok?
    ensures exists k :: 0 <= k < |rules| && At(rules[k].mask, i, j) && FirstMatch(rules, i, j) == Some(rules[k].code)
  {
    var layers := Stack(rules, rows, cols).layers;
    assert Coverage(layers, i, j) == 1;
    var k := OnlyLayer(layers, i, j);
    var es := Entries(rules, rows, cols);
    assert forall m :: 0 <= m < |rules| ==> rules[m].code > 0 by {
      forall m | 0 <= m < |rules| ensures rules[m].code > 0 {
        assert WellFormedClass(es[m], FindClass(es, "excluded").value.data.shape);
      }
    }
    assert forall m :: 0 <= m < |rules| ==> layers[m] == rules[m].mask;
    PartitionGivesUniqueCode(rules, i, j, k);
  }

  /** A pixel covered exactly once is covered by one identifiable layer. */
  lemma {:induction false} OnlyLayer(layers: seq<Grid<bool>>, i: int, j: int) returns (k: nat)
    requires Coverage(layers, i, j) == 1
    ensures k < |layers| && At(layers[k], i, j)
    ensures forall m :: 0 <= m < |layers| && m != k ==> !At(layers[m], i, j)
    decreases |layers|
  {
    if At(layers[0], i, j) {
      k := 0;
      assert Coverage(layers[1..], i, j) == 0;
      forall m | 0 < m < |layers| ensures !At(layers[m], i, j) {
        assert layers[m] == layers[1..][m - 1];
      }
    } else {
      var k' := OnlyLayer(layers[1..], i, j);
      k := k' + 1;
      forall m | 0 < m < |layers| && m != k ensures !At(layers[m], i, j) {
        assert layers[m] == layers[1..][m - 1];
      }
    }
  }

  /** The classifier end to end, with the documented mask check. */
  function Classify(landCover: Grid<int>, glacier: Grid<bool>, slope: Grid<Option<real>>,
                    threshold: Threshold, rows: nat, cols: nat): (r: Result<Classification, StratError>)
    requires IsGrid(landCover, rows, cols) && IsGrid(glacier, rows, cols) && IsGrid(slope, rows, cols)
    ensures r.Ok? <==> ExactPartition(Stack(MakeRules(landCover, glacier, slope, threshold, rows, cols), rows, cols))
  {
    var rules := MakeRules(landCover, glacier, slope, threshold, rows, cols);
    BuiltTablePassesClassCheck(landCover, glacier, slope, threshold, rows, cols);
    assert Entries(rules, rows, cols) == seq(6, k requires 0 <= k < 6 => Entry(rules[k], rows, cols));
    MakeStratigraphyClassesIntended(rules, rows, cols, threshold)
  }

  // ---------------------------------------------------------------------------
  // make_bin_edges_from_bin_centers

  datatype BinError =
    | NoCenters   // ValueError of `np.convolve` on an empty array
    | OneCenter   // IndexError of `bin_centers[1]`

  /** Bin edges for the colour bar: the midpoints of neighbouring centres,
      plus one outer edge on each side that extends the first and last gap
      by half. */
  function BinEdges(centers: seq<real>): (r: Result<seq<real>, BinError>)
    ensures r.Err? <==> |centers| < 2
    ensures r == Err(NoCenters) <==> |centers| == 0
    ensures r.Ok? ==> |r.value| == |centers| + 1
    ensures r.Ok? ==> forall k :: 1 <= k < |centers| ==> r.value[k] == (centers[k - 1] + centers[k]) / 2.0
    ensures r.Ok? ==> r.value[0] == centers[0] - (centers[1] - centers[0]) / 2.0
    ensures r.Ok? ==> r.value[|centers|] == centers[|centers| - 1] + (centers[|centers| - 1] - centers[|centers| - 2]) / 2.0
  {
    if |centers| == 0 then Err(NoCenters)
    else if |centers| == 1 then Err(OneCenter)
    else
      var n := |centers|;
      var inner := seq(n - 1, k requires 0 <= k < n - 1 => centers[k] * 0.5 + centers[k + 1] * 0.5);
      var x0 := centers[0] - (centers[1] - centers[0]) / 2.0;
      var x1 := centers[n - 1] + (centers[n - 1] - centers[n - 2]) / 2.0;
      Ok([x0] + inner + [x1])
  }

  predicate StrictlyIncreasing(xs: seq<real>) {
    forall k :: 0 <= k < |xs| - 1 ==> xs[k] < xs[k + 1]
  }

  /** For strictly increasing centres every centre lies strictly inside its
      own bin, so the bins interleave the centres. */
  lemma BinEdgesSeparateCenters(centers: seq<real>)
    requires |centers| >= 2 && StrictlyIncreasing(centers)
    ensures BinEdges(centers).Ok?
    ensures StrictlyIncreasing(BinEdges(centers).value)
    ensures forall k :: 0 <= k < |centers| ==>
              BinEdges(centers).value[k] < centers[k] < BinEdges(centers).value[k + 1]
  {
    var e := BinEdges(centers).value;
    forall k | 0 <= k < |centers| ensures e[k] < centers[k] < e[k + 1] {
      BinAround(centers, e, k);
    }
    assert StrictlyIncreasing(e) by {
      forall k | 0 <= k < |e| - 1 ensures e[k] < e[k + 1] {
        BinAround(centers, e, k);
      }
    }
  }

  lemma BinAround(centers: seq<real>, e: seq<real>, k: nat)
    requires |centers| >= 2 && StrictlyIncreasing(centers) && k < |centers|
    requires BinEdges(centers) == Ok(e)
    ensures e[k] < centers[k] < e[k + 1]
  {
    BinBelow(centers, e, k);
    BinAbove(centers, e, k);
  }

  /** The lower edge of bin k lies below centre k. */
  lemma BinBelow(centers: seq<real>, e: seq<real>, k: nat)
    requires |centers| >= 2 && StrictlyIncreasing(centers) && k < |centers|
    requires BinEdges(centers) == Ok(e)
    ensures |e| == |centers| + 1 && e[k] < centers[k]
  {
    if k == 0 {
      assert e[0] == centers[0] - (centers[1] - centers[0]) / 2.0;
      assert centers[0] < centers[1];
    } else {
      assert e[k] == (centers[k - 1] + centers[k]) / 2.0;
      assert centers[k - 1] < centers[k];
    }
  }

  /** The upper edge of bin k lies above centre k. */
  lemma BinAbove(centers: seq<real>, e: seq<real>, k: nat)
    requires |centers| >= 2 && StrictlyIncreasing(centers) && k < |centers|
    requires BinEdges(centers) == Ok(e)
    ensures |e| == |centers| + 1 && centers[k] < e[k + 1]
  {
    var n := |centers|;
    if k == n - 1 {
      assert e[n] == centers[n - 1] + (centers[n - 1] - centers[n - 2]) / 2.0;
      assert centers[n - 2] < centers[n - 1];
    } else {
      assert e[k + 1] == (centers[k] + centers[k + 1]) / 2.0;
      assert centers[k] < centers[k + 1];
    }
  }

}

=== FILE: text.dfy ===
/** Python string operations the repository relies on: decimal rendering and
    parsing of integers, zero padding, `startswith`/`in`, `replace`, `split`,
    `join`, `strip` and ASCII `lower`. */
module Text {
  import opened Wrappers

  predicate IsDigit(c: char) {
    '0' <= c <= '9'
  }

  predicate AllDigits(s: string) {
    forall k :: 0 <= k < |s| ==> IsDigit(s[k])
  }

  function DigitChar(d: nat): (c: char)
    requires d < 10
    ensures IsDigit(c) && c as int - '0' as int == d
  {
    ['0', '1', '2', '3', '4', '5', '6', '7', '8', '9'][d]
  }

  function DigitValue(c: char): nat
    requires IsDigit(c)
  {
    c as int - '0' as int
  }

  /** Decimal text of a natural number, without leading zeros. */
  function NatToString(n: nat): (s: string)
    ensures |s| > 0 && AllDigits(s)
    ensures s[0] == '0' ==> n == 0
    decreases n
  {
    if n < 10 then [DigitChar(n)] else NatToString(n / 10) + [DigitChar(n % 10)]
  }

  /** Value of a non-empty run of decimal digits, read left to right. */
  function DigitsValue(s: string): nat
    requires AllDigits(s)
    decreases |s|
  {
    if |s| == 0 then 0 else DigitsValue(s[..|s| - 1]) * 10 + DigitValue(s[|s| - 1])
  }

  lemma {:induction false} NatToStringValue(n: nat)
    ensures DigitsValue(NatToString(n)) == n
    decreases n
  {
    if n >= 10 {
      NatToStringValue(n / 10);
      var s := NatToString(n);
      assert s[..|s| - 1] == NatToString(n / 10);
    }
  }

  /** Python `str(i)` for an int. */
  function IntToString(i: int): (s: string)
    ensures |s| > 0
    ensures i < 0 <==> s[0] == '-'
    ensures i >= 0 ==> AllDigits(s)
    ensures i < 0 ==> AllDigits(s[1..])
  {
    if i < 0 then "-" + NatToString(-i) else NatToString(i)
  }

  function Zeros(n: nat): (s: string)
    ensures |s| == n && forall k :: 0 <= k < n ==> s[k] == '0'
  {
    if n == 0 then "" else "0" + Zeros(n - 1)
  }

  function PadDigits(digits: string, width: nat): (s: string)
  {
    if |digits| < width then Zeros(width - |digits|) + digits else digits
  }

  /** Python `f"{i:0<width>d}"`: the sign counts towards the width and the
      zeros go between the sign and the digits. */
  function ZeroPad(i: int, width: nat): (s: string)
    ensures |s| >= width
    ensures i >= 0 ==> AllDigits(s)
    ensures i >= 0 && |NatToString(i)| <= width ==> |s| == width
  {
    if i < 0 then "-" + PadDigits(NatToString(-i), if width > 0 then width - 1 else 0)
    else PadDigits(NatToString(i), width)
  }

  lemma {:induction false} LeadingZerosValue(z: nat, s: string)
    requires AllDigits(s)
    ensures AllDigits(Zeros(z) + s)
    ensures DigitsValue(Zeros(z) + s) == DigitsValue(s)
    decreases |s|
  {
    var t := Zeros(z) + s;
    if |s| == 0 {
      assert t == Zeros(z);
      ZerosValue(z);
    } else {
      assert t[..|t| - 1] == Zeros(z) + s[..|s| - 1];
      LeadingZerosValue(z, s[..|s| - 1]);
    }
  }

  lemma {:induction false} ZerosValue(z: nat)
    ensures DigitsValue(Zeros(z)) == 0
  {
    if z > 0 {
      var t := Zeros(z);
      assert t[..|t| - 1] == Zeros(z - 1) by {
        assert Zeros(z) == "0" + Zeros(z - 1);
        assert forall k :: 0 <= k < z - 1 ==> t[k] == '0';
      }
      ZerosValue(z - 1);
    }
  }

  /** Python `int(s)`: surrounding whitespace is ignored, then an optional
      sign and ASCII digits, single underscores allowed between digits. */
  function ParseInt(s: string): Option<int>
  {
    ParseSigned(Strip(s))
  }

  /** Digits with single underscores between them, as in "2_020". */
  predicate Grouped(s: string) {
    |s| > 0 && forall k :: 0 <= k < |s| ==> GroupChar(s, k)
  }

  /** Position `k` holds a digit, or an underscore with a digit on each side. */
  predicate GroupChar(s: string, k: int)
    requires 0 <= k < |s|
  {
    IsDigit(s[k]) || (s[k] == '_' && 0 < k < |s| - 1 && IsDigit(s[k - 1]) && IsDigit(s[k + 1]))
  }

  /** The digits of a digit group, underscores dropped. */
  function Ungrouped(s: string): (r: string)
    requires DigitsOrUnderscores(s)
    ensures AllDigits(r) && |r| <= |s|
    ensures AllDigits(s) ==> r == s
    decreases |s|
  {
    if |s| == 0 then ""
    else (if s[0] == '_' then "" else [s[0]]) + Ungrouped(s[1..])
  }

  function GroupedValue(s: string): nat
    requires Grouped(s)
  {
    assert DigitsOrUnderscores(s) by {
      forall k | 0 <= k < |s| ensures IsDigit(s[k]) || s[k] == '_' {
        assert GroupChar(s, k);
      }
    }
    DigitsValue(Ungrouped(s))
  }

  function ParseSigned(t: string): (r: Option<int>)
    ensures r.Some? ==> |t| > 0
  {
    if |t| > 0 && (t[0] == '-' || t[0] == '+') then
      (if Grouped(t[1..]) then
         var v: int := GroupedValue(t[1..]);
         Some(if t[0] == '-' then -v else v)
       else None)
    else if Grouped(t) then Some(GroupedValue(t))
    else None
  }

  /** A character that is neither a digit nor an underscore between two
      digits makes the whole string ungrouped. */
  lemma UngroupedAt(s: string, k: int)
    requires 0 <= k < |s| && !IsDigit(s[k])
    requires s[k] == '_' ==> k == 0 || k == |s| - 1 || !IsDigit(s[k - 1]) || !IsDigit(s[k + 1])
    ensures !Grouped(s)
  {
    assert !GroupChar(s, k);
  }

  lemma {:induction false} UngroupedConcat(x: string, y: string)
    requires DigitsOrUnderscores(x) && DigitsOrUnderscores(y)
    ensures Ungrouped(x + y) == Ungrouped(x) + Ungrouped(y)
    decreases |x|
  {
    if |x| == 0 {
      assert x + y == y;
    } else {
      assert (x + y)[1..] == x[1..] + y;
      UngroupedConcat(x[1..], y);
    }
  }

  lemma PairGrouped(a: string, b: string)
    requires |a| > 0 && |b| > 0 && AllDigits(a) && AllDigits(b)
    ensures Grouped(a + "_" + b) && IsDigit((a + "_" + b)[0])
  {
    var s := a + "_" + b;
    forall k | 0 <= k < |s| ensures GroupChar(s, k) {
      if k < |a| {
        assert s[k] == a[k];
      } else if k == |a| {
        assert s[k] == '_' && s[k - 1] == a[|a| - 1] && s[k + 1] == b[0];
      } else {
        assert s[k] == b[k - |a| - 1];
      }
    }
    assert s[0] == a[0];
  }

  /** Only digits and underscores. */
  predicate DigitsOrUnderscores(s: string) {
    forall k :: 0 <= k < |s| ==> IsDigit(s[k]) || s[k] == '_'
  }

  lemma DigitsOrUnderscoresConcat(x: string, y: string)
    requires DigitsOrUnderscores(x) && DigitsOrUnderscores(y)
    ensures DigitsOrUnderscores(x + y)
  {
    forall k | 0 <= k < |x + y| ensures IsDigit((x + y)[k]) || (x + y)[k] == '_' {
      if k < |x| {
        assert (x + y)[k] == x[k];
      } else {
        assert (x + y)[k] == y[k - |x|];
      }
    }
  }

  lemma PairUngrouped(a: string, b: string)
    requires AllDigits(a) && AllDigits(b)
    ensures DigitsOrUnderscores(a + "_" + b)
    ensures Ungrouped(a + "_" + b) == a + b
  {
    assert DigitsOrUnderscores(b);
    assert DigitsOrUnderscores(a + "_") by {
      assert DigitsOrUnderscores(a) && DigitsOrUnderscores("_");
      DigitsOrUnderscoresConcat(a, "_");
    }
    DigitsOrUnderscoresConcat(a + "_", b);
    assert Ungrouped(a + "_") == a by {
      assert DigitsOrUnderscores(a) && DigitsOrUnderscores("_");
      UngroupedConcat(a, "_");
      assert Ungrouped("_") == "" by { assert "_"[1..] == ""; }
    }
    UngroupedConcat(a + "_", b);
  }

  /** Two digit runs joined by one underscore read as the digits run
      together, as in `int("2_020") == 2020`. */
  lemma GroupedPair(a: string, b: string)
    requires |a| > 0 && |b| > 0 && AllDigits(a) && AllDigits(b)
    ensures ParseSigned(a + "_" + b) == Some(DigitsValue(a + b))
  {
    PairGrouped(a, b);
    PairUngrouped(a, b);
  }

  lemma GroupedExample()
    ensures ParseSigned("2_020") == Some(2020)
  {
    var x, y := "2", "020";
    assert AllDigits(x) && AllDigits(y);
    GroupedPair(x, y);
    assert x + "_" + y == "2_020";
    assert x + y == "2020";
    assert DigitsValue("2020") == 2020 by {
      assert "2020"[..3] == "202" && "202"[..2] == "20" && "20"[..1] == "2";
    }
  }

  /** A doubled, leading or trailing underscore is refused. */
  lemma UngroupedExamples()
    ensures ParseSigned("2__020").None? && ParseSigned("_2020").None? && ParseSigned("2020_").None?
  {
    UngroupedAt("2__020", 1);
    UngroupedAt("_2020", 0);
    UngroupedAt("2020_", 4);
  }

  lemma DigitsNoSpace(s: string)
    requires AllDigits(s)
    ensures forall k :: 0 <= k < |s| ==> !IsSpace(s[k])
  {
  }

  lemma SignedDigitsStrip(s: string)
    requires |s| > 0 && AllDigits(s[1..]) && (s[0] == '-' || IsDigit(s[0]))
    ensures Strip(s) == s
  {
    assert !IsSpace(s[0]);
    if |s| > 1 {
      DigitsNoSpace(s[1..]);
      assert s[|s| - 1] == s[1..][|s| - 2];
    }
    StripOfNoSpace(s);
  }

  lemma {:induction false} IntToStringRoundTrip(i: int)
    ensures ParseInt(IntToString(i)) == Some(i)
  {
    if i < 0 {
      IntToStringNegative(i);
    } else {
      NatParse(i, IntToString(i));
    }
  }

  lemma {:induction false} IntToStringNegative(i: int)
    requires i < 0
    ensures ParseInt(IntToString(i)) == Some(i)
  {
    NegatedNatParse(-i, IntToString(i));
  }

  lemma {:induction false} NegatedNatParse(n: nat, s: string)
    requires s == "-" + NatToString(n)
    ensures ParseInt(s) == Some(-(n as int))
  {
    NatToStringValue(n);
    NegatedDigitsParse(s, NatToString(n), n);
  }

  lemma {:induction false} NatParse(n: nat, s: string)
    requires s == NatToString(n)
    ensures ParseInt(s) == Some(n as int)
  {
    NatToStringValue(n);
    DigitsParse(s);
  }

  /** Padded digits are digits and keep their value. */
  lemma {:induction false} PadDigitsValue(n: nat, w: nat)
    ensures |PadDigits(NatToString(n), w)| > 0
    ensures AllDigits(PadDigits(NatToString(n), w))
    ensures DigitsValue(PadDigits(NatToString(n), w)) == n
  {
    NatToStringValue(n);
    if |NatToString(n)| < w {
      LeadingZerosValue(w - |NatToString(n)|, NatToString(n));
    }
  }

  lemma {:induction false} ZeroPadRoundTrip(i: int, width: nat)
    ensures ParseInt(ZeroPad(i, width)) == Some(i)
  {
    if i < 0 {
      ZeroPadNegative(i, width);
    } else {
      ZeroPadNonNegative(i, width);
    }
  }

  lemma {:induction false} ZeroPadNegative(i: int, width: nat)
    requires i < 0
    ensures ParseInt(ZeroPad(i, width)) == Some(i)
  {
    var w: nat := if width > 0 then width - 1 else 0;
    NegatedPadParse(-i, w, ZeroPad(i, width));
  }

  lemma {:induction false} NegatedPadParse(n: nat, w: nat, s: string)
    requires s == "-" + PadDigits(NatToString(n), w)
    ensures ParseInt(s) == Some(-(n as int))
  {
    PadDigitsValue(n, w);
    NegatedDigitsParse(s, PadDigits(NatToString(n), w), n);
  }

  lemma {:induction false} ZeroPadNonNegative(i: int, width: nat)
    requires i >= 0
    ensures ParseInt(ZeroPad(i, width)) == Some(i)
  {
    var d := PadDigits(NatToString(i), width);
    PadDigitsValue(i, width);
    DigitsParse(ZeroPad(i, width));
  }

  /** A minus sign followed by digits reads as the negated value. */
  lemma {:induction false} NegatedDigitsParse(s: string, d: string, v: int)
    requires |d| > 0 && AllDigits(d) && s == "-" + d && DigitsValue(d) == v
    ensures ParseInt(s) == Some(-v)
  {
    assert s[1..] == d;
    SignedDigitsStrip(s);
    assert Grouped(d) && Ungrouped(d) == d;
    assert ParseSigned(s) == Some(-v);
  }

  /** Plain digits read as their value. */
  lemma {:induction false} DigitsParse(d: string)
    requires |d| > 0 && AllDigits(d)
    ensures ParseInt(d) == Some(DigitsValue(d) as int)
  {
    assert AllDigits(d[1..]);
    SignedDigitsStrip(d);
    assert Grouped(d) && Ungrouped(d) == d;
  }

  // ---------------------------------------------------------------------------
  // Substrings

  predicate StartsWith(s: string, p: string) {
    |p| <= |s| && s[..|p|] == p
  }

  predicate EndsWith(s: string, p: string) {
    |p| <= |s| && s[|s| - |p|..] == p
  }

  /** `sub in s` for strings: some suffix of `s` starts with `sub`. */
  predicate Contains(s: string, sub: string)
    decreases |s|
  {
    StartsWith(s, sub) || (|s| > 0 && Contains(s[1..], sub))
  }

  /** `c in s` for a one-character needle. */
  lemma {:induction false} ContainsChar(s: string, c: char)
    ensures Contains(s, [c]) <==> c in s
    decreases |s|
  {
    if |s| > 0 {
      ContainsChar(s[1..], c);
      assert c in s <==> s[0] == c || c in s[1..];
    }
  }

  /** Python `s.replace(pat, rep)`: left-to-right, non-overlapping. */
  function Replace(s: string, pat: string, rep: string): (r: string)
    requires |pat| > 0
    decreases |s|
  {
    if |s| < |pat| then s
    else if s[..|pat|] == pat then rep + Replace(s[|pat|..], pat, rep)
    else [s[0]] + Replace(s[1..], pat, rep)
  }

  lemma {:induction false} ReplaceAbsent(s: string, pat: string, rep: string)
    requires |pat| > 0
    requires !Contains(s, pat)
    ensures Replace(s, pat, rep) == s
    decreases |s|
  {
    if |s| >= |pat| {
      ReplaceAbsent(s[1..], pat, rep);
    }
  }

  /** Replacing one character by one other character maps the string. */
  lemma {:induction false} ReplaceChar(s: string, a: char, b: char)
    ensures |Replace(s, [a], [b])| == |s|
    ensures forall k :: 0 <= k < |s| ==>
              Replace(s, [a], [b])[k] == if s[k] == a then b else s[k]
    decreases |s|
  {
    if |s| > 0 {
      ReplaceChar(s[1..], a, b);
    }
  }

  /** Removing every occurrence of one character. */
  lemma {:induction false} RemoveChar(s: string, a: char)
    ensures a !in Replace(s, [a], "")
    ensures |Replace(s, [a], "")| <= |s|
    ensures a !in s ==> Replace(s, [a], "") == s
    decreases |s|
  {
    if |s| > 0 {
      RemoveChar(s[1..], a);
    }
  }

  // ---------------------------------------------------------------------------
  // split / join

  /** Python `s.split(sep)` for a one-character separator: always at least
      one part, and the parts never contain the separator. */
  function Split(s: string, sep: char): (parts: seq<string>)
    ensures |parts| > 0
    ensures forall k :: 0 <= k < |parts| ==> sep !in parts[k]
    decreases |s|
  {
    if |s| == 0 then [""]
    else
      var rest := Split(s[1..], sep);
      if s[0] == sep then [""] + rest
      else [[s[0]] + rest[0]] + rest[1..]
  }

  /** Python `sep.join(parts)`. */
  function Join(sep: string, parts: seq<string>): string
  {
    if |parts| == 0 then ""
    else if |parts| == 1 then parts[0]
    else parts[0] + sep + Join(sep, parts[1..])
  }

  lemma {:induction false} JoinSplit(s: string, sep: char)
    ensures Join([sep], Split(s, sep)) == s
    decreases |s|
  {
    if |s| > 0 {
      JoinSplit(s[1..], sep);
      var rest := Split(s[1..], sep);
      if s[0] != sep {
        if |rest| > 1 {
          assert Join([sep], rest) == rest[0] + [sep] + Join([sep], rest[1..]);
        }
      }
    }
  }

  lemma {:induction false} SplitJoin(parts: seq<string>, sep: char)
    requires |parts| > 0
    requires forall k :: 0 <= k < |parts| ==> sep !in parts[k]
    ensures Split(Join([sep], parts), sep) == parts
    decreases |parts|
  {
    if |parts| == 1 {
      SplitNoSep(parts[0], sep);
    } else {
      var rest := parts[1..];
      assert forall k :: 0 <= k < |rest| ==> sep !in rest[k] by {
        assert forall k :: 0 <= k < |rest| ==> rest[k] == parts[k + 1];
      }
      SplitJoin(rest, sep);
      assert Join([sep], parts) == parts[0] + [sep] + Join([sep], rest);
      SplitPrefix(parts[0], Join([sep], rest), sep);
      assert [parts[0]] + rest == parts;
    }
  }

  lemma {:induction false} SplitNoSep(s: string, sep: char)
    requires sep !in s
    ensures Split(s, sep) == [s]
    decreases |s|
  {
    if |s| > 0 {
      SplitNoSep(s[1..], sep);
      assert [s[0]] + s[1..] == s;
    }
  }

  lemma {:induction false} SplitPrefix(a: string, b: string, sep: char)
    requires sep !in a
    ensures Split(a + [sep] + b, sep) == [a] + Split(b, sep)
    decreases |a|
  {
    if |a| == 0 {
      assert a + [sep] + b == [sep] + b;
      assert ([sep] + b)[1..] == b;
    } else {
      assert (a + [sep] + b)[1..] == a[1..] + [sep] + b;
      SplitPrefix(a[1..], b, sep);
      assert [a[0]] + a[1..] == a;
    }
  }

  /** Splitting at one separator occurrence splits the two sides apart. */
  lemma {:induction false} SplitConcat(a: string, b: string, sep: char)
    ensures Split(a + [sep] + b, sep) == Split(a, sep) + Split(b, sep)
    decreases |a|
  {
    if |a| == 0 {
      assert a + [sep] + b == [sep] + b;
      assert ([sep] + b)[1..] == b;
    } else {
      assert (a + [sep] + b)[1..] == a[1..] + [sep] + b;
      assert (a + [sep] + b)[0] == a[0];
      SplitConcat(a[1..], b, sep);
    }
  }

  /** Python `s.split(sep, 1)` returned as (head, tail): tail is `None` when
      the separator does not occur. */
  function SplitOnce(s: string, sep: char): (r: (string, Option<string>))
    ensures sep !in r.0
    ensures r.1.None? <==> sep !in s
    ensures r.1.Some? ==> s == r.0 + [sep] + r.1.value
    ensures r.1.None? ==> r.0 == s
    decreases |s|
  {
    if |s| == 0 then ("", None)
    else if s[0] == sep then ("", Some(s[1..]))
    else
      var (h, t) := SplitOnce(s[1..], sep);
      ([s[0]] + h, t)
  }

  // ---------------------------------------------------------------------------
  // Whitespace and case

  /** The characters Python's `str.isspace` and the regex class `\s` accept. */
  predicate IsSpace(c: char) {
    c == ' ' || c == '\t' || c == '\n' || c == '\r' || c == '\U{000B}' || c == '\U{000C}'
    || ('\U{001C}' <= c <= '\U{001F}') || c == '\U{0085}' || c == '\U{00A0}' || c == '\U{1680}'
    || ('\U{2000}' <= c <= '\U{200A}') || c == '\U{2028}' || c == '\U{2029}'
    || c == '\U{202F}' || c == '\U{205F}' || c == '\U{3000}'
  }

  function LStrip(s: string): (r: string)
    ensures |r| <= |s| && r == s[|s| - |r|..]
    ensures |r| > 0 ==> !IsSpace(r[0])
    ensures forall k :: 0 <= k < |s| - |r| ==> IsSpace(s[k])
    decreases |s|
  {
    if |s| > 0 && IsSpace(s[0]) then LStrip(s[1..]) else s
  }

  function RStrip(s: string): (r: string)
    ensures |r| <= |s| && r == s[..|r|]
    ensures |r| > 0 ==> !IsSpace(r[|r| - 1])
    ensures forall k :: |r| <= k < |s| ==> IsSpace(s[k])
    decreases |s|
  {
    if |s| > 0 && IsSpace(s[|s| - 1]) then RStrip(s[..|s| - 1]) else s
  }

  /** Python `s.strip()`. */
  function Strip(s: string): (r: string)
    ensures |r| <= |s|
    ensures |r| > 0 ==> !IsSpace(r[0]) && !IsSpace(r[|r| - 1])
  {
    RStrip(LStrip(s))
  }

  lemma StripOfNoSpace(s: string)
    requires |s| > 0 ==> !IsSpace(s[0]) && !IsSpace(s[|s| - 1])
    ensures Strip(s) == s
  {
  }

  /** Python `s.lower()` restricted to ASCII letters. */
  function Lower(s: string): (r: string)
    ensures |r| == |s|
    ensures forall k :: 0 <= k < |s| ==>
              r[k] == if 'A' <= s[k] <= 'Z' then (s[k] as int + 32) as char else s[k]
  {
    seq(|s|, k requires 0 <= k < |s| =>
      if 'A' <= s[k] <= 'Z' then (s[k] as int + 32) as char else s[k])
  }
}

=== FILE: weatherbench.dfy ===
/**
 * The WeatherBench (ARCO-ERA5) download planner of
 * `cryogrid_data_fetcher/era5/from_weatherbench.py` and of its older copy
 * `scripts/era5/from_weatherbench.py`: monthly batch windows, the S3 path of
 * each batch, the name of the one-off geopotential file, and the ordered list
 * of per-day source URLs of a batch.
 */
module Weatherbench {
  import opened Wrappers
  import opened Text
  import opened Dates
  import opened Formatting
  import opened S3Path

  datatype WbError =
    | FormatFailed(ferr: FormatError) // the file-name template does not format
    | UnsafePath(serr: S3Error) // the S3 path fails is_safe_s3_path

  // ---------------------------------------------------------------------------
  // Batch windows: pd.date_range(start, end, freq='1MS') and zip(d[:-1], d[1:])
  // ---------------------------------------------------------------------------

  /** Months counted from January of year 0. */
  function MonthIndex(d: Date): int {
    12 * d.year + d.month - 1
  }

  /** The first day of month number `i`. */
  function MonthStart(i: int): (d: Date)
    ensures Valid(d) && d.day == 1 && MonthIndex(d) == i
  {
    Date(i / 12, i % 12 + 1, 1)
  }

  lemma MonthStartOf(d: Date)
    requires Valid(d) && d.day == 1
    ensures MonthStart(MonthIndex(d)) == d
  {
  }

  /** On first days of months, calendar order is month-number order. */
  lemma MonthStartsOrder(a: Date, b: Date)
    requires Valid(a) && Valid(b) && b.day == 1
    ensures !Before(b, a) <==> MonthIndex(b) > MonthIndex(a) || (MonthIndex(b) == MonthIndex(a) && a.day == 1)
    ensures !Before(a, b) <==> MonthIndex(b) <= MonthIndex(a)
  {
  }

  /** The number of the first month that starts on or after `a`. */
  function FirstMonth(a: Date): int {
    if a.day == 1 then MonthIndex(a) else MonthIndex(a) + 1
  }

  /** pd.date_range(a, b, freq='MS'): the month starts from `a` to `b`, in
      order. */
  function MonthStarts(a: Date, b: Date): (r: seq<Date>)
    requires Valid(a) && Valid(b)
    ensures |r| == if MonthIndex(b) >= FirstMonth(a) then MonthIndex(b) - FirstMonth(a) + 1 else 0
    ensures forall k :: 0 <= k < |r| ==> r[k] == MonthStart(FirstMonth(a) + k)
    ensures forall k :: 0 <= k < |r| ==> !Before(r[k], a) && !Before(b, r[k])
  {
    var first, last := FirstMonth(a), MonthIndex(b);
    var r := seq(if last >= first then last - first + 1 else 0, k => MonthStart(first + k));
    forall k | 0 <= k < |r| ensures !Before(r[k], a) && !Before(b, r[k]) {
      assert r[k] == MonthStart(first + k);
      MonthStartsOrder(a, r[k]);
      MonthStartsOrder(b, r[k]);
    }
    r
  }

  /** pandas' month-start range holds exactly the first days of months
      between its two ends, both included, and lists them in calendar
      order. */
  lemma MonthStartsMembers(a: Date, b: Date, e: Date)
    requires Valid(a) && Valid(b) && Valid(e) && e.day == 1
    ensures e in MonthStarts(a, b) <==> !Before(e, a) && !Before(b, e)
    ensures forall i, j :: 0 <= i < j < |MonthStarts(a, b)| ==> Before(MonthStarts(a, b)[i], MonthStarts(a, b)[j])
  {
    var r := MonthStarts(a, b);
    MonthStartsOrder(a, e);
    MonthStartsOrder(b, e);
    if !Before(e, a) && !Before(b, e) {
      MonthStartOf(e);
      assert r[MonthIndex(e) - FirstMonth(a)] == e;
    }
    forall i, j | 0 <= i < j < |r| ensures Before(r[i], r[j]) {
      MonthStartsOrder(r[j], r[i]);
    }
  }

  datatype Window = Window(start: Date, end: Date)

  /** zip(dates[:-1], dates[1:]). */
  function Consecutive(ds: seq<Date>): (r: seq<Window>)
    ensures |r| == if |ds| == 0 then 0 else |ds| - 1
    ensures forall k :: 0 <= k < |r| ==> r[k] == Window(ds[k], ds[k + 1])
  {
    if |ds| == 0 then [] else seq(|ds| - 1, k requires 0 <= k < |ds| - 1 => Window(ds[k], ds[k + 1]))
  }

  function BatchWindows(start: Date, end: Date): seq<Window>
    requires Valid(start) && Valid(end)
  {
    Consecutive(MonthStarts(start, end))
  }

  /** The package copy: the range ends on 1 January of the year after
      `end_year`. */
  function PackageBatches(startYear: int, endYear: int): seq<Window> {
    BatchWindows(Date(startYear, 1, 1), Date(endYear + 1, 1, 1))
  }

  /** The scripts copy: the range ends on 31 December of `end_year`. */
  function ScriptsBatches(startYear: int, endYear: int): seq<Window> {
    BatchWindows(Date(startYear, 1, 1), Date(endYear, 12, 31))
  }

  /** Every window is one calendar month, from its first day to the first
      day of the next month. */
  predicate MonthWindow(w: Window) {
    Valid(w.start) && w.start.day == 1 && w.end == MonthStart(MonthIndex(w.start) + 1)
  }


  /** Window `k` is month number FirstMonth(start) + k. */
  lemma BatchWindowsAt(start: Date, end: Date)
    requires Valid(start) && Valid(end)
    ensures |BatchWindows(start, end)| ==
              if MonthIndex(end) > FirstMonth(start) then MonthIndex(end) - FirstMonth(start) else 0
    ensures forall k :: 0 <= k < |BatchWindows(start, end)| ==>
              BatchWindows(start, end)[k] == Window(MonthStart(FirstMonth(start) + k), MonthStart(FirstMonth(start) + k + 1))
  {
  }

  /** Every window is one calendar month. */
  lemma BatchWindowsMonthly(start: Date, end: Date)
    requires Valid(start) && Valid(end)
    ensures forall k :: 0 <= k < |BatchWindows(start, end)| ==> MonthWindow(BatchWindows(start, end)[k])
  {
    BatchWindowsAt(start, end);
    var r := BatchWindows(start, end);
    forall k | 0 <= k < |r| ensures MonthWindow(r[k]) {
      WindowOfMonth(FirstMonth(start) + k, r[k]);
    }
  }

  lemma WindowOfMonth(i: int, w: Window)
    requires w == Window(MonthStart(i), MonthStart(i + 1))
    ensures MonthWindow(w)
  {
  }

  /** The package copy requests every month from January of the start year
      to December of the end year exactly once, in calendar order: window
      `k` is month `k` counted from January of the start year. */
  lemma PackageBatchesCoverYears(startYear: int, endYear: int)
    requires startYear <= endYear
    ensures |PackageBatches(startYear, endYear)| == 12 * (endYear - startYear + 1)
    ensures forall k :: 0 <= k < |PackageBatches(startYear, endYear)| ==>
              MonthWindow(PackageBatches(startYear, endYear)[k])
    ensures forall y, m :: startYear <= y <= endYear && 1 <= m <= 12 ==>
              PackageBatches(startYear, endYear)[12 * (y - startYear) + m - 1].start == Date(y, m, 1)
  {
    var a, b := Date(startYear, 1, 1), Date(endYear + 1, 1, 1);
    BatchWindowsAt(a, b);
    BatchWindowsMonthly(a, b);
    var r := PackageBatches(startYear, endYear);
    forall y, m | startYear <= y <= endYear && 1 <= m <= 12
      ensures r[12 * (y - startYear) + m - 1].start == Date(y, m, 1)
    {
      var k := 12 * (y - startYear) + m - 1;
      assert r[k].start == MonthStart(12 * startYear + k);
      MonthStartOf(Date(y, m, 1));
    }
  }

  /** Distinct windows start in distinct months, earliest first. */
  lemma BatchWindowsOrdered(start: Date, end: Date)
    requires Valid(start) && Valid(end)
    ensures forall i, j :: 0 <= i < j < |BatchWindows(start, end)| ==>
              Before(BatchWindows(start, end)[i].start, BatchWindows(start, end)[j].start)
  {
    BatchWindowsAt(start, end);
    var r := BatchWindows(start, end);
    forall i, j | 0 <= i < j < |r| ensures Before(r[i].start, r[j].start) {
      MonthStartsOrder(r[j].start, r[i].start);
    }
  }

  /** The scripts copy stops one month short: its last window runs from
      1 November to 1 December of the end year, and no window starts in or
      reaches past December of the end year. */
  lemma ScriptsBatchesMissDecember(startYear: int, endYear: int)
    requires startYear <= endYear
    ensures |ScriptsBatches(startYear, endYear)| == 12 * (endYear - startYear + 1) - 1
    ensures forall k :: 0 <= k < |ScriptsBatches(startYear, endYear)| ==>
              MonthWindow(ScriptsBatches(startYear, endYear)[k]) &&
              ScriptsBatches(startYear, endYear)[k].start != Date(endYear, 12, 1) &&
              !Before(Date(endYear, 12, 1), ScriptsBatches(startYear, endYear)[k].end)
    ensures ScriptsBatches(startYear, endYear)[|ScriptsBatches(startYear, endYear)| - 1]
              == Window(Date(endYear, 11, 1), Date(endYear, 12, 1))
  {
    var a, b := Date(startYear, 1, 1), Date(endYear, 12, 31);
    BatchWindowsAt(a, b);
    BatchWindowsMonthly(a, b);
    var r := ScriptsBatches(startYear, endYear);
    var december := Date(endYear, 12, 1);
    MonthStartOf(december);
    MonthStartOf(Date(endYear, 11, 1));
    forall k | 0 <= k < |r|
      ensures MonthWindow(r[k]) && r[k].start != december && !Before(december, r[k].end)
    {
      MonthStartsOrder(december, r[k].end);
    }
  }

  // ---------------------------------------------------------------------------
  // make_s3_path
  // ---------------------------------------------------------------------------

  /** str() of a midnight pandas Timestamp and its zero-padded parts
      `f"{t.year:04d}"`, `f"{t.month:02d}"` and `f"{t.day:02d}"`. */
  datatype Stamp = Stamp(text: string, year: string, month: string, day: string)

  function StampOf(t: Date): (s: Stamp)
    ensures ParseInt(s.year) == Some(t.year)
    ensures ParseInt(s.month) == Some(t.month)
    ensures ParseInt(s.day) == Some(t.day)
    ensures |s.year| >= 4 && |s.month| >= 2 && |s.day| >= 2
    ensures t.year >= 0 ==> AllDigits(s.year)
    ensures t.month >= 0 ==> AllDigits(s.month)
    ensures t.day >= 0 ==> AllDigits(s.day)
  {
    ZeroPadRoundTrip(t.year, 4);
    ZeroPadRoundTrip(t.month, 2);
    ZeroPadRoundTrip(t.day, 2);
    var year, month, day := ZeroPad(t.year, 4), ZeroPad(t.month, 2), ZeroPad(t.day, 2);
    Stamp(year + "-" + month + "-" + day + " 00:00:00", year, month, day)
  }

  /** The local variables of make_s3_path that a file-name template can
      name: the two stamps, their padded parts and the configuration
      dictionary `data_config` itself. */
  function PathNamespace(t0: Date, t1: Date, config: Value): (ns: Namespace)
  {
    StampNamespace(StampOf(t0), StampOf(t1))["data_config" := config]
  }

  function StampNamespace(a: Stamp, b: Stamp): (ns: Namespace)
  {
    map["t0" := VOther(a.text), "t1" := VOther(b.text),
        "t0_year" := VStr(a.year), "t0_month" := VStr(a.month), "t0_day" := VStr(a.day),
        "t1_year" := VStr(b.year), "t1_month" := VStr(b.month), "t1_day" := VStr(b.day)]
  }

  /** Validation of a composed path. */
  function Validated(path: string): (r: Result<string, WbError>)
    ensures r.Ok? <==> IsSafeS3Path(path).Ok?
    ensures r.Ok? ==> r.value == path
    ensures r.Err? ==> r.error == UnsafePath(IsSafeS3Path(path).error)
  {
    match IsSafeS3Path(path)
    case Ok(_) => Ok(path)
    case Err(e) => Err(UnsafePath(e))
  }

  /** make_s3_path(data_config, t0, t1): `fname.format(**locals())`
      prefixed with the destination directory, then validated. `fname` and
      `dstDir` are the `era5` entries `fname` and `dst_dir_s3` of `config`. */
  function MakeS3Path(fname: string, dstDir: string, t0: Date, t1: Date, config: Value): (r: Result<string, WbError>)
    ensures FormatWith(fname, PathNamespace(t0, t1, config), true).Err? ==>
              r == Err(FormatFailed(FormatWith(fname, PathNamespace(t0, t1, config), true).error))
    ensures r.Ok? ==> IsSafeS3Path(r.value).Ok? && StartsWith(r.value, dstDir + "/")
  {
    match FormatWith(fname, PathNamespace(t0, t1, config), true)
    case Err(e) => Err(FormatFailed(e))
    case Ok(sname) => Validated(dstDir + "/" + sname)
  }

  /** The date placeholders of make_s3_path. */
  predicate DateName(n: string) {
    n == "t0_year" || n == "t0_month" || n == "t0_day" || n == "t1_year" || n == "t1_month" || n == "t1_day"
  }

  /** A template built from literal text, the date placeholders and
      `{data_config}` yields the path with each placeholder replaced by its
      padded date part, and `{data_config}` by the str() of the dictionary. */
  lemma S3PathOfTemplate(ps: seq<Piece>, dstDir: string, t0: Date, t1: Date, config: Value)
    requires forall k :: 0 <= k < |ps| && ps[k].Field? ==> DateName(ps[k].name) || ps[k].name == "data_config"
    ensures MakeS3Path(Render(ps), dstDir, t0, t1, config) == Validated(dstDir + "/" + Substitute(ps, PathNamespace(t0, t1, config)))
    ensures PathNamespace(t0, t1, config)["data_config"] == config
  {
    var ns := PathNamespace(t0, t1, config);
    forall k | 0 <= k < |ps| && ps[k].Field?
      ensures SimpleName(ps[k].name) && ps[k].name in ns
    {
      DateNamesSimple(ps[k].name);
      if DateName(ps[k].name) {
        DateNameBound(StampOf(t0), StampOf(t1), ps[k].name);
      }
    }
    FormatRendered(ps, ns, true);
  }

  lemma DateNamesSimple(n: string)
    requires DateName(n) || n == "data_config"
    ensures SimpleName(n)
  {
    assert n[0] == 't' || n[0] == 'd';
    forall k | 0 <= k < |n| ensures !Special(n[k]) {
      assert 'a' <= n[k] <= 'z' || '0' <= n[k] <= '9' || n[k] == '_';
    }
  }

  /** The date placeholders are six different names. */
  lemma DateNamesDistinct()
    ensures "t0_year" != "t0_month"
    ensures "t0_year" != "t0_day"
    ensures "t0_year" != "t1_year"
    ensures "t0_year" != "t1_month"
    ensures "t0_year" != "t1_day"
    ensures "t0_month" != "t0_day"
    ensures "t0_month" != "t1_year"
    ensures "t0_month" != "t1_month"
    ensures "t0_month" != "t1_day"
    ensures "t0_day" != "t1_year"
    ensures "t0_day" != "t1_month"
    ensures "t0_day" != "t1_day"
    ensures "t1_year" != "t1_month"
    ensures "t1_year" != "t1_day"
    ensures "t1_month" != "t1_day"
  {
  }

  /** The date placeholders name the padded parts of the two stamps. */
  lemma StampLookups(a: Stamp, b: Stamp)
    ensures StampNamespace(a, b)["t0_year"] == VStr(a.year)
    ensures StampNamespace(a, b)["t0_month"] == VStr(a.month)
    ensures StampNamespace(a, b)["t0_day"] == VStr(a.day)
    ensures StampNamespace(a, b)["t1_year"] == VStr(b.year)
    ensures StampNamespace(a, b)["t1_month"] == VStr(b.month)
    ensures StampNamespace(a, b)["t1_day"] == VStr(b.day)
  {
    DateNamesDistinct();
  }

  lemma DateNameBound(a: Stamp, b: Stamp, n: string)
    requires DateName(n)
    ensures n in StampNamespace(a, b) && StampNamespace(a, b)[n].VStr?
  {
    StampLookups(a, b);
  }

  // ---------------------------------------------------------------------------
  // The geopotential file: re.sub(r'\{.*\}', 'geopotential', fname)
  // ---------------------------------------------------------------------------

  /** The last index of `c` in `s`. */
  function LastIndex(s: string, c: char): (r: Option<nat>)
    ensures r.None? <==> c !in s
    ensures r.Some? ==> r.value < |s| && s[r.value] == c && c !in s[r.value + 1..]
    decreases |s|
  {
    if |s| == 0 then None
    else if s[|s| - 1] == c then Some(|s| - 1)
    else
      var r := LastIndex(s[..|s| - 1], c);
      LastIndexExtend(s, c, r);
      r
  }

  /** A last index in all but the last character, which is not `c`, is the
      last index in the whole string. */
  lemma LastIndexExtend(s: string, c: char, r: Option<nat>)
    requires |s| > 0 && s[|s| - 1] != c
    requires r.None? <==> c !in s[..|s| - 1]
    requires r.Some? ==> r.value < |s| - 1 && s[..|s| - 1][r.value] == c && c !in s[..|s| - 1][r.value + 1..]
    ensures r.None? <==> c !in s
    ensures r.Some? ==> r.value < |s| && s[r.value] == c && c !in s[r.value + 1..]
  {
    var init := s[..|s| - 1];
    assert s == init + [s[|s| - 1]];
    if r.Some? {
      assert s[r.value + 1..] == init[r.value + 1..] + [s[|s| - 1]];
    }
  }

  /** One line of the substitution: `.` does not match a newline, so a match
      stays within a line, runs greedily from the line's first '{' to its
      last '}', and nothing in the rest of the line can match again. */
  function SubstituteLine(line: string): string {
    match FirstIndex(line, '{')
    case None => line
    case Some(a) =>
      match LastIndex(line, '}')
      case None => line
      case Some(b) => if a < b then line[..a] + "geopotential" + line[b + 1..] else line
  }

  function GeopotentialName(fname: string): string {
    var lines := Split(fname, '\n');
    Join("\n", seq(|lines|, k requires 0 <= k < |lines| => SubstituteLine(lines[k])))
  }

  /** A one-line name with a single placeholder region keeps its text
      before the first '{' and after the last '}'. */
  lemma GeopotentialNameOfPlaceholder(prefix: string, middle: string, suffix: string)
    requires '{' !in prefix && '}' !in suffix
    requires '\n' !in prefix && '\n' !in middle && '\n' !in suffix
    ensures GeopotentialName(prefix + "{" + middle + "}" + suffix) == prefix + "geopotential" + suffix
  {
    var fname := prefix + "{" + middle + "}" + suffix;
    assert '\n' !in fname by {
      assert forall k :: 0 <= k < |fname| ==> fname[k] != '\n' by {
        forall k | 0 <= k < |fname| ensures fname[k] != '\n' {
          if k < |prefix| { assert fname[k] == prefix[k]; }
          else if k == |prefix| { }
          else if k < |prefix| + 1 + |middle| { assert fname[k] == middle[k - |prefix| - 1]; }
          else if k == |prefix| + 1 + |middle| { }
          else { assert fname[k] == suffix[k - |prefix| - 2 - |middle|]; }
        }
      }
    }
    SplitNoSep(fname, '\n');
    var a := |prefix|;
    var b := |prefix| + 1 + |middle|;
    assert fname[a] == '{' && fname[b] == '}';
    FirstIndexIs(fname, '{', a);
    assert fname[b + 1..] == suffix;
    LastIndexIs(fname, '}', b);
    assert fname[..a] == prefix;
  }

  lemma FirstIndexIs(s: string, c: char, i: nat)
    requires i < |s| && s[i] == c && c !in s[..i]
    ensures FirstIndex(s, c) == Some(i)
  {
  }

  lemma LastIndexIs(s: string, c: char, i: nat)
    requires i < |s| && s[i] == c && c !in s[i + 1..]
    ensures LastIndex(s, c) == Some(i)
  {
  }

  /** get_geopotential: the geopotential file's S3 path, validated. */
  function GeopotentialPath(fname: string, dstDir: string): (r: Result<string, WbError>)
    ensures r.Ok? ==> IsSafeS3Path(r.value).Ok? && r.value == dstDir + "/" + GeopotentialName(fname)
    ensures r.Err? ==> r.error.UnsafePath?
  {
    Validated(dstDir + "/" + GeopotentialName(fname))
  }

  // ---------------------------------------------------------------------------
  // download_era5_from_weatherbench (package copy): the returned file list
  // ---------------------------------------------------------------------------

  /** The S3 path of every window, in order; the first failing window
      raises. */
  function BatchPaths(path: Window -> Result<string, WbError>, ws: seq<Window>): (r: Result<seq<string>, WbError>)
    ensures r.Ok? <==> forall k :: 0 <= k < |ws| ==> path(ws[k]).Ok?
    ensures r.Ok? ==> |r.value| == |ws|
    ensures r.Ok? ==> forall k :: 0 <= k < |ws| ==> r.value[k] == path(ws[k]).value
  {
    if |ws| == 0 then Ok([])
    else
      match path(ws[0])
      case Err(e) => Err(e)
      case Ok(p) =>
        var rest := BatchPaths(path, ws[1..]);
        assert forall k :: 1 <= k < |ws| ==> ws[k] == ws[1..][k - 1];
        match rest
        case Err(e) => Err(e)
        case Ok(ps) => Ok([p] + ps)
  }

  function WindowPath(fname: string, dstDir: string, config: Value): Window -> Result<string, WbError> {
    (w: Window) => MakeS3Path(fname, dstDir, w.start, w.end, config)
  }

  /** The geopotential file first, then one path per monthly window in
      calendar order. */
  function DownloadFileList(fname: string, dstDir: string, startYear: int, endYear: int, config: Value): (r: Result<seq<string>, WbError>)
    ensures GeopotentialPath(fname, dstDir).Err? ==> r == Err(GeopotentialPath(fname, dstDir).error)
    ensures r.Ok? ==> |r.value| == 1 + |PackageBatches(startYear, endYear)|
    ensures r.Ok? ==> GeopotentialPath(fname, dstDir).Ok? && r.value[0] == GeopotentialPath(fname, dstDir).value
    ensures r.Ok? ==> (BatchPaths(WindowPath(fname, dstDir, config), PackageBatches(startYear, endYear)).Ok? &&
                       r.value[1..] == BatchPaths(WindowPath(fname, dstDir, config), PackageBatches(startYear, endYear)).value)
  {
    match GeopotentialPath(fname, dstDir)
    case Err(e) => Err(e)
    case Ok(geo) =>
      match BatchPaths(WindowPath(fname, dstDir, config), PackageBatches(startYear, endYear))
      case Err(e) => Err(e)
      case Ok(paths) =>
        assert ([geo] + paths)[1..] == paths;
        Ok([geo] + paths)
  }

  // ---------------------------------------------------------------------------
  // make_weatherbench_era5_url
  // ---------------------------------------------------------------------------

  const ArcoRaw: string := "gs://gcp-public-data-arco-era5/raw/date-variable-"
  const PressureRoot: string := ArcoRaw + "pressure_level/"
  const SurfaceRoot: string := ArcoRaw + "single_level/"

  function Root(level: Option<string>): string {
    if level.Some? then PressureRoot else SurfaceRoot
  }

  /** The part of the URL after the template's root. */
  function UrlTail(t: Date, variable: string, level: Option<string>): string {
    var stamp := StampOf(t);
    Join("/", [stamp.year, stamp.month, stamp.day, variable, FileName(level)])
  }

  /** `{level}.nc`, or `surface.nc` without a level. */
  function FileName(level: Option<string>): string {
    if level.Some? then level.value + ".nc" else "surface.nc"
  }

  lemma FileNameNoSlash(level: Option<string>)
    requires level.Some? ==> '/' !in level.value
    ensures '/' !in FileName(level)
  {
    var file := FileName(level);
    forall k | 0 <= k < |file| ensures file[k] != '/' {
      if level.Some? && k < |level.value| { assert file[k] == level.value[k]; }
    }
  }

  /** Of two roots that part after a common prefix, a string extending one
      does not start with the other. */
  lemma RootChoice(common: string, b: string, c: string, x: string)
    requires |b| > 0 && |c| > 0 && b[0] != c[0]
    ensures StartsWith(common + b + x, common + b)
    ensures !StartsWith(common + b + x, common + c)
  {
    assert (common + b + x)[..|common + b|] == common + b;
    assert (common + b + x)[|common|] == b[0];
    assert (common + c)[|common|] == c[0];
  }

  /** The URL of one day of one variable: the pressure-level template when a
      level is given, the surface template otherwise. */
  function MakeUrl(t: Date, variable: string, level: Option<string>): (url: string)
    ensures StartsWith(url, PressureRoot) <==> level.Some?
    ensures StartsWith(url, SurfaceRoot) <==> level.None?
  {
    var tail := UrlTail(t, variable, level);
    if level.Some? then
      RootChoice(ArcoRaw, "pressure_level/", "single_level/", tail);
      PressureRoot + tail
    else
      RootChoice(ArcoRaw, "single_level/", "pressure_level/", tail);
      SurfaceRoot + tail
  }

  /** Reads the part after the root back into day, variable and level. */
  function ParseTail(pressure: bool, tail: string): Option<(Date, string, Option<string>)> {
    ParseParts(pressure, Split(tail, '/'))
  }

  function ParseParts(pressure: bool, parts: seq<string>): Option<(Date, string, Option<string>)> {
    if |parts| != 5 then None
    else
      var year :- ParseInt(parts[0]);
      var month :- ParseInt(parts[1]);
      var day :- ParseInt(parts[2]);
      var file := parts[4];
      if pressure && EndsWith(file, ".nc") then Some((Date(year, month, day), parts[3], Some(file[..|file| - 3])))
      else if !pressure && file == "surface.nc" then Some((Date(year, month, day), parts[3], None))
      else None
  }

  /** Reads a URL back into its day, variable and level. */
  function ParseUrl(url: string): Option<(Date, string, Option<string>)> {
    if StartsWith(url, PressureRoot) then ParseTail(true, url[|PressureRoot|..])
    else if StartsWith(url, SurfaceRoot) then ParseTail(false, url[|SurfaceRoot|..])
    else None
  }

  lemma NoSlashInDigits(s: string)
    requires AllDigits(s)
    ensures '/' !in s
  {
    assert forall k :: 0 <= k < |s| ==> s[k] != '/';
  }

  lemma SplitFive(a: string, b: string, c: string, d: string, e: string)
    requires '/' !in a && '/' !in b && '/' !in c && '/' !in d && '/' !in e
    ensures Split(Join("/", [a, b, c, d, e]), '/') == [a, b, c, d, e]
  {
    var parts := [a, b, c, d, e];
    assert forall k :: 0 <= k < |parts| ==> parts[k] in {a, b, c, d, e};
    SplitJoin(parts, '/');
  }

  lemma TailSplits(t: Date, variable: string, level: Option<string>)
    requires Valid(t) && t.year >= 0
    requires '/' !in variable && (level.Some? ==> '/' !in level.value)
    ensures Split(UrlTail(t, variable, level), '/') ==
              [StampOf(t).year, StampOf(t).month, StampOf(t).day, variable, FileName(level)]
  {
    var stamp := StampOf(t);
    NoSlashInDigits(stamp.year);
    NoSlashInDigits(stamp.month);
    NoSlashInDigits(stamp.day);
    FileNameNoSlash(level);
    SplitFive(stamp.year, stamp.month, stamp.day, variable, FileName(level));
  }

  lemma TailRoundTrip(t: Date, variable: string, level: Option<string>)
    requires Valid(t) && t.year >= 0
    requires '/' !in variable && (level.Some? ==> '/' !in level.value)
    ensures ParseTail(level.Some?, UrlTail(t, variable, level)) == Some((t, variable, level))
  {
    var stamp := StampOf(t);
    var file := FileName(level);
    var parts := [stamp.year, stamp.month, stamp.day, variable, file];
    assert ParseTail(level.Some?, UrlTail(t, variable, level)) == ParseParts(level.Some?, parts) by {
      TailSplits(t, variable, level);
    }
    assert ParseParts(level.Some?, parts) == Some((t, variable, level)) by {
      ReadParts(level.Some?, parts, t);
      if level.Some? {
        assert EndsWith(file, ".nc");
        assert file[..|file| - 3] == level.value;
      } else {
        assert file == "surface.nc";
      }
    }
  }

  /** Five parts whose first three read as the day's numbers read back
      into that day, the variable and the level. */
  lemma ReadParts(pressure: bool, parts: seq<string>, t: Date)
    requires |parts| == 5
    requires ParseInt(parts[0]) == Some(t.year) && ParseInt(parts[1]) == Some(t.month) && ParseInt(parts[2]) == Some(t.day)
    ensures ParseParts(pressure, parts) ==
              if pressure && EndsWith(parts[4], ".nc") then Some((t, parts[3], Some(parts[4][..|parts[4]| - 3])))
              else if !pressure && parts[4] == "surface.nc" then Some((t, parts[3], None))
              else None
  {
  }

  /** The URL of a day carries the day, the variable and the level, which
      can be read back from it. */
  lemma UrlRoundTrip(t: Date, variable: string, level: Option<string>)
    requires Valid(t) && t.year >= 0
    requires '/' !in variable && (level.Some? ==> '/' !in level.value)
    ensures ParseUrl(MakeUrl(t, variable, level)) == Some((t, variable, level))
  {
    var url := MakeUrl(t, variable, level);
    var root := if level.Some? then PressureRoot else SurfaceRoot;
    assert url == root + UrlTail(t, variable, level);
    assert url[|root|..] == UrlTail(t, variable, level);
    TailRoundTrip(t, variable, level);
  }

  // ---------------------------------------------------------------------------
  // make_weatherbench_era5_url_list
  // ---------------------------------------------------------------------------

  /** The builder of one URL from a day, a variable and an optional level. */
  type UrlOf = (Date, string, Option<string>) -> string

  /** One URL per day, in day order. */
  function DayUrls(url: UrlOf, variable: string, level: Option<string>, days: seq<Date>): (r: seq<string>)
    ensures |r| == |days|
    ensures forall k :: 0 <= k < |days| ==> r[k] == url(days[k], variable, level)
  {
    seq(|days|, k requires 0 <= k < |days| => url(days[k], variable, level))
  }

  /** For one pressure-level variable: level by level, each level day by day. */
  function LevelUrls(url: UrlOf, variable: string, levels: seq<string>, days: seq<Date>): (r: seq<string>)
    ensures |r| == |levels| * |days|
  {
    if |levels| == 0 then []
    else
      var n := |levels| - 1;
      assert n * |days| + |days| == |levels| * |days|;
      LevelUrls(url, variable, levels[..n], days) + DayUrls(url, variable, Some(levels[n]), days)
  }

  /** Pressure-level variable by variable. */
  function PressureUrls(url: UrlOf, variables: seq<string>, levels: seq<string>, days: seq<Date>): (r: seq<string>)
    ensures |r| == |variables| * (|levels| * |days|)
  {
    if |variables| == 0 then []
    else
      var n := |variables| - 1;
      assert n * (|levels| * |days|) + |levels| * |days| == |variables| * (|levels| * |days|);
      PressureUrls(url, variables[..n], levels, days) + LevelUrls(url, variables[n], levels, days)
  }

  /** Single-level variable by variable, each day by day. */
  function SingleUrls(url: UrlOf, variables: seq<string>, days: seq<Date>): (r: seq<string>)
    ensures |r| == |variables| * |days|
  {
    if |variables| == 0 then []
    else
      var n := |variables| - 1;
      assert n * |days| + |days| == |variables| * |days|;
      SingleUrls(url, variables[..n], days) + DayUrls(url, variables[n], None, days)
  }

  /** The innermost loop: day by day. */
  method AppendDays(urls: seq<string>, url: UrlOf, variable: string, level: Option<string>, days: seq<Date>)
    returns (out: seq<string>)
    ensures out == urls + DayUrls(url, variable, level, days)
  {
    out := urls;
    for k := 0 to |days|
      invariant out == urls + DayUrls(url, variable, level, days[..k])
    {
      out := out + [url(days[k], variable, level)];
      assert DayUrls(url, variable, level, days[..k + 1]) == DayUrls(url, variable, level, days[..k]) + [url(days[k], variable, level)];
    }
    assert days[..|days|] == days;
  }

  /** The loop over the levels of one pressure-level variable. */
  method AppendLevels(urls: seq<string>, url: UrlOf, variable: string, levels: seq<string>, days: seq<Date>)
    returns (out: seq<string>)
    ensures out == urls + LevelUrls(url, variable, levels, days)
  {
    out := urls;
    for j := 0 to |levels|
      invariant out == urls + LevelUrls(url, variable, levels[..j], days)
    {
      out := AppendDays(out, url, variable, Some(levels[j]), days);
      assert levels[..j + 1][..j] == levels[..j];
    }
    assert levels[..|levels|] == levels;
  }

  /** The nested loops of make_weatherbench_era5_url_list, appending one URL
      at a time: pressure-level variables, then their levels, then days;
      then single-level variables, then days. */
  method UrlLoops(url: UrlOf, pressureVars: seq<string>, levels: seq<string>, singleVars: seq<string>, days: seq<Date>)
    returns (urls: seq<string>)
    ensures urls == PressureUrls(url, pressureVars, levels, days) + SingleUrls(url, singleVars, days)
  {
    urls := [];
    for i := 0 to |pressureVars|
      invariant urls == PressureUrls(url, pressureVars[..i], levels, days)
    {
      urls := AppendLevels(urls, url, pressureVars[i], levels, days);
      assert pressureVars[..i + 1][..i] == pressureVars[..i];
    }
    assert pressureVars[..|pressureVars|] == pressureVars;
    var pressure := urls;
    for i := 0 to |singleVars|
      invariant urls == pressure + SingleUrls(url, singleVars[..i], days)
    {
      urls := AppendDays(urls, url, singleVars[i], None, days);
      assert singleVars[..i + 1][..i] == singleVars[..i];
    }
    assert singleVars[..|singleVars|] == singleVars;
  }

  /** make_weatherbench_era5_url_list(data_config, t0, t1), over the days
      of [t0, t1). */
  method MakeUrlList(pressureVars: seq<string>, levels: seq<string>, singleVars: seq<string>, t0: Date, t1: Date)
    returns (urls: seq<string>)
    requires Valid(t0) && Valid(t1)
    ensures urls == PressureUrls(MakeUrl, pressureVars, levels, DaysBetween(t0, t1)) +
                    SingleUrls(MakeUrl, singleVars, DaysBetween(t0, t1))
  {
    urls := UrlLoops(MakeUrl, pressureVars, levels, singleVars, DaysBetween(t0, t1));
  }

  /** Offsets of blocks of `size` items: block `i` ends where block `i + 1`
      starts. */
  lemma {:induction false} BlockOffset(i: nat, n: nat, size: nat, k: nat)
    requires i < n && k < size
    ensures 0 <= i * size
    ensures i * size + k < n * size
    ensures i < n - 1 ==> i * size + k < (n - 1) * size
  {
    assert i * size + k < (i + 1) * size;
    if i < n - 1 {
      assert (i + 1) * size <= (n - 1) * size;
    }
    assert (i + 1) * size <= n * size;
  }

  lemma {:induction false} LevelUrlAt(url: UrlOf, variable: string, levels: seq<string>, days: seq<Date>, j: nat, k: nat)
    requires j < |levels| && k < |days|
    ensures 0 <= j * |days| + k < |LevelUrls(url, variable, levels, days)|
    ensures LevelUrls(url, variable, levels, days)[j * |days| + k] == url(days[k], variable, Some(levels[j]))
    decreases |levels|
  {
    var n := |levels| - 1;
    var front := LevelUrls(url, variable, levels[..n], days);
    var last := DayUrls(url, variable, Some(levels[n]), days);
    assert LevelUrls(url, variable, levels, days) == front + last;
    BlockOffset(j, |levels|, |days|, k);
    if j < n {
      LevelUrlAt(url, variable, levels[..n], days, j, k);
      ConcatFront(front, last, j * |days| + k);
    } else {
      ConcatAt(front, last, k);
    }
  }

  lemma {:induction false} PressureUrlAt(url: UrlOf, variables: seq<string>, levels: seq<string>, days: seq<Date>,
                                         i: nat, j: nat, k: nat)
    requires i < |variables| && j < |levels| && k < |days|
    ensures 0 <= i * (|levels| * |days|) + (j * |days| + k) < |PressureUrls(url, variables, levels, days)|
    ensures PressureUrls(url, variables, levels, days)[i * (|levels| * |days|) + (j * |days| + k)]
              == url(days[k], variables[i], Some(levels[j]))
    decreases |variables|
  {
    var n := |variables| - 1;
    BlockOffset(j, |levels|, |days|, k);
    var size := |levels| * |days|;
    var off := j * |days| + k;
    var front := PressureUrls(url, variables[..n], levels, days);
    var last := LevelUrls(url, variables[n], levels, days);
    assert PressureUrls(url, variables, levels, days) == front + last;
    LevelUrlAt(url, variables[i], levels, days, j, k);
    BlockOffset(i, |variables|, size, off);
    if i < n {
      PressureUrlAt(url, variables[..n], levels, days, i, j, k);
      ConcatFront(front, last, i * size + off);
    } else {
      assert i == n && |variables[..n]| == n;
      assert |front| == n * size;
      ConcatAt(front, last, off);
    }
  }

  lemma {:induction false} SingleUrlAt(url: UrlOf, variables: seq<string>, days: seq<Date>, i: nat, k: nat)
    requires i < |variables| && k < |days|
    ensures 0 <= i * |days| + k < |SingleUrls(url, variables, days)|
    ensures SingleUrls(url, variables, days)[i * |days| + k] == url(days[k], variables[i], None)
    decreases |variables|
  {
    var n := |variables| - 1;
    var front := SingleUrls(url, variables[..n], days);
    var last := DayUrls(url, variables[n], None, days);
    assert SingleUrls(url, variables, days) == front + last;
    BlockOffset(i, |variables|, |days|, k);
    if i < n {
      SingleUrlAt(url, variables[..n], days, i, k);
      ConcatFront(front, last, i * |days| + k);
    } else {
      ConcatAt(front, last, k);
    }
  }

  /** In the URL list `pressure + single`, pressure-level variable `i`,
      level `j`, day `k` sits at position (i * levels + j) * days + k. */
  lemma {:induction false} UrlListPressureAt(url: UrlOf, pressureVars: seq<string>, levels: seq<string>, singleVars: seq<string>,
                                             days: seq<Date>, pressure: seq<string>, single: seq<string>,
                                             i: nat, j: nat, k: nat, pos: nat)
    requires pressure == PressureUrls(url, pressureVars, levels, days)
    requires single == SingleUrls(url, singleVars, days)
    requires i < |pressureVars| && j < |levels| && k < |days|
    requires pos == i * (|levels| * |days|) + (j * |days| + k)
    ensures pos < |pressure|
    ensures (pressure + single)[pos] == url(days[k], pressureVars[i], Some(levels[j]))
  {
    PressureUrlAt(url, pressureVars, levels, days, i, j, k);
  }

  /** After all |pressureVars| * |levels| * |days| pressure-level URLs,
      single-level variable `i`, day `k` sits at offset i * days + k. */
  lemma {:induction false} UrlListSingleAt(url: UrlOf, pressureVars: seq<string>, levels: seq<string>, singleVars: seq<string>,
                                       days: seq<Date>, pressure: seq<string>, single: seq<string>, i: nat, k: nat)
    requires pressure == PressureUrls(url, pressureVars, levels, days)
    requires single == SingleUrls(url, singleVars, days)
    requires i < |singleVars| && k < |days|
    ensures |pressure| == |pressureVars| * (|levels| * |days|)
    ensures i * |days| + k < |single|
    ensures (pressure + single)[|pressure| + (i * |days| + k)] == url(days[k], singleVars[i], None)
  {
    SingleUrlAt(url, singleVars, days, i, k);
    BlockOffset(i, |singleVars|, |days|, k);
    ConcatAt(pressure, single, i * |days| + k);
  }

  lemma {:induction false} ConcatAt<T>(p: seq<T>, q: seq<T>, x: nat)
    requires x < |q|
    ensures (p + q)[|p| + x] == q[x]
  {
  }

  lemma {:induction false} ConcatFront<T>(p: seq<T>, q: seq<T>, x: nat)
    requires x < |p|
    ensures (p + q)[x] == p[x]
  {
  }
}

=== FILE: wfs_bbox.dfy ===
/** The argument checks of `read_wfs`: the layer must be a string and the
    bounding box is normalised by `_process_bbox` to None or a 4-tuple
    (west, south, east, north) before the service is asked. */
module WfsBbox {
  import opened Wrappers

  /** The Python values `_process_bbox` distinguishes. A GeoDataFrame or
      GeoSeries is represented by its `total_bounds`. */
  datatype BboxArg =
    | NoBox
    | ListBox(items: seq<real>)
    | TupleBox(items: seq<real>)
    | FrameBox(minx: real, miny: real, maxx: real, maxy: real)
    | OtherBox

  datatype WfsError =
    | LayerNotString   // AssertionError of `isinstance(layer, str)`
    | NotFourItems     // AssertionError of `len(bbox) == 4`
    | UnsupportedBox   // ValueError for any other type

  /** _process_bbox(bbox). */
  function ProcessBbox(bbox: BboxArg): (r: Result<Option<seq<real>>, WfsError>)
    ensures bbox.NoBox? <==> r == Ok(None)
    ensures r.Ok? && r.value.Some? ==> |r.value.value| == 4
    ensures (bbox.ListBox? || bbox.TupleBox?) ==>
              (if |bbox.items| == 4 then r == Ok(Some(bbox.items)) else r == Err(NotFourItems))
    ensures bbox.FrameBox? ==> r == Ok(Some([bbox.minx, bbox.miny, bbox.maxx, bbox.maxy]))
    ensures r == Err(UnsupportedBox) <==> bbox.OtherBox?
  {
    match bbox
    case NoBox => Ok(None)
    case ListBox(items) => if |items| == 4 then Ok(Some(items)) else Err(NotFourItems)
    case TupleBox(items) => if |items| == 4 then Ok(Some(items)) else Err(NotFourItems)
    case FrameBox(minx, miny, maxx, maxy) => Ok(Some([minx, miny, maxx, maxy]))
    case OtherBox => Err(UnsupportedBox)
  }

  /** Normalising is idempotent: the tuple it returns passes through
      unchanged, so callers may normalise twice. */
  lemma ProcessBboxIdempotent(bbox: BboxArg)
    requires ProcessBbox(bbox).Ok?
    ensures ProcessBbox(AsArg(ProcessBbox(bbox).value)) == ProcessBbox(bbox)
  {
  }

  /** The Python value a normalised box is: None or a tuple. */
  function AsArg(b: Option<seq<real>>): (r: BboxArg)
    ensures b.None? <==> r.NoBox?
    ensures b.Some? ==> r.TupleBox? && r.items == b.value
  {
    match b
    case None => NoBox
    case Some(items) => TupleBox(items)
  }

  /** The layer argument: a string or some other Python value. */
  datatype LayerArg = LayerName(name: string) | LayerOther

  /** The checks `read_wfs` runs before the request, in order: the layer
      first, then the bounding box. */
  function ReadWfsArguments(layer: LayerArg, bbox: BboxArg): (r: Result<(string, Option<seq<real>>), WfsError>)
    ensures layer.LayerOther? ==> r == Err(LayerNotString)
    ensures layer.LayerName? ==>
              (r.Ok? <==> ProcessBbox(bbox).Ok?)
              && (r.Ok? ==> r.value == (layer.name, ProcessBbox(bbox).value))
              && (r.Err? ==> r.error == ProcessBbox(bbox).error)
  {
    match layer
    case LayerOther => Err(LayerNotString)
    case LayerName(name) =>
      var box :- ProcessBbox(bbox);
      Ok((name, box))
  }
}

=== FILE: wrappers.dfy ===
/** Failure-carrying result types shared by every module of the model.
    A Python function that raises is modelled as one returning `Err`. */
module Wrappers {

  datatype Option<+T> = None | Some(value: T) {
    predicate IsFailure() { None? }

    function PropagateFailure<U>(): Option<U>
      requires None?
    {
      None
    }

    function Extract(): T
      requires Some?
    {
      value
    }

    function ToResult<E>(error: E): (r: Result<T, E>)
      ensures Some? <==> r.Ok?
      ensures Some? ==> r.value == value
      ensures None? ==> r.error == error
    {
      match this
      case Some(v) => Ok(v)
      case None => Err(error)
    }

    function GetOr(default: T): T {
      match this
      case Some(v) => v
      case None => default
    }
  }

  datatype Result<+T, +E> = Ok(value: T) | Err(error: E) {
    predicate IsFailure() { Err? }

    function PropagateFailure<U>(): Result<U, E>
      requires Err?
    {
      Err(error)
    }

    function Extract(): T
      requires Ok?
    {
      value
    }
  }
}

=== FILE: yml_template.dfy ===
/** The YAML template writer of `yml_helpers.py`: schema lines are dropped,
    copied or rewritten into "<key>: <example>  <comment>" lines, and values
    holding a `{placeholder}` are quoted. The three regular expressions are
    written out as the match `re.match` finds (greedy and lazy repetitions
    resolved to "longest" and "first position"). */
module YamlTemplate {
  import opened Wrappers
  import opened Text

  // ---------------------------------------------------------------------------
  // add_quotes_if_curly_braces
  // ---------------------------------------------------------------------------

  /** The values the helper is called with. */
  datatype Scalar = SInt(i: int) | SFloat(f: real) | SBool(b: bool) | SNone | SStr(s: string)

  predicate HasBraces(s: string) {
    '{' in s && '}' in s
  }

  /** The string case: quoted iff both braces occur. */
  function QuoteBraces(s: string): (r: string)
    ensures HasBraces(s) ==> |r| == |s| + 2 && r[0] == '\'' && r[|r| - 1] == '\'' && r[1..|r| - 1] == s
    ensures !HasBraces(s) ==> r == s
  {
    if HasBraces(s) then "'" + s + "'" else s
  }

  /** add_quotes_if_curly_braces(s): numbers, booleans, None and the empty
      string pass unchanged; a string is quoted iff it holds both braces. */
  function AddQuotesIfCurlyBraces(v: Scalar): (r: Scalar)
    ensures r != v <==> v.SStr? && HasBraces(v.s)
    ensures v.SStr? ==> r.SStr? && r.s == QuoteBraces(v.s)
  {
    match v
    case SStr(s) => if s == "" then v else SStr(QuoteBraces(s))
    case _ => v
  }

  /** Quoting is undone by dropping the first and last character, so the
      quoted text carries the original. */
  lemma QuoteBracesInverse(s: string)
    ensures QuoteBraces(s) == s || QuoteBraces(s)[1..|QuoteBraces(s)| - 1] == s
    ensures HasBraces(QuoteBraces(s)) <==> HasBraces(s)
  {
    if HasBraces(s) {
      var r := QuoteBraces(s);
      assert r == "'" + s + "'";
      assert forall c :: c in s ==> c in r by {
        forall c | c in s ensures c in r {
          var k :| 0 <= k < |s| && s[k] == c;
          assert r[k + 1] == c;
        }
      }
    }
  }

  // ---------------------------------------------------------------------------
  // Scanning helpers
  // ---------------------------------------------------------------------------

  /** Length of the run of ' ' at the head of `s` (the regex ` *`). */
  function SpaceRun(s: string): (n: nat)
    ensures n <= |s|
    ensures forall k :: 0 <= k < n ==> s[k] == ' '
    ensures n < |s| ==> s[n] != ' '
    decreases |s|
  {
    if |s| > 0 && s[0] == ' ' then 1 + SpaceRun(s[1..]) else 0
  }

  /** Length of the run of whitespace at the head of `s` (the regex `\s*`). */
  function WsRun(s: string): (n: nat)
    ensures n <= |s|
    ensures forall k :: 0 <= k < n ==> IsSpace(s[k])
    ensures n < |s| ==> !IsSpace(s[n])
    decreases |s|
  {
    if |s| > 0 && IsSpace(s[0]) then 1 + WsRun(s[1..]) else 0
  }

  predicate IsWordChar(c: char) {
    ('A' <= c <= 'Z') || ('a' <= c <= 'z') || ('0' <= c <= '9') || c == '_'
  }

  /** Length of the run of `[A-Za-z0-9_]` at the head of `s`. */
  function WordRun(s: string): (n: nat)
    ensures n <= |s|
    ensures forall k :: 0 <= k < n ==> IsWordChar(s[k])
    ensures n < |s| ==> !IsWordChar(s[n])
    decreases |s|
  {
    if |s| > 0 && IsWordChar(s[0]) then 1 + WordRun(s[1..]) else 0
  }

  // ---------------------------------------------------------------------------
  // The three patterns
  // ---------------------------------------------------------------------------

  /** `^#!.*`: a schema-only comment. */
  predicate IsSchemaComment(line: string) {
    |line| >= 2 && line[0] == '#' && line[1] == '!'
  }

  /** `^\s*$|^\s*#.*`: a blank line, or a comment after optional whitespace. */
  predicate IsEmptyOrComment(line: string) {
    var n := WsRun(line);
    n == |line| || line[n] == '#'
  }

  /** ` *# ` matches at `p`: where the optional comment may begin. */
  predicate CommentAt(s: string, p: nat)
    requires p <= |s|
  {
    var q := p + SpaceRun(s[p..]);
    q + 2 <= |s| && s[q] == '#' && s[q + 1] == ' '
  }

  /** The lazy value stops at the first position where the rest of the line
      is empty or starts the comment. */
  function ValueEnd(s: string, p: nat): (r: nat)
    requires p <= |s|
    ensures p <= r <= |s|
    ensures r == |s| || CommentAt(s, r)
    ensures forall q :: p <= q < r ==> !CommentAt(s, q)
    decreases |s| - p
  {
    if p == |s| || CommentAt(s, p) then p else ValueEnd(s, p + 1)
  }

  /** `\s*\(e\.g\.\s*(.*)\)$` matches the whole of `z`. */
  predicate ExampleSuffix(z: string) {
    var a := WsRun(z);
    && a + 5 < |z|
    && z[a] == '(' && z[a + 1] == 'e' && z[a + 2] == '.' && z[a + 3] == 'g' && z[a + 4] == '.'
    && z[|z| - 1] == ')'
  }

  /** The example group: after "(e.g." and its whitespace, up to the final ')'. */
  function ExampleOf(z: string): (e: string)
    requires ExampleSuffix(z)
    ensures |e| < |z|
  {
    var a := WsRun(z);
    var b := a + 5 + WsRun(z[a + 5..]);
    if b < |z| then z[b..|z| - 1] else ""
  }

  /** The lazy comment stops at the first position where the rest is empty
      or the example suffix. */
  function CommentEnd(t: string, c: nat): (r: nat)
    requires c <= |t|
    ensures c <= r <= |t|
    ensures r == |t| || ExampleSuffix(t[r..])
    ensures forall q :: c <= q < r ==> !ExampleSuffix(t[q..])
    decreases |t| - c
  {
    if c == |t| || ExampleSuffix(t[c..]) then c else CommentEnd(t, c + 1)
  }

  /** The named groups of the key-value pattern. */
  datatype Groups = Groups(key: string, value: string, comment: Option<string>, example: Option<string>)

  /** The head `^(?P<key> *[A-Za-z0-9_]+) *:`: the end of the key and the
      position of the colon. */
  function KeyHead(line: string): (r: Option<(nat, nat)>)
    ensures r.Some? ==> 0 < r.value.0 <= r.value.1 < |line| && line[r.value.1] == ':'
  {
    var sp := SpaceRun(line);
    var w := WordRun(line[sp..]);
    var k := sp + w;
    var colon := k + SpaceRun(line[k..]);
    if w == 0 || colon == |line| || line[colon] != ':' then None
    else Some((k, colon))
  }

  /** The key is indentation followed by a non-empty word, and only spaces
      separate it from the colon. */
  lemma KeyHeadParts(line: string)
    requires KeyHead(line).Some?
    ensures var (k, colon) := KeyHead(line).value;
      && IsWordChar(line[k - 1])
      && (forall j :: 0 <= j < k ==> line[j] == ' ' || IsWordChar(line[j]))
      && (forall j :: k <= j < colon ==> line[j] == ' ')
  {
    var sp := SpaceRun(line);
    var w := WordRun(line[sp..]);
    var k := sp + w;
    forall j | sp <= j < k ensures IsWordChar(line[j]) {
      assert line[j] == line[sp..][j - sp];
    }
    var colon := k + SpaceRun(line[k..]);
    forall j | k <= j < colon ensures line[j] == ' ' {
      assert line[j] == line[k..][j - k];
    }
  }

  /** The spans of the text after the colon: the value, the spaces before
      the comment, the comment and what follows it. */
  datatype RestParts = RestParts(value: string, gap: string, comment: Option<string>, suffix: string,
                                 example: Option<string>)

  /** The optional comment group, where it starts: ` *(?P<comment># .*?)`
      followed by the optional example and the end of the line. */
  function ParseComment(s: string): (r: RestParts)
    requires CommentAt(s, 0)
    ensures r.value == "" && r.comment.Some?
    ensures s == r.gap + r.comment.value + r.suffix
    ensures forall k :: 0 <= k < |r.gap| ==> r.gap[k] == ' '
    ensures StartsWith(r.comment.value, "# ")
    ensures r.example.Some? <==> r.suffix != ""
    ensures r.example.Some? ==> ExampleSuffix(r.suffix) && r.example.value == ExampleOf(r.suffix)
  {
    var sp := SpaceRun(s);
    assert s[0..] == s;
    var t := s[sp + 2..];
    var c := CommentEnd(t, 0);
    var comment := "# " + t[..c];
    var z := t[c..];
    var example := if c == |t| then None else Some(ExampleOf(z));
    CommentSplit(s, sp, t, c, comment, z);
    RestParts("", s[..sp], Some(comment), z, example)
  }

  lemma CommentSplit(s: string, sp: nat, t: string, c: nat, comment: string, z: string)
    requires sp + 2 <= |s| && s[sp] == '#' && s[sp + 1] == ' '
    requires t == s[sp + 2..] && c <= |t| && comment == "# " + t[..c] && z == t[c..]
    ensures s == s[..sp] + comment + z
  {
    assert t == t[..c] + z;
    assert s[sp..] == "# " + t;
    assert s == s[..sp] + s[sp..];
  }

  /** The value, comment and example of the text after the colon and its
      spaces. The spans reassemble the text: the value runs up to the first
      place a comment can start, the comment starts with "# ", and what
      follows the comment is either nothing or the "(e.g. ...)" suffix. */
  function ParseRest(rest: string): (r: RestParts)
    ensures rest == r.value + r.gap + r.comment.GetOr("") + r.suffix
    ensures |r.value| == ValueEnd(rest, 0)
    ensures forall k :: 0 <= k < |r.gap| ==> r.gap[k] == ' '
    ensures r.comment.None? ==> r.value == rest
    ensures r.comment.Some? ==> StartsWith(r.comment.value, "# ")
    ensures r.example.Some? <==> r.comment.Some? && r.suffix != ""
    ensures r.example.Some? ==> ExampleSuffix(r.suffix) && r.example.value == ExampleOf(r.suffix)
  {
    var p := ValueEnd(rest, 0);
    if p == |rest| then
      assert rest == rest + "" + "" + "";
      RestParts(rest, "", None, "", None)
    else
      WithComment(rest, p)
  }

  /** The value ends at `p`, where the comment starts. */
  function WithComment(rest: string, p: nat): (r: RestParts)
    requires p < |rest| && CommentAt(rest, p)
    ensures rest == r.value + r.gap + r.comment.GetOr("") + r.suffix
    ensures r.value == rest[..p] && r.comment.Some?
    ensures forall k :: 0 <= k < |r.gap| ==> r.gap[k] == ' '
    ensures StartsWith(r.comment.value, "# ")
    ensures r.example.Some? <==> r.suffix != ""
    ensures r.example.Some? ==> ExampleSuffix(r.suffix) && r.example.value == ExampleOf(r.suffix)
  {
    assert rest[p..][0..] == rest[p..];
    var c := ParseComment(rest[p..]);
    assert rest == rest[..p] + rest[p..];
    ConcatAssoc(rest[..p], c.gap, c.comment.value, c.suffix);
    RestParts(rest[..p], c.gap, c.comment, c.suffix, c.example)
  }

  lemma ConcatAssoc(a: string, b: string, c: string, d: string)
    ensures a + (b + c + d) == a + b + c + d
  {
  }

  /** `re.match(key_value, line)`: None when the line has no `key:` head. */
  function ParseKeyValue(line: string): (r: Option<Groups>)
    ensures r.Some? <==> KeyHead(line).Some?
    ensures r.Some? ==> r.value.key == line[..KeyHead(line).value.0]
    ensures r.Some? ==> (var rest0 := line[KeyHead(line).value.1 + 1..];
                          var parts := ParseRest(rest0[SpaceRun(rest0)..]);
                          r.value == Groups(r.value.key, parts.value, parts.comment, parts.example))
  {
    match KeyHead(line)
    case None => None
    case Some((k, colon)) =>
      var rest0 := line[colon + 1..];
      var parts := ParseRest(rest0[SpaceRun(rest0)..]);
      Some(Groups(line[..k], parts.value, parts.comment, parts.example))
  }

  // ---------------------------------------------------------------------------
  // make_template_from_schema
  // ---------------------------------------------------------------------------

  /** "{key}: {example}  {comment}".format(**m), with absent groups as '' and
      every group passed through add_quotes_if_curly_braces. */
  function TemplateLine(g: Groups): (r: string)
    ensures StartsWith(r, QuoteBraces(g.key) + ": ")
  {
    var example := QuoteBraces(g.example.GetOr(""));
    var comment := QuoteBraces(g.comment.GetOr(""));
    QuoteBraces(g.key) + ": " + example + "  " + comment
  }

  datatype TemplateError = NoKeyValue(line: nat) // `None.groupdict()` raises AttributeError

  /** What one schema line contributes: nothing, itself, or its rewrite. */
  function RewriteLine(line: string, i: nat): Result<seq<string>, TemplateError>
  {
    if IsSchemaComment(line) then Ok([])
    else if IsEmptyOrComment(line) then Ok([line])
    else match ParseKeyValue(line)
      case None => Err(NoKeyValue(i))
      case Some(g) => Ok([TemplateLine(g)])
  }

  /** The loop over the lines, given what each line contributes: stop at
      the first failing line, otherwise concatenate the contributions. */
  function Rewrite(lines: seq<string>, rw: (string, nat) -> Result<seq<string>, TemplateError>): Result<seq<string>, TemplateError>
    decreases |lines|
  {
    if |lines| == 0 then Ok([])
    else
      var n := |lines| - 1;
      match Rewrite(lines[..n], rw)
      case Err(e) => Err(e)
      case Ok(front) =>
        match rw(lines[n], n)
        case Err(e) => Err(e)
        case Ok(more) => Ok(front + more)
  }

  /** The loop over `schema.split('\n')`: the template lines, in order. */
  function TemplateLines(lines: seq<string>): Result<seq<string>, TemplateError>
  {
    Rewrite(lines, RewriteLine)
  }

  /** make_template_from_schema(schema) without an output file: the
      template text. */
  function MakeTemplate(schema: string): (r: Result<string, TemplateError>)
    ensures r.Ok? <==> TemplateLines(Split(schema, '\n')).Ok?
    ensures r.Ok? ==> r.value == Join("\n", TemplateLines(Split(schema, '\n')).value)
  {
    var lines :- TemplateLines(Split(schema, '\n'));
    Ok(Join("\n", lines))
  }

  /** A line is rewritten (not dropped, not copied) exactly when neither of
      the first two patterns matches; it fails exactly when it is also not a
      key-value line. */
  predicate IsKeyValueLine(line: string) {
    !IsSchemaComment(line) && !IsEmptyOrComment(line)
  }

  /** The reference reading of the loop: drop "#!" lines, copy blank and
      comment lines, rewrite the rest, in input order; fail at the first line
      the key-value pattern does not match. A line the pattern does not
      match has no rewrite and reads as itself here. */
  function Expected(line: string): string
  {
    if IsEmptyOrComment(line) then line
    else match ParseKeyValue(line)
      case Some(g) => TemplateLine(g)
      case None => line
  }

  /** Key-value lines match the pattern; other lines need not. */
  predicate LineParses(line: string) {
    IsKeyValueLine(line) ==> ParseKeyValue(line).Some?
  }

  /** Every key-value line among `lines` parses. */
  predicate AllParse(lines: seq<string>) {
    forall i :: 0 <= i < |lines| ==> LineParses(lines[i])
  }

  /** The lines `keep` accepts, in order. */
  function KeptBy(lines: seq<string>, keep: string -> bool): (r: seq<string>)
    ensures |r| <= |lines|
    ensures forall k :: 0 <= k < |r| ==> r[k] in lines && keep(r[k])
    decreases |lines|
  {
    if |lines| == 0 then []
    else
      var n := |lines| - 1;
      var front := KeptBy(lines[..n], keep);
      assert forall k :: 0 <= k < |front| ==> front[k] in lines by {
        forall k | 0 <= k < |front| ensures front[k] in lines {
          var j :| 0 <= j < n && lines[..n][j] == front[k];
          assert lines[j] == front[k];
        }
      }
      if keep(lines[n]) then front + [lines[n]] else front
  }

  /** A line that survives the "#!" filter. */
  predicate Copied(line: string) {
    !IsSchemaComment(line)
  }

  /** The lines kept, in order. */
  function Kept(lines: seq<string>): (r: seq<string>)
    ensures |r| <= |lines|
    ensures forall k :: 0 <= k < |r| ==> r[k] in lines && !IsSchemaComment(r[k])
  {
    KeptBy(lines, Copied)
  }

  /** The loop succeeds exactly when every line's contribution does. */
  lemma {:induction false} RewriteOk(lines: seq<string>, rw: (string, nat) -> Result<seq<string>, TemplateError>)
    ensures Rewrite(lines, rw).Ok? <==> forall i :: 0 <= i < |lines| ==> rw(lines[i], i).Ok?
    decreases |lines|
  {
    if |lines| > 0 {
      var n := |lines| - 1;
      RewriteOk(lines[..n], rw);
      assert forall i :: 0 <= i < n ==> lines[..n][i] == lines[i];
    }
  }

  /** A failing loop fails with the error of its first failing line. */
  lemma {:induction false} RewriteFirstError(lines: seq<string>, rw: (string, nat) -> Result<seq<string>, TemplateError>)
    returns (i: nat)
    requires Rewrite(lines, rw).Err?
    ensures i < |lines| && rw(lines[i], i).Err? && Rewrite(lines, rw).error == rw(lines[i], i).error
    ensures forall j :: 0 <= j < i ==> rw(lines[j], j).Ok?
    decreases |lines|
  {
    var n := |lines| - 1;
    assert forall j :: 0 <= j < n ==> lines[..n][j] == lines[j];
    if Rewrite(lines[..n], rw).Err? {
      i := RewriteFirstError(lines[..n], rw);
    } else {
      RewriteOk(lines[..n], rw);
      i := n;
    }
  }

  /** When each line contributes its output if kept and nothing otherwise,
      the loop yields the outputs of the kept lines, in order. */
  lemma {:induction false} RewriteKept(lines: seq<string>, rw: (string, nat) -> Result<seq<string>, TemplateError>,
                                       keep: string -> bool, out: string -> string)
    requires forall i :: 0 <= i < |lines| && rw(lines[i], i).Ok? ==>
               rw(lines[i], i).value == if keep(lines[i]) then [out(lines[i])] else []
    requires Rewrite(lines, rw).Ok?
    ensures |Rewrite(lines, rw).value| == |KeptBy(lines, keep)|
    ensures forall k :: 0 <= k < |KeptBy(lines, keep)| ==> Rewrite(lines, rw).value[k] == out(KeptBy(lines, keep)[k])
    decreases |lines|
  {
    if |lines| > 0 {
      var n := |lines| - 1;
      var init := lines[..n];
      assert forall i :: 0 <= i < n ==> init[i] == lines[i];
      RewriteKept(init, rw, keep, out);
      var front := Rewrite(init, rw).value;
      var r := Rewrite(lines, rw).value;
      var kept := KeptBy(lines, keep);
      var keptInit := KeptBy(init, keep);
      forall k | 0 <= k < |kept|
        ensures r[k] == out(kept[k])
      {
        if k < |keptInit| {
          assert r[k] == front[k];
          assert kept[k] == keptInit[k];
        }
      }
    }
  }

  /** TemplateLines succeeds iff every key-value line parses, and then it is
      the kept lines, each copied or rewritten. */
  lemma TemplateLinesSpec(lines: seq<string>)
    ensures TemplateLines(lines).Ok? <==> AllParse(lines)
    ensures TemplateLines(lines).Ok? ==>
              var kept := Kept(lines);
              && |TemplateLines(lines).value| == |kept|
              && forall k :: 0 <= k < |kept| ==> TemplateLines(lines).value[k] == Expected(kept[k])
  {
    forall i | 0 <= i < |lines|
      ensures RewriteLine(lines[i], i).Ok? <==> LineParses(lines[i])
      ensures RewriteLine(lines[i], i).Ok? ==>
                RewriteLine(lines[i], i).value == if Copied(lines[i]) then [Expected(lines[i])] else []
    {
      RewriteLineSpec(lines[i], i);
    }
    RewriteOk(lines, RewriteLine);
    if TemplateLines(lines).Ok? {
      RewriteKept(lines, RewriteLine, Copied, Expected);
    }
  }

  /** One line is rewritten successfully exactly when it is not a
      key-value line or it parses, and then it contributes its expected
      line unless it is a "#!" line. */
  lemma RewriteLineSpec(line: string, i: nat)
    ensures RewriteLine(line, i).Ok? <==> LineParses(line)
    ensures RewriteLine(line, i).Ok? ==>
              RewriteLine(line, i).value == if Copied(line) then [Expected(line)] else []
    ensures RewriteLine(line, i).Err? ==> RewriteLine(line, i).error == NoKeyValue(i)
  {
  }

  /** The first error names the first line that is not a key-value line. */
  lemma TemplateLinesFirstError(lines: seq<string>)
    requires TemplateLines(lines).Err?
    ensures var i := TemplateLines(lines).error.line;
      && i < |lines| && IsKeyValueLine(lines[i]) && ParseKeyValue(lines[i]).None?
      && forall j :: 0 <= j < i ==> LineParses(lines[j])
  {
    var i := RewriteFirstError(lines, RewriteLine);
    RewriteLineSpec(lines[i], i);
    forall j | 0 <= j < i
      ensures LineParses(lines[j])
    {
      RewriteLineSpec(lines[j], j);
    }
  }
}
